=== FILE: README.md ===
# HoloCubic core, modelled in Dafny

HoloCubic is a small desk gadget: an ESP32 that drives a round-mirror
display, with an IMU as its only input. It also ships a desktop LVGL
simulator and two image tools. This project models the parts of the
repository that compute. Each part is stated in Dafny and proved against
its own promises.

- **Image converter** (`ImageToHolo/convertor/core.py`). It turns a
  picture into the LVGL image formats:
  - true colour: RGB332, RGB565, RGB565 with bytes swapped, RGB888, each
    with an optional alpha byte;
  - alpha-only and indexed: 1, 2, 4 and 8 bits a pixel;
  - raw.

  It can dither, and it writes its output as a C array or as a binary
  file with LVGL's 4-byte header. Modules:
  - `LvImgFormat`: formats, codes, quantisation and pixel layouts.
  - `LvImgDither`: Floyd–Steinberg error diffusion.
  - `LvImgPacking`: bit packing of narrow pixels.
  - `LvImgImage`: the whole converted output, as functions.
  - `LvImgConvertor`: the converter object, whose methods update `d_out`
    and the dithering state in place.
  - `LvImgText`: the C-array and binary writers.
  - `PyList`: the `checkExist`/`forceUpdate` list helpers, over lists
    that may hold `None`.
  - `Text`: Python's number formatting.
- **BMP palette converter** (`Tools/Images/bmp2array4bit.py`), in
  `Bmp2Array4Bit`. It reads a 4-bit BMP file and prints its palette as
  RGB565 words and its pixels as a C byte array, rows top-down.
- **TFT_eSPI sprite** (`Extensions/Sprite.cpp`), in `Sprite`. This is an
  off-screen image at 16, 8, 4 or 1 bit a pixel, with:
  - a palette;
  - rotation of 1-bit sprites;
  - a clipped window with a write cursor;
  - a scroll rectangle;
  - pixel reads and writes.
- **TFT_eSPI button** (`Extensions/Button.cpp`), in `TftButton`.
- **Display drivers**:
  - `St7565`: the ST7565 128x64 monochrome frame buffer and its page
    synchronisation.
  - `Uc1610`: the UC1610 2-bit-grey pixel packing, area rounding and
    flush window.
- **Input drivers**:
  - `Xpt2046`: the XPT2046 touch controller, with calibration and a
    moving average.
  - `Imu`: the firmware's IMU, which turns tilt into encoder steps.
  - `LvPortIndev`: the LVGL encoder port.
  - `Keyboard`: the simulator's SDL keyboard.
  - `MouseWheel`: the simulator's SDL mouse wheel.

Machine integers are explicit. `CInt` gives the `int16_t`, `uint16_t`,
`int32_t` and `uint32_t` conversions, with wrap-around, and `Xpt2046.CDiv`
gives C's division, which truncates toward zero. Python integers stay
unbounded. `Arith` and `Seqs` hold the arithmetic and sequence facts the
proofs share.

Two kinds of code are modelled in two ways:

- **Code that updates state** becomes classes whose methods change their
  fields, with invariants:
  - the sprite, the ST7565 frame buffer and the UC1610 drawing buffer;
  - the converter's `d_out`;
  - the touch averaging buffers;
  - the input drivers' globals.
- **Code that only computes** becomes functions, with lemmas about them.

Each loop becomes a method that is proved against a function specifying
its result.

## Model

| member | source | states |
|---|---|---|
| LvImgFormat.Code | 3.Software/ImageToHolo/convertor/core.py:33-51 | each colour format has its converter constant, 0 to 13 |
| LvImgFormat.FromCode | 3.Software/ImageToHolo/convertor/core.py:33-51 | a number names a format exactly when it lies in 0..13, and then the format's code is that number |
| LvImgFormat.CodeRoundTrip | 3.Software/ImageToHolo/convertor/core.py:33-51 | code and format translate back and forth without loss |
| LvImgFormat.PaletteSize | 3.Software/ImageToHolo/convertor/core.py:117-137 | a format carries palette entries exactly when it is indexed (2, 4, 16 or 256 of them) |
| LvImgFormat.PixelsPerByte | 3.Software/ImageToHolo/convertor/core.py:399-421 | packed pixels per byte is at least 1 |
| LvImgFormat.PixelsPerByteFillsByte | 3.Software/ImageToHolo/convertor/core.py:374-421 | the pixels of one byte fill its 8 bits exactly |
| LvImgFormat.Slot | 3.Software/ImageToHolo/convertor/core.py:374-421 | a column's slot lies inside its byte |
| LvImgFormat.ByteOfSlot | 3.Software/ImageToHolo/convertor/core.py:374-421 | the `x >> k` byte and `x & mask` slot are the quotient and remainder of x by the pixels per byte |
| LvImgFormat.ByteCountCovers | 3.Software/ImageToHolo/convertor/core.py:117-137 | the bytes a row of n packed pixels gets are the fewest that hold n pixels, i.e. ceil(n * bits / 8) |
| LvImgFormat.ByteOfInRow | 3.Software/ImageToHolo/convertor/core.py:374-421 | every column of a row falls inside the row's bytes |
| LvImgFormat.Stride | 3.Software/ImageToHolo/convertor/core.py:117-137 | the stride computed with shifts and masks equals ceil(w * bits / 8) |
| LvImgFormat.PayloadOffset | 3.Software/ImageToHolo/convertor/core.py:374-421 | the pixel data starts right after 4 bytes per palette entry |
| LvImgFormat.PackedIndex | 3.Software/ImageToHolo/convertor/core.py:374-421 | the byte holding pixel (x, y) is past the palette, y whole strides and the byte of column x |
| LvImgFormat.PackedValue | 3.Software/ImageToHolo/convertor/core.py:374-421 | a stored packed value fits its field |
| LvImgFormat.PackedValueMeaning | 3.Software/ImageToHolo/convertor/core.py:374-421 | a 1-bit alpha is set exactly above 0x80; an indexed field holds the palette index modulo the field's levels |
| LvImgFormat.AlphaField | 3.Software/ImageToHolo/convertor/core.py:380-397 | the alpha byte's top bits fit the field |
| LvImgFormat.IndexField | 3.Software/ImageToHolo/convertor/core.py:399-425 | an index field holds the index modulo its levels |
| LvImgFormat.Step | 3.Software/ImageToHolo/convertor/core.py:519-523 | the distance between two levels of a channel is positive |
| LvImgFormat.OnStepIsMultiple | 3.Software/ImageToHolo/convertor/core.py:519-523 | being on a level means being a multiple of the step |
| LvImgFormat.ChannelQuants | 3.Software/ImageToHolo/convertor/core.py:344-373 | only the true-colour formats quantise channels, each to a level no greater than 255 |
| LvImgFormat.ClassifyPixel | 3.Software/ImageToHolo/convertor/core.py:519-523 | a positive value rounds UP to the first level at or above it (less than one step above), a non-positive one gives 0 |
| LvImgFormat.CeilToStepBounds | 3.Software/ImageToHolo/convertor/core.py:519-523 | the float ceiling written with exact integers lands on the first multiple of the step at or above the value |
| LvImgFormat.CeilMultiple | 3.Software/ImageToHolo/convertor/core.py:519-523 | `-((-v) div t) * t` is the first multiple of t at or above v |
| LvImgFormat.Quantize | 3.Software/ImageToHolo/convertor/core.py:433-517 | classify then clamp: a level in 0..max; 0 for non-positive input, max above max, otherwise less than one step above the input |
| LvImgFormat.Rgb332RoundTrip | 3.Software/ImageToHolo/convertor/core.py:355-358 | the three fields of an RGB332 byte are disjoint: unpacking gives the quantised colour back |
| LvImgFormat.RoundTrip332 | 3.Software/ImageToHolo/convertor/core.py:355-358 | the same round trip on the byte expression as written |
| LvImgFormat.Rgb565RoundTrip | 3.Software/ImageToHolo/convertor/core.py:359-363 | the three fields of an RGB565 word are disjoint: unpacking gives the quantised colour back |
| LvImgFormat.RoundTrip565 | 3.Software/ImageToHolo/convertor/core.py:359-363 | the same round trip on the word expression as written |
| LvImgFormat.WordFromBytes | 3.Software/ImageToHolo/convertor/core.py:359-368 | the low and high bytes written for a word make the word again |
| LvImgFormat.PixelBytesRoundTrip | 3.Software/ImageToHolo/convertor/core.py:355-373 | every true-colour layout (332, 565, 565 swapped, 888, with or without alpha) decodes back to the quantised colour and to the alpha byte exactly when one is stored |
| LvImgFormat.RoundTrip565Bytes | 3.Software/ImageToHolo/convertor/core.py:359-368 | both byte orders of RGB565 decode back to the colour and the alpha |
| LvImgDither.RoundDiv16Nearest | 3.Software/ImageToHolo/convertor/core.py:433-490 | `round(n / 16)` is within half of n / 16 and sends halves to the even neighbour |
| LvImgDither.RoundDiv16Unique | 3.Software/ImageToHolo/convertor/core.py:433-490 | those two properties determine the rounding: no other integer has them |
| LvImgDither.DitherPixel | 3.Software/ImageToHolo/convertor/core.py:434-490 | dithering one pixel keeps the error row's length |
| LvImgDither.ErrorSplitConserves | 3.Software/ImageToHolo/convertor/core.py:434-490 | the 7/16, 1/16, 5/16 and 3/16 shares of the error add up to the error, within 2 |
| LvImgDither.RightNeighbourTakesBelowRightShare | 3.Software/ImageToHolo/convertor/core.py:434-490 | the next pixel of the row sees its value plus the 7/16 carry and the 1/16 share its left neighbour left at `earr[x+2]` |
| LvImgDither.Zeros | 3.Software/ImageToHolo/convertor/core.py:96-103 | a fresh error row is w + 2 zeros |
| LvImgDither.NextChannel | 3.Software/ImageToHolo/convertor/core.py:433-517 | one channel of `_dith_next`: true-colour output is always a level; without dithering the carry and error row stay, a value in range rounds up by less than a step, and non-true-colour channels are untouched |
| LvImgDither.RunRow | 3.Software/ImageToHolo/convertor/core.py:140-143 | a row of channel steps keeps the error row's length |
| LvImgDither.RunRowPlain | 3.Software/ImageToHolo/convertor/core.py:492-517 | without dithering a row leaves carry and error row alone |
| LvImgDither.RunRowAhead | 3.Software/ImageToHolo/convertor/core.py:434-490 | cells two or more ahead of the current pixel are untouched by the row so far |
| LvImgDither.RunRowSettled | 3.Software/ImageToHolo/convertor/core.py:434-490 | cells left of the current pixel are never changed again |
| LvImgDither.BelowTakesFiveAndThree | 3.Software/ImageToHolo/convertor/core.py:434-490 | the cell below pixel x ends up with 5/16 of x's error and 3/16 of the next pixel's |
| LvImgImage.GetColorFromPalette | 3.Software/ImageToHolo/convertor/core.py:8-9 | the three palette bytes of entry `index`, or an IndexError exactly when they run past the palette |
| LvImgImage.PixelAt | 3.Software/ImageToHolo/convertor/core.py:140-143 | every pixel the converter reads has byte channels |
| LvImgImage.QuantOf | 3.Software/ImageToHolo/convertor/core.py:344-373 | only true-colour formats quantise, with valid levels |
| LvImgImage.RowValues | 3.Software/ImageToHolo/convertor/core.py:140-143 | a row has w values per channel |
| LvImgImage.StateBefore | 3.Software/ImageToHolo/convertor/core.py:140-143 | channel state before row y keeps the error row length |
| LvImgImage.RowState | 3.Software/ImageToHolo/convertor/core.py:140-143 | channel state inside a row keeps the error row length |
| LvImgImage.NextChannels | 3.Software/ImageToHolo/convertor/core.py:433-517 | `_dith_next` on three channels keeps each error row's length |
| LvImgImage.ChannelsBefore | 3.Software/ImageToHolo/convertor/core.py:140-143 | the channels before any row fit the job (error rows w + 2 wide with dithering) |
| LvImgImage.ChannelsAt | 3.Software/ImageToHolo/convertor/core.py:140-143 | the channels after x pixels of row y fit the job |
| LvImgImage.KeptColor | 3.Software/ImageToHolo/convertor/core.py:344-373 | the colour a true-colour pixel is written with is quantised |
| LvImgImage.PixelRow | 3.Software/ImageToHolo/convertor/core.py:140-143 | a true-colour row has w pixels |
| LvImgImage.PixelRowUniform | 3.Software/ImageToHolo/convertor/core.py:344-373 | every true-colour pixel takes BytesPerPixel bytes |
| LvImgImage.PackedRow | 3.Software/ImageToHolo/convertor/core.py:374-425 | a packed row has w values that fit their field |
| LvImgImage.RowBytesLength | 3.Software/ImageToHolo/convertor/core.py:140-143 | a packed row of n pixels takes ceil(n bits / 8) bytes, a true-colour one n * BytesPerPixel; a whole row takes the row length |
| LvImgImage.RowBytesStep | 3.Software/ImageToHolo/convertor/core.py:344-373 | converting a true-colour pixel appends its bytes |
| LvImgImage.RowList | 3.Software/ImageToHolo/convertor/core.py:140-143 | there are h rows |
| LvImgImage.RowListUniform | 3.Software/ImageToHolo/convertor/core.py:140-143 | every row has the same length |
| LvImgImage.PaletteEntry | 3.Software/ImageToHolo/convertor/core.py:117-137 | a palette entry is four bytes: the colour with 0xFF, or four 0xFF for an unused slot |
| LvImgImage.PaletteEntries | 3.Software/ImageToHolo/convertor/core.py:117-137 | n entries |
| LvImgImage.PalettePrefixLength | 3.Software/ImageToHolo/convertor/core.py:117-137 | n entries take 4n bytes |
| LvImgImage.PalettePrefixStep | 3.Software/ImageToHolo/convertor/core.py:117-137 | writing entry n appends its four bytes |
| LvImgImage.PalettePrefixEntry | 3.Software/ImageToHolo/convertor/core.py:117-137 | entry i sits at bytes 4i..4i+3 |
| LvImgImage.RowBytesEmpty | 3.Software/ImageToHolo/convertor/core.py:140-143 | a row with no pixel converted has no bytes |
| LvImgImage.OutputRowStart | 3.Software/ImageToHolo/convertor/core.py:140-143 | a row starts where the finished rows end |
| LvImgImage.OutputRowEnd | 3.Software/ImageToHolo/convertor/core.py:140-143 | a row with all pixels converted is one more finished row |
| LvImgImage.RowsDoneAll | 3.Software/ImageToHolo/convertor/core.py:140-147 | after the last row `d_out` is the whole output |
| LvImgImage.RowsDoneLength | 3.Software/ImageToHolo/convertor/core.py:140-143 | finished rows take the palette plus a row length per row |
| LvImgImage.OutputTrueStep | 3.Software/ImageToHolo/convertor/core.py:344-373 | converting a true-colour pixel appends its bytes to `d_out` |
| LvImgImage.RowsDoneNone | 3.Software/ImageToHolo/convertor/core.py:117-137 | before any row `d_out` holds only the palette |
| LvImgImage.RowStateStep | 3.Software/ImageToHolo/convertor/core.py:140-143 | one pixel moves a channel on by one `_dith_next` |
| LvImgImage.ChannelsStep | 3.Software/ImageToHolo/convertor/core.py:140-143 | one pixel moves all three channels on by one `_dith_next` |
| LvImgImage.ChannelsRowStart | 3.Software/ImageToHolo/convertor/core.py:140-143 | each row starts from the previous channels after `_dith_reset` |
| LvImgImage.ChannelsRowEnd | 3.Software/ImageToHolo/convertor/core.py:140-143 | the channels after a row are those before the next |
| LvImgImage.PackedStep | 3.Software/ImageToHolo/convertor/core.py:374-425 | a packed pixel in slot 0 opens a new byte at the end of `d_out`; in any other slot it ORs into the last byte |
| LvImgImage.PackedStepIndex | 3.Software/ImageToHolo/convertor/core.py:374-425 | the byte `_conv_px` computes is the end of `d_out` in slot 0, its last byte otherwise |
| LvImgImage.PackedStepBytes | 3.Software/ImageToHolo/convertor/core.py:374-425 | packing a pixel appends or updates the last byte, as the row packer does |
| LvImgImage.PackedStepNew | 3.Software/ImageToHolo/convertor/core.py:374-425 | slot 0 appends the new byte |
| LvImgImage.PackedStepJoin | 3.Software/ImageToHolo/convertor/core.py:374-425 | another slot ORs into the last byte |
| LvImgImage.OutputPacked | 3.Software/ImageToHolo/convertor/core.py:374-425 | a partly converted packed row is the finished rows followed by the packed prefix of the row |
| LvImgImage.PackedRowValue | 3.Software/ImageToHolo/convertor/core.py:374-425 | each packed value is the one `_conv_px` stores for the pixel's alpha or index |
| LvImgImage.Converted | 3.Software/ImageToHolo/convertor/core.py:108-147 | definition of `d_out` after `convert`; `ConvertedLength`, `ConvertedShape`, `ConvertedTruePixel` and `ConvertedPackedField` state its properties, and `Convertor.Convert` computes it |
| LvImgImage.ConvertedLength | 3.Software/ImageToHolo/convertor/core.py:108-147 | an indexed or alpha picture gives palette + h strides bytes, a true-colour one h * w * BytesPerPixel |
| LvImgImage.ConvertedPalette | 3.Software/ImageToHolo/convertor/core.py:117-137 | the output starts with the palette, entry i at bytes 4i..4i+3 |
| LvImgImage.ConvertedShape | 3.Software/ImageToHolo/convertor/core.py:108-147 | the output is the palette followed by the rows, in order |
| LvImgImage.TrueRowEntry | 3.Software/ImageToHolo/convertor/core.py:140-143 | a true-colour row is its pixels' bytes one after the other |
| LvImgImage.ConvertedRow | 3.Software/ImageToHolo/convertor/core.py:108-147 | byte k of row y sits at the row's start plus k |
| LvImgImage.ConvertedPackedField | 3.Software/ImageToHolo/convertor/core.py:374-425 | in a packed format the slot of pixel (x, y) in the byte at its index holds the pixel's index or alpha level |
| LvImgImage.PixelStart | 3.Software/ImageToHolo/convertor/core.py:344-373 | a true-colour pixel (x, y) starts at (y w + x) * BytesPerPixel |
| LvImgImage.ConvertedCell | 3.Software/ImageToHolo/convertor/core.py:344-373 | the bytes of pixel (x, y) are the ones `_conv_px` wrote for it |
| LvImgImage.ConvertedPixelBytes | 3.Software/ImageToHolo/convertor/core.py:344-373 | pixel (x, y) takes BytesPerPixel bytes from its start |
| LvImgImage.ConvertedTruePixel | 3.Software/ImageToHolo/convertor/core.py:344-373 | the bytes of pixel (x, y) decode to the colour kept for it and its alpha when stored |
| LvImgPacking.OrIntoSlot | 3.Software/ImageToHolo/convertor/core.py:374-421 | OR-ing a value into one slot changes that slot and no other |
| LvImgPacking.PutWhole | 3.Software/ImageToHolo/convertor/core.py:395-397 | a whole-byte value is stored as it is |
| LvImgPacking.OrLastAfter | 3.Software/ImageToHolo/convertor/core.py:374-421 | OR-ing into the last byte of the output affects only the current row |
| LvImgPacking.PackRowNew | 3.Software/ImageToHolo/convertor/core.py:374-421 | a value in slot 0 opens a new byte |
| LvImgPacking.PackRowJoin | 3.Software/ImageToHolo/convertor/core.py:374-421 | a value in another slot ORs into the last byte, which exists |
| LvImgPacking.PackRowLength | 3.Software/ImageToHolo/convertor/core.py:374-421 | a row of n values packs into ceil(n bits / 8) bytes |
| LvImgPacking.CountStep | 3.Software/ImageToHolo/convertor/core.py:374-421 | slot 0 opens byte number ByteCount, any other slot lands in the last open byte |
| LvImgPacking.SameByteOrder | 3.Software/ImageToHolo/convertor/core.py:374-421 | within a byte, slots follow the columns |
| LvImgPacking.PackRowFields | 3.Software/ImageToHolo/convertor/core.py:374-421 | every slot of a packed row holds its pixel's value, and the padding slots after the last pixel hold 0 |
| LvImgPacking.JoinedField | 3.Software/ImageToHolo/convertor/core.py:374-421 | OR-ing value m keeps the earlier slots and leaves the later ones 0 |
| LvImgConvertor.StorePacked | 3.Software/ImageToHolo/convertor/core.py:374-425 | the packed store: the byte at `index` is set (whole byte) or OR-ed (narrower field); holes pad the list up to it; nothing else changes |
| LvImgConvertor.StoreAppends | 3.Software/ImageToHolo/convertor/core.py:374-425 | storing slot 0 one past the end appends the new byte |
| LvImgConvertor.StoreNew | 3.Software/ImageToHolo/convertor/core.py:374-425 | the same, as a new list entry |
| LvImgConvertor.StoreJoins | 3.Software/ImageToHolo/convertor/core.py:374-425 | storing a later slot of the last byte ORs the value into it |
| LvImgConvertor.PixelStoredStep | 3.Software/ImageToHolo/convertor/core.py:344-425 | storing pixel (x, y) takes `d_out` from the bytes of x pixels of row y to those of x + 1 |
| LvImgConvertor.PackedStoredStep | 3.Software/ImageToHolo/convertor/core.py:374-425 | the byte a packed pixel ORs into exists and holds a value |
| LvImgConvertor.PackedStoredNew | 3.Software/ImageToHolo/convertor/core.py:374-425 | in slot 0 the byte does not exist yet (`checkExist` gives 0) |
| LvImgConvertor.PackedStoredJoin | 3.Software/ImageToHolo/convertor/core.py:374-425 | in another slot the byte exists (`checkExist` gives 1) |
| LvImgConvertor.Convertor.constructor | 3.Software/ImageToHolo/convertor/core.py:60-105 | `__init__` sets w+2 zero error rows with dithering, zero carries, and runs `convert` without alpha: `d_out` is the converted picture |
| LvImgConvertor.Convertor.Convert | 3.Software/ImageToHolo/convertor/core.py:108-147 | `d_out` becomes the converted picture (the file for raw formats); the channels end as after the last row |
| LvImgConvertor.Convertor.ConvertPicture | 3.Software/ImageToHolo/convertor/core.py:117-143 | palette then every pixel row by row |
| LvImgConvertor.Convertor.WritePalette | 3.Software/ImageToHolo/convertor/core.py:117-137 | `d_out` holds exactly the palette prefix |
| LvImgConvertor.Convertor.FormatToCArray | 3.Software/ImageToHolo/convertor/core.py:149-259 | the result is `CArray` of the state: the C array text, or the first error |
| LvImgConvertor.Convertor.PaletteLines | 3.Software/ImageToHolo/convertor/core.py:170-197 | one line per palette entry, or the first error |
| LvImgConvertor.Convertor.CollectTokens | 3.Software/ImageToHolo/convertor/core.py:209-232 | the tokens of the walked entries, or the first error |
| LvImgConvertor.Convertor.CollectRow | 3.Software/ImageToHolo/convertor/core.py:213-232 | one row of tokens appended |
| LvImgConvertor.Convertor.AppendAndIncrease | 3.Software/ImageToHolo/convertor/core.py:204-207 | one more token; IndexError past the end, TypeError on None |
| LvImgConvertor.Convertor.ConvertRow | 3.Software/ImageToHolo/convertor/core.py:140-143 | one more finished row, channels moved on |
| LvImgConvertor.Convertor.ConvertPixels | 3.Software/ImageToHolo/convertor/core.py:140-143 | all pixels of a row converted |
| LvImgConvertor.Convertor.ConvertPixel | 3.Software/ImageToHolo/convertor/core.py:140-143 | one more pixel converted |
| LvImgConvertor.Convertor.ConvPx | 3.Software/ImageToHolo/convertor/core.py:344-425 | the channels advance by `_dith_next` and the pixel is stored from the kept colour |
| LvImgConvertor.Convertor.StorePixel | 3.Software/ImageToHolo/convertor/core.py:344-425 | append the true-colour bytes or store the packed value |
| LvImgConvertor.Convertor.Store | 3.Software/ImageToHolo/convertor/core.py:374-425 | the packed store of `StorePacked` |
| LvImgConvertor.Convertor.DitherReset | 3.Software/ImageToHolo/convertor/core.py:427-431 | each row starts without carries when dithering |
| LvImgConvertor.Convertor.DitherNext | 3.Software/ImageToHolo/convertor/core.py:433-517 | the three channels advance; for true colour the kept colour is quantised |
| LvImgConvertor.Convertor.DitherChannel | 3.Software/ImageToHolo/convertor/core.py:433-517 | one channel advances as `NextChannel` |
| LvImgConvertor.DitherStep | 3.Software/ImageToHolo/convertor/core.py:434-490 | the statements of the dithering branch compute `DitherPixel` |
| LvImgConvertor.ClassifyClamp | 3.Software/ImageToHolo/convertor/core.py:492-523 | classify then clamp computes `Quantize` |
| LvImgText.HexTokens | 3.Software/ImageToHolo/convertor/core.py:204-232 | a successful walk gives exactly n tokens |
| LvImgText.HexTokensOk | 3.Software/ImageToHolo/convertor/core.py:204-232 | the tokens come out exactly when the n entries exist and none is None; token k is entry i + k's `0x%02X` |
| LvImgText.HexTokensCells | 3.Software/ImageToHolo/convertor/core.py:204-232 | over bytes that are there, token k is that of byte i + k |
| LvImgText.HexTokensSticky | 3.Software/ImageToHolo/convertor/core.py:204-232 | after the first failing entry, every longer walk fails with the same error |
| LvImgText.PaletteTextSticky | 3.Software/ImageToHolo/convertor/core.py:170-197 | a palette line that fails stops the palette text with that error |
| LvImgText.PaletteLineBytes | 3.Software/ImageToHolo/convertor/core.py:170-197 | a line is written when its four bytes are there |
| LvImgText.PaletteTextOk | 3.Software/ImageToHolo/convertor/core.py:170-197 | with all palette bytes present every palette line is written |
| LvImgText.RowTokensStep | 3.Software/ImageToHolo/convertor/core.py:209-232 | the tokens of a row are the running total of the tokens per column |
| LvImgText.RowTokensMonotone | 3.Software/ImageToHolo/convertor/core.py:209-232 | more columns give no fewer tokens |
| LvImgText.RowTokensLength | 3.Software/ImageToHolo/convertor/core.py:209-232 | a packed row gives Stride tokens, a true-colour row w * BytesPerPixel: one token per written byte |
| LvImgText.Chunks | 3.Software/ImageToHolo/convertor/core.py:243-252 | n chunks |
| LvImgText.ChunksFlatten | 3.Software/ImageToHolo/convertor/core.py:243-252 | back-to-back chunks of one length give the list back, cut after n chunks |
| LvImgText.SliceJoin | 3.Software/ImageToHolo/convertor/core.py:243-252 | Python slices join up: `s[:a] + s[a:b] == s[:b]`, clipped to the list |
| LvImgText.JoinLines | 3.Software/ImageToHolo/convertor/core.py:243-252 | one line per chunk |
| LvImgText.TextPixelsPerByte | 3.Software/ImageToHolo/convertor/core.py:234-241 | the `x_end //` divisor is the pixels per byte for packed formats, 1 otherwise |
| LvImgText.CArray | 3.Software/ImageToHolo/convertor/core.py:149-259 | definition of `format_to_c_array` as written; `Convertor.FormatToCArray` computes it, and `PrintedRowsTruncate`, `Rgb565ArrayDropsByte` and `RawArrayOverruns` state what it prints |
| LvImgText.PrintedRowsTruncate | 3.Software/ImageToHolo/convertor/core.py:234-252 | as written the lines hold only the first h * (w // ppb) tokens, and all tokens are printed iff h == 0 or a row's tokens equal `w // ppb` |
| LvImgText.PrintedColsBound | 3.Software/ImageToHolo/convertor/core.py:234-241 | a printed line is never longer than a row's tokens |
| LvImgText.FullRowsPrinted | 3.Software/ImageToHolo/convertor/core.py:234-241 | a non-empty row is printed whole only for one-byte pixels or a width that is a multiple of the pixels per byte |
| LvImgText.Rgb565ArrayDropsByte | 3.Software/ImageToHolo/convertor/core.py:234-252 | a one-pixel RGB565 picture collects two tokens and prints only the first |
| LvImgText.RawArrayOverruns | 3.Software/ImageToHolo/convertor/core.py:198-200 | as written, a raw file of at least one byte ends in IndexError |
| LvImgText.RawTokensOverrun | 3.Software/ImageToHolo/convertor/core.py:198-232 | walking `len(d_out)` entries from entry 1 needs entry `len(d_out)`, which is missing |
| LvImgText.FixedRowsComplete | 3.Software/ImageToHolo/convertor/core.py:234-252 | the corrected lines hold every token, in order |
| LvImgText.FixedArrayRoundTrip | 3.Software/ImageToHolo/convertor/core.py:149-259 | with the corrected walk, the C array is written, its lines hold every token in order, and every token reads back as the byte after the palette it came from |
| LvImgText.FixedTokens | 3.Software/ImageToHolo/convertor/core.py:198-232 | the corrected walk covers exactly the entries after the palette, and all read back |
| LvImgText.ConvertedTokenCount | 3.Software/ImageToHolo/convertor/core.py:108-147 | a converted picture is the palette and h rows of RowTokens(w) bytes, so the corrected round trip applies to it |
| LvImgText.HexTokensBytes | 3.Software/ImageToHolo/convertor/core.py:204-207 | the tokens of the remaining bytes read back as those bytes |
| LvImgText.CfNameInjective | 3.Software/ImageToHolo/convertor/core.py:275-303 | as written, codes the footer lists get distinct, non-empty `LV_IMG_CF_` names |
| LvImgText.RawFooterIsChromaKeyed | 3.Software/ImageToHolo/convertor/core.py:45-47 | as written, `CF_RAW` (12) is declared as `LV_IMG_CF_RAW_CHROMA_KEYED`, since `CF_RAW_CHROMA` is also 12 |
| LvImgText.CfNameFixedInjective | 3.Software/ImageToHolo/convertor/core.py:275-303 | with the chroma-keyed raw format on its own code, every listed code has its own name and `CF_RAW` is declared `LV_IMG_CF_RAW` |
| LvImgText.FooterDeclaresSize | 3.Software/ImageToHolo/convertor/core.py:275-303 | an alpha or indexed picture's footer declares as data size the palette plus h strides, in decimal that reads back |
| LvImgText.FooterEntryPacked | 3.Software/ImageToHolo/convertor/core.py:275-303 | the footer entry of a packed format is its byte count and name |
| LvImgText.LvCf | 3.Software/ImageToHolo/convertor/core.py:320-332 | the header's colour-format number lies in 4..14 |
| LvImgText.LeBytes | 3.Software/ImageToHolo/convertor/core.py:334-336 | n as k little-endian bytes has k bytes |
| LvImgText.LeRoundTrip | 3.Software/ImageToHolo/convertor/core.py:334-336 | a number below 256^k survives k little-endian bytes |
| LvImgText.Le32 | 3.Software/ImageToHolo/convertor/core.py:334-336 | `struct.pack("<L")` gives four bytes |
| LvImgText.Le32RoundTrip | 3.Software/ImageToHolo/convertor/core.py:334-336 | the four bytes read back as the number |
| LvImgText.BinFile | 3.Software/ImageToHolo/convertor/core.py:331-342 | definition of the file `get_bin_file` returns; `BinFileRoundTrip` and `BinFileFails` state its properties |
| LvImgText.GetBinFile | 3.Software/ImageToHolo/convertor/core.py:316-318 | definition of `get_bin_file`'s defaults: no format means the converter's, no content means `d_out`; the file is `BinFile` |
| LvImgText.BinFileRoundTrip | 3.Software/ImageToHolo/convertor/core.py:316-342 | for w, h below 2048 the file is written, its first four bytes read back as (lv_cf, w, h) and the rest is `d_out` |
| LvImgText.HeaderFieldsOf | 3.Software/ImageToHolo/convertor/core.py:334-336 | the header word's bit fields give back lv_cf, w and h |
| LvImgText.CellsInjective | 3.Software/ImageToHolo/convertor/core.py:316-342 | byte lists with the same cells are equal |
| LvImgText.BinFileFails | 3.Software/ImageToHolo/convertor/core.py:316-342 | the file is written exactly when the header fits 32 bits and no entry is None; a height of 2048 or more is a struct.error |
| PyList.Cells | 3.Software/ImageToHolo/convertor/core.py:12-27 | a list of bytes as list entries, one per byte |
| PyList.Holes | 3.Software/ImageToHolo/convertor/core.py:21-27 | n None entries |
| PyList.CheckExist | 3.Software/ImageToHolo/convertor/core.py:12-18 | 0 exactly past the end, -1 exactly on a None entry, 1 exactly on a value |
| PyList.ForceUpdated | 3.Software/ImageToHolo/convertor/core.py:21-27 | the entry is set; past the end the list is padded with None up to it; nothing else changes |
| PyList.ForceUpdatedExists | 3.Software/ImageToHolo/convertor/core.py:12-27 | after `forceUpdate` the entry exists, and holds a value exactly when one was stored |
| PyList.ForceUpdatedAtEnd | 3.Software/ImageToHolo/convertor/core.py:21-27 | `forceUpdate` one past the end is an append |
| Text.DigitValue | 3.Software/ImageToHolo/convertor/core.py:173 | a digit's value is below the base |
| Text.DigitValueOfDigit | 3.Software/ImageToHolo/convertor/core.py:173 | each digit reads back as its value |
| Text.FixedHex | 3.Software/ImageToHolo/convertor/core.py:173 | a fixed-width hex numeral has exactly `width` digits |
| Text.ParseFixedHex | 3.Software/ImageToHolo/convertor/core.py:173 | a fixed-width hex numeral of n below 16^width reads back as n |
| Text.ParseDigitsSnoc | 3.Software/ImageToHolo/convertor/core.py:173 | appending a digit multiplies by the base and adds the digit |
| Text.NatToString | 3.Software/ImageToHolo/convertor/core.py:275-303 | `str(n)` is non-empty |
| Text.IntToString | 2.Firmware/HoloCubic_fw/lib/TFT_eSPI/Tools/Images/bmp2array4bit.py:185 | `str(i)` is non-empty and starts with '-' for a negative i |
| Text.ParseNatToString | 3.Software/ImageToHolo/convertor/core.py:275-303 | `int(str(n)) == n` |
| Text.HexByteToken | 3.Software/ImageToHolo/convertor/core.py:204-207 | `0x%02X` is four characters starting with `0x` |
| Text.HexByteTokenRoundTrip | 3.Software/ImageToHolo/convertor/core.py:204-207 | the token reads back as its byte |
| Text.HexWordToken | 2.Firmware/HoloCubic_fw/lib/TFT_eSPI/Tools/Images/bmp2array4bit.py:186-190 | `0x%04x` is six characters starting with `0x` |
| Text.HexWordTokenRoundTrip | 2.Firmware/HoloCubic_fw/lib/TFT_eSPI/Tools/Images/bmp2array4bit.py:186-190 | the token reads back as its word |
| Text.HexByteTokenLower | 2.Firmware/HoloCubic_fw/lib/TFT_eSPI/Tools/Images/bmp2array4bit.py:212-228 | `0x%02x` is four characters starting with `0x` |
| Text.HexByteTokenLowerRoundTrip | 2.Firmware/HoloCubic_fw/lib/TFT_eSPI/Tools/Images/bmp2array4bit.py:212-228 | the token reads back as its byte |
| Text.Join | 3.Software/ImageToHolo/convertor/core.py:243-252 | `sep.join` of nothing is empty and of one part is that part |
| Bmp2Array4Bit.LeU16 | 2.Firmware/HoloCubic_fw/lib/TFT_eSPI/Tools/Images/bmp2array4bit.py:69-150 | a 2-byte field is below 2^16 |
| Bmp2Array4Bit.LeU32 | 2.Firmware/HoloCubic_fw/lib/TFT_eSPI/Tools/Images/bmp2array4bit.py:69-150 | a 4-byte field is below 2^32 |
| Bmp2Array4Bit.LeBytes32 | 2.Firmware/HoloCubic_fw/lib/TFT_eSPI/Tools/Images/bmp2array4bit.py:69-150 | a 32-bit value takes four bytes |
| Bmp2Array4Bit.LeU32OfBytes | 2.Firmware/HoloCubic_fw/lib/TFT_eSPI/Tools/Images/bmp2array4bit.py:69-150 | reading a written field gives the value back |
| Bmp2Array4Bit.LeBytesOfU32 | 2.Firmware/HoloCubic_fw/lib/TFT_eSPI/Tools/Images/bmp2array4bit.py:69-150 | writing a read field gives the bytes back |
| Bmp2Array4Bit.ReadHeader | 2.Firmware/HoloCubic_fw/lib/TFT_eSPI/Tools/Images/bmp2array4bit.py:69-150 | the header fields at their BMP offsets, or IndexError exactly when the file is shorter than 54 bytes |
| Bmp2Array4Bit.Color565 | 2.Firmware/HoloCubic_fw/lib/TFT_eSPI/Tools/Images/bmp2array4bit.py:155-173 | the palette colour is a 16-bit value |
| Bmp2Array4Bit.Color565Fields | 2.Firmware/HoloCubic_fw/lib/TFT_eSPI/Tools/Images/bmp2array4bit.py:155-173 | the colour keeps the top 5 bits of red and blue and the top 6 of green, in that order |
| Bmp2Array4Bit.ColorAt | 2.Firmware/HoloCubic_fw/lib/TFT_eSPI/Tools/Images/bmp2array4bit.py:155-173 | a table entry (blue, green, red, unused) gives a 16-bit colour |
| Bmp2Array4Bit.Palette | 2.Firmware/HoloCubic_fw/lib/TFT_eSPI/Tools/Images/bmp2array4bit.py:155-173 | the palette has `colorsUsed` 16-bit entries |
| Bmp2Array4Bit.PaletteIndex | 2.Firmware/HoloCubic_fw/lib/TFT_eSPI/Tools/Images/bmp2array4bit.py:155-173 | entry i is read from bytes start + 4i on |
| Bmp2Array4Bit.ReadPalette | 2.Firmware/HoloCubic_fw/lib/TFT_eSPI/Tools/Images/bmp2array4bit.py:155-173 | the palette read from the table, or IndexError exactly when the table runs past the file |
| Bmp2Array4Bit.DropLast2 | 2.Firmware/HoloCubic_fw/lib/TFT_eSPI/Tools/Images/bmp2array4bit.py:193 | `s[:-2]` is s without its last two characters (empty for shorter s), a prefix of s |
| Bmp2Array4Bit.PaletteTextLength | 2.Firmware/HoloCubic_fw/lib/TFT_eSPI/Tools/Images/bmp2array4bit.py:186-190 | the palette text takes eight characters an entry plus two per line |
| Bmp2Array4Bit.PaletteListsEntries | 2.Firmware/HoloCubic_fw/lib/TFT_eSPI/Tools/Images/bmp2array4bit.py:186-190 | entry i appears as its own `0x%04x` token that reads back as the entry, after a line break before every fourth |
| Bmp2Array4Bit.PaletteEntryAt | 2.Firmware/HoloCubic_fw/lib/TFT_eSPI/Tools/Images/bmp2array4bit.py:186-190 | the separator and token of entry i at their place |
| Bmp2Array4Bit.PaletteTextTail | 2.Firmware/HoloCubic_fw/lib/TFT_eSPI/Tools/Images/bmp2array4bit.py:186-193 | a non-empty palette text ends with `, `, which the final cut removes |
| Bmp2Array4Bit.WritePalette | 2.Firmware/HoloCubic_fw/lib/TFT_eSPI/Tools/Images/bmp2array4bit.py:183-193 | the palette loop writes the declaration `Heading` |
| Bmp2Array4Bit.EntryAppended | 2.Firmware/HoloCubic_fw/lib/TFT_eSPI/Tools/Images/bmp2array4bit.py:186-190 | each loop pass appends entry i's text |
| Bmp2Array4Bit.PaddedWidthFits | 2.Firmware/HoloCubic_fw/lib/TFT_eSPI/Tools/Images/bmp2array4bit.py:204 | a padded row is a multiple of four bytes, holds all nibbles and pads less than four bytes |
| Bmp2Array4Bit.RowBaseOffset | 2.Firmware/HoloCubic_fw/lib/TFT_eSPI/Tools/Images/bmp2array4bit.py:212-228 | stored row `col` starts at offset + col * paddedWidth |
| Bmp2Array4Bit.RowBaseGrows | 2.Firmware/HoloCubic_fw/lib/TFT_eSPI/Tools/Images/bmp2array4bit.py:212-228 | later stored rows start further in |
| Bmp2Array4Bit.RowInFile | 2.Firmware/HoloCubic_fw/lib/TFT_eSPI/Tools/Images/bmp2array4bit.py:212-228 | when the furthest row is in the file, every row is |
| Bmp2Array4Bit.Run | 2.Firmware/HoloCubic_fw/lib/TFT_eSPI/Tools/Images/bmp2array4bit.py:212-228 | n bytes from base, or none when they run past the file |
| Bmp2Array4Bit.OutRows | 2.Firmware/HoloCubic_fw/lib/TFT_eSPI/Tools/Images/bmp2array4bit.py:212-228 | n printed rows |
| Bmp2Array4Bit.RowsStep | 2.Firmware/HoloCubic_fw/lib/TFT_eSPI/Tools/Images/bmp2array4bit.py:212-228 | one more printed row appends its text |
| Bmp2Array4Bit.OutRowsIndex | 2.Firmware/HoloCubic_fw/lib/TFT_eSPI/Tools/Images/bmp2array4bit.py:212-228 | printed row j is stored row height - 1 - j |
| Bmp2Array4Bit.PixelStream | 2.Firmware/HoloCubic_fw/lib/TFT_eSPI/Tools/Images/bmp2array4bit.py:212-228 | the printed bytes are height * (width/2) bytes, byte j * w2 + k taken from offset k of stored row height - 1 - j: the bottom-up file comes out top-down |
| Bmp2Array4Bit.DeclaredSizeCountsPadding | 2.Firmware/HoloCubic_fw/lib/TFT_eSPI/Tools/Images/bmp2array4bit.py:182 | the declared array size `len - offset` exceeds the printed bytes by the row padding |
| Bmp2Array4Bit.AppendPixels | 2.Firmware/HoloCubic_fw/lib/TFT_eSPI/Tools/Images/bmp2array4bit.py:207-228 | the pixel loops print every row, or stop with IndexError exactly when a row runs past the file |
| Bmp2Array4Bit.OutRowAt | 2.Firmware/HoloCubic_fw/lib/TFT_eSPI/Tools/Images/bmp2array4bit.py:212-228 | printed row j is the run of stored row height - 1 - j |
| Bmp2Array4Bit.RowAppended | 2.Firmware/HoloCubic_fw/lib/TFT_eSPI/Tools/Images/bmp2array4bit.py:212-228 | a printed row extends the text of those before it |
| Bmp2Array4Bit.AppendRow | 2.Firmware/HoloCubic_fw/lib/TFT_eSPI/Tools/Images/bmp2array4bit.py:213-228 | one row printed, or IndexError exactly when it runs past the file |
| Bmp2Array4Bit.PrintByte | 2.Firmware/HoloCubic_fw/lib/TFT_eSPI/Tools/Images/bmp2array4bit.py:217-228 | one byte printed after its separator; the counters move on |
| Bmp2Array4Bit.CellAppended | 2.Firmware/HoloCubic_fw/lib/TFT_eSPI/Tools/Images/bmp2array4bit.py:217-228 | a printed byte extends the row's text |
| Bmp2Array4Bit.RunStep | 2.Firmware/HoloCubic_fw/lib/TFT_eSPI/Tools/Images/bmp2array4bit.py:212-228 | a run one longer is the run plus the next byte |
| Bmp2Array4Bit.RowOutOfFile | 2.Firmware/HoloCubic_fw/lib/TFT_eSPI/Tools/Images/bmp2array4bit.py:212-228 | a row past the file means not all bytes fit |
| Bmp2Array4Bit.BytesBeforeProduct | 2.Firmware/HoloCubic_fw/lib/TFT_eSPI/Tools/Images/bmp2array4bit.py:212-228 | the byte counter before row j is j * width |
| Bmp2Array4Bit.CountersSep | 2.Firmware/HoloCubic_fw/lib/TFT_eSPI/Tools/Images/bmp2array4bit.py:217-228 | the counters choose the separator: a blank line between rows, a break every 11 bytes |
| Bmp2Array4Bit.DropNewlines | 2.Firmware/HoloCubic_fw/lib/TFT_eSPI/Tools/Images/bmp2array4bit.py:217-228 | dropping line breaks does not lengthen the text |
| Bmp2Array4Bit.DropNewlinesAppend | 2.Firmware/HoloCubic_fw/lib/TFT_eSPI/Tools/Images/bmp2array4bit.py:217-228 | dropping line breaks distributes over concatenation |
| Bmp2Array4Bit.DropNewlinesNone | 2.Firmware/HoloCubic_fw/lib/TFT_eSPI/Tools/Images/bmp2array4bit.py:217-228 | a text without line breaks is unchanged |
| Bmp2Array4Bit.Tokens | 2.Firmware/HoloCubic_fw/lib/TFT_eSPI/Tools/Images/bmp2array4bit.py:217-228 | six characters a byte |
| Bmp2Array4Bit.TokensAppend | 2.Firmware/HoloCubic_fw/lib/TFT_eSPI/Tools/Images/bmp2array4bit.py:217-228 | tokens distribute over concatenation |
| Bmp2Array4Bit.TokenUnbroken | 2.Firmware/HoloCubic_fw/lib/TFT_eSPI/Tools/Images/bmp2array4bit.py:217-228 | a byte's token holds no line break |
| Bmp2Array4Bit.RowTextTokens | 2.Firmware/HoloCubic_fw/lib/TFT_eSPI/Tools/Images/bmp2array4bit.py:217-228 | a row's text is its tokens with line breaks in between |
| Bmp2Array4Bit.RowsTextTokens | 2.Firmware/HoloCubic_fw/lib/TFT_eSPI/Tools/Images/bmp2array4bit.py:207-228 | the pixel text is the printed bytes' tokens, in order, with line breaks in between |
| Bmp2Array4Bit.TokenAt | 2.Firmware/HoloCubic_fw/lib/TFT_eSPI/Tools/Images/bmp2array4bit.py:217-228 | token k sits 6k characters in |
| Bmp2Array4Bit.TokenReadsBack | 2.Firmware/HoloCubic_fw/lib/TFT_eSPI/Tools/Images/bmp2array4bit.py:217-228 | token k reads back as byte k |
| Bmp2Array4Bit.PixelTextLists | 2.Firmware/HoloCubic_fw/lib/TFT_eSPI/Tools/Images/bmp2array4bit.py:207-228 | without line breaks the pixel text is six characters a byte and token m reads back as printed byte m |
| Bmp2Array4Bit.Output | 2.Firmware/HoloCubic_fw/lib/TFT_eSPI/Tools/Images/bmp2array4bit.py:66-236 | the script succeeds exactly when the header, palette and pixel bytes lie in the file and the depth is 4; otherwise IndexError or the bit-depth error |
| Bmp2Array4Bit.BadDepthBeforePixels | 2.Firmware/HoloCubic_fw/lib/TFT_eSPI/Tools/Images/bmp2array4bit.py:197-199 | a depth other than 4 stops the script whatever the pixel bytes are |
| Bmp2Array4Bit.Convert | 2.Firmware/HoloCubic_fw/lib/TFT_eSPI/Tools/Images/bmp2array4bit.py:66-236 | the script's statements compute `Output` |
| Sprite.To332From332 | 2.Firmware/HoloCubic-fw/lib/TFT_eSPI/Extensions/Sprite.cpp:970-981 | the RGB565 expansion `readPixel` gives an 8-bit pixel converts back (as `drawPixel` stores it) to the same byte |
| Sprite.UnswapSwap16 | 2.Firmware/HoloCubic-fw/lib/TFT_eSPI/Extensions/Sprite.cpp:964-968 | a 16-bit colour stored byte-swapped reads back as itself, and a stored word survives unswap then swap |
| Sprite.Put16 | 2.Firmware/HoloCubic-fw/lib/TFT_eSPI/Extensions/Sprite.cpp:1634-1638 | storing a 16-bit word sets that element and no other byte |
| Sprite.SetNibble | 2.Firmware/HoloCubic-fw/lib/TFT_eSPI/Extensions/Sprite.cpp:1643-1653 | the 4-bit store sets its nibble (high for even columns) and keeps the other |
| Sprite.Nibble | 2.Firmware/HoloCubic-fw/lib/TFT_eSPI/Extensions/Sprite.cpp:914-921 | a 4-bit read is below 16 |
| Sprite.BitReadsMask | 2.Firmware/HoloCubic-fw/lib/TFT_eSPI/Extensions/Sprite.cpp:923-945 | both 1-bit reads test the column's mask bit |
| Sprite.MasksDisjoint | 2.Firmware/HoloCubic-fw/lib/TFT_eSPI/Extensions/Sprite.cpp:1654-1676 | different columns have disjoint masks |
| Sprite.MaskedStore | 2.Firmware/HoloCubic-fw/lib/TFT_eSPI/Extensions/Sprite.cpp:1654-1676 | setting or clearing a mask fixes its bits and keeps disjoint ones |
| Sprite.SetBitReads | 2.Firmware/HoloCubic-fw/lib/TFT_eSPI/Extensions/Sprite.cpp:1654-1676 | both reads see the bit the store wrote |
| Sprite.SetBitKeeps | 2.Firmware/HoloCubic-fw/lib/TFT_eSPI/Extensions/Sprite.cpp:1654-1676 | the 1-bit store keeps every other column of the byte |
| Sprite.RowPixelsRounds | 2.Firmware/HoloCubic-fw/lib/TFT_eSPI/Extensions/Sprite.cpp:150-214 | the stored row holds the width: even at 4 bits, a multiple of 8 at 1 bit, each less than one byte more |
| Sprite.DrawMap | 2.Firmware/HoloCubic-fw/lib/TFT_eSPI/Extensions/Sprite.cpp:1656-1672 | definition of `drawPixel`'s rotation map; `DrawMapOnImage` and `DrawMapInjective` state its properties |
| Sprite.DrawMapOnImage | 2.Firmware/HoloCubic-fw/lib/TFT_eSPI/Extensions/Sprite.cpp:1656-1672 | at rotations 0-3 every point in view is drawn inside the stored image |
| Sprite.DrawMapInjective | 2.Firmware/HoloCubic-fw/lib/TFT_eSPI/Extensions/Sprite.cpp:1656-1672 | at rotations 0-3 distinct points are drawn at distinct image points |
| Sprite.CellInFrame | 2.Firmware/HoloCubic-fw/lib/TFT_eSPI/Extensions/Sprite.cpp:150-214 | every pixel cell, and the off-screen pixel (0, _dheight), lies inside one frame |
| Sprite.CellsDistinct | 2.Firmware/HoloCubic-fw/lib/TFT_eSPI/Extensions/Sprite.cpp:1634-1653 | distinct pixels have distinct cells; at 4 bits two pixels share a byte only in opposite nibbles |
| Sprite.BitInFrame | 2.Firmware/HoloCubic-fw/lib/TFT_eSPI/Extensions/Sprite.cpp:1654-1676 | a 1-bit image point lies in the frame at bit x % 8 |
| Sprite.BitsDistinct | 2.Firmware/HoloCubic-fw/lib/TFT_eSPI/Extensions/Sprite.cpp:1654-1676 | two 1-bit points share a byte only at different bits |
| Sprite.Written | 2.Firmware/HoloCubic-fw/lib/TFT_eSPI/Extensions/Sprite.cpp:1348-1379 | the `writeColor` store keeps the buffer's size |
| Sprite.Drawn | 2.Firmware/HoloCubic-fw/lib/TFT_eSPI/Extensions/Sprite.cpp:1624-1677 | the `drawPixel` store keeps the buffer's size |
| Sprite.WrittenReadsBack | 2.Firmware/HoloCubic-fw/lib/TFT_eSPI/Extensions/Sprite.cpp:1348-1379 | a pixel `writeColor` stored reads back (`readPixelValue`) as the colour |
| Sprite.WrittenKeepsOthers | 2.Firmware/HoloCubic-fw/lib/TFT_eSPI/Extensions/Sprite.cpp:1348-1379 | a store in view or at the off-screen pixel leaves every other pixel's value |
| Sprite.PixelValue | 2.Firmware/HoloCubic-fw/lib/TFT_eSPI/Extensions/Sprite.cpp:892-948 | definition of `readPixelValue`, 1-bit pixels read through `drawPixel`'s map (the corrected read of the Findings); `DrawnReadsBack`, `WrittenReadsBack` and `ZeroImageReadsZero` state its properties |
| Sprite.PixelColor | 2.Firmware/HoloCubic-fw/lib/TFT_eSPI/Extensions/Sprite.cpp:954-1018 | definition of `readPixel` with the same corrected map; `PixelColorOfValue` states it |
| Sprite.DrawnReadsBack | 2.Firmware/HoloCubic-fw/lib/TFT_eSPI/Extensions/Sprite.cpp:1624-1677 | a drawn pixel reads back: the colour at 16 bits, its RGB332 byte at 8, its low nibble at 4, whether it is non-zero at 1 bit |
| Sprite.DrawnKeepsOthers | 2.Firmware/HoloCubic-fw/lib/TFT_eSPI/Extensions/Sprite.cpp:1624-1677 | drawing a pixel leaves every other pixel's value |
| Sprite.DrawnKeepsOtherBit | 2.Firmware/HoloCubic-fw/lib/TFT_eSPI/Extensions/Sprite.cpp:1654-1676 | the 1-bit case of that |
| Sprite.PixelColorOfValue | 2.Firmware/HoloCubic-fw/lib/TFT_eSPI/Extensions/Sprite.cpp:954-1018 | `readPixel` is `readPixelValue` through the depth's colour rule: the colour, the RGB332 expansion, the palette entry, or fg/bg by the bit |
| Sprite.RedrawIsNoOp | 2.Firmware/HoloCubic-fw/lib/TFT_eSPI/Extensions/Sprite.cpp:892-1018 | drawing back what a read returned changes nothing |
| Sprite.RedrawBit | 2.Firmware/HoloCubic-fw/lib/TFT_eSPI/Extensions/Sprite.cpp:923-945 | the 1-bit case of that |
| Sprite.SetBitSame | 2.Firmware/HoloCubic-fw/lib/TFT_eSPI/Extensions/Sprite.cpp:1654-1676 | storing a byte's own bit back changes nothing |
| Sprite.SingleBitStore | 2.Firmware/HoloCubic-fw/lib/TFT_eSPI/Extensions/Sprite.cpp:1654-1676 | setting a set bit or clearing a clear one changes nothing |
| Sprite.Put16Same | 2.Firmware/HoloCubic-fw/lib/TFT_eSPI/Extensions/Sprite.cpp:1634-1638 | storing the word already there changes nothing |
| Sprite.BitColorAsWritten | 2.Firmware/HoloCubic-fw/lib/TFT_eSPI/Extensions/Sprite.cpp:996-1017 | `readPixel` of a 1-bit sprite as written: outside the image exactly where the as-written value read is, else fg or bg by that bit |
| Sprite.SquareReadsAgree | 2.Firmware/HoloCubic-fw/lib/TFT_eSPI/Extensions/Sprite.cpp:926-942 | on a square sprite the as-written reads agree with `drawPixel` |
| Sprite.RotatedReadMissesDraw | 2.Firmware/HoloCubic-fw/lib/TFT_eSPI/Extensions/Sprite.cpp:926-942 | a 16 x 8 one-bit sprite at rotation 1: the pixel drawn at (0,0) reads 0 as written (and its colour bg) while the corrected read gives 1; (0,15) reads outside the image |
| Sprite.ClipWindowPoints | 2.Firmware/HoloCubic-fw/lib/TFT_eSPI/Extensions/Sprite.cpp:1247-1277 | a rectangle missing the sprite selects the off-screen pixel; any other gives a window holding exactly its points on the sprite |
| Sprite.Advance | 2.Firmware/HoloCubic-fw/lib/TFT_eSPI/Extensions/Sprite.cpp:1284-1319 | the cursor step never leaves the window |
| Sprite.AdvanceN | 2.Firmware/HoloCubic-fw/lib/TFT_eSPI/Extensions/Sprite.cpp:1326-1341 | nor do n steps |
| Sprite.AdvanceAlongRow | 2.Firmware/HoloCubic-fw/lib/TFT_eSPI/Extensions/Sprite.cpp:1284-1319 | along a row the cursor moves one column, then wraps to the next row (or the top) |
| Sprite.AdvanceNAdd | 2.Firmware/HoloCubic-fw/lib/TFT_eSPI/Extensions/Sprite.cpp:1326-1341 | steps add up |
| Sprite.AdvanceRows | 2.Firmware/HoloCubic-fw/lib/TFT_eSPI/Extensions/Sprite.cpp:1326-1341 | k whole rows bring the cursor to the start of row ys + k, and back to the corner after the last |
| Sprite.WriteStep | 2.Firmware/HoloCubic-fw/lib/TFT_eSPI/Extensions/Sprite.cpp:1348-1379 | one `writeColor` keeps the buffer's size |
| Sprite.WriteRun | 2.Firmware/HoloCubic-fw/lib/TFT_eSPI/Extensions/Sprite.cpp:1326-1341 | n of them too |
| Sprite.WriteRunCursor | 2.Firmware/HoloCubic-fw/lib/TFT_eSPI/Extensions/Sprite.cpp:1326-1341 | after n calls the cursor is n steps on |
| Sprite.WriteRunLast | 2.Firmware/HoloCubic-fw/lib/TFT_eSPI/Extensions/Sprite.cpp:1326-1341 | the last call stores at the cursor the others left |
| Sprite.WrittenValues | 2.Firmware/HoloCubic-fw/lib/TFT_eSPI/Extensions/Sprite.cpp:1348-1379 | a store in view changes that pixel to the colour and no other |
| Sprite.WriteRunAdd | 2.Firmware/HoloCubic-fw/lib/TFT_eSPI/Extensions/Sprite.cpp:1326-1341 | runs add up |
| Sprite.RowRunLast | 2.Firmware/HoloCubic-fw/lib/TFT_eSPI/Extensions/Sprite.cpp:1326-1341 | the last pixel of a partial row run lands at column xs + k - 1 |
| Sprite.RowRun | 2.Firmware/HoloCubic-fw/lib/TFT_eSPI/Extensions/Sprite.cpp:1326-1341 | k pixels from a row's start colour its first k columns and nothing else |
| Sprite.WindowRun | 2.Firmware/HoloCubic-fw/lib/TFT_eSPI/Extensions/Sprite.cpp:1326-1341 | k whole rows from the corner colour the window's first k rows and nothing else; a window-sized run fills the window |
| Sprite.OffscreenRun | 2.Firmware/HoloCubic-fw/lib/TFT_eSPI/Extensions/Sprite.cpp:1247-1341 | a run at the off-screen pixel changes no pixel |
| Sprite.Frames | 2.Firmware/HoloCubic-fw/lib/TFT_eSPI/Extensions/Sprite.cpp:157-158 | the frame count is clamped to 1 or 2 |
| Sprite.AllocWidthWraps | 2.Firmware/HoloCubic-fw/lib/TFT_eSPI/Extensions/Sprite.cpp:187-210 | the `int16_t` width rounding wraps only at 4 bits for 32767 and at 1 bit above 32760, to -32768 |
| Sprite.AllocCoversFrame | 2.Firmware/HoloCubic-fw/lib/TFT_eSPI/Extensions/Sprite.cpp:150-214 | a wrapped width makes the byte count negative; any other gives a positive count that holds a frame |
| Sprite.WrappedBytes | 2.Firmware/HoloCubic-fw/lib/TFT_eSPI/Extensions/Sprite.cpp:150-214 | the byte count of width -32768 is negative |
| Sprite.FrameBytesGrow | 2.Firmware/HoloCubic-fw/lib/TFT_eSPI/Extensions/Sprite.cpp:150-214 | one or two frames: the count covers the first frame |
| Sprite.ZeroImageReadsZero | 2.Firmware/HoloCubic-fw/lib/TFT_eSPI/Extensions/Sprite.cpp:892-948 | a zeroed image reads 0 at every pixel in view |
| Sprite.ZeroBitReadsZero | 2.Firmware/HoloCubic-fw/lib/TFT_eSPI/Extensions/Sprite.cpp:923-945 | the 1-bit case |
| Sprite.ZeroCellReadsZero | 2.Firmware/HoloCubic-fw/lib/TFT_eSPI/Extensions/Sprite.cpp:902-921 | the 16-, 8- and 4-bit cases |
| Sprite.ClipScrollPoints | 2.Firmware/HoloCubic-fw/lib/TFT_eSPI/Extensions/Sprite.cpp:1387-1405 | the kept scroll rectangle is the part inside the image; a refused one has no pixel inside |
| Sprite.PaletteOf | 2.Firmware/HoloCubic-fw/lib/TFT_eSPI/Extensions/Sprite.cpp:221-270 | 16 entries, the first `colors` copied and the rest 0 |
| Sprite.PaletteStored | 2.Firmware/HoloCubic-fw/lib/TFT_eSPI/Extensions/Sprite.cpp:351-356 | `setPaletteColor` keeps the palette's size |
| Sprite.PaletteReadBack | 2.Firmware/HoloCubic-fw/lib/TFT_eSPI/Extensions/Sprite.cpp:351-368 | a stored entry reads back, others are kept, nothing without a palette |
| Sprite.DepthForSmallest | 2.Firmware/HoloCubic-fw/lib/TFT_eSPI/Extensions/Sprite.cpp:299-321 | the requested depth rounds up to the smallest of 1, 4, 8, 16 at least it (16 above 16); a depth maps to itself |
| Sprite.DefaultPaletteWhole | 2.Firmware/HoloCubic-fw/lib/TFT_eSPI/TFT_eSPI.h:267-284 | the default palette is what `createPalette` builds from it |
| Sprite.Clip | 2.Firmware/HoloCubic-fw/lib/TFT_eSPI/Extensions/Sprite.cpp:1247-1277 | the statements of `setWindow`'s clipping compute `ClipWindow` |
| Sprite.ScrollClip | 2.Firmware/HoloCubic-fw/lib/TFT_eSPI/Extensions/Sprite.cpp:1387-1405 | the statements of `setScrollRect` compute `ClipScroll` |
| Sprite.NewPalette | 2.Firmware/HoloCubic-fw/lib/TFT_eSPI/Extensions/Sprite.cpp:221-270 | a fresh 16-entry palette equal to `PaletteOf` |
| Sprite.CallocCount | 2.Firmware/HoloCubic-fw/lib/TFT_eSPI/Extensions/Sprite.cpp:171-210 | the products written per depth are `AllocBytes` |
| Sprite.TftSprite.ReadPixelValue | 2.Firmware/HoloCubic-fw/lib/TFT_eSPI/Extensions/Sprite.cpp:892-948 | 0xFF before creation or out of view; at most 1 at 1 bit and below 16 at 4; the value is `PixelValue`, which reads 1-bit pixels through `drawPixel`'s rotation (the corrected map, not the one at Sprite.cpp:926-942) |
| Sprite.TftSprite.ReadPixel | 2.Firmware/HoloCubic-fw/lib/TFT_eSPI/Extensions/Sprite.cpp:954-1018 | 0xFFFF before creation or out of view; fg or bg at 1 bit; a palette entry at 4; the value is `PixelColor`, which reads 1-bit pixels through `drawPixel`'s rotation (the corrected map, not the one at Sprite.cpp:996-1012) |
| Sprite.TftSprite.constructor | 2.Firmware/HoloCubic-fw/lib/TFT_eSPI/Extensions/Sprite.cpp:17-40 | 16 bits a pixel, nothing allocated, no palette, window and cursor at the origin |
| Sprite.TftSprite.CreatePaletteFlash | 2.Firmware/HoloCubic-fw/lib/TFT_eSPI/Extensions/Sprite.cpp:252-270 | a fresh palette with the first `colors` entries copied (the default one for a null array) |
| Sprite.TftSprite.CreatePalette | 2.Firmware/HoloCubic-fw/lib/TFT_eSPI/Extensions/Sprite.cpp:221-245 | as from FLASH, except a null array gives the whole default palette |
| Sprite.TftSprite.SetPaletteColor | 2.Firmware/HoloCubic-fw/lib/TFT_eSPI/Extensions/Sprite.cpp:351-356 | the entry replaced, nothing without a palette or past 15 |
| Sprite.TftSprite.GetPaletteColor | 2.Firmware/HoloCubic-fw/lib/TFT_eSPI/Extensions/Sprite.cpp:363-368 | the entry, or 0 without a palette or past 15 |
| Sprite.TftSprite.CreateSprite | 2.Firmware/HoloCubic-fw/lib/TFT_eSPI/Extensions/Sprite.cpp:48-108 | an existing sprite or a size below 1 changes nothing; otherwise the sizes, scroll rectangle and rounded stored width are set, the sprite is created exactly when the allocation succeeds, with a zeroed image, and a 4-bit sprite gets the default palette |
| Sprite.TftSprite.Build | 2.Firmware/HoloCubic-fw/lib/TFT_eSPI/Extensions/Sprite.cpp:55-108 | `createSprite` past its refusals |
| Sprite.TftSprite.Prepare | 2.Firmware/HoloCubic-fw/lib/TFT_eSPI/Extensions/Sprite.cpp:55-88 | sizes, scroll rectangle, rounded width, byte count and 4-bit palette before `calloc` |
| Sprite.TftSprite.Resize | 2.Firmware/HoloCubic-fw/lib/TFT_eSPI/Extensions/Sprite.cpp:55-66 | all sizes and the default scroll rectangle |
| Sprite.TftSprite.Calloc | 2.Firmware/HoloCubic-fw/lib/TFT_eSPI/Extensions/Sprite.cpp:150-214 | clamped frames, rounded stored width and the byte count |
| Sprite.TftSprite.Commit | 2.Firmware/HoloCubic-fw/lib/TFT_eSPI/Extensions/Sprite.cpp:68-105 | created exactly when `calloc` gives a zeroed buffer of the count, rotation 0 |
| Sprite.TftSprite.SetColorDepth | 2.Firmware/HoloCubic-fw/lib/TFT_eSPI/Extensions/Sprite.cpp:299-321 | the depth rounds up to 1, 4, 8 or 16 unless it is already `b`; an uncreated sprite keeps every other field; a created one is rebuilt at its size with one frame at the new depth: stored width rounded, scroll rectangle reset, window and cursor kept, image zeroed, default palette at 4 bits |
| Sprite.TftSprite.SetRotation | 2.Firmware/HoloCubic-fw/lib/TFT_eSPI/Extensions/Sprite.cpp:1595-1607 | only 1-bit sprites rotate |
| Sprite.TftSprite.SetWindow | 2.Firmware/HoloCubic-fw/lib/TFT_eSPI/Extensions/Sprite.cpp:1247-1277 | the window clipped as `ClipWindow`, the cursor at its start |
| Sprite.TftSprite.Store | 2.Firmware/HoloCubic-fw/lib/TFT_eSPI/Extensions/Sprite.cpp:1348-1379 | the image becomes `Written` |
| Sprite.TftSprite.DrawPixel | 2.Firmware/HoloCubic-fw/lib/TFT_eSPI/Extensions/Sprite.cpp:1624-1677 | the image becomes `Drawn` (nothing before creation) |
| Sprite.TftSprite.Step | 2.Firmware/HoloCubic-fw/lib/TFT_eSPI/Extensions/Sprite.cpp:1284-1319 | the cursor advances |
| Sprite.TftSprite.PushColor | 2.Firmware/HoloCubic-fw/lib/TFT_eSPI/Extensions/Sprite.cpp:1284-1319 | the converted colour stored at the cursor, then the step |
| Sprite.TftSprite.WriteColor | 2.Firmware/HoloCubic-fw/lib/TFT_eSPI/Extensions/Sprite.cpp:1348-1379 | one `WriteStep` |
| Sprite.TftSprite.PushColorRun | 2.Firmware/HoloCubic-fw/lib/TFT_eSPI/Extensions/Sprite.cpp:1326-1341 | `len` calls of `writeColor` with the converted colour |
| Sprite.TftSprite.SetScrollRect | 2.Firmware/HoloCubic-fw/lib/TFT_eSPI/Extensions/Sprite.cpp:1387-1405 | the rectangle `ClipScroll` keeps and the colour, or no change |
| TftButton.CentreInside | 2.Firmware/HoloCubic-fw/lib/TFT_eSPI/Extensions/Button.cpp:13-21 | a button made around centre (x, y) contains the centre, unless int16_t wraps the corner |
| TftButton.AdjacentDisjoint | 2.Firmware/HoloCubic-fw/lib/TFT_eSPI/Extensions/Button.cpp:83-86 | buttons side by side share no point: the right and bottom edges are outside |
| TftButton.StrNCpy | 2.Firmware/HoloCubic-fw/lib/TFT_eSPI/Extensions/Button.cpp:38 | `strncpy(_label, label, 9)`: n characters, the label's or NUL padding |
| TftButton.LabelRoundTrip | 2.Firmware/HoloCubic-fw/lib/TFT_eSPI/Extensions/Button.cpp:38 | a label copied reads back as its first n characters at most |
| TftButton.LabelCaption | 2.Firmware/HoloCubic_fw/lib/TFT_eSPI/Extensions/Button.h:41 | the caption read from `_label[10]`: a label under 9 characters whole; a longer one its first 9, followed by the unwritten tenth byte unless that byte is NUL |
| TftButton.ButtonColors | 2.Firmware/HoloCubic-fw/lib/TFT_eSPI/Extensions/Button.cpp:52-60 | the outline colour is kept |
| TftButton.InvertedSwaps | 2.Firmware/HoloCubic-fw/lib/TFT_eSPI/Extensions/Button.cpp:52-60 | the inverted drawing is the normal one with fill and text swapped |
| TftButton.RadiusQuarter | 2.Firmware/HoloCubic-fw/lib/TFT_eSPI/Extensions/Button.cpp:62 | the corner radius is a quarter of the shorter side, rounded down, below 1024 pixels |
| TftButton.Button.constructor | 2.Firmware/HoloCubic-fw/lib/TFT_eSPI/Extensions/Button.cpp:5-10 | no display, no label offset, centred text; `_label` left as it was |
| TftButton.Button.InitButton | 2.Firmware/HoloCubic-fw/lib/TFT_eSPI/Extensions/Button.cpp:13-21 | the corner (x - w/2, y - h/2) as int16_t, then as `initButtonUL` |
| TftButton.Button.InitButtonUL | 2.Firmware/HoloCubic-fw/lib/TFT_eSPI/Extensions/Button.cpp:24-39 | corner, size, colours and display stored; nine label characters copied, the tenth byte kept; offsets, datum and states kept |
| TftButton.Button.Contains | 2.Firmware/HoloCubic-fw/lib/TFT_eSPI/Extensions/Button.cpp:83-86 | definition of `contains`: the half-open rectangle; `CentreInside` and `AdjacentDisjoint` state its properties |
| TftButton.Button.IsPressed | 2.Firmware/HoloCubic-fw/lib/TFT_eSPI/Extensions/Button.cpp:93 | definition of `isPressed`: the current state; `Press` states how it moves |
| TftButton.Button.JustPressed | 2.Firmware/HoloCubic-fw/lib/TFT_eSPI/Extensions/Button.cpp:94 | definition of `justPressed`; `Press` states it holds iff the button goes down, `NeverBothEdges` that it excludes `JustReleased` |
| TftButton.Button.JustReleased | 2.Firmware/HoloCubic-fw/lib/TFT_eSPI/Extensions/Button.cpp:95 | definition of `justReleased`; `Press` states it holds iff the button comes up |
| TftButton.Button.SetLabelDatum | 2.Firmware/HoloCubic-fw/lib/TFT_eSPI/Extensions/Button.cpp:42-47 | offset and datum set, nothing else |
| TftButton.Button.DrawButton | 2.Firmware/HoloCubic-fw/lib/TFT_eSPI/Extensions/Button.cpp:49-81 | the colours, radius, datum and size, and the label (or long name) anchored at the centre, 4 pixels up, plus the offset |
| TftButton.Button.Press | 2.Firmware/HoloCubic-fw/lib/TFT_eSPI/Extensions/Button.cpp:88-95 | the state moves on: pressed iff p, just pressed iff p and not before, just released iff not p and before |
| TftButton.Button.NeverBothEdges | 2.Firmware/HoloCubic-fw/lib/TFT_eSPI/Extensions/Button.cpp:93-95 | never just pressed and just released at once |
| St7565.WritePixel | 3.Software/vs2019_proj/lv_drivers/display/ST7565.c:155-166 | writing one pixel's bit sets it and leaves every other pixel of the buffer as it was |
| St7565.OtherBitKept | 3.Software/vs2019_proj/lv_drivers/display/ST7565.c:155-166 | other rows' bits of the byte are kept |
| St7565.PixelsDetermineBuffer | 3.Software/vs2019_proj/lv_drivers/display/ST7565.c:83 | frame buffers with the same pixels are equal |
| St7565.PixelOfBit | 3.Software/vs2019_proj/lv_drivers/display/ST7565.c:83 | each bit of the buffer belongs to one on-screen pixel |
| St7565.BitsDetermineByte | 3.Software/vs2019_proj/lv_drivers/display/ST7565.c:83 | bytes with the same bits are equal |
| St7565.Clip | 3.Software/vs2019_proj/lv_drivers/display/ST7565.c:208-217 | an area wholly off the screen is dropped, iff; otherwise the kept area is exactly its on-screen part |
| St7565.DataOf | 3.Software/vs2019_proj/lv_drivers/display/ST7565.c:255-264 | one data transfer per byte |
| St7565.DataOfIndex | 3.Software/vs2019_proj/lv_drivers/display/ST7565.c:255-264 | byte k is transfer k |
| St7565.PageBlockAddress | 3.Software/vs2019_proj/lv_drivers/display/ST7565.c:255-264 | a page block selects hardware page 7 - p, column x1, and read-modify-write mode |
| St7565.NibbleRoundTrip | 3.Software/vs2019_proj/lv_drivers/display/ST7565.c:255-264 | the column nibbles survive the column commands |
| St7565.PageBlockData | 3.Software/vs2019_proj/lv_drivers/display/ST7565.c:255-264 | after the four commands the block carries columns x1..x2 of the page |
| St7565.PageBlockLength | 3.Software/vs2019_proj/lv_drivers/display/ST7565.c:255-264 | a block is four commands plus the columns |
| St7565.SyncStream | 3.Software/vs2019_proj/lv_drivers/display/ST7565.c:249-267 | definition of the transfers `st7565_sync` sends; `SyncStreamLength`, `SyncStreamSplit`, `PageBlockAddress` and `PageBlockData` state them |
| St7565.SyncStreamLength | 3.Software/vs2019_proj/lv_drivers/display/ST7565.c:249-267 | `sync` sends one block per page |
| St7565.OnePageMore | 3.Software/vs2019_proj/lv_drivers/display/ST7565.c:249-267 | one more page adds one block |
| St7565.SyncStreamSplit | 3.Software/vs2019_proj/lv_drivers/display/ST7565.c:249-267 | page p's block sits between those of the pages before and after |
| St7565.MapMisreadsClippedArea | 3.Software/vs2019_proj/lv_drivers/display/ST7565.c:224-235 | as written, an area clipped on the left or at the top draws its first on-screen pixel from the area's first colour, which is not that pixel's |
| St7565.MapRightOnScreen | 3.Software/vs2019_proj/lv_drivers/display/ST7565.c:224-235 | with nothing clipped on the left or top the pointer arithmetic as written is right |
| St7565.Display.constructor | 3.Software/vs2019_proj/lv_drivers/display/ST7565.c:83 | the buffer `{0xAA, 0xAA}` then zeros |
| St7565.Display.Init | 3.Software/vs2019_proj/lv_drivers/display/ST7565.c:132 | the buffer cleared: every pixel off |
| St7565.Display.Fill | 3.Software/vs2019_proj/lv_drivers/display/ST7565.c:174-203 | every pixel of the clipped area becomes the colour, no other changes; the touched pages are synced |
| St7565.Display.FillRow | 3.Software/vs2019_proj/lv_drivers/display/ST7565.c:192-200 | one row of the fill |
| St7565.Display.Map | 3.Software/vs2019_proj/lv_drivers/display/ST7565.c:136-170 | `flush`/`map` as written: each pixel of the clipped area is set exactly when the colour at the pointer offset as written is dark; other pixels unchanged; the touched pages synced |
| St7565.Display.MapCorrected | 3.Software/vs2019_proj/lv_drivers/display/ST7565.c:205-238 | corrected: each pixel of the clipped area takes the colour at its own place in the area's row-major colours |
| St7565.Display.MapRow | 3.Software/vs2019_proj/lv_drivers/display/ST7565.c:224-235 | one row of the map, the pointer advancing by the row's pixels |
| St7565.Display.Sync | 3.Software/vs2019_proj/lv_drivers/display/ST7565.c:249-267 | the transfers are `SyncStream` of the area's pages and columns |
| St7565.Display.SendPage | 3.Software/vs2019_proj/lv_drivers/display/ST7565.c:255-264 | one page block |
| St7565.Display.SendColumns | 3.Software/vs2019_proj/lv_drivers/display/ST7565.c:259-263 | the page's columns as data |
| St7565.MapRowStep | 3.Software/vs2019_proj/lv_drivers/display/ST7565.c:224-235 | one more row keeps the map loop's invariant |
| St7565.MapRowInBounds | 3.Software/vs2019_proj/lv_drivers/display/ST7565.c:224-235 | as written, every row reads inside the colour array |
| St7565.AreaRowInBounds | 3.Software/vs2019_proj/lv_drivers/display/ST7565.c:224-235 | corrected, every row reads inside the colour array |
| St7565.NextRow | 3.Software/vs2019_proj/lv_drivers/display/ST7565.c:224-235 | the next row starts w entries on |
| Uc1610.Color2 | 3.Software/LvglSimulator/vs2019_proj/lv_drivers/display/UC1610.c:184-188 | definition of the colour reduction to two bits; `Color2Level` states it |
| Uc1610.PixIdx | 3.Software/LvglSimulator/vs2019_proj/lv_drivers/display/UC1610.c:86 | definition of `PIXIDX`; `SetField` and `SetPx` state what storing it does |
| Uc1610.Color2Level | 3.Software/LvglSimulator/vs2019_proj/lv_drivers/display/UC1610.c:184-188 | the 2-bit colour keeps the top two bits: a 1-bit colour becomes 0 or 3, a wider one the level whose band holds it |
| Uc1610.SetField | 3.Software/LvglSimulator/vs2019_proj/lv_drivers/display/UC1610.c:190-191 | the store sets the row's field and keeps the other three |
| Uc1610.FieldsDetermineByte | 3.Software/LvglSimulator/vs2019_proj/lv_drivers/display/UC1610.c:86 | bytes with the same fields are equal |
| Uc1610.SetPx | 3.Software/LvglSimulator/vs2019_proj/lv_drivers/display/UC1610.c:177-192 | the pixel becomes the reduced colour; no other byte and no other field of its byte changes |
| Uc1610.PlacesDistinct | 3.Software/LvglSimulator/vs2019_proj/lv_drivers/display/UC1610.c:181 | different pixels of a buffer have different (byte, field) places |
| Uc1610.OtherPixelsKept | 3.Software/LvglSimulator/vs2019_proj/lv_drivers/display/UC1610.c:177-192 | when no index wraps, every other pixel keeps its colour |
| Uc1610.ByteIndexExact | 3.Software/LvglSimulator/vs2019_proj/lv_drivers/display/UC1610.c:181 | the uint16_t index is exact in range |
| Uc1610.Rounder | 3.Software/LvglSimulator/vs2019_proj/lv_drivers/display/UC1610.c:194-200 | rows widen to whole pages of four, containing the area |
| Uc1610.RounderIdempotent | 3.Software/LvglSimulator/vs2019_proj/lv_drivers/display/UC1610.c:194-200 | rounding twice is rounding once |
| Uc1610.Flush | 3.Software/LvglSimulator/vs2019_proj/lv_drivers/display/UC1610.c:135-175 | nothing for an area off the screen, iff |
| Uc1610.FlushClips | 3.Software/LvglSimulator/vs2019_proj/lv_drivers/display/UC1610.c:143-160 | the window is the area clipped to the screen, in columns and pages |
| Uc1610.FlushSendsPageWindow | 3.Software/LvglSimulator/vs2019_proj/lv_drivers/display/UC1610.c:149-160 | for a rounded area, `buf_size` is exactly the bytes of the page window |
| Uc1610.PageProduct | 3.Software/LvglSimulator/vs2019_proj/lv_drivers/display/UC1610.c:149 | the byte count fits uint16_t |
| Uc1610.UnroundedAreaUndercounts | 3.Software/LvglSimulator/vs2019_proj/lv_drivers/display/UC1610.c:149 | an area of rows 3 and 4 spans two pages but `buf_size` counts one: the size is right only after the rounder |
| Xpt2046.RawAxis | 3.Software/LvglSimulator/vs2019_proj/lv_drivers/indev/XPT2046.c:74-89 | definition of one axis read from the two SPI bytes; `RawAxisValue` states its value |
| Xpt2046.CorrAxis | 3.Software/LvglSimulator/vs2019_proj/lv_drivers/indev/XPT2046.c:114-144 | definition of one axis of `xpt2046_corr`; `CorrAxisExact`, `CorrAxisInRange` and `CorrAxisMonotone` state its properties |
| Xpt2046.Corr | 3.Software/LvglSimulator/vs2019_proj/lv_drivers/indev/XPT2046.c:114-144 | definition of `xpt2046_corr`: optional swap, then `CorrAxis` per axis; `Touch.Read` uses it |
| Xpt2046.RawAxisValue | 3.Software/LvglSimulator/vs2019_proj/lv_drivers/indev/XPT2046.c:74-89 | a reading is the 12-bit conversion in bits 14..3 |
| Xpt2046.CorrAxisExact | 3.Software/LvglSimulator/vs2019_proj/lv_drivers/indev/XPT2046.c:114-144 | within the raw range no step wraps: the result is the scaled offset (inverted if set) |
| Xpt2046.CorrAxisInRange | 3.Software/LvglSimulator/vs2019_proj/lv_drivers/indev/XPT2046.c:114-144 | a reading maps into 0..res |
| Xpt2046.CorrAxisMonotone | 3.Software/LvglSimulator/vs2019_proj/lv_drivers/indev/XPT2046.c:123-133 | without inversion the correction is monotone |
| Xpt2046.SumBounds | 3.Software/LvglSimulator/vs2019_proj/lv_drivers/indev/XPT2046.c:162-167 | values between lo and hi add up to between n lo and n hi |
| Xpt2046.MeanBetween | 3.Software/LvglSimulator/vs2019_proj/lv_drivers/indev/XPT2046.c:170-171 | the truncated mean lies between the smallest and largest sample |
| Xpt2046.TruncBetween | 3.Software/LvglSimulator/vs2019_proj/lv_drivers/indev/XPT2046.c:170-171 | truncating division keeps between the bounds |
| Xpt2046.FloorBetween | 3.Software/LvglSimulator/vs2019_proj/lv_drivers/indev/XPT2046.c:170-171 | so does Euclidean division on non-negative values |
| Xpt2046.Touch.constructor | 3.Software/LvglSimulator/vs2019_proj/lv_drivers/indev/XPT2046.c:35-37 | the globals start zeroed |
| Xpt2046.Touch.Read | 3.Software/LvglSimulator/vs2019_proj/lv_drivers/indev/XPT2046.c:60-109 | touched: the sample calibrated and averaged into the buffers, reported pressed and remembered; released: the remembered point reported released, the average count reset to 0; never more data |
| Xpt2046.Touch.Avg | 3.Software/LvglSimulator/vs2019_proj/lv_drivers/indev/XPT2046.c:147-172 | the point goes in front, the oldest drops, the count grows to the maximum, and the result is the truncated mean of the kept points; the first one is returned as it is |
| Xpt2046.ShiftIn | 3.Software/LvglSimulator/vs2019_proj/lv_drivers/indev/XPT2046.c:151-159 | every entry moves up one, the last falls out, v goes in front |
| Xpt2046.SumPrefix | 3.Software/LvglSimulator/vs2019_proj/lv_drivers/indev/XPT2046.c:162-167 | the sum of the first n entries |
| Xpt2046.MeanOfInt16 | 3.Software/LvglSimulator/vs2019_proj/lv_drivers/indev/XPT2046.c:170-171 | the mean of int16_t values is an int16_t |
| Xpt2046.FirstTouchIsItself | 3.Software/LvglSimulator/vs2019_proj/lv_drivers/indev/XPT2046.c:170-171 | a single sample's mean is itself |
| Imu.TiltStep | 2.Firmware/HoloCubic-fw/src/imu.cpp:22-37 | a tilt past 3000 steps the encoder (down for positive ay) iff flag is set, and clears it; any other reading sets it |
| Imu.HeldTwice | 2.Firmware/HoloCubic-fw/src/imu.cpp:22-37 | two due updates under a held tilt step once and keep the flag |
| Imu.HeldTilt | 2.Firmware/HoloCubic-fw/src/imu.cpp:22-37 | a tilt held through 2n due updates steps n times |
| Imu.HeldSplit | 2.Firmware/HoloCubic-fw/src/imu.cpp:22-37 | updates compose |
| Imu.ImuDevice.constructor | 2.Firmware/HoloCubic-fw/src/imu.cpp:3-9 | all state zero |
| Imu.Elapsed | 2.Firmware/HoloCubic-fw/src/imu.cpp:22 | definition of the due test in `unsigned long` arithmetic; `ImuDevice.Update` states what happens on each side of it |
| Imu.ImuDevice.Update | 2.Firmware/HoloCubic-fw/src/imu.cpp:11-50 | the sample is kept; when the interval elapsed (uint32_t wrap), the tilt step is added to `encoder_diff` as int32_t, the push state is pressed iff ax > 10000, and the second clock reading is noted; otherwise nothing else changes |
| Imu.ImuDevice.GetAccelX | 2.Firmware/HoloCubic-fw/src/imu.cpp:52-55 | the last sample's ax |
| Imu.ImuDevice.GetAccelY | 2.Firmware/HoloCubic-fw/src/imu.cpp:57-60 | the last sample's ay |
| Imu.ImuDevice.GetAccelZ | 2.Firmware/HoloCubic-fw/src/imu.cpp:62-65 | the last sample's az |
| Imu.ImuDevice.GetGyroX | 2.Firmware/HoloCubic-fw/src/imu.cpp:67-70 | the last sample's gx |
| Imu.ImuDevice.GetGyroY | 2.Firmware/HoloCubic-fw/src/imu.cpp:72-75 | the last sample's gy |
| Imu.ImuDevice.GetGyroZ | 2.Firmware/HoloCubic-fw/src/imu.cpp:77-80 | the last sample's gz |
| Imu.TurnWraps | 2.Firmware/HoloCubic-fw/src/imu.cpp:24-33 | the counter adds its step exactly away from the ends of int32_t, and wraps at them |
| Imu.UpdateThenRead | 2.Firmware/HoloCubic-fw/src/imu.cpp:11-60 | a getter after an update reads that update's sample |
| Keyboard.KeycodeToAscii | 3.Software/vs2019_proj/lv_drivers/indev/keyboard.c:92-129 | navigation keys become LVGL keys, every other code passes through |
| Keyboard.BackspaceAndDelete | 3.Software/vs2019_proj/lv_drivers/indev/keyboard.c:113-121 | Backspace and Delete give LVGL's backspace and delete keys, as the `#ifdef` cases would |
| Keyboard.KeycodeIdempotent | 3.Software/vs2019_proj/lv_drivers/indev/keyboard.c:92-129 | renaming twice is renaming once |
| Keyboard.KeyboardDriver.constructor | 3.Software/vs2019_proj/lv_drivers/indev/keyboard.c:28-29 | no key, released |
| Keyboard.KeyboardDriver.Handler | 3.Software/vs2019_proj/lv_drivers/indev/keyboard.c:66-81 | key down remembered and pressed; key up released, key kept; other events ignored |
| Keyboard.KeyboardDriver.Read | 3.Software/vs2019_proj/lv_drivers/indev/keyboard.c:53-60 | the state and the renamed last key; nothing buffered |
| Keyboard.PressRelease | 3.Software/vs2019_proj/lv_drivers/indev/keyboard.c:53-81 | a key pressed and released reads back renamed, as pressed then released |
| MouseWheel.WheelDiff | 3.Software/LvglSimulator/vs2019_proj/lv_drivers/indev/mousewheel.c:73-79 | definition of the wheel's effect on `enc_diff` in both builds; `WheelOverwrites` and `WheelStepsOnce` state it |
| MouseWheel.WheelOverwrites | 3.Software/LvglSimulator/vs2019_proj/lv_drivers/indev/mousewheel.c:78 | the native build reports the last wheel event's notches, negated |
| MouseWheel.WheelStepsOnce | 3.Software/LvglSimulator/vs2019_proj/lv_drivers/indev/mousewheel.c:73-76 | the Emscripten build steps once against the wheel's sign |
| MouseWheel.MouseWheelDriver.constructor | 3.Software/LvglSimulator/vs2019_proj/lv_drivers/indev/mousewheel.c:27-28 | no turn, released |
| MouseWheel.MouseWheelDriver.Handler | 3.Software/LvglSimulator/vs2019_proj/lv_drivers/indev/mousewheel.c:67-94 | the wheel sets the turn, the middle button the push; other events do nothing |
| MouseWheel.MouseWheelDriver.Read | 3.Software/LvglSimulator/vs2019_proj/lv_drivers/indev/mousewheel.c:52-61 | the push state and the turn, then the turn cleared |
| LvPortIndev.EncoderPort.constructor | 2.Firmware/HoloCubic-fw/src/lv_port_indev.c:20-21 | no turn, released |
| LvPortIndev.EncoderPort.Read | 2.Firmware/HoloCubic-fw/src/lv_port_indev.c:78-87 | the turn goes to LVGL truncated to `int16_t` (its `enc_diff`), with the push state; then the turn is cleared; nothing buffered |
| LvPortIndev.EncoderPort.Handler | 2.Firmware/HoloCubic-fw/src/lv_port_indev.c:90-97 | the turn is kept, the push released |
| LvPortIndev.EveryStepReportedOnce | 2.Firmware/HoloCubic-fw/src/lv_port_indev.c:78-87 | read-and-clear loses and repeats nothing: reported plus pending is the start plus all steps |
| LvPortIndev.ReadClearsAll | 2.Firmware/HoloCubic-fw/src/lv_port_indev.c:78-87 | right after a read nothing is pending |
| LvPortIndev.HandOverExact | 2.Firmware/HoloCubic-fw/src/lv_port_indev.c:81 | the `int16_t` hand-over keeps a turn exactly iff it lies in -32768..32767 |
| LvPortIndev.Handed | 2.Firmware/HoloCubic-fw/src/lv_port_indev.c:81-84 | one `enc_diff` value per read, never more values than events |
| LvPortIndev.HandedMatchesLedger | 2.Firmware/HoloCubic-fw/src/lv_port_indev.c:78-87 | when every read finds a turn that fits `int16_t`, the values LVGL receives add up to every reported step |
| LvPortIndev.LargeTurnTruncated | 2.Firmware/HoloCubic-fw/src/lv_port_indev.c:81 | a pending turn of 32768 steps reaches LVGL as -32768 |


## Left out

- `Sprite.TftSprite` has no viewport. The viewport and datum offsets and
  `_vpOoB` (Sprite.cpp:1626-1632, 894-905, 956-958) are not modelled:
  the viewport is always the whole sprite, so `InView` is the sprite's
  own range check.
- Sprite's 1-bit stores outside the image are dropped. At rotations 4
  and up (Sprite.cpp:1656-1672), and wherever a 16-, 8- or 4-bit store
  would fall past the buffer, `Drawn` and `Written` leave the buffer
  unchanged. `PixelValue` reads such positions as 0, and `PixelColor`
  reads them as `bitmap_bg` at 1 bit. The C code indexes `_img8` there
  anyway and reaches memory outside the image.
- Sprite: the second frame buffer `_img8_2`, `frameBuffer`,
  `cursor_x`/`cursor_y`, `setPivot`, the drawing primitives built on
  `drawPixel`, and `pushSprite`/`pushImage` are not part of this model.
  `drawChar`, `drawGlyph` and `printToSprite` depend on font tables and
  font files that are not part of this model; `pushSprite` and
  `pushToSprite` hand the pixels to the TFT hardware; `getRotatedBounds`
  and `pushRotated` compute with `sin`/`cos` in floating point.
- Sprite integer overflow: `int32_t` overflow in `setWindow` and
  `setScrollRect` arithmetic is not modelled, because the arguments are
  mathematical integers.
- Sprite palette allocation: the palette's `calloc` never fails here.
  The FLASH `createPalette` does not free an old palette, and the RAM
  one frees it. Neither matters to the stored entries, so both are left
  out.
- Sprite returned pointers: `createSprite` returns a pointer in C. Here
  it returns an `ok` flag, and the heap is a number of free bytes.
- `Sprite.TftSprite.constructor`: the C constructor leaves the sizes and
  the scroll rectangle uninitialised. The model starts them at 0 and
  ties them down only once the sprite is created.
- `TftButton.Button.DrawButton` returns what would be drawn (colours,
  radius, text place and caption) rather than drawing. The graphics
  calls are not part of this model.
- `TftButton.Button.constructor` keeps whatever `_label` held, given as
  `mem`. Its tenth byte is never written by `initButtonUL` (Button.h:41,
  Button.cpp:38), so a nine-character label is followed by that byte
  when it is not NUL. `LabelCaption` states the three cases.
- `Imu.ImuDevice.Update` reads the clock twice (imu.cpp:22 and
  imu.cpp:48), and the two readings are separate parameters. `getMotion6`
  and the I2C bus are replaced by the sample parameter.
- `IMU::init`, `lv_port_indev_init`, `keyboard_init`, `mousewheel_init`,
  `xpt2046_init` and `uc1610_init` are left out, as are ST7565's panel
  command sequence and all SPI/I2C transfers. These are hardware
  set-up; ST7565's transfers appear as a list of `Transfer` values.
- `lv_disp_flush_ready` signals to LVGL are left out.
- `LvPortIndev.EveryStepReportedOnce` counts its ledger in whole
  numbers. `encoder_diff` itself is an `int32_t` (imu.h:14,
  lv_port_indev.c:20), and `Imu.ImuDevice.Update` wraps it with
  `CInt.ToInt32`, while `Imu.TurnWraps` states where that wrap
  happens. So the no-loss ledger holds for histories that stay inside
  `int32_t`.
- `LvPortIndev.EncoderPort.Read` hands LVGL the turn as an `int16_t`
  (`lv_indev_data_t.enc_diff`, lv_port_indev.c:81), so a pending turn
  outside -32768..32767 arrives truncated (`LargeTurnTruncated`). The
  ledger of `EveryStepReportedOnce` counts the turn before that
  truncation; `HandedMatchesLedger` states that LVGL receives the same
  total when every read finds a turn that fits `int16_t`.
- C signed overflow, undefined in C, is modelled as two's-complement
  wrap where the code can reach it. This covers the button corner, the
  encoder counter and the touch intermediates.
- Xpt2046: the 32-bit sum in `xpt2046_avg` cannot overflow with
  `int16_t` samples and a buffer of fewer than 2^16 entries, so no wrap
  is modelled there. `Xpt2046.Touch.Read` takes the two SPI bytes of
  each axis as a parameter.
- Keyboard and MouseWheel: SDL event structs are reduced to the fields
  the handlers read.
- core.py imaging:
  - PIL is not part of this model: opening, `convert`, palette
    quantisation, `getcolors` and `getpixel`. The picture arrives as
    rows of pixels, with its palette and colour count.
  - File I/O is left out: `open`, `get_c_code_file` writing, and
    argument parsing. `_get_c_header` is plain text.
  - The raw formats' file is a byte parameter; reading the file is I/O.
  - The `cf == "raw"` string check in `__init__` (core.py:91-92) is
    the front end's choice of format, so the raw formats are chosen by
    the colour-format value.
- `LvImgConvertor.Convertor.Convert` converts the original picture on
  every call: the picture is a constant of the converter. In core.py an
  indexed format's first `convert` replaces `self.img` with its mode "P"
  conversion (core.py:125-127), and the "revert" at core.py:145-147 pastes
  the black `img_tmp` over it, since `img_tmp` was only ever pasted onto
  itself (core.py:126). A second `convert` of an indexed format in core.py
  therefore reads a flat image; the model does not capture that state.
  PIL's `paste` is not part of this model.
- `LvImgFormat.ClassifyPixel` and `LvImgDither.RoundDiv16Nearest`: core.py
  computes `math.ceil(value / tmp)` and `round(err * k / 16)` in
  floating point. The model uses exact integers. The divisors are powers
  of two and the values are small, so the floating-point results are
  exact; this is argued, not proved.
- `Bmp2Array4Bit.ReadHeader`: `struct.unpack("I")` and `("H")` in
  bmp2array4bit.py use the host's native byte order and size. The model
  reads 4- and 2-byte little-endian fields, so it assumes a little-endian
  host with a 4-byte `unsigned int`.
- bmp2array4bit.py: its debug printing and file writing are left out.
  The file's bytes are a parameter, and the script's output is returned
  as text.

## Findings

| source | as written | input that shows it | evidently intended | confidence | as-written member | corrected member |
|---|---|---|---|---|---|---|
| 3.Software/vs2019_proj/lv_drivers/display/ST7565.c:224-235 | After clipping an area to the screen, `map` (and `flush`, 155-166) starts reading colours at `color_p[0]`. Per row it skips only the columns clipped on the right, never those clipped on the left or the rows clipped above. | The area (-1, 0)-(0, 0): screen pixel (0, 0) is drawn from colour 0, which belongs to the off-screen pixel (-1, 0). This is reached only when a caller passes an area that starts left of or above the screen. LVGL's own refresh clips areas to the screen first. | Each pixel takes the colour at its own place in the area's row-major array. | not executed | `St7565.Display.Map`, `St7565.MapMisreadsClippedArea` | `St7565.Display.MapCorrected` |
| 2.Firmware/HoloCubic-fw/lib/TFT_eSPI/Extensions/Sprite.cpp:926-942 | At rotations 1 and 3 of a 1-bit sprite, `readPixelValue` (and `readPixel`, 996-1012) maps the point with `_dheight` where `drawPixel` (1656-1672) uses `_dwidth`, and the other way round. | A 16x8 sprite at rotation 1, with pixel (0, 0) drawn: `drawPixel` sets column 15 of row 0. The reads look at column 7 and return 0 (`readPixel`: `bitmap_bg`). Point (0, 15) is read outside the image. | The reads use `drawPixel`'s map, so a drawn pixel reads back. `Sprite.TftSprite.ReadPixelValue` and `ReadPixel` use this corrected map. | not executed | `Sprite.RotatedReadMissesDraw`, `Sprite.BitColorAsWritten` | `Sprite.DrawnReadsBack`, `Sprite.PixelColorOfValue` |
| 3.Software/ImageToHolo/convertor/core.py:234-252 | The pixel lines hold `x_end // ppb` tokens each, `y_end` lines, but a row collected `RowTokens(w)` tokens. So every true-colour format of 2 or more bytes a pixel, and every packed width that is not a multiple of the pixels per byte, loses tokens. The raw formats (198-200) walk `len(d_out)` entries from entry 1, which runs past the end. | One RGB565 pixel: 2 tokens are collected and 1 is printed. A raw file of 1 byte raises IndexError. | Every token collected is printed, and the raw walk starts at entry 0. | not executed | `LvImgText.PrintedRowsTruncate`, `LvImgText.Rgb565ArrayDropsByte`, `LvImgText.RawArrayOverruns` | `LvImgText.FixedArrayRoundTrip` |
| 3.Software/ImageToHolo/convertor/core.py:45-47 | `CF_RAW_CHROMA = 12` repeats `CF_RAW`'s value. The footer's table (299-301) therefore declares a `CF_RAW` image as `LV_IMG_CF_RAW_CHROMA_KEYED`. | Any raw image written with `cf = CF_RAW`. | The chroma-keyed raw format has its own code, and `CF_RAW` is declared `LV_IMG_CF_RAW`. | not executed | `LvImgText.RawFooterIsChromaKeyed` | `LvImgText.CfNameFixedInjective` |

=== FILE: arith.dfy ===
/** Facts about integer division and multiplication the index arithmetic needs. */
module Arith {
  /** A number is its last digit plus `base` times the rest. */
  lemma SplitDigit(v: nat, base: nat)
    requires base > 0
    ensures v == v % base + base * (v / base)
  {
  }

  /** Digit `lo` below `hi` reads back as `lo` and `hi`. */
  lemma JoinDigit(lo: nat, hi: nat, base: nat)
    requires lo < base
    ensures (lo + base * hi) % base == lo && (lo + base * hi) / base == hi
  {
    var v := lo + base * hi;
    SplitDigit(v, base);
    DivUnique(v, base, hi, lo);
  }

  lemma DivUnique(v: nat, base: nat, q: nat, r: nat)
    requires r < base && v == q * base + r
    ensures v / base == q && v % base == r
  {
    var q', r' := v / base, v % base;
    assert q' * base + r' == q * base + r;
    if q' < q {
      MulStepUp(q', q, base);
    } else if q < q' {
      MulStepUp(q, q', base);
    }
  }

  /** A larger factor adds at least one more `base`. */
  lemma MulStepUp(a: nat, b: nat, base: nat)
    requires a < b
    ensures a * base + base <= b * base
  {
    MulLe(a + 1, b, base);
    assert (a + 1) * base == a * base + base;
  }

  lemma MulLe(a: int, b: int, c: nat)
    requires a <= b
    ensures a * c <= b * c
  {
    assert b * c == a * c + (b - a) * c;
  }

  /** Row-major positions `x + y * w` of distinct points with `x < w` are distinct. */
  lemma RowMajorDistinct(x: nat, y: nat, x': nat, y': nat, w: nat)
    requires x < w && x' < w && (x, y) != (x', y')
    ensures x + y * w != x' + y' * w
  {
    if y < y' {
      MulStepUp(y, y', w);
    } else if y' < y {
      MulStepUp(y', y, w);
    }
  }

  /** With rows a multiple of `k` long, a row-major position splits by `k` as its column does. */
  lemma AlignedRow(x: nat, y: nat, w: nat, k: nat)
    requires k > 0 && w % k == 0
    ensures (x + y * w) / k == x / k + y * (w / k) && (x + y * w) % k == x % k
  {
    var m := w / k;
    SplitDigit(w, k);
    assert y * w == k * (y * m);
    SplitDigit(x, k);
    DivUnique(x + y * w, k, x / k + y * m, x % k);
  }

  /** A point of a `w` x `h` grid has its row-major position below `w * h`. */
  lemma RowMajorBound(x: nat, y: nat, w: nat, h: nat)
    requires x < w && y < h
    ensures x + y * w < w * h
  {
    MulStepUp(y, h, w);
    assert h * w == w * h;
  }

  /** One factor fewer is one `n` less. */
  lemma MulPred(k: nat, n: nat)
    requires k > 0
    ensures (k - 1) * n + n == k * n
  {
  }

  /** Rounding `v` up to a multiple of `base`: at least `v`, less than `base` more, and a multiple. */
  lemma RoundUp(v: nat, base: nat)
    requires base > 0
    ensures var r := (v + base - 1) / base * base;
      v <= r < v + base && r % base == 0
  {
    var q := (v + base - 1) / base;
    SplitDigit(v + base - 1, base);
    assert q * base == base * q;
    JoinDigit(0, q, base);
  }

  /**
   * `a * b` by repeated addition (0 for `b <= 0`): the solver unfolds it one
   * step at a time, so contexts that only carry it stay linear.
   */
  function Times(a: int, b: int): int
  {
    if b <= 0 then 0 else Times(a, b - 1) + a
  }

  /** `Times` is the product. */
  lemma {:induction false} TimesIsProduct(a: int, b: nat)
    ensures Times(a, b) == a * b
  {
    if b > 0 {
      TimesIsProduct(a, b - 1);
    }
  }
}

=== FILE: bmp2array4bit.dfy ===
/**
 * The `bmp2array4bit.py` converter: it reads the header of a 4-bit indexed
 * BMP file, turns its colour table into RGB565 palette entries and prints
 * the palette and the pixel bytes, bottom-up rows flipped to top-down, as C
 * arrays. The file's bytes are the input; the printed text, or the error the
 * script stops with, is the output.
 */
module Bmp2Array4Bit {
  import opened Wrappers
  import opened Text
  import Seqs
  import opened Arith

  /** An element of Python's `bytearray`. */
  type Byte = b: int | 0 <= b < 0x100

  // ---------------------------------------------------------------------
  // Little-endian header fields
  // ---------------------------------------------------------------------

  /** `struct.unpack("H", ...)` of the two bytes at `at`. */
  function LeU16(c: seq<Byte>, at: nat): (v: nat)
    requires at + 2 <= |c|
    ensures v < 0x1_0000
  {
    c[at] as int + 0x100 * c[at + 1] as int
  }

  /** `struct.unpack("I", ...)` of the four bytes at `at`, least significant first. */
  function LeU32(c: seq<Byte>, at: nat): (v: nat)
    requires at + 4 <= |c|
    ensures v < 0x1_0000_0000
  {
    c[at] as int + 0x100 * (c[at + 1] as int + 0x100 * (c[at + 2] as int + 0x100 * c[at + 3] as int))
  }

  /** The four bytes a little-endian writer puts down for `v`. */
  function LeBytes32(v: nat): (b: seq<Byte>)
    requires v < 0x1_0000_0000
    ensures |b| == 4
  {
    [v % 0x100, v / 0x100 % 0x100, v / 0x100 / 0x100 % 0x100, v / 0x100 / 0x100 / 0x100]
  }

  /** Reading a written field gives the value back. */
  lemma LeU32OfBytes(v: nat, rest: seq<Byte>)
    requires v < 0x1_0000_0000
    ensures LeU32(LeBytes32(v) + rest, 0) == v
  {
    var v1 := v / 0x100;
    var v2 := v1 / 0x100;
    SplitDigit(v, 0x100);
    SplitDigit(v1, 0x100);
    SplitDigit(v2, 0x100);
  }

  /** Writing a read field gives the bytes back. */
  lemma LeBytesOfU32(c: seq<Byte>, at: nat)
    requires at + 4 <= |c|
    ensures LeBytes32(LeU32(c, at)) == c[at .. at + 4]
  {
    var h2 := c[at + 2] as int + 0x100 * c[at + 3] as int;
    var h1 := c[at + 1] as int + 0x100 * h2;
    JoinDigit(c[at + 2], c[at + 3], 0x100);
    JoinDigit(c[at + 1], h2, 0x100);
    JoinDigit(c[at], h1, 0x100);
  }

  /** The header fields the script reads. */
  datatype Header = Header(
    fileSize: nat,
    offset: nat,             // where the pixel array starts
    headerSize: nat,
    width: nat,
    height: nat,
    planes: nat,
    bitsPerPixel: nat,
    colorsUsed: nat)
  {
    /** `startOfDefinitions`: the colour table follows the info header, which starts at byte 14. */
    function StartOfDefinitions(): nat
    {
      headerSize + 14
    }
  }

  /** Bytes the header reads cover: the last field read, `biClrImportant`, ends at byte 54. */
  const HeaderEnd := 54

  /** The fields at their BMP offsets: file header at 0, info header at 14. */
  function HeaderOf(c: seq<Byte>): Header
    requires |c| >= HeaderEnd
  {
    Header(LeU32(c, 2), LeU32(c, 10), LeU32(c, 14), LeU32(c, 18), LeU32(c, 22),
           LeU16(c, 26), LeU16(c, 28), LeU32(c, 46))
  }

  /**
   * The header reads of lines 69-150, advancing the `upto` cursor. Every
   * read needs its bytes inside the file; the furthest ends at byte 54, so a
   * shorter file raises `IndexError` at one of them.
   */
  method ReadHeader(contents: seq<Byte>) returns (r: Result<Header>)
    ensures |contents| < HeaderEnd ==> r == Err(IndexError)
    ensures |contents| >= HeaderEnd ==> r == Ok(HeaderOf(contents))
  {
    if |contents| < HeaderEnd {
      return Err(IndexError);
    }
    var upto := 2;
    var fileSize := LeU32(contents, upto);
    upto := upto + 4;
    upto := upto + 4;   // four reserved bytes
    var offset := LeU32(contents, upto);
    upto := upto + 4;
    var headerLength := LeU32(contents, upto);
    upto := upto + 4;
    var width := LeU32(contents, upto);
    upto := upto + 4;
    var height := LeU32(contents, upto);
    upto := upto + 4;
    var planes := LeU16(contents, upto);
    upto := upto + 2;
    var bitsPerPixel := LeU16(contents, upto);
    upto := upto + 2;
    upto := upto + 4;   // biCompression
    upto := upto + 4;   // biSizeImage
    upto := upto + 4;   // biXPelsPerMeter
    upto := upto + 4;   // biYPelsPerMeter
    var colorsUsed := LeU32(contents, upto);
    upto := upto + 4;
    assert upto + 4 == HeaderEnd;   // biClrImportant is read last
    r := Ok(Header(fileSize, offset, headerLength, width, height, planes, bitsPerPixel, colorsUsed));
  }

  // ---------------------------------------------------------------------
  // Palette
  // ---------------------------------------------------------------------

  /**
   * `((red & 0xf8) << 8) + ((green & 0xfc) << 3) + (blue >> 3)`; on a byte,
   * `& 0xf8` clears the three low bits, `<< 8` multiplies by 256 and `>> 3`
   * divides by 8.
   */
  function Color565(red: Byte, green: Byte, blue: Byte): (c: nat)
    ensures c < 0x1_0000
  {
    (red / 8 * 8) as int * 0x100 + (green / 4 * 4) as int * 8 + blue / 8
  }

  /** The entry keeps the top five bits of red and blue and the top six of green, in that order. */
  lemma Color565Fields(red: Byte, green: Byte, blue: Byte)
    ensures Color565(red, green, blue) / 0x20 / 0x40 == red / 8
    ensures Color565(red, green, blue) / 0x20 % 0x40 == green / 4
    ensures Color565(red, green, blue) % 0x20 == blue / 8
  {
    var gr := green / 4 + 0x40 * (red / 8);
    assert Color565(red, green, blue) == blue / 8 + 0x20 * gr;
    JoinDigit(blue / 8, gr, 0x20);
    JoinDigit(green / 4, red / 8, 0x40);
  }

  /** A colour-table entry is stored blue, green, red, unused. */
  function ColorAt(c: seq<Byte>, at: nat): (v: nat)
    requires at + 4 <= |c|
    ensures v < 0x1_0000
  {
    Color565(c[at + 2], c[at + 1], c[at])
  }

  /** Each of the `n` entries is read whole (the debug line also reads its fourth byte). */
  predicate PaletteInFile(c: seq<Byte>, start: nat, n: nat)
  {
    n == 0 || start + 4 * n <= |c|
  }

  /** `colorIndex` after the palette loop: entry `i` from bytes `start + 4 i` on. */
  function Palette(c: seq<Byte>, start: nat, n: nat): (p: seq<nat>)
    requires PaletteInFile(c, start, n)
    ensures |p| == n && Words(p)
  {
    if n == 0 then [] else Palette(c, start, n - 1) + [ColorAt(c, start + 4 * (n - 1))]
  }

  lemma {:induction false} PaletteIndex(c: seq<Byte>, start: nat, n: nat, i: nat)
    requires PaletteInFile(c, start, n) && i < n
    ensures start + 4 * i + 4 <= |c|
    ensures Palette(c, start, n)[i] == ColorAt(c, start + 4 * i)
  {
    if i < n - 1 {
      PaletteIndex(c, start, n - 1, i);
    }
  }

  /**
   * The two loops of lines 155-173: `colorsUsed` zeros, then entry `i`
   * overwritten from the colour table; a table running past the end of the
   * file raises `IndexError`.
   */
  method ReadPalette(contents: seq<Byte>, startOfDefinitions: nat, colorsUsed: nat) returns (r: Result<seq<nat>>)
    ensures PaletteInFile(contents, startOfDefinitions, colorsUsed)
         ==> r == Ok(Palette(contents, startOfDefinitions, colorsUsed))
    ensures !PaletteInFile(contents, startOfDefinitions, colorsUsed) ==> r == Err(IndexError)
  {
    var colorIndex: seq<nat> := [];
    var k := 0;
    while k < colorsUsed
      invariant k <= colorsUsed && colorIndex == seq(k, _ => 0)
    {
      colorIndex := colorIndex + [0];
      k := k + 1;
    }
    var i := 0;
    while i < colorsUsed
      invariant i <= colorsUsed && |colorIndex| == colorsUsed
      invariant PaletteInFile(contents, startOfDefinitions, i)
      invariant colorIndex[..i] == Palette(contents, startOfDefinitions, i)
    {
      var upto := startOfDefinitions + i * 4;
      if upto + 3 >= |contents| {
        return Err(IndexError);
      }
      var blue, green, red := contents[upto], contents[upto + 1], contents[upto + 2];
      colorIndex := colorIndex[i := Color565(red, green, blue)];
      assert colorIndex[..i + 1] == colorIndex[..i] + [colorIndex[i]];
      i := i + 1;
    }
    assert colorIndex == colorIndex[..colorsUsed];
    return Ok(colorIndex);
  }

  // ---------------------------------------------------------------------
  // Text of the palette
  // ---------------------------------------------------------------------

  /** Python's `s[:-2]`. */
  function DropLast2(s: string): (t: string)
    ensures |t| == if |s| >= 2 then |s| - 2 else 0
    ensures t <= s
  {
    if |s| >= 2 then s[..|s| - 2] else ""
  }

  const Preamble := "/* This was generated using a script based on the SparkFun BMPtoArray python script\n"
                  + " See https://github.com/sparkfun/BMPtoArray for more info */\n\n"

  predicate Words(cs: seq<nat>)
  {
    forall i :: 0 <= i < |cs| ==> cs[i] < 0x1_0000
  }

  /** Entry `i`: a new tab-indented line before every fourth one, then `0x%04x, `. */
  function PaletteEntry(i: nat, v: nat): string
    requires v < 0x1_0000
  {
    (if i % 4 == 0 then "\n\t" else "") + HexWordToken(v) + ", "
  }

  /** The text the palette loop of lines 186-190 appends. */
  function PaletteText(cs: seq<nat>): (s: string)
    requires Words(cs)
  {
    if |cs| == 0 then "" else PaletteText(cs[..|cs| - 1]) + PaletteEntry(|cs| - 1, cs[|cs| - 1])
  }

  /** Where entry `i`'s `0x` token starts: eight characters an entry, two more a line. */
  function TokenStart(i: nat): nat
  {
    8 * i + 2 * (i / 4 + 1)
  }

  lemma {:induction false} PaletteTextLength(cs: seq<nat>)
    requires Words(cs)
    ensures |PaletteText(cs)| == TokenStart(|cs|) - 2 * (if |cs| % 4 == 0 then 1 else 0)
  {
    if |cs| > 0 {
      var m := |cs| - 1;
      PaletteTextLength(cs[..m]);
      assert |PaletteEntry(m, cs[m])| == 8 + 2 * (if m % 4 == 0 then 1 else 0);
      TokenStep(m);
    }
  }

  lemma TokenStep(m: nat)
    ensures TokenStart(m + 1) - 2 * (if (m + 1) % 4 == 0 then 1 else 0) == TokenStart(m) + 8
  {
  }

  /**
   * Entry `i` of the palette is printed as its own `0x%04x` token, which
   * reads back as the entry; a line break and tab come before it exactly
   * when `i` is a multiple of four, a `", "` otherwise.
   */
  lemma PaletteListsEntries(cs: seq<nat>, i: nat)
    requires Words(cs) && i < |cs|
    ensures TokenStart(i) + 6 <= |PaletteText(cs)|
    ensures ParseHexToken(PaletteText(cs)[TokenStart(i) .. TokenStart(i) + 6]) == Some(cs[i])
    ensures PaletteText(cs)[TokenStart(i) - 2 .. TokenStart(i)] == if i % 4 == 0 then "\n\t" else ", "
  {
    PaletteEntryAt(cs, i);
    HexWordTokenRoundTrip(cs[i]);
    var t, o := PaletteText(cs), TokenStart(i);
    var sep: string := if i % 4 == 0 then "\n\t" else ", ";
    assert t[o - 2 .. o + 6] == sep + HexWordToken(cs[i]);
    assert t[o .. o + 6] == t[o - 2 .. o + 6][2..];
    assert t[o - 2 .. o] == t[o - 2 .. o + 6][..2];
  }

  lemma {:induction false} PaletteEntryAt(cs: seq<nat>, i: nat)
    requires Words(cs) && i < |cs|
    ensures TokenStart(i) + 6 <= |PaletteText(cs)|
    ensures PaletteText(cs)[TokenStart(i) - 2 .. TokenStart(i) + 6]
         == (if i % 4 == 0 then "\n\t" else ", ") + HexWordToken(cs[i])
  {
    var n := |cs|;
    if i < n - 1 {
      var front := cs[..n - 1];
      var t, e := PaletteText(front), PaletteEntry(n - 1, cs[n - 1]);
      var o := TokenStart(i);
      PaletteEntryAt(front, i);
      assert front[i] == cs[i];
      assert PaletteText(cs) == t + e;
      Seqs.AppendSliceLeft(t, e, o - 2, o + 6);
      assert PaletteText(cs)[o - 2 .. o + 6] == t[o - 2 .. o + 6];
    } else {
      PaletteLastEntry(cs, i);
    }
  }

  lemma PaletteLastEntry(cs: seq<nat>, i: nat)
    requires Words(cs) && i == |cs| - 1
    ensures TokenStart(i) + 6 <= |PaletteText(cs)|
    ensures PaletteText(cs)[TokenStart(i) - 2 .. TokenStart(i) + 6]
         == (if i % 4 == 0 then "\n\t" else ", ") + HexWordToken(cs[i])
  {
    var front := cs[..i];
    var t, e := PaletteText(front), PaletteEntry(i, cs[i]);
    var o := TokenStart(i);
    PaletteTextLength(front);
    assert PaletteText(cs) == t + e;
    if i % 4 == 0 {
      assert o == |t| + 2;
      assert e == "\n\t" + HexWordToken(cs[i]) + ", ";
      assert (t + e)[o - 2 .. o + 6] == e[..8];
    } else {
      assert o == |t|;
      PaletteTextTail(front);
      assert e == HexWordToken(cs[i]) + ", ";
      Seqs.AppendSliceAcross(t, e, o - 2, o + 6);
    }
  }

  /** A non-empty palette's text ends with the separator `", "`. */
  lemma PaletteTextTail(cs: seq<nat>)
    requires Words(cs) && |cs| > 0
    ensures |PaletteText(cs)| >= 2 && PaletteText(cs)[|PaletteText(cs)| - 2 ..] == ", "
  {
    var m := |cs| - 1;
    var e := PaletteEntry(m, cs[m]);
    assert PaletteText(cs) == PaletteText(cs[..m]) + e;
    assert e[|e| - 2 ..] == ", ";
  }

  /**
   * The palette declaration of lines 183-193: the comment, the opening
   * `{`, the entries, then the last two characters cut (the final `", "`,
   * or the ` {` itself when there are no entries) and the closing brace.
   */
  function Heading(cs: seq<nat>): string
    requires Words(cs)
  {
    DropLast2(Preamble + "static const uint16_t palette[" + NatToString(|cs|) + "] = {" + PaletteText(cs))
    + "\n};\n\n"
  }

  /** Lines 183-193, the palette loop appending to `outputString`. */
  method WritePalette(colorIndex: seq<nat>) returns (s: string)
    requires Words(colorIndex)
    ensures s == Heading(colorIndex)
  {
    s := Preamble + "static const uint16_t palette[" + NatToString(|colorIndex|) + "] = {";
    ghost var s0 := s;
    var i := 0;
    while i < |colorIndex|
      invariant i <= |colorIndex|
      invariant s == s0 + PaletteText(colorIndex[..i])
    {
      ghost var prev := s;
      if i % 4 == 0 {
        s := s + "\n\t";
      }
      s := s + HexWordToken(colorIndex[i]) + ", ";
      EntryAppended(colorIndex, i, s0, prev, s);
      i := i + 1;
    }
    assert colorIndex[..i] == colorIndex;
    s := DropLast2(s) + "\n};\n\n";
  }

  /** Entry `i` printed after the first `i` extends the palette text. */
  lemma EntryAppended(cs: seq<nat>, i: nat, s0: string, prev: string, s: string)
    requires Words(cs) && i < |cs|
    requires prev == s0 + PaletteText(cs[..i])
    requires s == prev + (if i % 4 == 0 then "\n\t" else "") + HexWordToken(cs[i]) + ", "
    ensures s == s0 + PaletteText(cs[..i + 1])
  {
    assert cs[..i + 1][..i] == cs[..i];
  }

  /** The two lines of lines 194-195 that open the pixel array. */
  function GraphicLine(width: nat, height: nat, arraySize: int): string
  {
    "// width is " + NatToString(width) + ", height is " + NatToString(height) + "\n"
    + "static const uint8_t myGraphic[" + IntToString(arraySize) + "] PROGMEM = {" + "\n"
  }

  // ---------------------------------------------------------------------
  // Pixel rows
  // ---------------------------------------------------------------------

  /** `ceil(4 * width / 32) * 4`: bytes a stored row of 4-bit pixels takes, padded to a multiple of four. */
  function PaddedWidth(width: nat): nat
  {
    (4 * width + 31) / 32 * 4
  }

  /** A padded row holds all `width` nibbles, and less than four bytes of padding. */
  lemma PaddedWidthFits(width: nat)
    ensures PaddedWidth(width) % 4 == 0
    ensures 4 * width <= 8 * PaddedWidth(width) < 4 * width + 32
  {
  }

  /**
   * Whether every byte the pixel loop reads lies in the file. Stored row
   * `height - 1` is read first and lies furthest in.
   */
  predicate PixelsInFile(c: seq<Byte>, offset: nat, paddedWidth: nat, w2: nat, height: nat)
  {
    height == 0 || w2 == 0 || RowBase(offset, paddedWidth, height - 1) + w2 <= |c|
  }

  /**
   * The first `n` rows printed: printed row `j` is the first `w2` bytes of
   * stored row `height - 1 - j`, so the bottom-up file comes out top-down.
   */
  /** Where stored row `col` starts in the file: rows follow each other from `offset` on. */
  function RowBase(offset: nat, paddedWidth: nat, col: nat): nat
  {
    if col == 0 then offset else RowBase(offset, paddedWidth, col - 1) + paddedWidth
  }

  /** The start of stored row `col` is `offset + col * paddedWidth`, the index the loop reads from. */
  lemma {:induction false} RowBaseOffset(offset: nat, paddedWidth: nat, col: nat)
    ensures RowBase(offset, paddedWidth, col) == offset + col * paddedWidth
  {
    if col > 0 {
      RowBaseOffset(offset, paddedWidth, col - 1);
      assert col * paddedWidth == (col - 1) * paddedWidth + paddedWidth;
    }
  }

  lemma {:induction false} RowBaseGrows(offset: nat, paddedWidth: nat, a: nat, b: nat)
    requires a <= b
    ensures RowBase(offset, paddedWidth, a) <= RowBase(offset, paddedWidth, b)
  {
    if a < b {
      RowBaseGrows(offset, paddedWidth, a, b - 1);
    }
  }

  /** Every stored row lies in the file once the furthest one does. */
  lemma RowInFile(c: seq<Byte>, offset: nat, paddedWidth: nat, w2: nat, height: nat, col: nat)
    requires PixelsInFile(c, offset, paddedWidth, w2, height) && col < height
    ensures w2 == 0 || RowBase(offset, paddedWidth, col) + w2 <= |c|
  {
    RowBaseGrows(offset, paddedWidth, col, height - 1);
  }

  /**
   * The `n` bytes from `base` on; empty when they run past the end of the
   * file, where the loop stops with `IndexError` instead.
   */
  function Run(c: seq<Byte>, base: nat, n: nat): (run: seq<Byte>)
    ensures |run| == if base + n <= |c| then n else 0
  {
    if base + n <= |c| then c[base .. base + n] else []
  }

  /** Printed row `j` is the first `w2` bytes of stored row `height - 1 - j`. */
  function OutRow(c: seq<Byte>, offset: nat, paddedWidth: nat, w2: nat, height: nat, j: nat): seq<Byte>
    requires j < height
  {
    Run(c, RowBase(offset, paddedWidth, height - 1 - j), w2)
  }

  /** The first `n` rows printed; the bottom-up file comes out top-down. */
  function OutRows(c: seq<Byte>, offset: nat, paddedWidth: nat, w2: nat, height: nat, n: nat)
    : (rows: seq<seq<Byte>>)
    requires n <= height
    ensures |rows| == n
  {
    if n == 0 then []
    else OutRows(c, offset, paddedWidth, w2, height, n - 1) + [OutRow(c, offset, paddedWidth, w2, height, n - 1)]
  }

  /** One more row printed appends its text. */
  lemma RowsStep(c: seq<Byte>, offset: nat, paddedWidth: nat, w2: nat, height: nat, j: nat)
    requires j < height && PixelsInFile(c, offset, paddedWidth, w2, height)
    ensures RowsText(OutRows(c, offset, paddedWidth, w2, height, j + 1))
         == RowsText(OutRows(c, offset, paddedWidth, w2, height, j))
            + RowText(OutRow(c, offset, paddedWidth, w2, height, j), j == 0)
  {
    var rows := OutRows(c, offset, paddedWidth, w2, height, j + 1);
    assert rows[..j] == OutRows(c, offset, paddedWidth, w2, height, j);
  }

  lemma {:induction false} OutRowsIndex(c: seq<Byte>, offset: nat, paddedWidth: nat, w2: nat, height: nat,
                                        n: nat, j: nat)
    requires n <= height && PixelsInFile(c, offset, paddedWidth, w2, height) && j < n
    ensures OutRows(c, offset, paddedWidth, w2, height, n)[j] == OutRow(c, offset, paddedWidth, w2, height, j)
  {
    if j < n - 1 {
      OutRowsIndex(c, offset, paddedWidth, w2, height, n - 1, j);
    }
  }

  /**
   * The printed bytes, in order: exactly `height * (width / 2)` of them, byte
   * `j * w2 + k` taken from offset `k` of stored row `height - 1 - j`.
   */
  lemma PixelStream(c: seq<Byte>, offset: nat, paddedWidth: nat, w2: nat, height: nat, j: nat, k: nat)
    requires PixelsInFile(c, offset, paddedWidth, w2, height)
    requires j < height && k < w2
    ensures |Seqs.Flatten(OutRows(c, offset, paddedWidth, w2, height, height))| == height * w2
    ensures 0 <= j * w2 && j * w2 + k < height * w2
    ensures RowBase(offset, paddedWidth, height - 1 - j) + k < |c|
    ensures Seqs.Flatten(OutRows(c, offset, paddedWidth, w2, height, height))[j * w2 + k]
         == c[RowBase(offset, paddedWidth, height - 1 - j) + k]
  {
    var rows := OutRows(c, offset, paddedWidth, w2, height, height);
    assert Seqs.Uniform(rows, w2) by {
      forall i | 0 <= i < height
        ensures |rows[i]| == w2
      {
        OutRowsIndex(c, offset, paddedWidth, w2, height, height, i);
        OutRowAt(c, offset, paddedWidth, w2, height, i, height - 1 - i);
      }
    }
    Seqs.FlattenLength(rows, w2);
    Seqs.FlattenIndex(rows, w2, j, k);
    OutRowsIndex(c, offset, paddedWidth, w2, height, height, j);
    OutRowAt(c, offset, paddedWidth, w2, height, j, height - 1 - j);
  }

  /**
   * With the file ending at the last stored row, the declared array size
   * `len(contents) - offset` exceeds the `height * (width / 2)` bytes
   * printed by the row padding and the dropped odd nibble.
   */
  lemma DeclaredSizeCountsPadding(c: seq<Byte>, offset: nat, width: nat, height: nat)
    requires |c| == offset + height * PaddedWidth(width)
    ensures |c| - offset - height * (width / 2) == height * (PaddedWidth(width) - width / 2)
    ensures PaddedWidth(width) >= width / 2
  {
    PaddedWidthFits(width);
    assert height * PaddedWidth(width) - height * (width / 2) == height * (PaddedWidth(width) - width / 2);
  }

  // ---------------------------------------------------------------------
  // Text of the pixel rows
  // ---------------------------------------------------------------------

  /**
   * What the loop prints before byte `k` of a row: a blank line between
   * rows, a line break before every eleventh byte within a row.
   */
  function Sep(firstRow: bool, k: nat): string
  {
    if k == 0 then (if firstRow then "" else "\n\n")
    else if k % 11 == 0 then "\n"
    else ""
  }

  /** One row's bytes, each as `0x%02x, ` after its separator. */
  function RowText(bytes: seq<Byte>, firstRow: bool): string
  {
    if |bytes| == 0 then ""
    else
      var k := |bytes| - 1;
      RowText(bytes[..k], firstRow) + (Sep(firstRow, k) + (HexByteTokenLower(bytes[k]) + ", "))
  }

  /** The rows' text one after the other. */
  function RowsText(rows: seq<seq<Byte>>): string
  {
    if |rows| == 0 then "" else RowsText(rows[..|rows| - 1]) + RowText(rows[|rows| - 1], |rows| == 1)
  }

  /**
   * Lines 207-228: rows from stored row `height - 1` down to 0, the counter
   * `r` of bytes printed so far and `i` of bytes on the current line.
   */
  method AppendPixels(contents: seq<Byte>, offset: nat, paddedWidth: nat, width: nat, height: nat, s0: string)
    returns (res: Result<string>)
    ensures res.Ok? <==> PixelsInFile(contents, offset, paddedWidth, width, height)
    ensures res.Ok? ==> res.value == s0 + RowsText(OutRows(contents, offset, paddedWidth, width, height, height))
    ensures res.Err? ==> res.error == IndexError
  {
    var s := s0;
    var r: nat := 0;
    var j: nat := 0;   // rows printed; the script counts `col` down from `height - 1` instead
    while j < height
      invariant j <= height
      invariant j > 0 ==> PixelsInFile(contents, offset, paddedWidth, width, height)
      invariant r == BytesBefore(j, width)
      invariant s == s0 + RowsText(OutRows(contents, offset, paddedWidth, width, height, j))
    {
      var col := height - 1 - j;
      var rowStart := col * paddedWidth + offset;
      RowBaseOffset(offset, paddedWidth, col);
      var row := AppendRow(contents, rowStart, width, j, r, s);
      if row.Err? {
        RowOutOfFile(contents, offset, paddedWidth, width, height, col);
        return Err(IndexError);
      }
      RowAppended(contents, offset, paddedWidth, width, height, j, s0, s, row.value);
      s, r := row.value, r + width;
      j := j + 1;
    }
    return Ok(s);
  }

  lemma OutRowAt(c: seq<Byte>, offset: nat, paddedWidth: nat, w2: nat, height: nat, j: nat, col: nat)
    requires PixelsInFile(c, offset, paddedWidth, w2, height) && j < height && col == height - 1 - j
    ensures w2 == 0 || RowBase(offset, paddedWidth, col) + w2 <= |c|
    ensures OutRow(c, offset, paddedWidth, w2, height, j) == Run(c, RowBase(offset, paddedWidth, col), w2)
  {
    RowInFile(c, offset, paddedWidth, w2, height, col);
  }

  /**
   * Printed row `j` read in full from the file extends the text of the rows
   * before it; once the first printed row (the furthest stored row) is
   * read, every row is in the file.
   */
  lemma RowAppended(c: seq<Byte>, offset: nat, paddedWidth: nat, w2: nat, height: nat, j: nat,
                    s0: string, s: string, s': string)
    requires j < height && (j > 0 ==> PixelsInFile(c, offset, paddedWidth, w2, height))
    requires w2 == 0 || RowBase(offset, paddedWidth, height - 1 - j) + w2 <= |c|
    requires s == s0 + RowsText(OutRows(c, offset, paddedWidth, w2, height, j))
    requires s' == s + RowText(Run(c, RowBase(offset, paddedWidth, height - 1 - j), w2), j == 0)
    ensures PixelsInFile(c, offset, paddedWidth, w2, height)
    ensures s' == s0 + RowsText(OutRows(c, offset, paddedWidth, w2, height, j + 1))
  {
    RowsStep(c, offset, paddedWidth, w2, height, j);
    Seqs.AppendAssoc(s0, RowsText(OutRows(c, offset, paddedWidth, w2, height, j)),
                     RowText(OutRow(c, offset, paddedWidth, w2, height, j), j == 0));
  }

  /**
   * The inner loop of lines 213-228 for the stored row starting at
   * `rowStart` (`col * paddedWidth + offset`), printed as row `j`: the
   * counter `r` counts the bytes printed before, `i` those on the current
   * line.
   */
  method AppendRow(contents: seq<Byte>, rowStart: nat, width: nat, ghost j: nat, r0: nat, s0: string)
    returns (res: Result<string>)
    requires r0 == BytesBefore(j, width)
    ensures res.Ok? <==> width == 0 || rowStart + width <= |contents|
    ensures res.Ok? ==> Printed(contents, rowStart, width, j == 0, s0, res.value)
    ensures res.Err? ==> res.error == IndexError
  {
    var s := s0;
    var r: nat := r0;
    var i: nat := 0;
    var row: nat := 0;
    while row < width
      invariant 0 <= row <= width
      invariant i == LineCount(row)
      invariant r == r0 + row
      invariant row == 0 || rowStart + row <= |contents|
      invariant Printed(contents, rowStart, row, j == 0, s0, s)
    {
      if row + rowStart >= |contents| {
        return Err(IndexError);
      }
      s, r, i := PrintByte(contents, rowStart, row, r, i, width, j, s0, s);
      row := row + 1;
    }
    return Ok(s);
  }

  /** `s` is `s0` followed by the text of the first `n` bytes from `base`. */
  ghost predicate Printed(c: seq<Byte>, base: nat, n: nat, firstRow: bool, s0: string, s: string)
  {
    s == s0 + RowText(Run(c, base, n), firstRow)
  }

  /**
   * One pass of the `row` loop, lines 217-228: the separator the counters
   * call for, then the byte as `0x%02x, `; the counters move on.
   */
  method PrintByte(contents: seq<Byte>, base: nat, row: nat, r: nat, i: nat, width: nat, ghost j: nat,
                   ghost s0: string, s: string)
    returns (s': string, r': nat, i': nat)
    requires row < width && r == BytesBefore(j, width) + row && i == LineCount(row)
    requires base + row < |contents| && Printed(contents, base, row, j == 0, s0, s)
    ensures Printed(contents, base, row + 1, j == 0, s0, s')
    ensures r' == r + 1 && i' == LineCount(row + 1)
  {
    var colorCode1 := contents[base + row];
    CountersSep(r, i, j, row, width);
    s', i' := s, i;
    if r > 0 && r % width == 0 {
      i' := 0;
      s' := s' + "\n\n";
    } else if (i' + 1) % 12 == 0 {
      s' := s' + "\n";
      i' := 0;
    }
    assert s' == s + Sep(j == 0, row);
    r' := r + 1;
    i' := i' + 1;
    s' := s' + (HexByteTokenLower(colorCode1) + ", ");
    Seqs.AppendAssoc(s, Sep(j == 0, row), HexByteTokenLower(colorCode1) + ", ");
    CellAppended(contents, base, row, j == 0, s0, s, s');
  }

  /** The next byte of the file printed after its separator extends the row's text. */
  lemma CellAppended(c: seq<Byte>, base: nat, n: nat, firstRow: bool, s0: string, prev: string, s: string)
    requires base + n < |c|
    requires prev == s0 + RowText(Run(c, base, n), firstRow)
    requires s == prev + (Sep(firstRow, n) + (HexByteTokenLower(c[base + n]) + ", "))
    ensures s == s0 + RowText(Run(c, base, n + 1), firstRow)
  {
    var bytes := Run(c, base, n);
    RunStep(c, base, n);
    assert (bytes + [c[base + n]])[..n] == bytes;
    Seqs.AppendAssoc(s0, RowText(bytes, firstRow), Sep(firstRow, n) + (HexByteTokenLower(c[base + n]) + ", "));
  }

  lemma RunStep(c: seq<Byte>, base: nat, n: nat)
    requires base + n < |c|
    ensures Run(c, base, n + 1) == Run(c, base, n) + [c[base + n]]
  {
  }

  /** A stored row running past the end of the file means the bytes do not all fit. */
  lemma RowOutOfFile(c: seq<Byte>, offset: nat, paddedWidth: nat, w2: nat, height: nat, col: nat)
    requires col < height && w2 > 0 && RowBase(offset, paddedWidth, col) + w2 > |c|
    ensures !PixelsInFile(c, offset, paddedWidth, w2, height)
  {
    if PixelsInFile(c, offset, paddedWidth, w2, height) {
      RowInFile(c, offset, paddedWidth, w2, height, col);
    }
  }

  /** The counter `r` at the start of printed row `j`: `j * width`, counted a row at a time. */
  function BytesBefore(j: nat, width: nat): nat
  {
    if j == 0 then 0 else BytesBefore(j - 1, width) + width
  }

  lemma {:induction false} BytesBeforeProduct(j: nat, width: nat)
    ensures BytesBefore(j, width) == j * width
  {
    if j > 0 {
      BytesBeforeProduct(j - 1, width);
      assert j * width == (j - 1) * width + width;
    }
  }

  /** The value of the line counter `i` before byte `row` of a row. */
  function LineCount(row: nat): nat
  {
    if row == 0 then 0 else (row - 1) % 11 + 1
  }

  /**
   * The counters pick the separator `Sep` prescribes: `r` marks the first
   * byte of every row but the first, `i` every eleventh byte within a row;
   * either way the line counter restarts.
   */
  lemma CountersSep(r: nat, i: nat, j: nat, row: nat, width: nat)
    requires row < width && r == BytesBefore(j, width) + row && i == LineCount(row)
    ensures (r > 0 && r % width == 0) == (row == 0 && j > 0)
    ensures (i + 1) % 12 == 0 <==> row > 0 && row % 11 == 0
    ensures LineCount(row + 1) == if (row == 0 && j > 0) || (i + 1) % 12 == 0 then 1 else i + 1
  {
    BytesBeforeProduct(j, width);
    JoinDigit(row, j, width);
  }

  // ---------------------------------------------------------------------
  // The bytes the pixel text lists
  // ---------------------------------------------------------------------

  /** The text with its line breaks taken out. */
  function DropNewlines(s: string): (t: string)
    ensures |t| <= |s|
  {
    if |s| == 0 then ""
    else DropNewlines(s[..|s| - 1]) + (if s[|s| - 1] == '\n' then "" else [s[|s| - 1]])
  }

  lemma {:induction false} DropNewlinesAppend(a: string, b: string)
    ensures DropNewlines(a + b) == DropNewlines(a) + DropNewlines(b)
  {
    if |b| == 0 {
      assert a + b == a;
    } else {
      var m := |b| - 1;
      var last := if b[m] == '\n' then "" else [b[m]];
      assert (a + b)[..|a + b| - 1] == a + b[..m];
      assert DropNewlines(a + b) == DropNewlines(a + b[..m]) + last;
      DropNewlinesAppend(a, b[..m]);
      Seqs.AppendAssoc(DropNewlines(a), DropNewlines(b[..m]), last);
    }
  }

  lemma {:induction false} DropNewlinesNone(s: string)
    requires forall i :: 0 <= i < |s| ==> s[i] != '\n'
    ensures DropNewlines(s) == s
  {
    if |s| > 0 {
      DropNewlinesNone(s[..|s| - 1]);
    }
  }

  /** `0x%02x, ` for each byte, one after the other. */
  function Tokens(bytes: seq<Byte>): (t: string)
    ensures |t| == 6 * |bytes|
  {
    if |bytes| == 0 then ""
    else Tokens(bytes[..|bytes| - 1]) + (HexByteTokenLower(bytes[|bytes| - 1]) + ", ")
  }

  lemma {:induction false} TokensAppend(a: seq<Byte>, b: seq<Byte>)
    ensures Tokens(a + b) == Tokens(a) + Tokens(b)
  {
    if |b| == 0 {
      assert a + b == a;
    } else {
      var m := |b| - 1;
      assert (a + b)[..|a + b| - 1] == a + b[..m];
      assert Tokens(a + b) == Tokens(a + b[..m]) + (HexByteTokenLower(b[m]) + ", ");
      TokensAppend(a, b[..m]);
      Seqs.AppendAssoc(Tokens(a), Tokens(b[..m]), HexByteTokenLower(b[m]) + ", ");
    }
  }

  /** A byte's token holds no line break. */
  lemma TokenUnbroken(b: Byte)
    ensures DropNewlines(HexByteTokenLower(b) + ", ") == HexByteTokenLower(b) + ", "
  {
    var t := HexByteTokenLower(b) + ", ";
    assert t[2..4] == FixedHex(b, 2, false);
    assert t[2] == Digit(b / 16 % 16, 16, false) && t[3] == Digit(b % 16, 16, false);
    DropNewlinesNone(t);
  }

  /** A row's text is its bytes' tokens with line breaks in between. */
  lemma {:induction false} RowTextTokens(bytes: seq<Byte>, firstRow: bool)
    ensures DropNewlines(RowText(bytes, firstRow)) == Tokens(bytes)
  {
    if |bytes| > 0 {
      var k := |bytes| - 1;
      var cell := HexByteTokenLower(bytes[k]) + ", ";
      RowTextTokens(bytes[..k], firstRow);
      DropNewlinesAppend(RowText(bytes[..k], firstRow), Sep(firstRow, k) + cell);
      DropNewlinesAppend(Sep(firstRow, k), cell);
      assert DropNewlines(Sep(firstRow, k)) == "";
      TokenUnbroken(bytes[k]);
    }
  }

  /** The pixel text is the printed bytes' tokens, in order, with line breaks in between. */
  lemma {:induction false} RowsTextTokens(rows: seq<seq<Byte>>)
    ensures DropNewlines(RowsText(rows)) == Tokens(Seqs.Flatten(rows))
  {
    if |rows| > 0 {
      var m := |rows| - 1;
      RowsTextTokens(rows[..m]);
      DropNewlinesAppend(RowsText(rows[..m]), RowText(rows[m], |rows| == 1));
      RowTextTokens(rows[m], |rows| == 1);
      TokensAppend(Seqs.Flatten(rows[..m]), rows[m]);
    }
  }

  /** Token `k` sits six characters a byte in. */
  lemma {:induction false} TokenAt(bytes: seq<Byte>, k: nat)
    requires k < |bytes|
    ensures Tokens(bytes)[6 * k .. 6 * k + 6] == HexByteTokenLower(bytes[k]) + ", "
  {
    var m := |bytes| - 1;
    var t := Tokens(bytes[..m]);
    var e := HexByteTokenLower(bytes[m]) + ", ";
    assert Tokens(bytes) == t + e;
    if k < m {
      TokenAt(bytes[..m], k);
      Seqs.AppendSliceLeft(t, e, 6 * k, 6 * k + 6);
    } else {
      assert (t + e)[6 * k .. 6 * k + 6] == e;
    }
  }

  /** Token `k` reads back as byte `k`. */
  lemma TokenReadsBack(bytes: seq<Byte>, k: nat)
    requires k < |bytes|
    ensures ParseHexToken(Tokens(bytes)[6 * k .. 6 * k + 4]) == Some(bytes[k] as nat)
  {
    TokenAt(bytes, k);
    TokenHead(Tokens(bytes), 6 * k, HexByteTokenLower(bytes[k]));
    HexByteTokenLowerRoundTrip(bytes[k]);
  }

  lemma TokenHead(t: string, i: nat, token: string)
    requires |token| == 4 && i + 6 <= |t| && t[i .. i + 6] == token + ", "
    ensures t[i .. i + 4] == token
  {
    assert t[i .. i + 4] == t[i .. i + 6][..4];
  }

  /**
   * With line breaks taken out, the text of the printed rows is six
   * characters a byte, and token `m` reads back as byte `m` of the rows one
   * after the other (which `PixelStream` locates in the file).
   */
  lemma PixelTextLists(rows: seq<seq<Byte>>, m: nat)
    requires m < |Seqs.Flatten(rows)|
    ensures |DropNewlines(RowsText(rows))| == 6 * |Seqs.Flatten(rows)|
    ensures ParseHexToken(DropNewlines(RowsText(rows))[6 * m .. 6 * m + 4]) == Some(Seqs.Flatten(rows)[m] as nat)
  {
    RowsTextTokens(rows);
    TokenReadsBack(Seqs.Flatten(rows), m);
  }

  // ---------------------------------------------------------------------
  // The whole script
  // ---------------------------------------------------------------------

  /** The pixel rows' text for the header's geometry. */
  function PixelText(c: seq<Byte>, h: Header): string
  {
    RowsText(OutRows(c, h.offset, PaddedWidth(h.width), h.width / 2, h.height, h.height))
  }

  /**
   * What the script writes for file `c`, or the error it stops with: the
   * header, the colour table and every pixel byte must lie in the file, and
   * the bit depth must be 4. The text loses its last `", "` and gets `};`.
   */
  function Output(c: seq<Byte>): (r: Result<string>)
    ensures r.Ok? <==> |c| >= HeaderEnd && HeaderOf(c).bitsPerPixel == 4
                       && PaletteInFile(c, HeaderOf(c).StartOfDefinitions(), HeaderOf(c).colorsUsed)
                       && PixelsInFile(c, HeaderOf(c).offset, PaddedWidth(HeaderOf(c).width),
                                       HeaderOf(c).width / 2, HeaderOf(c).height)
    ensures r.Err? ==> r.error == IndexError || r.error == BadBitDepth
  {
    if |c| < HeaderEnd then Err(IndexError)
    else
      var h := HeaderOf(c);
      if !PaletteInFile(c, h.StartOfDefinitions(), h.colorsUsed) then Err(IndexError)
      else if h.bitsPerPixel != 4 then Err(BadBitDepth)
      else if !PixelsInFile(c, h.offset, PaddedWidth(h.width), h.width / 2, h.height) then Err(IndexError)
      else
        var heading := Heading(Palette(c, h.StartOfDefinitions(), h.colorsUsed));
        Ok(DropLast2(heading + GraphicLine(h.width, h.height, |c| - h.offset) + PixelText(c, h)) + "};")
  }

  /**
   * A bit depth other than 4 stops the script whatever the pixel bytes are:
   * files that agree on the header and the colour table end the same way.
   */
  lemma BadDepthBeforePixels(c: seq<Byte>, c': seq<Byte>)
    requires |c| >= HeaderEnd && HeaderOf(c).bitsPerPixel != 4
    requires PaletteInFile(c, HeaderOf(c).StartOfDefinitions(), HeaderOf(c).colorsUsed)
    requires |c'| >= HeaderEnd && c'[..HeaderEnd] == c[..HeaderEnd]
    requires PaletteInFile(c', HeaderOf(c).StartOfDefinitions(), HeaderOf(c).colorsUsed)
    ensures Output(c) == Output(c') == Err(BadBitDepth)
  {
    assert HeaderOf(c') == HeaderOf(c) by {
      forall i | 0 <= i < HeaderEnd
        ensures c'[i] == c[i]
      {
        assert c'[..HeaderEnd][i] == c[..HeaderEnd][i];
      }
    }
  }

  /** The script, lines 66-236, on the file's bytes. */
  method Convert(contents: seq<Byte>) returns (r: Result<string>)
    ensures r == Output(contents)
  {
    var header := ReadHeader(contents);
    if header.Err? {
      return Err(header.error);
    }
    var h := header.value;
    var colors := ReadPalette(contents, h.StartOfDefinitions(), h.colorsUsed);
    if colors.Err? {
      return Err(colors.error);
    }
    var arraySize := |contents| - h.offset;
    var s := WritePalette(colors.value);
    s := s + GraphicLine(h.width, h.height, arraySize);
    if h.bitsPerPixel != 4 {
      return Err(BadBitDepth);
    }
    var paddedWidth := PaddedWidth(h.width);   // `bitsPerPixel` is 4 here
    var width := h.width / 2;
    var pixels := AppendPixels(contents, h.offset, paddedWidth, width, h.height, s);
    if pixels.Err? {
      return Err(pixels.error);
    }
    return Ok(DropLast2(pixels.value) + "};");
  }
}

=== FILE: button.dfy ===
/**
 * TFT_eSPI's on-screen button: a rectangle with a label, hit-tested against
 * touch points, with the last two pressed states kept for edge detection.
 */
module TftButton {
  import opened CInt

  /** `MC_DATUM`: text drawn centred on its anchor. */
  const MC_DATUM: Uint8 := 4
  const NUL: char := '\0'

  /** `x1 <= px < x1 + w && y1 <= py < y1 + h`: the left and top edges are in, the right and bottom ones out. */
  predicate Inside(x1: int, y1: int, w: int, h: int, px: int, py: int)
  {
    x1 <= px < x1 + w && y1 <= py < y1 + h
  }

  /** A button made with centre `(x, y)` and an odd or even size contains its centre, unless `int16_t` wraps its corner. */
  lemma CentreInside(x: Int16, y: Int16, w: Uint16, h: Uint16)
    requires w > 0 && h > 0
    requires -0x8000 <= x - w / 2 && -0x8000 <= y - h / 2
    ensures Inside(ToInt16(x - w / 2), ToInt16(y - h / 2), w, h, x, y)
  {
  }

  /** Two buttons side by side, the second starting where the first ends, share no point. */
  lemma AdjacentDisjoint(x1: int, y1: int, w: int, h: int, w2: int, px: int, py: int)
    ensures !(Inside(x1, y1, w, h, px, py) && Inside(x1 + w, y1, w2, h, px, py))
  {
  }

  /**
   * `strncpy(dst, src, n)` for a string `src` without NULs: its first `n`
   * characters, padded with NULs up to `n`.
   */
  function StrNCpy(src: seq<char>, n: nat): (r: seq<char>)
    ensures |r| == n
    ensures forall i :: 0 <= i < n ==> r[i] == (if i < |src| then src[i] else NUL)
  {
    if n == 0 then [] else StrNCpy(src, n - 1) + [if n - 1 < |src| then src[n - 1] else NUL]
  }

  /** The C string a buffer holds: the characters before its first NUL. */
  function CStr(buf: seq<char>): seq<char>
  {
    if |buf| == 0 || buf[0] == NUL then [] else [buf[0]] + CStr(buf[1..])
  }

  /** A label copied into the nine-character buffer reads back as its first nine characters at most. */
  lemma {:induction false} LabelRoundTrip(src: seq<char>, n: nat)
    requires forall i :: 0 <= i < |src| ==> src[i] != NUL
    ensures CStr(StrNCpy(src, n)) == src[..if |src| < n then |src| else n]
  {
    var buf := StrNCpy(src, n);
    if n > 0 && |src| > 0 {
      assert buf[1..] == StrNCpy(src[1..], n - 1);
      LabelRoundTrip(src[1..], n - 1);
    }
  }

  /**
   * The caption `drawButton` reads from `_label` after `initButtonUL`: a label
   * of up to eight characters reads back whole; a longer one is cut to nine
   * characters when the tenth byte is NUL, and otherwise runs into that
   * byte, which `strncpy` never wrote.
   */
  lemma {:induction false} LabelCaption(src: seq<char>, last: char)
    requires forall i :: 0 <= i < |src| ==> src[i] != NUL
    ensures |src| < 9 ==> CStr(StrNCpy(src, 9) + [last]) == src
    ensures |src| >= 9 && last == NUL ==> CStr(StrNCpy(src, 9) + [last]) == src[..9]
    ensures |src| >= 9 && last != NUL ==> CStr(StrNCpy(src, 9) + [last]) == src[..9] + [last]
  {
    CStrAppend(StrNCpy(src, 9), last, src);
  }

  /** Nine characters of a label, then one more byte, read as a C string. */
  lemma {:induction false} CStrAppend(buf: seq<char>, last: char, src: seq<char>)
    requires forall i :: 0 <= i < |src| ==> src[i] != NUL
    requires |buf| <= 9 && forall i :: 0 <= i < |buf| ==> buf[i] == (if i < |src| then src[i] else NUL)
    ensures |src| < |buf| ==> CStr(buf + [last]) == src
    ensures |src| >= |buf| && last == NUL ==> CStr(buf + [last]) == src[..|buf|]
    ensures |src| >= |buf| && last != NUL ==> CStr(buf + [last]) == src[..|buf|] + [last]
  {
    if |buf| == 0 {
      assert [last][1..] == [];
    } else if |src| == 0 {
      assert (buf + [last])[0] == NUL;
    } else {
      assert (buf + [last])[1..] == buf[1..] + [last];
      CStrAppend(buf[1..], last, src[1..]);
      if |src| >= |buf| {
        assert src[..|buf|] == [src[0]] + src[1..][..|buf| - 1];
      } else {
        assert src == [src[0]] + src[1..];
      }
    }
  }

  /** The fill, outline and text colours one drawing uses. */
  datatype Colors = Colors(fill: Uint16, outline: Uint16, text: Uint16)

  /** `drawButton`'s colour choice: inverted swaps fill and text and keeps the outline. */
  function ButtonColors(inverted: bool, fill: Uint16, outline: Uint16, text: Uint16): (c: Colors)
    ensures c.outline == outline
  {
    if inverted then Colors(text, outline, fill) else Colors(fill, outline, text)
  }

  /** The inverted drawing is the normal one with fill and text exchanged. */
  lemma InvertedSwaps(fill: Uint16, outline: Uint16, text: Uint16)
    ensures var n := ButtonColors(false, fill, outline, text);
      ButtonColors(true, fill, outline, text) == Colors(n.text, n.outline, n.fill)
  {
  }

  /** `uint8_t r = min(_w, _h) / 4`: a quarter of the shorter side, kept to 8 bits. */
  function Radius(w: Uint16, h: Uint16): Uint8
  {
    ToUint8((if w < h then w else h) / 4)
  }

  /** Below 1024 pixels the corner radius is a quarter of the shorter side, rounded down. */
  lemma RadiusQuarter(w: Uint16, h: Uint16)
    requires w < 1024 || h < 1024
    ensures 4 * Radius(w, h) <= w && 4 * Radius(w, h) <= h
    ensures 4 * Radius(w, h) + 4 > w || 4 * Radius(w, h) + 4 > h
  {
  }

  /** What `drawButton` asks the display for. */
  datatype Drawing = Drawing(colors: Colors, radius: Uint8, textX: int, textY: int,
                             caption: seq<char>, datum: Uint8, textSize: Uint8)

  class Button {
    /** `_gfx`, the display to draw on; 0 stands for the null pointer. */
    var gfx: nat
    var x1: Int16
    var y1: Int16
    var xd: Int16
    var yd: Int16
    var w: Uint16
    var h: Uint16
    var textSize: Uint8
    var textDatum: Uint8
    var outline: Uint16
    var fill: Uint16
    var textColor: Uint16
    /** `_label`, ten characters; `strncpy` writes the first nine and never the last. */
    var labelBuf: seq<char>
    var currState: bool
    var lastState: bool

    /** The label buffer has the ten characters `_label[10]` declares. */
    ghost predicate Valid()
      reads this`labelBuf
    {
      |labelBuf| == 10
    }

    /**
     * The constructor sets no display, no label offset and centred text; the
     * other members are left as they are, so `_label` holds whatever `mem`
     * was there before (all NULs for a static button).
     */
    constructor(mem: seq<char>)
      requires |mem| == 10
      ensures Valid() && labelBuf == mem
      ensures gfx == 0 && xd == 0 && yd == 0 && textDatum == MC_DATUM
    {
      gfx := 0;
      xd := 0;
      yd := 0;
      textDatum := MC_DATUM;
      labelBuf := mem;
    }

    /** `initButton`: the centre and size become the upper-left corner, `(x - w/2, y - h/2)` as `int16_t`. */
    method InitButton(gfx: nat, x: Int16, y: Int16, w: Uint16, h: Uint16, outline: Uint16, fill: Uint16,
                      textColor: Uint16, src: seq<char>, textSize: Uint8)
      requires Valid()
      modifies this
      ensures Valid()
      ensures x1 == ToInt16(x - w / 2) && y1 == ToInt16(y - h / 2)
      ensures this.w == w && this.h == h && this.gfx == gfx && labelBuf == StrNCpy(src, 9) + [old(labelBuf)[9]]
      ensures this.outline == outline && this.fill == fill && this.textColor == textColor && this.textSize == textSize
      ensures xd == old(xd) && yd == old(yd) && textDatum == old(textDatum)
      ensures currState == old(currState) && lastState == old(lastState)
    {
      InitButtonUL(gfx, ToInt16(x - w / 2), ToInt16(y - h / 2), w, h, outline, fill, textColor, src, textSize);
    }

    /** `initButtonUL`: stores the corner, size, colours and display, and copies nine label characters. */
    method InitButtonUL(gfx: nat, x1: Int16, y1: Int16, w: Uint16, h: Uint16, outline: Uint16, fill: Uint16,
                        textColor: Uint16, src: seq<char>, textSize: Uint8)
      requires Valid()
      modifies this
      ensures Valid()
      ensures this.x1 == x1 && this.y1 == y1 && this.w == w && this.h == h && this.gfx == gfx
      ensures this.outline == outline && this.fill == fill && this.textColor == textColor && this.textSize == textSize
      ensures labelBuf == StrNCpy(src, 9) + [old(labelBuf)[9]]
      ensures xd == old(xd) && yd == old(yd) && textDatum == old(textDatum)
      ensures currState == old(currState) && lastState == old(lastState)
    {
      this.x1 := x1;
      this.y1 := y1;
      this.w := w;
      this.h := h;
      this.outline := outline;
      this.fill := fill;
      this.textColor := textColor;
      this.textSize := textSize;
      this.gfx := gfx;
      labelBuf := StrNCpy(src, 9) + [labelBuf[9]];
    }

    /** `setLabelDatum`: sets the label offset and datum and nothing else. */
    method SetLabelDatum(xDelta: Int16, yDelta: Int16, datum: Uint8)
      modifies this`xd, this`yd, this`textDatum
      ensures xd == xDelta && yd == yDelta && textDatum == datum
    {
      xd := xDelta;
      yd := yDelta;
      textDatum := datum;
    }

    /**
     * `drawButton`: a rounded rectangle in the chosen colours, and the
     * label (or `long_name` when it is not empty) anchored 4 pixels above
     * the centre, moved by the label offset.
     */
    method DrawButton(inverted: bool, longName: seq<char>) returns (d: Drawing)
      requires gfx != 0 && Valid()
      ensures d.colors == ButtonColors(inverted, fill, outline, textColor)
      ensures d.radius == Radius(w, h) && d.datum == textDatum && d.textSize == textSize
      ensures d.textX == x1 + w / 2 + xd && d.textY == y1 + h / 2 - 4 + yd
      ensures d.caption == if longName == [] then CStr(labelBuf) else longName
    {
      var c := ButtonColors(inverted, fill, outline, textColor);
      var caption := if longName == [] then CStr(labelBuf) else longName;
      d := Drawing(c, Radius(w, h), x1 + w / 2 + xd, y1 + h / 2 - 4 + yd, caption, textDatum, textSize);
    }

    /** `contains`: the half-open rectangle of the button. */
    predicate Contains(px: Int16, py: Int16)
      reads this`x1, this`y1, this`w, this`h
    {
      Inside(x1, y1, w, h, px, py)
    }

    /** `press`: the current state becomes the last one, and `p` the current one. */
    method Press(p: bool)
      modifies this`currState, this`lastState
      ensures lastState == old(currState) && currState == p
      ensures IsPressed() == p
      ensures JustPressed() <==> p && !old(currState)
      ensures JustReleased() <==> !p && old(currState)
    {
      lastState := currState;
      currState := p;
    }

    predicate IsPressed()
      reads this`currState
    {
      currState
    }

    predicate JustPressed()
      reads this`currState, this`lastState
    {
      currState && !lastState
    }

    predicate JustReleased()
      reads this`currState, this`lastState
    {
      !currState && lastState
    }

    /** A button is never pressed and released in the same step. */
    lemma NeverBothEdges()
      ensures !(JustPressed() && JustReleased())
    {
    }
  }
}

=== FILE: cint.dfy ===
/**
 * C integer types and the conversions the C and C++ sources rely on: a
 * value stored into a narrower signed or unsigned type keeps its low bits
 * (two's complement), and unsigned arithmetic is modulo 2^width.
 */
module CInt {
  type Uint8 = x: int | 0 <= x < 0x100
  type Uint16 = x: int | 0 <= x < 0x1_0000
  type Uint32 = x: int | 0 <= x < 0x1_0000_0000
  type Int8 = x: int | -0x80 <= x < 0x80
  type Int16 = x: int | -0x8000 <= x < 0x8000
  type Int32 = x: int | -0x8000_0000 <= x < 0x8000_0000

  /** Conversion to `uint16_t`: the value modulo 2^16. */
  function ToUint16(n: int): (r: Uint16)
    ensures (n - r) % 0x1_0000 == 0
    ensures 0 <= n < 0x1_0000 ==> r == n
  {
    n % 0x1_0000
  }

  /** Conversion to `uint32_t` (and unsigned 32-bit arithmetic): the value modulo 2^32. */
  function ToUint32(n: int): (r: Uint32)
    ensures (n - r) % 0x1_0000_0000 == 0
    ensures 0 <= n < 0x1_0000_0000 ==> r == n
  {
    n % 0x1_0000_0000
  }

  /** Conversion to `uint8_t`: the value modulo 2^8. */
  function ToUint8(n: int): (r: Uint8)
    ensures (n - r) % 0x100 == 0
    ensures 0 <= n < 0x100 ==> r == n
  {
    n % 0x100
  }

  /** Conversion to `int16_t`: the representative of `n` modulo 2^16 in [-2^15, 2^15). */
  function ToInt16(n: int): (r: Int16)
    ensures (n - r) % 0x1_0000 == 0
    ensures -0x8000 <= n < 0x8000 ==> r == n
  {
    var m := n % 0x1_0000;
    if m >= 0x8000 then m - 0x1_0000 else m
  }

  /**
   * `int32_t` arithmetic that leaves the range: the representative of `n`
   * modulo 2^32 in [-2^31, 2^31), the two's complement wrap the ESP32's
   * compiler produces.
   */
  function ToInt32(n: int): (r: Int32)
    ensures (n - r) % 0x1_0000_0000 == 0
    ensures -0x8000_0000 <= n < 0x8000_0000 ==> r == n
  {
    var m := n % 0x1_0000_0000;
    if m >= 0x8000_0000 then m - 0x1_0000_0000 else m
  }
}

=== FILE: imu.dfy ===
/**
 * The firmware's IMU object: each `update` takes a sample from the MPU6050
 * and, at most once per `interval` milliseconds, turns a sideways tilt
 * into encoder steps and a forward tilt into an encoder push.
 */
module Imu {
  import opened CInt
  import opened LvIndev
  import opened LvPortIndev

  /** One `getMotion6` sample: accelerations and rotation rates. */
  datatype Motion = Motion(ax: Int16, ay: Int16, az: Int16, gx: Int16, gy: Int16, gz: Int16)

  /**
   * `millis() - last_update_time > interval`, computed in `unsigned long`
   * (32 bits on the ESP32): the elapsed time wraps modulo 2^32 and the
   * `int` interval is converted to unsigned.
   */
  predicate Elapsed(now: Uint32, last: Uint32, interval: int)
  {
    ToUint32(now - last) > ToUint32(interval)
  }

  /** What one due update does to the encoder: the step it adds and the new `flag`. */
  datatype Tilt = Tilt(step: int, flag: int)

  /**
   * A tilt past 3000 either way steps the encoder (down for positive `ay`)
   * when `flag` is set, and clears it; any other reading sets `flag`.
   */
  function TiltStep(flag: int, ay: int): (t: Tilt)
    ensures -1 <= t.step <= 1
    ensures t.step != 0 <==> flag != 0 && (ay > 3000 || ay < -3000)
    ensures t.step != 0 ==> t.flag == 0
    ensures t.step == 0 ==> t.flag == 1
  {
    if ay > 3000 && flag != 0 then Tilt(-1, 0)
    else if ay < -3000 && flag != 0 then Tilt(1, 0)
    else Tilt(0, 1)
  }

  /** `k` due updates in a row that all read `ay`, from `flag`: the steps added up, and the last `flag`. */
  function Held(flag: int, ay: int, k: nat): Tilt
  {
    if k == 0 then Tilt(0, flag)
    else
      var before := Held(flag, ay, k - 1);
      var t := TiltStep(before.flag, ay);
      Tilt(before.step + t.step, t.flag)
  }

  /** The direction a tilt steps the encoder. */
  function Direction(ay: int): int
  {
    if ay > 3000 then -1 else if ay < -3000 then 1 else 0
  }

  /** Two due updates under a held tilt step the encoder exactly once and leave `flag` as set as before. */
  lemma HeldTwice(flag: int, ay: int)
    requires ay > 3000 || ay < -3000
    ensures Held(flag, ay, 2).step == Direction(ay)
    ensures (Held(flag, ay, 2).flag != 0) == (flag != 0)
  {
    assert Held(flag, ay, 1) == TiltStep(flag, ay);
  }

  /** A tilt held through `2 n` due updates steps the encoder `n` times: every second update counts. */
  lemma {:induction false} HeldTilt(flag: int, ay: int, n: nat)
    requires ay > 3000 || ay < -3000
    ensures Held(flag, ay, 2 * n).step == n * Direction(ay)
    ensures (Held(flag, ay, 2 * n).flag != 0) == (flag != 0)
  {
    if n > 0 {
      HeldTilt(flag, ay, n - 1);
      var mid := Held(flag, ay, 2 * n - 2);
      HeldSplit(flag, ay, 2 * n - 2);
      HeldTwice(mid.flag, ay);
    }
  }

  /** Two more due updates continue from where the first `k` left off. */
  lemma HeldSplit(flag: int, ay: int, k: nat)
    ensures Held(flag, ay, k + 2).step == Held(flag, ay, k).step + Held(Held(flag, ay, k).flag, ay, 2).step
    ensures Held(flag, ay, k + 2).flag == Held(Held(flag, ay, k).flag, ay, 2).flag
  {
    var f := Held(flag, ay, k).flag;
    assert Held(f, ay, 1) == Tilt(TiltStep(f, ay).step, TiltStep(f, ay).flag);
  }

  /** The global `IMU mpu`: zero-initialised, with the encoder globals it drives. */
  class ImuDevice {
    const port: EncoderPort
    var flag: int
    var sample: Motion
    /** `last_update_time`, a `long` holding a `millis()` value; as unsigned bits. */
    var lastUpdate: Uint32

    constructor(port: EncoderPort)
      ensures this.port == port && flag == 0 && lastUpdate == 0 && sample == Motion(0, 0, 0, 0, 0, 0)
    {
      this.port := port;
      flag := 0;
      sample := Motion(0, 0, 0, 0, 0, 0);
      lastUpdate := 0;
    }

    /**
     * `update(interval)` given the sensor's sample `m` and the two readings
     * of the clock, `now` for the comparison and `later` for the time it
     * notes: the sample is always kept; when `interval` has passed the tilt
     * steps the encoder (in `int32_t`), the forward tilt sets the push, and
     * the time is noted.
     */
    method Update(interval: int, m: Motion, now: Uint32, later: Uint32)
      modifies this, port
      ensures sample == m
      ensures Elapsed(now, old(lastUpdate), interval) ==>
        && flag == TiltStep(old(flag), m.ay).flag
        && port.diff == ToInt32(old(port.diff) + TiltStep(old(flag), m.ay).step)
        && port.state == (if m.ax > 10000 then Pr else Rel)
        && lastUpdate == later
      ensures !Elapsed(now, old(lastUpdate), interval) ==>
        flag == old(flag) && port.diff == old(port.diff) && port.state == old(port.state) && lastUpdate == old(lastUpdate)
    {
      sample := m;
      if ToUint32(now - lastUpdate) > ToUint32(interval) {
        if m.ay > 3000 && flag != 0 {
          port.diff := ToInt32(port.diff - 1);
          flag := 0;
        } else if m.ay < -3000 && flag != 0 {
          port.diff := ToInt32(port.diff + 1);
          flag := 0;
        } else {
          flag := 1;
        }
        if m.ax > 10000 {
          port.state := Pr;
        } else {
          port.state := Rel;
        }
        lastUpdate := later;
      }
    }

    /** `getAccelX` and the other getters: the last sample's readings. */
    method GetAccelX() returns (r: Int16)
      ensures r == sample.ax
    {
      r := sample.ax;
    }

    method GetAccelY() returns (r: Int16)
      ensures r == sample.ay
    {
      r := sample.ay;
    }

    method GetAccelZ() returns (r: Int16)
      ensures r == sample.az
    {
      r := sample.az;
    }

    method GetGyroX() returns (r: Int16)
      ensures r == sample.gx
    {
      r := sample.gx;
    }

    method GetGyroY() returns (r: Int16)
      ensures r == sample.gy
    {
      r := sample.gy;
    }

    method GetGyroZ() returns (r: Int16)
      ensures r == sample.gz
    {
      r := sample.gz;
    }
  }

  /**
   * The encoder counter wraps only at the ends of `int32_t`: one due update
   * away from them adds its step exactly, and a step down from the least
   * value comes round to the greatest.
   */
  lemma TurnWraps(diff: Int32, flag: int, ay: int)
    ensures -0x8000_0000 < diff < 0x7FFF_FFFF ==> ToInt32(diff + TiltStep(flag, ay).step) == diff + TiltStep(flag, ay).step
    ensures diff == -0x8000_0000 && ay > 3000 && flag != 0 ==> ToInt32(diff + TiltStep(flag, ay).step) == 0x7FFF_FFFF
  {
  }

  /** A getter after an update reads the sample that update took. */
  method UpdateThenRead(imu: ImuDevice, interval: int, m: Motion, now: Uint32, later: Uint32) returns (ay: Int16)
    modifies imu, imu.port
    ensures ay == m.ay
  {
    imu.Update(interval, m, now, later);
    ay := imu.GetAccelY();
  }
}

=== FILE: indev.dfy ===
/** What LVGL's input drivers report: `lv_indev_state_t`. */
module LvIndev {
  /** `LV_INDEV_STATE_REL` (0) and `LV_INDEV_STATE_PR` (1). */
  datatype IndevState = Rel | Pr
}

=== FILE: keyboard.dfy ===
/**
 * The SDL keyboard driver of the simulator: `keyboard_handler` remembers
 * the last key and whether it is held, `keyboard_read` hands both to LVGL
 * after turning navigation keys into LVGL's control keys.
 */
module Keyboard {
  import opened CInt
  import opened LvIndev

  // SDL2 key codes: the arrow and keypad keys are scancodes with bit 30 set.
  const SDLK_RIGHT: Uint32 := 0x4000_004F
  const SDLK_LEFT: Uint32 := 0x4000_0050
  const SDLK_DOWN: Uint32 := 0x4000_0051
  const SDLK_UP: Uint32 := 0x4000_0052
  const SDLK_KP_MINUS: Uint32 := 0x4000_0056
  const SDLK_KP_PLUS: Uint32 := 0x4000_0057
  const SDLK_KP_ENTER: Uint32 := 0x4000_0058
  const SDLK_ESCAPE: Uint32 := 27
  const SDLK_BACKSPACE: Uint32 := 8
  const SDLK_DELETE: Uint32 := 127
  /** `'\r'`, which the driver treats as Enter as well. */
  const CARRIAGE_RETURN: Uint32 := 13

  // LVGL's control keys.
  const LV_KEY_UP: Uint32 := 17
  const LV_KEY_DOWN: Uint32 := 18
  const LV_KEY_RIGHT: Uint32 := 19
  const LV_KEY_LEFT: Uint32 := 20
  const LV_KEY_ESC: Uint32 := 27
  const LV_KEY_ENTER: Uint32 := 10
  const LV_KEY_BACKSPACE: Uint32 := 8
  const LV_KEY_DEL: Uint32 := 127

  /** The keys the driver renames, and what it renames them to. */
  const Remap: map<Uint32, Uint32> := map[
    SDLK_RIGHT := LV_KEY_RIGHT, SDLK_KP_PLUS := LV_KEY_RIGHT,
    SDLK_LEFT := LV_KEY_LEFT, SDLK_KP_MINUS := LV_KEY_LEFT,
    SDLK_UP := LV_KEY_UP, SDLK_DOWN := LV_KEY_DOWN,
    SDLK_ESCAPE := LV_KEY_ESC,
    SDLK_KP_ENTER := LV_KEY_ENTER, CARRIAGE_RETURN := LV_KEY_ENTER]

  /**
   * `keycode_to_ascii`: navigation keys become LVGL keys, every other code
   * passes through. The backward-compatible `SDLK_BACKSPACE` and
   * `SDLK_DELETE` cases need no branch: SDL's codes 8 and 127 are already
   * `LV_KEY_BACKSPACE` and `LV_KEY_DEL`, so passing them through gives the
   * same key with or without those cases.
   */
  function KeycodeToAscii(key: Uint32): (r: Uint32)
    ensures key in Remap ==> r == Remap[key]
    ensures key !in Remap ==> r == key
  {
    if key == SDLK_RIGHT || key == SDLK_KP_PLUS then LV_KEY_RIGHT
    else if key == SDLK_LEFT || key == SDLK_KP_MINUS then LV_KEY_LEFT
    else if key == SDLK_UP then LV_KEY_UP
    else if key == SDLK_DOWN then LV_KEY_DOWN
    else if key == SDLK_ESCAPE then LV_KEY_ESC
    else if key == SDLK_KP_ENTER || key == CARRIAGE_RETURN then LV_KEY_ENTER
    else key
  }

  /** Backspace and Delete reach LVGL as its own backspace and delete keys, as the optional cases would map them. */
  lemma BackspaceAndDelete()
    ensures KeycodeToAscii(SDLK_BACKSPACE) == LV_KEY_BACKSPACE
    ensures KeycodeToAscii(SDLK_DELETE) == LV_KEY_DEL
  {
  }

  /** A renamed key is left alone by a second renaming, so LVGL keys reach LVGL unchanged. */
  lemma KeycodeIdempotent(key: Uint32)
    ensures KeycodeToAscii(KeycodeToAscii(key)) == KeycodeToAscii(key)
  {
    if key in Remap {
      assert Remap[key] !in Remap || Remap[key] == LV_KEY_ESC;
    }
  }

  /** The SDL events the handler is given: key down, key up, or anything else. */
  datatype Event = KeyDown(sym: Uint32) | KeyUp(sym: Uint32) | OtherEvent

  /** What `keyboard_read` fills in: the state and the key. */
  datatype KeyData = KeyData(state: IndevState, key: Uint32)

  /** The driver's statics `last_key` and `state`, zero-initialised. */
  class KeyboardDriver {
    var lastKey: Uint32
    var state: IndevState

    constructor()
      ensures lastKey == 0 && state == Rel
    {
      lastKey := 0;
      state := Rel;
    }

    /** `keyboard_handler`: a key down is remembered and held, a key up releases it but keeps the key. */
    method Handler(e: Event)
      modifies this
      ensures e.KeyDown? ==> lastKey == e.sym && state == Pr
      ensures e.KeyUp? ==> lastKey == old(lastKey) && state == Rel
      ensures e.OtherEvent? ==> lastKey == old(lastKey) && state == old(state)
    {
      match e
      case KeyDown(sym) =>
        lastKey := sym;
        state := Pr;
      case KeyUp(_) =>
        state := Rel;
      case OtherEvent =>
    }

    /** `keyboard_read`: the state and the renamed last key; nothing is buffered. */
    method Read() returns (data: KeyData, more: bool)
      ensures data == KeyData(state, KeycodeToAscii(lastKey)) && !more
    {
      data := KeyData(state, KeycodeToAscii(lastKey));
      more := false;
    }
  }

  /** A key pressed and released reads back, renamed, as released. */
  method PressRelease(kb: KeyboardDriver, key: Uint32) returns (down: KeyData, up: KeyData)
    modifies kb
    ensures down == KeyData(Pr, KeycodeToAscii(key)) && up == KeyData(Rel, KeycodeToAscii(key))
  {
    var more: bool;
    kb.Handler(KeyDown(key));
    down, more := kb.Read();
    kb.Handler(KeyUp(key));
    up, more := kb.Read();
  }
}

=== FILE: lv_port_indev.dfy ===
/**
 * The firmware's LVGL encoder port: the globals `encoder_diff` and
 * `encoder_state`, which the IMU fills in, and the read callback that hands
 * them to LVGL and clears the turn.
 */
module LvPortIndev {
  import opened CInt
  import opened LvIndev

  /** The globals `encoder_diff` and `encoder_state`, zero-initialised. */
  class EncoderPort {
    var diff: Int32
    var state: IndevState

    constructor()
      ensures diff == 0 && state == Rel
    {
      diff := 0;
      state := Rel;
    }

    /**
     * `encoder_read`: the turn and the push state go to LVGL, then the turn
     * is cleared; nothing is buffered. LVGL's `enc_diff` is an `int16_t`, so
     * the turn arrives truncated to 16 bits.
     */
    method Read() returns (encDiff: Int16, st: IndevState, more: bool)
      modifies this`diff
      ensures encDiff == ToInt16(old(diff)) && st == state && diff == 0 && !more
    {
      encDiff := ToInt16(diff);
      st := state;
      diff := 0;
      more := false;
    }

    /** `encoder_handler`: adds nothing to the turn and releases the push. */
    method Handler()
      modifies this
      ensures diff == old(diff) && state == Rel
    {
      diff := ToInt32(diff + 0);
      state := Rel;
    }
  }

  /**
   * What happens to `encoder_diff`: a producer adds a step, or LVGL reads
   * (and clears) it. The ledger below counts in whole numbers; the `int32_t`
   * counter agrees with it while the pending turn stays in range.
   */
  datatype PortEvent = Turned(step: int) | Polled

  /** The steps of a history, added up. */
  function Steps(evs: seq<PortEvent>): int
  {
    if |evs| == 0 then 0
    else Steps(evs[..|evs| - 1]) + (if evs[|evs| - 1].Turned? then evs[|evs| - 1].step else 0)
  }

  /** After a history, starting from `diff`: what the reads handed over in total, and what is left. */
  datatype Ledger = Ledger(reported: int, pending: int)

  function Replay(evs: seq<PortEvent>, diff: int): Ledger
  {
    if |evs| == 0 then Ledger(0, diff)
    else
      var l := Replay(evs[..|evs| - 1], diff);
      match evs[|evs| - 1]
      case Turned(step) => Ledger(l.reported, l.pending + step)
      case Polled => Ledger(l.reported + l.pending, 0)
  }

  /**
   * Read-and-clear loses and repeats nothing: every step is either handed
   * to LVGL by exactly one read or still pending.
   */
  lemma {:induction false} EveryStepReportedOnce(evs: seq<PortEvent>, diff: int)
    ensures Replay(evs, diff).reported + Replay(evs, diff).pending == diff + Steps(evs)
  {
    if |evs| > 0 {
      EveryStepReportedOnce(evs[..|evs| - 1], diff);
    }
  }

  /** The hand-over to LVGL's `int16_t` is exact precisely for turns that fit it. */
  lemma HandOverExact(d: Int32)
    ensures ToInt16(d) == d <==> -0x8000 <= d < 0x8000
  {
  }

  /** The sum of a list of numbers. */
  function Sum(s: seq<int>): int
  {
    if |s| == 0 then 0 else Sum(s[..|s| - 1]) + s[|s| - 1]
  }

  /** The `enc_diff` values LVGL receives, one per read: the pending turn truncated to `int16_t`. */
  function Handed(evs: seq<PortEvent>, diff: int): (r: seq<Int16>)
    ensures |r| <= |evs|
  {
    if |evs| == 0 then []
    else
      var h := Handed(evs[..|evs| - 1], diff);
      if evs[|evs| - 1].Polled? then h + [ToInt16(Replay(evs[..|evs| - 1], diff).pending)] else h
  }

  /** Every read of the history finds a pending turn that fits `int16_t`. */
  predicate FitsAtReads(evs: seq<PortEvent>, diff: int)
  {
    forall k :: 0 <= k < |evs| && evs[k].Polled? ==> -0x8000 <= Replay(evs[..k], diff).pending < 0x8000
  }

  /**
   * When every read finds a turn that fits `int16_t`, LVGL receives exactly
   * the reported total: nothing is lost in the hand-over.
   */
  lemma {:induction false} HandedMatchesLedger(evs: seq<PortEvent>, diff: int)
    requires FitsAtReads(evs, diff)
    ensures Sum(Handed(evs, diff)) == Replay(evs, diff).reported
  {
    if |evs| > 0 {
      var pre := evs[..|evs| - 1];
      assert FitsAtReads(pre, diff) by {
        forall k | 0 <= k < |pre| && pre[k].Polled?
          ensures -0x8000 <= Replay(pre[..k], diff).pending < 0x8000
        {
          assert pre[..k] == evs[..k];
          assert evs[k].Polled?;
        }
      }
      HandedMatchesLedger(pre, diff);
      if evs[|evs| - 1].Polled? {
        assert evs[..|evs| - 1] == pre;
        var h := Handed(pre, diff) + [ToInt16(Replay(pre, diff).pending)];
        assert h[..|h| - 1] == Handed(pre, diff);
      }
    }
  }

  /** A turn of 32768 steps between two reads reaches LVGL as -32768. */
  lemma LargeTurnTruncated()
    ensures Replay([Turned(0x8000), Polled], 0).reported == 0x8000
    ensures Handed([Turned(0x8000), Polled], 0) == [-0x8000]
  {
    var evs := [Turned(0x8000), Polled];
    assert evs[..1] == [Turned(0x8000)];
    assert evs[..1][..0] == [];
  }

  /** Right after a read nothing is pending, so everything so far has been reported. */
  lemma ReadClearsAll(evs: seq<PortEvent>, diff: int)
    requires |evs| > 0 && evs[|evs| - 1].Polled?
    ensures Replay(evs, diff).pending == 0 && Replay(evs, diff).reported == diff + Steps(evs)
  {
    EveryStepReportedOnce(evs, diff);
  }
}

=== FILE: lvimg_convertor.dfy ===
/**
 * The `Convertor` object: the picture and the colour format it was made
 * with, the output list `d_out` that `convert` fills, and the dithering
 * state of the three colour channels (`r_act`, `r_nerr`, `r_earr` and their
 * green and blue twins, one `ChannelState` per channel).
 */
module LvImgConvertor {
  import opened Wrappers
  import opened LvImgFormat
  import opened LvImgPacking
  import opened LvImgDither
  import opened LvImgImage
  import opened LvImgText
  import opened PyList
  import opened Seqs

  /**
   * What `_conv_px` does to `d_out` for a packed format. A whole-byte value
   * is stored with `forceUpdate`; a narrower one is OR-ed into its slot of
   * the byte at `index`, which `forceUpdate` first creates as 0 when it lies
   * past the end of the list. OR-ing into a `None` entry is a `TypeError`
   * in the converter, hence the second precondition.
   */
  function StorePacked(li: seq<Cell>, index: nat, v: bv8, bits: FieldWidth, k: nat): (r: seq<Cell>)
    requires k < PixelsPerByte(bits)
    requires bits != 8 ==> CheckExist(li, index) != -1
    ensures |r| == if index < |li| then |li| else index + 1
    ensures forall i :: 0 <= i < |li| && i != index ==> r[i] == li[i]
    ensures forall i :: |li| <= i < index ==> r[i] == Hole
    ensures r[index].Byte?
    ensures bits == 8 ==> r[index].b == v
    ensures bits != 8 ==> r[index].b == Put(if index < |li| then li[index].b else 0, v, bits, k)
  {
    if bits == 8 then ForceUpdated(li, index, Byte(v))
    else
      var li' := if CheckExist(li, index) == 0 then ForceUpdated(li, index, Byte(0)) else li;
      li'[index := Byte(Put(li'[index].b, v, bits, k))]
  }

  /**
   * What `_conv_px` does to `d_out` for pixel (x, y) of a picture `w` wide,
   * once the channels hold the colour `c`: a true-colour format appends the
   * pixel's bytes, a packed format stores its value at its byte and slot.
   */
  function PixelStored(li: seq<Cell>, cf: ColorFormat, alpha: bool, w: nat, x: nat, y: nat, px: Px, c: Rgb): (r: seq<Cell>)
    requires !IsRaw(cf)
    requires IsTrueColor(cf) ==> QuantizedRgb(c, ChannelQuants(cf).value)
    requires IsPacked(cf) && PackedBits(cf) != 8 ==> CheckExist(li, PackedIndex(cf, w, x, y)) != -1
  {
    if IsTrueColor(cf) then li + Cells(PixelBytes(cf, alpha, c, px.a))
    else
      var bits := PackedBits(cf);
      StorePacked(li, PackedIndex(cf, w, x, y), PackedValue(cf, px.a, px.cx), bits, Slot(bits, x))
  }

  /** Storing into slot 0 one past the end of a list of bytes appends the byte with that slot filled. */
  lemma StoreAppends(d: seq<bv8>, v: bv8, bits: FieldWidth)
    ensures StorePacked(Cells(d), |d|, v, bits, 0) == Cells(d + [Put(0, v, bits, 0)])
  {
    StoreNew(d, v, bits);
    CellsSnoc(d, Put(0, v, bits, 0));
  }

  lemma StoreNew(d: seq<bv8>, v: bv8, bits: FieldWidth)
    ensures StorePacked(Cells(d), |d|, v, bits, 0) == Cells(d) + [Byte(Put(0, v, bits, 0))]
  {
    if bits == 8 {
      ForceUpdatedAtEnd(Cells(d), Byte(v));
      PutWhole(v);
    } else {
      StoreNewPart(Cells(d), v, bits);
    }
  }

  lemma StoreNewPart(li: seq<Cell>, v: bv8, bits: FieldWidth)
    requires bits != 8
    ensures StorePacked(li, |li|, v, bits, 0) == li + [Byte(Put(0, v, bits, 0))]
  {
    ForceUpdatedAtEnd(li, Byte(0));
    SnocUpdate(li, Byte(0), Byte(Put(0, v, bits, 0)));
  }

  /** Storing into a later slot of the last byte of a list of bytes OR-s the value into that byte. */
  lemma StoreJoins(d: seq<bv8>, v: bv8, bits: FieldWidth, k: nat)
    requires |d| >= 1 && 0 < k < PixelsPerByte(bits)
    ensures StorePacked(Cells(d), |d| - 1, v, bits, k) == Cells(OrLast(d, v, bits, k))
  {
    CellsUpdate(d, |d| - 1, Put(d[|d| - 1], v, bits, k));
  }

  /**
   * In the pixel walk of `convert`, storing pixel (x, y) takes `d_out` from
   * the bytes of the first `x` pixels of row `y` to those of the first
   * `x + 1`: the in-place writes build exactly the bytes `Converted` lays
   * out. The colour `c` is what the channels hold after the pixel; only the
   * true-colour formats use it.
   */
  lemma PixelStoredStep(j: Job, s0: Channels, x: nat, y: nat, c: Rgb)
    requires WellFormed(j.p) && FitsAll(j, s0) && x < j.p.w && y < j.p.h && !IsRaw(j.cf)
    requires IsTrueColor(j.cf) ==> c == KeptColor(j, s0, x, y)
    ensures IsPacked(j.cf) && PackedBits(j.cf) != 8 ==>
      CheckExist(Cells(Output(j, s0, y, x)), PackedIndex(j.cf, j.p.w, x, y)) != -1
    ensures PixelStored(Cells(Output(j, s0, y, x)), j.cf, j.alpha, j.p.w, x, y, PixelAt(j.p, j.cf, x, y), c)
      == Cells(Output(j, s0, y, x + 1))
  {
    if IsTrueColor(j.cf) {
      OutputTrueStep(j, s0, y, x);
      CellsAppend(Output(j, s0, y, x), PixelOut(j, s0, x, y));
    } else {
      PackedStoredStep(j, s0, x, y, c);
    }
  }

  lemma PackedStoredStep(j: Job, s0: Channels, x: nat, y: nat, c: Rgb)
    requires WellFormed(j.p) && FitsAll(j, s0) && x < j.p.w && y < j.p.h && IsPacked(j.cf)
    ensures PackedBits(j.cf) != 8 ==> CheckExist(Cells(Output(j, s0, y, x)), PackedIndex(j.cf, j.p.w, x, y)) != -1
    ensures PixelStored(Cells(Output(j, s0, y, x)), j.cf, j.alpha, j.p.w, x, y, PixelAt(j.p, j.cf, x, y), c)
      == Cells(Output(j, s0, y, x + 1))
  {
    if Slot(PackedBits(j.cf), x) == 0 {
      PackedStoredNew(j, s0, x, y, c);
    } else {
      PackedStoredJoin(j, s0, x, y, c);
    }
  }

  lemma PackedStoredNew(j: Job, s0: Channels, x: nat, y: nat, c: Rgb)
    requires WellFormed(j.p) && FitsAll(j, s0) && x < j.p.w && y < j.p.h && IsPacked(j.cf)
    requires Slot(PackedBits(j.cf), x) == 0
    ensures CheckExist(Cells(Output(j, s0, y, x)), PackedIndex(j.cf, j.p.w, x, y)) == 0
    ensures PixelStored(Cells(Output(j, s0, y, x)), j.cf, j.alpha, j.p.w, x, y, PixelAt(j.p, j.cf, x, y), c)
      == Cells(Output(j, s0, y, x + 1))
  {
    var px := PixelAt(j.p, j.cf, x, y);
    PackedStep(j, s0, y, x);
    StoreAppends(Output(j, s0, y, x), PackedValue(j.cf, px.a, px.cx), PackedBits(j.cf));
  }

  lemma PackedStoredJoin(j: Job, s0: Channels, x: nat, y: nat, c: Rgb)
    requires WellFormed(j.p) && FitsAll(j, s0) && x < j.p.w && y < j.p.h && IsPacked(j.cf)
    requires Slot(PackedBits(j.cf), x) != 0
    ensures CheckExist(Cells(Output(j, s0, y, x)), PackedIndex(j.cf, j.p.w, x, y)) == 1
    ensures PixelStored(Cells(Output(j, s0, y, x)), j.cf, j.alpha, j.p.w, x, y, PixelAt(j.p, j.cf, x, y), c)
      == Cells(Output(j, s0, y, x + 1))
  {
    var px, bits := PixelAt(j.p, j.cf, x, y), PackedBits(j.cf);
    PackedStep(j, s0, y, x);
    StoreJoins(Output(j, s0, y, x), PackedValue(j.cf, px.a, px.cx), bits, Slot(bits, x));
  }

  class Convertor {
    /** The picture, as PIL delivers it, and the arguments of `__init__`. */
    const p: Picture
    const cf: ColorFormat
    const dith: bool
    /** The file's bytes, which `convert` copies for the raw formats. */
    const file: seq<bv8>

    var alpha: bool
    var dOut: seq<Cell>
    var red: ChannelState
    var green: ChannelState
    var blue: ChannelState

    function JobOf(): Job
      reads this`alpha
    {
      Job(p, cf, dith, alpha, file)
    }

    function Chans(): Channels
      reads this`red, this`green, this`blue
    {
      Channels(red, green, blue)
    }

    /** PIL's picture is well formed, and with dithering each error row has `w + 2` cells. */
    predicate Valid()
      reads this`alpha, this`red, this`green, this`blue
    {
      WellFormed(p) && FitsAll(JobOf(), Chans())
    }

    /**
     * `__init__`: the error rows start as `w + 2` zeros with dithering (and
     * are absent without), the carries as 0, and `convert` runs once
     * without the alpha byte.
     */
    constructor(p: Picture, cf: ColorFormat, dith: bool, file: seq<bv8>)
      requires WellFormed(p)
      ensures this.p == p && this.cf == cf && this.dith == dith && this.file == file
      ensures Valid() && !alpha
      ensures var e := ChannelState(0, 0, if dith then Zeros(p.w + 2) else []);
        dOut == Cells(Converted(Job(p, cf, dith, false, file), Channels(e, e, e)))
    {
      this.p := p;
      this.cf := cf;
      this.dith := dith;
      this.file := file;
      var e := ChannelState(0, 0, if dith then Zeros(p.w + 2) else []);
      red, green, blue := e, e, e;
      alpha := false;
      dOut := [];
      new;
      Convert(false);
    }

    /**
     * `convert`: the raw formats copy the file; the others write the
     * palette prefix and then every pixel row by row, so that `d_out` ends
     * up as `Converted` and the channels as they stand after the last row.
     */
    method Convert(alpha: bool)
      requires Valid()
      modifies this
      ensures Valid() && this.alpha == alpha
      ensures dOut == Cells(Converted(JobOf(), old(Chans())))
      ensures IsRaw(cf) ==> Chans() == old(Chans())
      ensures !IsRaw(cf) ==> Chans() == ChannelsBefore(JobOf(), old(Chans()), p.h)
    {
      this.alpha := alpha;
      if IsRaw(cf) {
        dOut := Cells(file);
      } else {
        dOut := [];
        ConvertPicture();
      }
    }

    /** The palette and the pixel rows of `convert`, for the formats that are not raw. */
    method ConvertPicture()
      requires Valid() && !IsRaw(cf) && dOut == []
      modifies this`dOut, this`red, this`green, this`blue
      ensures Valid()
      ensures dOut == Cells(Converted(JobOf(), old(Chans())))
      ensures Chans() == ChannelsBefore(JobOf(), old(Chans()), p.h)
    {
      ghost var s0 := Chans();
      WritePalette();
      RowsDoneNone(JobOf(), s0);
      var y: nat := 0;
      while y < p.h
        invariant y <= p.h && RowsReady(s0, y)
      {
        ConvertRow(s0, y);
        y := y + 1;
      }
      RowsDoneAll(JobOf(), s0);
    }

    /** The palette loop of `convert`: four bytes per entry, real colours first, then 0xFF filler. */
    method WritePalette()
      requires WellFormed(p) && dOut == []
      modifies this`dOut
      ensures dOut == Cells(PalettePrefix(p, PaletteSize(cf)))
    {
      var n := PaletteSize(cf);
      var i := 0;
      PalettePrefixLength(p, 0);
      while i < n
        invariant i <= n
        invariant dOut == Cells(PalettePrefix(p, i))
      {
        if i < p.colors {
          var c := GetColorFromPalette(p.palette, i);
          dOut := dOut + Cells(c.value);
          dOut := dOut + [Byte(0xFF)];
          CellsAppend(c.value, [0xFF]);
        } else {
          dOut := dOut + Cells([0xFF, 0xFF, 0xFF, 0xFF]);
        }
        PalettePrefixStep(p, i);
        CellsAppend(PalettePrefix(p, i), PaletteEntry(p, i));
        i := i + 1;
      }
    }

    /**
     * `format_to_c_array`: the palette lines, then the `y`/`x` loop that
     * turns the walked entries of `d_out` into tokens, then the lines.
     */
    method FormatToCArray() returns (r: Result<string>)
      ensures r == CArray(cf, alpha, p.w, p.h, dOut)
    {
      var pal := PaletteLines();
      if pal.Err? {
        return Err(pal.error);
      }
      var k := WalkOf(cf, p.w, p.h, dOut);
      var toks := CollectTokens(k);
      if toks.Err? {
        return Err(toks.error);
      }
      r := Ok(Assemble(cf, alpha, pal.value, PrintedRows(cf, k, toks.value)));
    }

    /** The `for p in range(...)` loop of an indexed format: one line per palette entry. */
    method PaletteLines() returns (r: Result<string>)
      ensures r == PaletteText(dOut, PaletteSize(cf))
    {
      var n := PaletteSize(cf);
      var text := "";
      var q := 0;
      while q < n
        invariant q <= n && PaletteText(dOut, q) == Ok(text)
      {
        var line := PaletteLine(dOut, q);
        if line.Err? {
          PaletteTextSticky(dOut, q + 1, n);
          return line;
        }
        text := text + line.value;
        q := q + 1;
      }
      r := Ok(text);
    }

    /**
     * The `y` loop: `y_end` rows of `RowTokens(x_end)` tokens from entry
     * `start` on; the first missing or `None` entry stops it.
     */
    method CollectTokens(k: Walk) returns (r: Result<seq<string>>)
      ensures r == HexTokens(dOut, k.start, WalkCount(cf, alpha, k))
    {
      var rowLen := RowTokens(cf, alpha, k.cols);
      var tmp := [];
      var y := 0;
      while y < k.rows
        invariant y <= k.rows && |tmp| == y * rowLen
        invariant HexTokens(dOut, k.start, |tmp|) == Ok(tmp)
      {
        RowFits(y, k.rows, rowLen);
        var next := CollectRow(k.start, tmp, k.cols);
        if next.Err? {
          HexTokensSticky(dOut, k.start, |tmp| + rowLen, WalkCount(cf, alpha, k));
          return next;
        }
        assert |next.value| == |tmp| + rowLen;
        assert (y + 1) * rowLen == y * rowLen + rowLen;
        tmp := next.value;
        y := y + 1;
      }
      r := Ok(tmp);
    }

    /** The `x` loop of one row: column `x` calls `append_and_increase` `TokensAt(x)` times. */
    method CollectRow(start: nat, tmp0: seq<string>, cols: nat) returns (r: Result<seq<string>>)
      requires HexTokens(dOut, start, |tmp0|) == Ok(tmp0)
      ensures r == HexTokens(dOut, start, |tmp0| + RowTokens(cf, alpha, cols))
    {
      var tmp := tmp0;
      var x := 0;
      while x < cols
        invariant x <= cols && |tmp| == |tmp0| + RowTokens(cf, alpha, x)
        invariant HexTokens(dOut, start, |tmp|) == Ok(tmp)
      {
        RowTokensStep(cf, alpha, x);
        RowTokensMonotone(cf, alpha, x + 1, cols);
        var m := 0;
        while m < TokensAt(cf, alpha, x)
          invariant m <= TokensAt(cf, alpha, x) && |tmp| == |tmp0| + RowTokens(cf, alpha, x) + m
          invariant HexTokens(dOut, start, |tmp|) == Ok(tmp)
        {
          var next := AppendAndIncrease(start, tmp);
          if next.Err? {
            HexTokensSticky(dOut, start, |tmp| + 1, |tmp0| + RowTokens(cf, alpha, cols));
            return next;
          }
          tmp := next.value;
          m := m + 1;
        }
        x := x + 1;
      }
      r := Ok(tmp);
    }

    /**
     * `append_and_increase`: the token of entry `i == start + |tmp|` joins
     * `tmpArr`; past the end of `d_out` an `IndexError`, on `None` a `TypeError`.
     */
    method AppendAndIncrease(start: nat, tmp: seq<string>) returns (r: Result<seq<string>>)
      requires HexTokens(dOut, start, |tmp|) == Ok(tmp)
      ensures r == HexTokens(dOut, start, |tmp| + 1)
    {
      var tok := Token(dOut, start + |tmp|);
      if tok.Err? {
        return Err(tok.error);
      }
      r := Ok(tmp + [tok.value]);
    }

    /** `d_out` and the channels as they stand before row `y`, when the channels were `s0` before the first. */
    ghost predicate RowsReady(s0: Channels, y: nat)
      reads this`alpha, this`dOut, this`red, this`green, this`blue
    {
      && WellFormed(p) && FitsAll(JobOf(), s0) && y <= p.h && !IsRaw(cf)
      && dOut == Cells(RowsDone(JobOf(), s0, y)) && Chans() == ChannelsBefore(JobOf(), s0, y)
    }

    /** One pass of the `y` loop of `convert`: reset the carries, then convert each pixel of row `y`. */
    method ConvertRow(ghost s0: Channels, y: nat)
      requires y < p.h && RowsReady(s0, y)
      modifies this`dOut, this`red, this`green, this`blue
      ensures RowsReady(s0, y + 1)
    {
      DitherReset();
      OutputRowStart(JobOf(), s0, y);
      ChannelsRowStart(JobOf(), s0, y);
      ConvertPixels(s0, y);
      OutputRowEnd(JobOf(), s0, y);
      ChannelsRowEnd(JobOf(), s0, y);
    }

    /** `d_out` and the channels as they stand after the first `x` pixels of row `y`. */
    ghost predicate PixelsDone(j: Job, s0: Channels, y: nat, x: nat)
      reads this`dOut, this`red, this`green, this`blue
    {
      && WellFormed(j.p) && FitsAll(j, s0) && y < j.p.h && x <= j.p.w && !IsRaw(j.cf)
      && dOut == Cells(Output(j, s0, y, x)) && Chans() == ChannelsAt(j, s0, y, x)
    }

    /** The `x` loop of `convert` over row `y`, after `_dith_reset`. */
    method ConvertPixels(ghost s0: Channels, y: nat)
      requires PixelsDone(JobOf(), s0, y, 0)
      modifies this`dOut, this`red, this`green, this`blue
      ensures PixelsDone(JobOf(), s0, y, p.w)
    {
      var x: nat := 0;
      while x < p.w
        invariant x <= p.w && PixelsDone(JobOf(), s0, y, x)
      {
        ConvertPixel(s0, x, y);
        x := x + 1;
      }
    }

    /** One pass of the `x` loop of `convert`: `_conv_px` moves the output and the channels on by one pixel. */
    method ConvertPixel(ghost s0: Channels, x: nat, y: nat)
      requires x < p.w && PixelsDone(JobOf(), s0, y, x)
      modifies this`dOut, this`red, this`green, this`blue
      ensures PixelsDone(JobOf(), s0, y, x + 1)
    {
      ChannelsStep(JobOf(), s0, y, x);
      ghost var s := ChannelsAt(JobOf(), s0, y, x + 1);
      PixelStoredStep(JobOf(), s0, x, y, Rgb(s.r.act, s.g.act, s.b.act));
      ConvPx(x, y);
    }

    /**
     * `_conv_px`: run `_dith_next` on the pixel's colour, then write the
     * pixel to `d_out` as its format wants.
     */
    method ConvPx(x: nat, y: nat)
      requires Valid() && x < p.w && y < p.h && !IsRaw(cf)
      requires IsPacked(cf) && PackedBits(cf) != 8 ==> CheckExist(dOut, PackedIndex(cf, p.w, x, y)) != -1
      modifies this`dOut, this`red, this`green, this`blue
      ensures Chans() == NextChannels(old(Chans()), PixelAt(p, cf, x, y).c, x, dith, cf)
      ensures dOut == PixelStored(old(dOut), cf, alpha, p.w, x, y, PixelAt(p, cf, x, y), Rgb(red.act, green.act, blue.act))
    {
      DitherNext(PixelAt(p, cf, x, y).c, x);
      StorePixel(x, y);
    }

    /** The second half of `_conv_px`: append the bytes of a true-colour pixel, or store a packed one. */
    method StorePixel(x: nat, y: nat)
      requires WellFormed(p) && x < p.w && y < p.h && !IsRaw(cf)
      requires IsTrueColor(cf) ==> QuantizedRgb(Rgb(red.act, green.act, blue.act), ChannelQuants(cf).value)
      requires IsPacked(cf) && PackedBits(cf) != 8 ==> CheckExist(dOut, PackedIndex(cf, p.w, x, y)) != -1
      modifies this`dOut
      ensures dOut == PixelStored(old(dOut), cf, alpha, p.w, x, y, PixelAt(p, cf, x, y), Rgb(red.act, green.act, blue.act))
    {
      var px := PixelAt(p, cf, x, y);
      if IsTrueColor(cf) {
        dOut := dOut + Cells(PixelBytes(cf, alpha, Rgb(red.act, green.act, blue.act), px.a));
      } else {
        var bits := PackedBits(cf);
        Store(PackedIndex(cf, p.w, x, y), PackedValue(cf, px.a, px.cx), bits, Slot(bits, x));
      }
    }

    /** The packed branch of `_conv_px`: `forceUpdate` a whole byte, or OR a field into its byte. */
    method Store(index: nat, v: bv8, bits: FieldWidth, k: nat)
      requires k < PixelsPerByte(bits)
      requires bits != 8 ==> CheckExist(dOut, index) != -1
      modifies this`dOut
      ensures dOut == StorePacked(old(dOut), index, v, bits, k)
    {
      if bits == 8 {
        dOut := ForceUpdated(dOut, index, Byte(v));
      } else {
        if CheckExist(dOut, index) == 0 {
          dOut := ForceUpdated(dOut, index, Byte(0));
        }
        dOut := dOut[index := Byte(Put(dOut[index].b, v, bits, k))];
      }
    }

    /** `_dith_reset`: with dithering a row starts without carries. */
    method DitherReset()
      modifies this`red, this`green, this`blue
      ensures Chans() == ResetChannels(old(Chans()), dith)
    {
      if dith {
        red := red.(nerr := 0);
        green := green.(nerr := 0);
        blue := blue.(nerr := 0);
      }
    }

    /** `_dith_next` on the three channels of the pixel at column `x`. */
    method DitherNext(c: Rgb, x: nat)
      requires dith ==> x + 2 < |red.earr| && x + 2 < |green.earr| && x + 2 < |blue.earr|
      modifies this`red, this`green, this`blue
      ensures Chans() == NextChannels(old(Chans()), c, x, dith, cf)
      ensures IsTrueColor(cf) ==> QuantizedRgb(Rgb(red.act, green.act, blue.act), ChannelQuants(cf).value)
    {
      red := DitherChannel(red, c.r, x, QuantOf(cf, Red));
      green := DitherChannel(green, c.g, x, QuantOf(cf, Green));
      blue := DitherChannel(blue, c.b, x, QuantOf(cf, Blue));
    }

    /**
     * One channel of `_dith_next`: dither when dithering is on; otherwise
     * classify and clamp the plain value of a true-colour channel.
     */
    method DitherChannel(s: ChannelState, v: int, x: nat, q: Option<Quant>) returns (t: ChannelState)
      requires dith ==> x + 2 < |s.earr|
      requires q.Some? ==> ValidQuant(q.value)
      ensures t == NextChannel(s, v, x, dith, q)
    {
      if dith {
        t := DitherStep(s, v, x, q);
      } else if q.Some? {
        var act := ClassifyClamp(v, q.value);
        t := s.(act := act);
      } else {
        t := s;
      }
    }
  }

  /**
   * The dithering branch of `_dith_next` for one channel, statement by
   * statement: add both incoming errors and clear `earr[x + 1]`, classify
   * and clamp (true-colour formats only), then hand on 7/16 of the error to
   * the next pixel and 3/16, 5/16 and 1/16 to the row below.
   */
  method DitherStep(s: ChannelState, v: int, x: nat, q: Option<Quant>) returns (t: ChannelState)
    requires x + 2 < |s.earr|
    requires q.Some? ==> ValidQuant(q.value)
    ensures t == DitherPixel(s.earr, s.nerr, v, x, q)
  {
    var act := v + s.nerr + s.earr[x + 1];
    var earr := s.earr[x + 1 := 0];
    if q.Some? {
      act := ClassifyClamp(act, q.value);
    }
    var err := v - act;
    var nerr := RoundDiv16(7 * err);
    earr := earr[x := earr[x] + RoundDiv16(3 * err)];
    earr := earr[x + 1 := earr[x + 1] + RoundDiv16(5 * err)];
    earr := earr[x + 2 := earr[x + 2] + RoundDiv16(err)];
    t := ChannelState(act, nerr, earr);
    assert earr == s.earr[x := s.earr[x] + RoundDiv16(3 * err)][x + 1 := RoundDiv16(5 * err)][x + 2 := s.earr[x + 2] + RoundDiv16(err)];
  }

  /** `classifyPixel` followed by the clamp to the channel's largest level. */
  method ClassifyClamp(value: int, q: Quant) returns (r: int)
    requires ValidQuant(q)
    ensures r == Quantize(value, q)
  {
    r := ClassifyPixel(value, q.bits);
    if r > q.max {
      r := q.max;
    }
  }
}

=== FILE: lvimg_dither.dfy ===
/**
 * Error diffusion of the converter (`_dith_next`): each channel carries an
 * error to the next pixel and a per-row array of errors for the row below.
 */
module LvImgDither {
  import opened Wrappers
  import opened LvImgFormat

  /**
   * Python's `round(n / 16)`: the nearest integer, halves going to the even
   * neighbour. Written by recursion: this rounding is symmetric under
   * negation and moves by 2 when `n` moves by 32.
   */
  function RoundDiv16(n: int): int
    decreases if n < 0 then 1 - n else n
  {
    if n < 0 then -RoundDiv16(-n)
    else if n >= 32 then RoundDiv16(n - 32) + 2
    else if n <= 8 then 0
    else if n < 24 then 1
    else 2
  }

  /** `RoundDiv16(n)` is within half of `n / 16`, and an exact half goes to the even side. */
  lemma {:induction false} RoundDiv16Nearest(n: int)
    ensures -8 <= 16 * RoundDiv16(n) - n <= 8
    ensures (16 * RoundDiv16(n) - n == 8 || 16 * RoundDiv16(n) - n == -8) ==> RoundDiv16(n) % 2 == 0
    decreases if n < 0 then 1 - n else n
  {
    if n < 0 {
      RoundDiv16Nearest(-n);
    } else if n >= 32 {
      RoundDiv16Nearest(n - 32);
    }
  }

  /** The two properties above pin the rounding down: no other integer has them. */
  lemma RoundDiv16Unique(n: int, r: int)
    requires -8 <= 16 * r - n <= 8
    requires (16 * r - n == 8 || 16 * r - n == -8) ==> r % 2 == 0
    ensures r == RoundDiv16(n)
  {
    var r0 := RoundDiv16(n);
    RoundDiv16Nearest(n);
    assert -16 <= 16 * (r - r0) <= 16;
  }

  /** The value a channel keeps: quantised for true-colour formats, otherwise left as it is. */
  function ChannelAct(sum: int, q: Option<Quant>): int
    requires q.Some? ==> ValidQuant(q.value)
  {
    if q.Some? then Quantize(sum, q.value) else sum
  }

  /**
   * The dithering state of one colour channel: the value the channel keeps
   * (`r_act`), the error carried to the next pixel (`r_nerr`) and the
   * error array for the next row (`r_earr`, empty when dithering is off).
   */
  datatype ChannelState = ChannelState(act: int, nerr: int, earr: seq<int>)

  /** What the pixel at column `x` sees: its value plus both incoming errors. */
  function DitherInput(row: seq<int>, nerr: int, v: int, x: nat): int
    requires x + 1 < |row|
  {
    v + nerr + row[x + 1]
  }

  /**
   * One channel of `_dith_next` in dithering mode. The pixel adds the carry
   * from its left and the value at `row[x + 1]`, which is then cleared; the
   * result is quantised only for true-colour formats (`q`); the error is
   * split 7/16 to the next pixel and 3/16, 5/16, 1/16 to `row[x]`,
   * `row[x + 1]`, `row[x + 2]`, each rounded with Python's `round`.
   */
  function DitherPixel(row: seq<int>, nerr: int, v: int, x: nat, q: Option<Quant>): (c: ChannelState)
    requires x + 2 < |row|
    requires q.Some? ==> ValidQuant(q.value)
    ensures |c.earr| == |row|
  {
    var act := ChannelAct(v + nerr + row[x + 1], q);
    var err := v - act;
    var earr := row[x := row[x] + RoundDiv16(3 * err)][x + 1 := RoundDiv16(5 * err)][x + 2 := row[x + 2] + RoundDiv16(err)];
    ChannelState(act, RoundDiv16(7 * err), earr)
  }

  /**
   * The four rounded shares add up to the error to within 2: each rounding
   * is off by at most half, and 7 + 3 + 5 + 1 = 16.
   */
  lemma ErrorSplitConserves(row: seq<int>, nerr: int, v: int, x: nat, q: Option<Quant>)
    requires x + 2 < |row|
    requires q.Some? ==> ValidQuant(q.value)
    ensures var c := DitherPixel(row, nerr, v, x, q);
      var shared := c.nerr + (c.earr[x] - row[x]) + c.earr[x + 1] + (c.earr[x + 2] - row[x + 2]);
      -2 <= shared - (v - c.act) <= 2
  {
    var c := DitherPixel(row, nerr, v, x, q);
    var err := v - c.act;
    var s7, s3, s5, s1 := RoundDiv16(7 * err), RoundDiv16(3 * err), RoundDiv16(5 * err), RoundDiv16(err);
    RoundDiv16Nearest(7 * err);
    RoundDiv16Nearest(3 * err);
    RoundDiv16Nearest(5 * err);
    RoundDiv16Nearest(err);
    assert -32 <= 16 * (s7 + s3 + s5 + s1) - 16 * err <= 32;
  }

  /**
   * Of two neighbouring pixels in one row, the second one reads back in
   * `row[x + 2]` the 1/16 share the first one put there, on top of the 7/16
   * carry: the right neighbour receives 8/16 of the error, and that share
   * never reaches the row below.
   */
  lemma RightNeighbourTakesBelowRightShare(row: seq<int>, nerr: int, v0: int, v1: int, x: nat, q: Option<Quant>)
    requires x + 3 < |row|
    requires q.Some? ==> ValidQuant(q.value)
    ensures var c0 := DitherPixel(row, nerr, v0, x, q);
      var err := v0 - c0.act;
      DitherInput(c0.earr, c0.nerr, v1, x + 1) == v1 + row[x + 2] + RoundDiv16(7 * err) + RoundDiv16(err)
  {
  }

  /** A fresh error array: `[0] * (w + 2)`. */
  function Zeros(n: nat): (z: seq<int>)
    ensures |z| == n && forall i :: 0 <= i < n ==> z[i] == 0
  {
    seq(n, _ => 0)
  }

  /**
   * `_dith_next` for one channel. With dithering it is `DitherPixel`;
   * without, a true-colour channel is quantised and any other channel keeps
   * the value it had.
   */
  function NextChannel(s: ChannelState, v: int, x: nat, dith: bool, q: Option<Quant>): (t: ChannelState)
    requires dith ==> x + 2 < |s.earr|
    requires q.Some? ==> ValidQuant(q.value)
    ensures |t.earr| == |s.earr|
    ensures q.Some? ==> Quantized(t.act, q.value)
    ensures !dith ==> t.nerr == s.nerr && t.earr == s.earr
    ensures !dith && q.Some? && 0 < v <= q.value.max ==> v <= t.act < v + Step(q.value.bits)
    ensures !dith && q.None? ==> t == s
  {
    if dith then DitherPixel(s.earr, s.nerr, v, x, q)
    else if q.Some? then s.(act := Quantize(v, q.value))
    else s
  }

  /** `_dith_reset` for one channel: with dithering every row starts without a carry. */
  function ResetChannel(s: ChannelState, dith: bool): ChannelState
  {
    if dith then s.(nerr := 0) else s
  }

  /** One channel after the first `n` pixels of a row whose values are `vals`. */
  function RunRow(s: ChannelState, vals: seq<int>, n: nat, dith: bool, q: Option<Quant>): (t: ChannelState)
    requires n <= |vals| && (dith ==> |s.earr| == |vals| + 2)
    requires q.Some? ==> ValidQuant(q.value)
    ensures |t.earr| == |s.earr|
  {
    if n == 0 then s else NextChannel(RunRow(s, vals, n - 1, dith, q), vals[n - 1], n - 1, dith, q)
  }

  /** Without dithering a row leaves the carry and the error array alone. */
  lemma {:induction false} RunRowPlain(s: ChannelState, vals: seq<int>, n: nat, q: Option<Quant>)
    requires n <= |vals|
    requires q.Some? ==> ValidQuant(q.value)
    ensures RunRow(s, vals, n, false, q).nerr == s.nerr
    ensures RunRow(s, vals, n, false, q).earr == s.earr
  {
    if n > 0 {
      RunRowPlain(s, vals, n - 1, q);
    }
  }

  /**
   * Columns the row has not reached yet hold exactly what they held before,
   * except the two just right of the current pixel: the error array lags
   * one column behind (`earr[x + 1]` belongs to column `x`).
   */
  lemma {:induction false} RunRowAhead(s: ChannelState, vals: seq<int>, n: nat, q: Option<Quant>, i: nat)
    requires n <= |vals| && |s.earr| == |vals| + 2
    requires q.Some? ==> ValidQuant(q.value)
    requires n + 2 <= i < |s.earr|
    ensures RunRow(s, vals, n, true, q).earr[i] == s.earr[i]
  {
    if n > 0 {
      RunRowAhead(s, vals, n - 1, q, i);
    }
  }

  /** Pixels from column `n` on never touch the cells left of `n` again. */
  lemma {:induction false} RunRowSettled(s: ChannelState, vals: seq<int>, n: nat, m: nat, q: Option<Quant>, i: nat)
    requires n <= m <= |vals| && |s.earr| == |vals| + 2
    requires q.Some? ==> ValidQuant(q.value)
    requires i < n
    ensures RunRow(s, vals, m, true, q).earr[i] == RunRow(s, vals, n, true, q).earr[i]
    decreases m
  {
    if m > n {
      RunRowSettled(s, vals, n, m - 1, q, i);
    }
  }

  /**
   * What a dithered row hands to the row below: after two neighbouring
   * pixels `x` and `x + 1`, cell `x + 1` (column `x`) holds 5/16 of the
   * error of the pixel above it and 3/16 of the error of the pixel above
   * right, and nothing else: the 1/16 share from above left went to the
   * right neighbour instead. By `RunRowSettled` the cell keeps this value
   * to the end of the row.
   */
  lemma BelowTakesFiveAndThree(row: seq<int>, nerr: int, v0: int, v1: int, x: nat, q: Option<Quant>)
    requires x + 3 < |row|
    requires q.Some? ==> ValidQuant(q.value)
    ensures var c0 := DitherPixel(row, nerr, v0, x, q);
      var c1 := DitherPixel(c0.earr, c0.nerr, v1, x + 1, q);
      c1.earr[x + 1] == RoundDiv16(5 * (v0 - c0.act)) + RoundDiv16(3 * (v1 - c1.act))
  {
  }
}

=== FILE: lvimg_format.dfy ===
/**
 * The colour formats of the LVGL image converter and the pure arithmetic it
 * applies per pixel: channel quantisation, true-colour byte layouts and the
 * values that the packed (alpha and indexed) formats store.
 */
module LvImgFormat {
  import opened Wrappers

  /** The converter's colour formats; `CF_RAW_CHROMA` is the same code as `CF_RAW`. */
  datatype ColorFormat =
    | TrueColor332 | TrueColor565 | TrueColor565Swap | TrueColor888
    | Alpha1 | Alpha2 | Alpha4 | Alpha8
    | Indexed1 | Indexed2 | Indexed4 | Indexed8
    | Raw | RawAlpha

  /** Helper codes used only by the serialisers. */
  const CF_TRUE_COLOR := 100
  const CF_TRUE_COLOR_ALPHA := 101
  const CF_TRUE_COLOR_CHROMA := 102

  function Code(cf: ColorFormat): (n: int)
    ensures 0 <= n <= 13
  {
    match cf
    case TrueColor332 => 0
    case TrueColor565 => 1
    case TrueColor565Swap => 2
    case TrueColor888 => 3
    case Alpha1 => 4
    case Alpha2 => 5
    case Alpha4 => 6
    case Alpha8 => 7
    case Indexed1 => 8
    case Indexed2 => 9
    case Indexed4 => 10
    case Indexed8 => 11
    case Raw => 12
    case RawAlpha => 13
  }

  function FromCode(n: int): (r: Option<ColorFormat>)
    ensures r.Some? <==> 0 <= n <= 13
    ensures r.Some? ==> Code(r.value) == n
  {
    if n == 0 then Some(TrueColor332) else if n == 1 then Some(TrueColor565)
    else if n == 2 then Some(TrueColor565Swap) else if n == 3 then Some(TrueColor888)
    else if n == 4 then Some(Alpha1) else if n == 5 then Some(Alpha2)
    else if n == 6 then Some(Alpha4) else if n == 7 then Some(Alpha8)
    else if n == 8 then Some(Indexed1) else if n == 9 then Some(Indexed2)
    else if n == 10 then Some(Indexed4) else if n == 11 then Some(Indexed8)
    else if n == 12 then Some(Raw) else if n == 13 then Some(RawAlpha)
    else None
  }

  lemma CodeRoundTrip(cf: ColorFormat)
    ensures FromCode(Code(cf)) == Some(cf)
  {
  }

  /** The four kinds of format, which decide how `convert` treats a pixel. */
  datatype Kind = TrueColorKind | AlphaKind | IndexedKind | RawKind

  function KindOf(cf: ColorFormat): Kind {
    match cf
    case TrueColor332 | TrueColor565 | TrueColor565Swap | TrueColor888 => TrueColorKind
    case Alpha1 | Alpha2 | Alpha4 | Alpha8 => AlphaKind
    case Indexed1 | Indexed2 | Indexed4 | Indexed8 => IndexedKind
    case Raw | RawAlpha => RawKind
  }

  predicate IsTrueColor(cf: ColorFormat) {
    KindOf(cf) == TrueColorKind
  }

  predicate IsAlpha(cf: ColorFormat) {
    KindOf(cf) == AlphaKind
  }

  predicate IsIndexed(cf: ColorFormat) {
    KindOf(cf) == IndexedKind
  }

  /** Formats whose pixels are bit-packed (or byte-stored) values rather than colours. */
  predicate IsPacked(cf: ColorFormat) {
    IsAlpha(cf) || IsIndexed(cf)
  }

  predicate IsRaw(cf: ColorFormat) {
    KindOf(cf) == RawKind
  }

  /** Palette entries an indexed format carries in front of the pixel data; 0 for the rest. */
  function PaletteSize(cf: ColorFormat): (n: nat)
    ensures IsIndexed(cf) <==> n > 0
  {
    match cf
    case Indexed1 => 2
    case Indexed2 => 4
    case Indexed4 => 16
    case Indexed8 => 256
    case _ => 0
  }

  /** Widths of the fields a packed format stores per pixel. */
  type FieldWidth = bits: nat | bits == 1 || bits == 2 || bits == 4 || bits == 8 witness 1

  /** Bits per stored value in a packed format. */
  function PackedBits(cf: ColorFormat): (bits: FieldWidth)
    requires IsPacked(cf)
  {
    match cf
    case Alpha1 => 1
    case Indexed1 => 1
    case Alpha2 => 2
    case Indexed2 => 2
    case Alpha4 => 4
    case Indexed4 => 4
    case _ => 8
  }

  /** Pixels in one byte, `8 / bits`. */
  function PixelsPerByte(bits: FieldWidth): (n: nat)
    ensures n >= 1
  {
    match bits
    case 1 => 8
    case 2 => 4
    case 4 => 2
    case 8 => 1
  }

  lemma PixelsPerByteFillsByte(bits: FieldWidth)
    ensures PixelsPerByte(bits) * bits == 8
  {
  }

  /** The largest value a field of `bits` bits holds. */
  function Mask(bits: FieldWidth): (m: bv8)
  {
    match bits
    case 1 => 1
    case 2 => 3
    case 4 => 0xF
    case 8 => 0xFF
  }

  /** Number of values a field of `bits` bits holds. */
  function Levels(bits: FieldWidth): (n: nat)
  {
    match bits
    case 1 => 2
    case 2 => 4
    case 4 => 16
    case 8 => 256
  }

  /** The byte of a row that pixel column `x` falls in: `x >> 3`, `x >> 2`, `x >> 1` or `x`. */
  function ByteOf(bits: FieldWidth, x: nat): nat
  {
    match bits
    case 1 => x / 8
    case 2 => x / 4
    case 4 => x / 2
    case 8 => x
  }

  /** The position of pixel column `x` inside its byte: `x & 7`, `x & 3`, `x & 1` or 0. */
  function Slot(bits: FieldWidth, x: nat): (k: nat)
    ensures k < PixelsPerByte(bits)
  {
    match bits
    case 1 => x % 8
    case 2 => x % 4
    case 4 => x % 2
    case 8 => 0
  }

  /** Bytes needed for `n` pixels, rounding up to whole bytes. */
  function ByteCount(bits: FieldWidth, n: nat): nat
  {
    match bits
    case 1 => (n + 7) / 8
    case 2 => (n + 3) / 4
    case 4 => (n + 1) / 2
    case 8 => n
  }

  /** Column `x` is pixel number `Slot` of byte `ByteOf`. */
  lemma ByteOfSlot(bits: FieldWidth, x: nat)
    ensures x == ByteOf(bits, x) * PixelsPerByte(bits) + Slot(bits, x)
    ensures ByteOf(bits, x) == x / PixelsPerByte(bits) && Slot(bits, x) == x % PixelsPerByte(bits)
  {
  }

  /** `ByteCount` is the least number of bytes whose pixels cover `n` columns. */
  lemma ByteCountCovers(bits: FieldWidth, n: nat)
    ensures ByteCount(bits, n) * PixelsPerByte(bits) >= n
    ensures ByteCount(bits, n) * PixelsPerByte(bits) < n + PixelsPerByte(bits)
    ensures ByteCount(bits, n) == (n * bits + 7) / 8
  {
  }

  /** A column inside a row of `n` pixels falls in one of the row's bytes. */
  lemma ByteOfInRow(bits: FieldWidth, x: nat, n: nat)
    requires x < n
    ensures ByteOf(bits, x) < ByteCount(bits, n)
  {
  }

  /**
   * Bytes per row of a packed format, computed as the converter does it:
   * `w >> k`, plus one when `w & mask` leaves a partial byte.
   */
  function Stride(cf: ColorFormat, w: nat): (s: nat)
    requires IsPacked(cf)
    ensures s == ByteCount(PackedBits(cf), w)
  {
    match PackedBits(cf)
    case 1 => w / 8 + (if w % 8 != 0 then 1 else 0)
    case 2 => w / 4 + (if w % 4 != 0 then 1 else 0)
    case 4 => w / 2 + (if w % 2 != 0 then 1 else 0)
    case 8 => w
  }

  /** Index of the first pixel byte: the constants 8, 16, 64 and 1024 skip the palette. */
  function PayloadOffset(cf: ColorFormat): (o: nat)
    ensures o == 4 * PaletteSize(cf)
  {
    match cf
    case Indexed1 => 8
    case Indexed2 => 16
    case Indexed4 => 64
    case Indexed8 => 1024
    case _ => 0
  }

  /**
   * Byte that holds pixel (x, y) of a packed format: past the palette, `y`
   * whole rows of `Stride` bytes, then the byte of column `x`.
   */
  function PackedIndex(cf: ColorFormat, w: nat, x: nat, y: nat): (p: nat)
    requires IsPacked(cf)
    ensures p == PayloadOffset(cf) + Stride(cf, w) * y + ByteOf(PackedBits(cf), x)
  {
    match PackedBits(cf)
    case 1 => Stride(cf, w) * y + x / 8 + PayloadOffset(cf)
    case 2 => Stride(cf, w) * y + x / 4 + PayloadOffset(cf)
    case 4 => Stride(cf, w) * y + x / 2 + PayloadOffset(cf)
    case 8 => w * y + x + PayloadOffset(cf)
  }

  /**
   * The value a packed format stores for a pixel with alpha `a` and palette
   * index `cx`: one bit set only above 0x80, `a >> 6`, `a >> 4`, `a`, or the
   * index masked to the field width.
   */
  function PackedValue(cf: ColorFormat, a: bv8, cx: nat): (v: bv8)
    requires IsPacked(cf)
    ensures v <= Mask(PackedBits(cf))
  {
    match cf
    case Alpha1 => if a > 0x80 then 1 else 0
    case Alpha2 => AlphaField(a, 2)
    case Alpha4 => AlphaField(a, 4)
    case Alpha8 => AlphaField(a, 8)
    case Indexed1 => IndexField(cx, 1)
    case Indexed2 => IndexField(cx, 2)
    case Indexed4 => IndexField(cx, 4)
    case Indexed8 => IndexField(cx, 8)
  }

  /**
   * A 1-bit alpha field is set exactly when the alpha is above 0x80, and an
   * indexed field holds the index modulo the number of levels of the field.
   */
  lemma PackedValueMeaning(cf: ColorFormat, a: bv8, cx: nat)
    requires IsPacked(cf)
    ensures cf == Alpha1 ==> (PackedValue(cf, a, cx) == 1 <==> a > 0x80)
    ensures IsIndexed(cf) ==> PackedValue(cf, a, cx) as nat == cx % Levels(PackedBits(cf))
  {
  }

  /** The top `bits` bits of an alpha byte: `a >> 6`, `a >> 4` or `a`. */
  function AlphaField(a: bv8, bits: FieldWidth): (v: bv8)
    requires bits != 1
    ensures v <= Mask(bits)
  {
    match bits
    case 2 => a >> 6
    case 4 => a >> 4
    case 8 => a
  }

  /** A palette index masked to a field of `bits` bits. */
  function IndexField(cx: nat, bits: FieldWidth): (v: bv8)
    ensures v <= Mask(bits) && v as nat == cx % Levels(bits)
  {
    var r := cx % Levels(bits);
    SmallToBv8(r);
    r as bv8
  }

  lemma SmallToBv8(r: int)
    requires 0 <= r < 256
    ensures (r as bv8) as int == r
  {
    var b: bv8 := r as bv8;
    assert b == (r as bv16) as bv8;
  }

  /** Bits kept by a channel (`_classify_pixel`'s `bits`) and the largest value allowed. */
  datatype Quant = Quant(bits: nat, max: int)

  predicate ValidQuant(q: Quant) {
    1 <= q.bits <= 8 && 0 <= q.max <= 255 && OnStep(q.max, q.bits)
  }

  /** Distance between neighbouring levels of a channel kept to `bits` bits. */
  function Step(bits: nat): (t: nat)
    requires 1 <= bits <= 8
    ensures t >= 1
  {
    match bits
    case 1 => 128
    case 2 => 64
    case 3 => 32
    case 4 => 16
    case 5 => 8
    case 6 => 4
    case 7 => 2
    case 8 => 1
  }

  /**
   * `v` is a multiple of `Step(bits)`. Each case names its step as a
   * literal, which keeps the arithmetic linear for the solver.
   */
  predicate OnStep(v: int, bits: nat)
    requires 1 <= bits <= 8
  {
    match bits
    case 1 => v % 128 == 0
    case 2 => v % 64 == 0
    case 3 => v % 32 == 0
    case 4 => v % 16 == 0
    case 5 => v % 8 == 0
    case 6 => v % 4 == 0
    case 7 => v % 2 == 0
    case 8 => true
  }

  lemma OnStepIsMultiple(v: int, bits: nat)
    requires 1 <= bits <= 8
    ensures OnStep(v, bits) <==> v % Step(bits) == 0
  {
  }

  datatype Quants = Quants(r: Quant, g: Quant, b: Quant)

  /** Channel quantisation of a true-colour format: RGB332, RGB565 (either byte order), RGB888. */
  function ChannelQuants(cf: ColorFormat): (q: Option<Quants>)
    ensures q.Some? <==> IsTrueColor(cf)
    ensures q.Some? ==> ValidQuant(q.value.r) && ValidQuant(q.value.g) && ValidQuant(q.value.b)
  {
    match cf
    case TrueColor332 => Some(Quants(Quant(3, 0xE0), Quant(3, 0xE0), Quant(2, 0xC0)))
    case TrueColor565 => Some(Quants(Quant(5, 0xF8), Quant(6, 0xFC), Quant(5, 0xF8)))
    case TrueColor565Swap => Some(Quants(Quant(5, 0xF8), Quant(6, 0xFC), Quant(5, 0xF8)))
    case TrueColor888 => Some(Quants(Quant(8, 0xFF), Quant(8, 0xFF), Quant(8, 0xFF)))
    case _ => None
  }

  /**
   * `_classify_pixel`: rounds `value` UP to a multiple of `2^(8-bits)`
   * (ceiling, not nearest) and replaces a negative result by 0.
   */
  function ClassifyPixel(value: int, bits: nat): (r: int)
    requires 1 <= bits <= 8
    ensures r >= 0 && OnStep(r, bits)
    ensures value <= 0 ==> r == 0
    ensures value > 0 ==> value <= r < value + Step(bits)
  {
    CeilToStepBounds(value, bits);
    var val := CeilToStep(value, bits);
    if val >= 0 then val else 0
  }

  /**
   * `math.ceil(value / tmp) * tmp` with `tmp = 1 << (8 - bits)`, one case per
   * width so that each division is by a literal.
   */
  function CeilToStep(value: int, bits: nat): int
    requires 1 <= bits <= 8
  {
    match bits
    case 1 => -((-value) / 128) * 128
    case 2 => -((-value) / 64) * 64
    case 3 => -((-value) / 32) * 32
    case 4 => -((-value) / 16) * 16
    case 5 => -((-value) / 8) * 8
    case 6 => -((-value) / 4) * 4
    case 7 => -((-value) / 2) * 2
    case 8 => -((-value) / 1) * 1
  }

  lemma CeilToStepBounds(value: int, bits: nat)
    requires 1 <= bits <= 8
    ensures OnStep(CeilToStep(value, bits), bits)
    ensures value <= CeilToStep(value, bits) < value + Step(bits)
  {
    var t := Step(bits);
    CeilMultiple(value, t);
    assert CeilToStep(value, bits) == -((-value) / t) * t;
    OnStepIsMultiple(CeilToStep(value, bits), bits);
  }

  /**
   * `math.ceil(value / tmp) * tmp` on integers: the first multiple of `tmp`
   * at or above `value`.
   */
  lemma CeilMultiple(value: int, t: int)
    requires t >= 1
    ensures var c := -((-value) / t) * t; value <= c < value + t && c % t == 0
  {
    var q := (-value) / t;
    assert -q * t == (-q) * t;
    MultipleMod(-q, t);
  }

  lemma MultipleMod(k: int, t: int)
    requires t >= 1
    ensures (k * t) % t == 0
  {
    var a := k * t;
    var m := a / t;
    assert a == t * m + a % t;
    assert t * (k - m) == a % t;
    ProductBounds(k - m, t);
  }

  lemma ProductBounds(d: int, t: int)
    requires t >= 1
    ensures d >= 1 ==> t * d >= t
    ensures d <= -1 ==> t * d <= -t
  {
  }

  /** A channel after classification and clamping to the format's maximum. */
  function Quantize(value: int, q: Quant): (r: int)
    requires ValidQuant(q)
    ensures 0 <= r <= q.max && OnStep(r, q.bits)
    ensures value <= 0 ==> r == 0
    ensures 0 < value <= q.max ==> value <= r < value + Step(q.bits)
    ensures value > q.max ==> r == q.max
  {
    var c := ClassifyPixel(value, q.bits);
    if 0 < value <= q.max then MultipleBelowMax(value, c, q); (if c > q.max then q.max else c)
    else
    if c > q.max then q.max else c
  }

  lemma MultipleBelowMax(value: int, c: int, q: Quant)
    requires ValidQuant(q) && 0 < value <= q.max && OnStep(c, q.bits)
    requires value <= c < value + Step(q.bits)
    ensures c <= q.max
  {
    OnStepIsMultiple(c, q.bits);
    OnStepIsMultiple(q.max, q.bits);
    MultiplesApart(c, q.max, Step(q.bits));
  }

  /** Two different multiples of `t` are at least `t` apart. */
  lemma MultiplesApart(a: int, b: int, t: int)
    requires t >= 1 && a % t == 0 && b % t == 0
    ensures a > b ==> a - b >= t
  {
    var d := a / t - b / t;
    assert a - b == t * d;
    ProductBounds(d, t);
  }

  /** A channel value that quantisation under `q` can produce. */
  predicate Quantized(v: int, q: Quant)
    requires ValidQuant(q)
  {
    0 <= v <= q.max && OnStep(v, q.bits)
  }

  /** An (r, g, b) triple of channel values. */
  datatype Rgb = Rgb(r: int, g: int, b: int)

  predicate QuantizedRgb(c: Rgb, qs: Quants)
    requires ValidQuant(qs.r) && ValidQuant(qs.g) && ValidQuant(qs.b)
  {
    Quantized(c.r, qs.r) && Quantized(c.g, qs.g) && Quantized(c.b, qs.b)
  }

  /** RGB332 byte `r | (g >> 3) | (b >> 6)`. */
  function Rgb332(c: Rgb): (c8: bv8)
    requires QuantizedRgb(c, ChannelQuants(TrueColor332).value)
  {
    (c.r as bv8) | ((c.g / 8) as bv8) | ((c.b / 64) as bv8)
  }

  function Unpack332(c8: bv8): (c: Rgb)
  {
    Rgb((c8 & 0xE0) as int, ((c8 & 0x1C) as int) * 8, ((c8 & 0x03) as int) * 64)
  }

  /** The three fields of the RGB332 byte are disjoint: unpacking recovers every channel. */
  lemma Rgb332RoundTrip(c: Rgb)
    requires QuantizedRgb(c, ChannelQuants(TrueColor332).value)
    ensures Unpack332(Rgb332(c)) == c
  {
    RoundTrip332(c.r, c.g, c.b);
  }

  lemma RoundTrip332(r: int, g: int, b: int)
    requires 0 <= r <= 0xE0 && 0 <= g <= 0xE0 && 0 <= b <= 0xC0
    requires r % 32 == 0 && g % 32 == 0 && b % 64 == 0
    ensures var c8 := (r as bv8) | ((g / 8) as bv8) | ((b / 64) as bv8);
      (c8 & 0xE0) as int == r && ((c8 & 0x1C) as int) * 8 == g && ((c8 & 0x03) as int) * 64 == b
  {
    var hi := SmallBv(r / 32) << 5;
    var mid := SmallBv(g / 32) << 2;
    var lo := SmallBv(b / 64);
    Scaled(r / 32, 5, 32);
    BvOfInt(hi, r);
    Scaled(g / 32, 2, 4);
    BvOfInt(mid, g / 8);
    Scaled(b / 64, 0, 1);
    BvOfInt(lo, b / 64);
    var c8 := hi | mid | lo;
    assert c8 & 0xE0 == hi && c8 & 0x1C == mid && c8 & 0x03 == lo;
  }

  /** A number below 8 as a bit-vector, spelled out so that no integer conversion is involved. */
  function SmallBv(m: nat): (k: bv8)
    requires m < 8
    ensures k < 8
  {
    if m == 0 then 0 else if m == 1 then 1 else if m == 2 then 2 else if m == 3 then 3
    else if m == 4 then 4 else if m == 5 then 5 else if m == 6 then 6 else 7
  }

  /** `i` shifted left by `s` is `i` times `f = 2^s`, for the three shifts RGB332 uses. */
  lemma Scaled(i: nat, s: bv8, f: nat)
    requires i < 8 && ((s == 5 && f == 32) || (s == 2 && f == 4) || (s == 0 && f == 1))
    ensures (SmallBv(i) << s) as int == f * i
  {
  }

  lemma BvOfInt(x: bv8, r: int)
    requires x as int == r
    ensures r as bv8 == x
  {
  }

  /** RGB565 word `(r << 8) | (g << 3) | (b >> 3)`. */
  function Rgb565(c: Rgb): (c16: bv16)
    requires QuantizedRgb(c, ChannelQuants(TrueColor565).value)
  {
    ((c.r as bv16) << 8) | ((c.g as bv16) << 3) | ((c.b / 8) as bv16)
  }

  function Unpack565(c16: bv16): (c: Rgb)
  {
    Rgb(((c16 & 0xF800) >> 8) as int, ((c16 & 0x07E0) >> 3) as int, ((c16 & 0x001F) as int) * 8)
  }

  lemma Rgb565RoundTrip(c: Rgb)
    requires QuantizedRgb(c, ChannelQuants(TrueColor565).value)
    ensures Unpack565(Rgb565(c)) == c
  {
    RoundTrip565(c.r, c.g, c.b);
  }

  lemma RoundTrip565(r: int, g: int, b: int)
    requires 0 <= r <= 0xF8 && 0 <= g <= 0xFC && 0 <= b <= 0xF8
    requires r % 8 == 0 && g % 4 == 0 && b % 8 == 0
    ensures var c16 := ((r as bv16) << 8) | ((g as bv16) << 3) | ((b / 8) as bv16);
      ((c16 & 0xF800) >> 8) as int == r && ((c16 & 0x07E0) >> 3) as int == g && ((c16 & 0x001F) as int) * 8 == b
  {
    LowBitsClear8(r); LowBitsClear4(g);
    SmallToBv16(r); SmallToBv16(g); SmallToBv16(b / 8);
    Fields565(r as bv16, g as bv16, (b / 8) as bv16);
  }

  lemma Fields565(rb: bv16, gb: bv16, bq: bv16)
    requires rb & 7 == 0 && rb <= 0xF8 && gb & 3 == 0 && gb <= 0xFC && bq < 32
    ensures var c16 := (rb << 8) | (gb << 3) | bq;
      (c16 & 0xF800) >> 8 == rb && (c16 & 0x07E0) >> 3 == gb && c16 & 0x001F == bq
  {
  }

  lemma LowBitsClear8(r: int)
    requires 0 <= r < 256 && r % 8 == 0
    ensures (r as bv16) & 7 == 0
  {
    var b := r as bv8;
    SmallToBv8(r);
    assert b as bv16 == r as bv16;
    assert b & 7 == 0;
  }

  lemma LowBitsClear4(r: int)
    requires 0 <= r < 256 && r % 4 == 0
    ensures (r as bv16) & 3 == 0
  {
    var b := r as bv8;
    SmallToBv8(r);
    assert b as bv16 == r as bv16;
    assert b & 3 == 0;
  }

  lemma SmallToBv16(r: int)
    requires 0 <= r < 256
    ensures (r as bv16) as int == r
  {
    var b := r as bv8;
    SmallToBv8(r);
    assert (b as bv16) as int == b as int;
    assert b as bv16 == r as bv16;
  }

  function Lo(c16: bv16): bv8 { (c16 & 0xFF) as bv8 }
  function Hi(c16: bv16): bv8 { ((c16 >> 8) & 0xFF) as bv8 }

  /** Bytes `_conv_px` appends for one pixel of a true-colour format. */
  function PixelBytes(cf: ColorFormat, alpha: bool, c: Rgb, a: bv8): (s: seq<bv8>)
    requires IsTrueColor(cf) && QuantizedRgb(c, ChannelQuants(cf).value)
  {
    match cf
    case TrueColor332 => [Rgb332(c)] + (if alpha then [a] else [])
    case TrueColor565 => [Lo(Rgb565(c)), Hi(Rgb565(c))] + (if alpha then [a] else [])
    case TrueColor565Swap => [Hi(Rgb565(c)), Lo(Rgb565(c))] + (if alpha then [a] else [])
    case TrueColor888 => [c.b as bv8, c.g as bv8, c.r as bv8, a]
  }

  function BytesPerPixel(cf: ColorFormat, alpha: bool): (n: nat)
    requires IsTrueColor(cf)
  {
    match cf
    case TrueColor332 => if alpha then 2 else 1
    case TrueColor888 => 4
    case _ => if alpha then 3 else 2
  }

  /** Reads one pixel's bytes back: the colour and, when the format stores one, the alpha byte. */
  function DecodePixel(cf: ColorFormat, alpha: bool, s: seq<bv8>): (r: Option<(Rgb, Option<bv8>)>)
    requires IsTrueColor(cf)
  {
    if |s| != BytesPerPixel(cf, alpha) then None
    else
      match cf
      case TrueColor332 => Some((Unpack332(s[0]), if alpha then Some(s[1]) else None))
      case TrueColor565 => Some((Unpack565(((s[1] as bv16) << 8) | (s[0] as bv16)), if alpha then Some(s[2]) else None))
      case TrueColor565Swap => Some((Unpack565(((s[0] as bv16) << 8) | (s[1] as bv16)), if alpha then Some(s[2]) else None))
      case TrueColor888 => Some((Rgb(s[2] as int, s[1] as int, s[0] as int), Some(s[3])))
  }

  lemma WordFromBytes(c16: bv16)
    ensures ((Hi(c16) as bv16) << 8) | (Lo(c16) as bv16) == c16
  {
  }

  /**
   * Every true-colour layout is lossless for quantised channels: decoding the
   * bytes gives back the colour, and the alpha byte exactly when it is stored
   * (always for RGB888, otherwise only with the alpha flag).
   */
  lemma PixelBytesRoundTrip(cf: ColorFormat, alpha: bool, c: Rgb, a: bv8)
    requires IsTrueColor(cf) && QuantizedRgb(c, ChannelQuants(cf).value)
    ensures |PixelBytes(cf, alpha, c, a)| == BytesPerPixel(cf, alpha)
    ensures DecodePixel(cf, alpha, PixelBytes(cf, alpha, c, a))
         == Some((c, if alpha || cf == TrueColor888 then Some(a) else None))
  {
    match cf
    case TrueColor332 => Rgb332RoundTrip(c);
    case TrueColor565 => RoundTrip565Bytes(c, alpha, a, false);
    case TrueColor565Swap => RoundTrip565Bytes(c, alpha, a, true);
    case TrueColor888 => SmallToBv8(c.r); SmallToBv8(c.g); SmallToBv8(c.b);
  }

  lemma RoundTrip565Bytes(c: Rgb, alpha: bool, a: bv8, swap: bool)
    requires QuantizedRgb(c, ChannelQuants(TrueColor565).value)
    ensures var cf := if swap then TrueColor565Swap else TrueColor565;
      DecodePixel(cf, alpha, PixelBytes(cf, alpha, c, a)) == Some((c, if alpha then Some(a) else None))
  {
    var cf := if swap then TrueColor565Swap else TrueColor565;
    var w := Rgb565(c);
    var s := PixelBytes(cf, alpha, c, a);
    Rgb565RoundTrip(c);
    WordFromBytes(w);
    if swap {
      assert s[0] == Hi(w) && s[1] == Lo(w);
    } else {
      assert s[0] == Lo(w) && s[1] == Hi(w);
    }
    assert |s| == BytesPerPixel(cf, alpha);
  }
}

=== FILE: lvimg_image.dfy ===
/**
 * What one call of `Convertor.convert` produces, stated as functions of the
 * picture it reads: the palette prefix of the indexed formats, then the
 * pixel bytes row after row; and the dithering state it leaves behind.
 */
module LvImgImage {
  import opened Wrappers
  import opened LvImgFormat
  import opened LvImgPacking
  import opened LvImgDither
  import opened Seqs

  /** A pixel as PIL's `getpixel` returns it from an RGBA image: four bytes. */
  datatype Rgba = Rgba(r: bv8, g: bv8, b: bv8, a: bv8)

  /**
   * The picture the converter reads. `rgba` holds the RGBA pixels row by
   * row. For the indexed formats the converter reads PIL's palette image
   * instead: `index` holds one palette index per pixel, `palette` the flat
   * list of RGB entries and `colors` the number of colours `getcolors`
   * reports.
   */
  datatype Picture = Picture(w: nat, h: nat, rgba: seq<seq<Rgba>>, index: seq<seq<nat>>,
                             palette: seq<bv8>, colors: nat)

  predicate IsByte(v: int) {
    0 <= v < 256
  }

  /**
   * What PIL guarantees about the picture: rows of the stated size, and
   * palette indices and colour counts that stay inside the palette.
   */
  predicate WellFormed(p: Picture) {
    && |p.rgba| == p.h && |p.index| == p.h
    && (forall y :: 0 <= y < p.h ==> |p.rgba[y]| == p.w && |p.index[y]| == p.w)
    && (forall y, x :: 0 <= y < p.h && 0 <= x < |p.index[y]| ==> 3 * p.index[y][x] + 3 <= |p.palette|)
    && 3 * p.colors <= |p.palette|
  }

  /** `getColorFromPalette`: the three channels of palette entry `index`, or `IndexError` past the end. */
  function GetColorFromPalette(palette: seq<bv8>, index: nat): (c: Result<seq<bv8>>)
    ensures c.Ok? <==> 3 * index + 3 <= |palette|
    ensures c.Ok? ==> |c.value| == 3 && forall i :: 0 <= i < 3 ==> c.value[i] == palette[3 * index + i]
  {
    if 3 * index + 3 <= |palette| then Ok(palette[3 * index .. 3 * index + 3]) else Err(IndexError)
  }

  /** The colour, the alpha and the raw `getpixel` value `_conv_px` works with. */
  datatype Px = Px(c: Rgb, a: bv8, cx: nat)

  /**
   * The pixel at (x, y): from the palette, with alpha 0xFF, for the indexed
   * formats (whose image is in palette mode); as it is otherwise. An RGBA
   * `getpixel` value is never used as an index, so `cx` is 0 there.
   */
  function PixelAt(p: Picture, cf: ColorFormat, x: nat, y: nat): (px: Px)
    requires WellFormed(p) && x < p.w && y < p.h
    ensures IsByte(px.c.r) && IsByte(px.c.g) && IsByte(px.c.b)
  {
    if IsIndexed(cf) then
      var i := p.index[y][x];
      var c := GetColorFromPalette(p.palette, i).value;
      Px(Rgb(c[0] as int, c[1] as int, c[2] as int), 0xFF, i)
    else
      var c := p.rgba[y][x];
      Px(Rgb(c.r as int, c.g as int, c.b as int), c.a, 0)
  }

  datatype Primary = Red | Green | Blue

  function Pick(c: Rgb, ch: Primary): int {
    match ch
    case Red => c.r
    case Green => c.g
    case Blue => c.b
  }

  /** The quantiser of one channel: only the true-colour formats have one. */
  function QuantOf(cf: ColorFormat, ch: Primary): (q: Option<Quant>)
    ensures q.Some? <==> IsTrueColor(cf)
    ensures q.Some? ==> ValidQuant(q.value)
  {
    if IsTrueColor(cf) then
      var qs := ChannelQuants(cf).value;
      Some(match ch case Red => qs.r case Green => qs.g case Blue => qs.b)
    else None
  }

  /** One channel of row `y`, pixel by pixel. */
  function RowValues(p: Picture, cf: ColorFormat, ch: Primary, y: nat): (vals: seq<int>)
    requires WellFormed(p) && y < p.h
    ensures |vals| == p.w
  {
    seq(p.w, x requires 0 <= x < p.w => Pick(PixelAt(p, cf, x, y).c, ch))
  }

  /** Everything one call of `convert` depends on: the picture, the format, the two flags and, for the raw formats, the file. */
  datatype Job = Job(p: Picture, cf: ColorFormat, dith: bool, alpha: bool, file: seq<bv8>)

  /** Channel states that dithering can run on: with dithering each row array has `w + 2` cells. */
  predicate Fits(j: Job, s: ChannelState) {
    j.dith ==> |s.earr| == j.p.w + 2
  }

  /**
   * One channel's state before row `y`, when it was `s0` before the first
   * row: each row resets the carry (with dithering) and runs over all its
   * pixels; the row array carries over from one row to the next.
   */
  function StateBefore(j: Job, s0: ChannelState, ch: Primary, y: nat): (s: ChannelState)
    requires WellFormed(j.p) && Fits(j, s0) && y <= j.p.h
    ensures |s.earr| == |s0.earr|
    decreases y, 0
  {
    if y == 0 then s0 else RowState(j, s0, ch, y - 1, j.p.w)
  }

  /** One channel's state after the first `n` pixels of row `y`. */
  function RowState(j: Job, s0: ChannelState, ch: Primary, y: nat, n: nat): (s: ChannelState)
    requires WellFormed(j.p) && Fits(j, s0) && y < j.p.h && n <= j.p.w
    ensures |s.earr| == |s0.earr|
    decreases y, 1
  {
    RunRow(ResetChannel(StateBefore(j, s0, ch, y), j.dith), RowValues(j.p, j.cf, ch, y), n, j.dith, QuantOf(j.cf, ch))
  }

  /** The three channel states. */
  datatype Channels = Channels(r: ChannelState, g: ChannelState, b: ChannelState)

  predicate FitsAll(j: Job, s: Channels) {
    Fits(j, s.r) && Fits(j, s.g) && Fits(j, s.b)
  }

  /** `_dith_next` on the three channels, each with the quantiser of its own channel. */
  function NextChannels(s: Channels, c: Rgb, x: nat, dith: bool, cf: ColorFormat): (t: Channels)
    requires dith ==> x + 2 < |s.r.earr| && x + 2 < |s.g.earr| && x + 2 < |s.b.earr|
    ensures |t.r.earr| == |s.r.earr| && |t.g.earr| == |s.g.earr| && |t.b.earr| == |s.b.earr|
  {
    Channels(NextChannel(s.r, c.r, x, dith, QuantOf(cf, Red)),
             NextChannel(s.g, c.g, x, dith, QuantOf(cf, Green)),
             NextChannel(s.b, c.b, x, dith, QuantOf(cf, Blue)))
  }

  /** `_dith_reset` on the three channels. */
  function ResetChannels(s: Channels, dith: bool): Channels {
    Channels(ResetChannel(s.r, dith), ResetChannel(s.g, dith), ResetChannel(s.b, dith))
  }

  /** The three channels before row `y`. */
  function ChannelsBefore(j: Job, s0: Channels, y: nat): (s: Channels)
    requires WellFormed(j.p) && FitsAll(j, s0) && y <= j.p.h
    ensures FitsAll(j, s)
  {
    Channels(StateBefore(j, s0.r, Red, y), StateBefore(j, s0.g, Green, y), StateBefore(j, s0.b, Blue, y))
  }

  /** The three channels after the first `n` pixels of row `y`. */
  function ChannelsAt(j: Job, s0: Channels, y: nat, n: nat): (s: Channels)
    requires WellFormed(j.p) && FitsAll(j, s0) && y < j.p.h && n <= j.p.w
    ensures FitsAll(j, s)
  {
    Channels(RowState(j, s0.r, Red, y, n), RowState(j, s0.g, Green, y, n), RowState(j, s0.b, Blue, y, n))
  }

  /** The colour a true-colour format keeps for pixel (x, y): each channel's value right after that pixel. */
  function KeptColor(j: Job, s0: Channels, x: nat, y: nat): (c: Rgb)
    requires WellFormed(j.p) && FitsAll(j, s0) && x < j.p.w && y < j.p.h && IsTrueColor(j.cf)
    ensures QuantizedRgb(c, ChannelQuants(j.cf).value)
  {
    Rgb(RowState(j, s0.r, Red, y, x + 1).act,
        RowState(j, s0.g, Green, y, x + 1).act,
        RowState(j, s0.b, Blue, y, x + 1).act)
  }

  /** The bytes a true-colour format writes for pixel (x, y). */
  function PixelOut(j: Job, s0: Channels, x: nat, y: nat): (s: seq<bv8>)
    requires WellFormed(j.p) && FitsAll(j, s0) && x < j.p.w && y < j.p.h && IsTrueColor(j.cf)
  {
    PixelBytes(j.cf, j.alpha, KeptColor(j, s0, x, y), PixelAt(j.p, j.cf, x, y).a)
  }

  /** The bytes of each pixel of row `y` in a true-colour format. */
  function PixelRow(j: Job, s0: Channels, y: nat): (px: seq<seq<bv8>>)
    requires WellFormed(j.p) && FitsAll(j, s0) && y < j.p.h && IsTrueColor(j.cf)
    ensures |px| == j.p.w
  {
    seq(j.p.w, x requires 0 <= x < j.p.w => PixelOut(j, s0, x, y))
  }

  /** Every pixel of a true-colour format takes `BytesPerPixel` bytes. */
  lemma PixelRowUniform(j: Job, s0: Channels, y: nat)
    requires WellFormed(j.p) && FitsAll(j, s0) && y < j.p.h && IsTrueColor(j.cf)
    ensures Uniform(PixelRow(j, s0, y), BytesPerPixel(j.cf, j.alpha))
  {
    forall x | 0 <= x < j.p.w
      ensures |PixelRow(j, s0, y)[x]| == BytesPerPixel(j.cf, j.alpha)
    {
      PixelBytesRoundTrip(j.cf, j.alpha, KeptColor(j, s0, x, y), PixelAt(j.p, j.cf, x, y).a);
    }
  }

  /** The values a packed format stores for row `y`. */
  function PackedRow(p: Picture, cf: ColorFormat, y: nat): (vals: seq<bv8>)
    requires WellFormed(p) && y < p.h && IsPacked(cf)
    ensures |vals| == p.w && FitsField(vals, PackedBits(cf))
  {
    seq(p.w, x requires 0 <= x < p.w => PackedValue(cf, PixelAt(p, cf, x, y).a, PixelAt(p, cf, x, y).cx))
  }

  /** The bytes of the first `n` pixels of row `y`. */
  function RowBytes(j: Job, s0: Channels, y: nat, n: nat): (s: seq<bv8>)
    requires WellFormed(j.p) && FitsAll(j, s0) && y < j.p.h && n <= j.p.w && !IsRaw(j.cf)
  {
    if IsPacked(j.cf) then PackRow(PackedRow(j.p, j.cf, y), n, PackedBits(j.cf))
    else Flatten(PixelRow(j, s0, y)[..n])
  }

  /** Bytes per row: the stride of a packed format, `w` pixels of a true-colour one. */
  function RowLength(j: Job): nat
    requires !IsRaw(j.cf)
  {
    if IsPacked(j.cf) then Stride(j.cf, j.p.w) else j.p.w * BytesPerPixel(j.cf, j.alpha)
  }

  /**
   * A partial row of a packed format has as many bytes as its pixels need,
   * one of a true-colour format `BytesPerPixel` bytes a pixel; a whole row
   * has `RowLength` bytes.
   */
  lemma RowBytesLength(j: Job, s0: Channels, y: nat, n: nat)
    requires WellFormed(j.p) && FitsAll(j, s0) && y < j.p.h && n <= j.p.w && !IsRaw(j.cf)
    ensures IsPacked(j.cf) ==> |RowBytes(j, s0, y, n)| == ByteCount(PackedBits(j.cf), n)
    ensures IsTrueColor(j.cf) ==> |RowBytes(j, s0, y, n)| == n * BytesPerPixel(j.cf, j.alpha)
    ensures n == j.p.w ==> |RowBytes(j, s0, y, n)| == RowLength(j)
  {
    if IsPacked(j.cf) {
      PackRowLength(PackedRow(j.p, j.cf, y), n, PackedBits(j.cf));
    } else {
      PixelRowUniform(j, s0, y);
      FlattenLength(PixelRow(j, s0, y)[..n], BytesPerPixel(j.cf, j.alpha));
    }
  }

  /** Converting pixel `x` of a true-colour row appends that pixel's bytes. */
  lemma RowBytesStep(j: Job, s0: Channels, y: nat, x: nat)
    requires WellFormed(j.p) && FitsAll(j, s0) && y < j.p.h && x < j.p.w && IsTrueColor(j.cf)
    ensures RowBytes(j, s0, y, x + 1) == RowBytes(j, s0, y, x) + PixelOut(j, s0, x, y)
  {
    FlattenTake(PixelRow(j, s0, y), x);
  }

  /** Every row, all pixels converted. */
  function RowList(j: Job, s0: Channels): (rows: seq<seq<bv8>>)
    requires WellFormed(j.p) && FitsAll(j, s0) && !IsRaw(j.cf)
    ensures |rows| == j.p.h
  {
    seq(j.p.h, y requires 0 <= y < j.p.h => RowBytes(j, s0, y, j.p.w))
  }

  lemma RowListUniform(j: Job, s0: Channels)
    requires WellFormed(j.p) && FitsAll(j, s0) && !IsRaw(j.cf)
    ensures Uniform(RowList(j, s0), RowLength(j))
  {
    forall y | 0 <= y < j.p.h
      ensures |RowList(j, s0)[y]| == RowLength(j)
    {
      RowBytesLength(j, s0, y, j.p.w);
    }
  }

  /** Palette entry `i` as the converter writes it: (R, G, B, 0xFF) for a colour in use, four 0xFF otherwise. */
  function PaletteEntry(p: Picture, i: nat): (e: seq<bv8>)
    requires WellFormed(p)
    ensures |e| == 4
  {
    if i < p.colors then
      var c := GetColorFromPalette(p.palette, i).value;
      c + [0xFF]
    else [0xFF, 0xFF, 0xFF, 0xFF]
  }

  /** The first `n` palette entries, one by one. */
  function PaletteEntries(p: Picture, n: nat): (es: seq<seq<bv8>>)
    requires WellFormed(p)
    ensures |es| == n
  {
    seq(n, i requires 0 <= i < n => PaletteEntry(p, i))
  }

  /** The bytes of the first `n` palette entries. */
  function PalettePrefix(p: Picture, n: nat): seq<bv8>
    requires WellFormed(p)
  {
    Flatten(PaletteEntries(p, n))
  }

  lemma PalettePrefixLength(p: Picture, n: nat)
    requires WellFormed(p)
    ensures |PalettePrefix(p, n)| == 4 * n
  {
    assert Uniform(PaletteEntries(p, n), 4);
    FlattenLength(PaletteEntries(p, n), 4);
  }

  /** Writing entry `n` appends its four bytes. */
  lemma PalettePrefixStep(p: Picture, n: nat)
    requires WellFormed(p)
    ensures PalettePrefix(p, n + 1) == PalettePrefix(p, n) + PaletteEntry(p, n)
  {
    var es := PaletteEntries(p, n + 1);
    FlattenTake(es, n);
    assert es[..n] == PaletteEntries(p, n);
    assert es[..n + 1] == es;
  }

  /** Entry `i` of the palette sits at bytes `4 i` to `4 i + 3`. */
  lemma PalettePrefixEntry(p: Picture, n: nat, i: nat)
    requires WellFormed(p) && i < n
    ensures 4 * i + 4 <= |PalettePrefix(p, n)|
    ensures PalettePrefix(p, n)[4 * i .. 4 * i + 4] == PaletteEntry(p, i)
  {
    var es := PaletteEntries(p, n);
    assert Uniform(es, 4);
    FlattenSlice(es, 4, i);
  }

  /** What `d_out` holds once rows `0 .. y - 1` are converted: the palette prefix, then those rows. */
  function RowsDone(j: Job, s0: Channels, y: nat): seq<bv8>
    requires WellFormed(j.p) && FitsAll(j, s0) && y <= j.p.h && !IsRaw(j.cf)
  {
    PalettePrefix(j.p, PaletteSize(j.cf)) + Flatten(RowList(j, s0)[..y])
  }

  /** What `d_out` holds once, in addition, the first `x` pixels of row `y` are converted. */
  function Output(j: Job, s0: Channels, y: nat, x: nat): seq<bv8>
    requires WellFormed(j.p) && FitsAll(j, s0) && y < j.p.h && x <= j.p.w && !IsRaw(j.cf)
  {
    RowsDone(j, s0, y) + RowBytes(j, s0, y, x)
  }

  /** What `d_out` holds after `convert`: the file itself for the raw formats. */
  function Converted(j: Job, s0: Channels): seq<bv8>
    requires WellFormed(j.p) && FitsAll(j, s0)
  {
    if IsRaw(j.cf) then j.file else PalettePrefix(j.p, PaletteSize(j.cf)) + Flatten(RowList(j, s0))
  }

  /** No pixel converted, a row has no bytes yet. */
  lemma RowBytesEmpty(j: Job, s0: Channels, y: nat)
    requires WellFormed(j.p) && FitsAll(j, s0) && y < j.p.h && !IsRaw(j.cf)
    ensures RowBytes(j, s0, y, 0) == []
  {
    if IsPacked(j.cf) {
      PackRowLength(PackedRow(j.p, j.cf, y), 0, PackedBits(j.cf));
    } else {
      assert PixelRow(j, s0, y)[..0] == [];
    }
  }

  /** A row starts where the rows before it end. */
  lemma OutputRowStart(j: Job, s0: Channels, y: nat)
    requires WellFormed(j.p) && FitsAll(j, s0) && y < j.p.h && !IsRaw(j.cf)
    ensures Output(j, s0, y, 0) == RowsDone(j, s0, y)
  {
    RowBytesEmpty(j, s0, y);
  }

  /** A row with all its pixels converted is one more finished row. */
  lemma OutputRowEnd(j: Job, s0: Channels, y: nat)
    requires WellFormed(j.p) && FitsAll(j, s0) && y < j.p.h && !IsRaw(j.cf)
    ensures Output(j, s0, y, j.p.w) == RowsDone(j, s0, y + 1)
  {
    var rows := RowList(j, s0);
    FlattenTake(rows, y);
  }

  /** With every row finished, `d_out` holds the whole output. */
  lemma RowsDoneAll(j: Job, s0: Channels)
    requires WellFormed(j.p) && FitsAll(j, s0) && !IsRaw(j.cf)
    ensures RowsDone(j, s0, j.p.h) == Converted(j, s0)
  {
    assert RowList(j, s0)[..j.p.h] == RowList(j, s0);
  }

  /** The finished rows take the palette prefix and `RowLength` bytes a row. */
  lemma RowsDoneLength(j: Job, s0: Channels, y: nat)
    requires WellFormed(j.p) && FitsAll(j, s0) && y <= j.p.h && !IsRaw(j.cf)
    ensures |RowsDone(j, s0, y)| == RowStart(j, y)
  {
    var done := RowList(j, s0)[..y];
    PalettePrefixLength(j.p, PaletteSize(j.cf));
    RowListUniform(j, s0);
    assert Uniform(done, RowLength(j));
    FlattenLength(done, RowLength(j));
  }

  /** Converting pixel `x` of a true-colour row appends that pixel's bytes to `d_out`. */
  lemma OutputTrueStep(j: Job, s0: Channels, y: nat, x: nat)
    requires WellFormed(j.p) && FitsAll(j, s0) && y < j.p.h && x < j.p.w && IsTrueColor(j.cf)
    ensures Output(j, s0, y, x + 1) == Output(j, s0, y, x) + PixelOut(j, s0, x, y)
  {
    RowBytesStep(j, s0, y, x);
    AppendAssoc(RowsDone(j, s0, y), RowBytes(j, s0, y, x), PixelOut(j, s0, x, y));
  }

  /** Before any row only the palette prefix is there. */
  lemma RowsDoneNone(j: Job, s0: Channels)
    requires WellFormed(j.p) && FitsAll(j, s0) && !IsRaw(j.cf)
    ensures RowsDone(j, s0, 0) == PalettePrefix(j.p, PaletteSize(j.cf))
  {
    assert RowList(j, s0)[..0] == [];
    assert PalettePrefix(j.p, PaletteSize(j.cf)) + [] == PalettePrefix(j.p, PaletteSize(j.cf));
  }

  /** The state of a channel one pixel further along a row: `_dith_next` on that pixel's value. */
  lemma RowStateStep(j: Job, s0: Channels, ch: Primary, y: nat, x: nat)
    requires WellFormed(j.p) && FitsAll(j, s0) && y < j.p.h && x < j.p.w
    ensures var s := match ch case Red => s0.r case Green => s0.g case Blue => s0.b;
      RowState(j, s, ch, y, x + 1)
      == NextChannel(RowState(j, s, ch, y, x), Pick(PixelAt(j.p, j.cf, x, y).c, ch), x, j.dith, QuantOf(j.cf, ch))
  {
  }

  /** Each pixel of a row moves the three channels on by one `_dith_next`. */
  lemma ChannelsStep(j: Job, s0: Channels, y: nat, x: nat)
    requires WellFormed(j.p) && FitsAll(j, s0) && y < j.p.h && x < j.p.w
    ensures ChannelsAt(j, s0, y, x + 1) == NextChannels(ChannelsAt(j, s0, y, x), PixelAt(j.p, j.cf, x, y).c, x, j.dith, j.cf)
  {
    RowStateStep(j, s0, Red, y, x);
    RowStateStep(j, s0, Green, y, x);
    RowStateStep(j, s0, Blue, y, x);
  }

  /** A row starts from the channels before it, reset. */
  lemma ChannelsRowStart(j: Job, s0: Channels, y: nat)
    requires WellFormed(j.p) && FitsAll(j, s0) && y < j.p.h
    ensures ChannelsAt(j, s0, y, 0) == ResetChannels(ChannelsBefore(j, s0, y), j.dith)
  {
  }

  /** The channels after the last pixel of a row are those before the next row. */
  lemma ChannelsRowEnd(j: Job, s0: Channels, y: nat)
    requires WellFormed(j.p) && FitsAll(j, s0) && y < j.p.h
    ensures ChannelsAt(j, s0, y, j.p.w) == ChannelsBefore(j, s0, y + 1)
  {
  }

  /**
   * One more pixel of a packed format: in slot 0 it opens a new byte at
   * `PackedIndex`, the end of `d_out`; in any other slot `PackedIndex` is the
   * last byte and the pixel's value is OR-ed into it.
   */
  lemma PackedStep(j: Job, s0: Channels, y: nat, x: nat)
    requires WellFormed(j.p) && FitsAll(j, s0) && IsPacked(j.cf) && y < j.p.h && x < j.p.w
    ensures var d, bits := Output(j, s0, y, x), PackedBits(j.cf);
      var i, k := PackedIndex(j.cf, j.p.w, x, y), Slot(bits, x);
      var v := PackedValue(j.cf, PixelAt(j.p, j.cf, x, y).a, PixelAt(j.p, j.cf, x, y).cx);
      && (k == 0 ==> i == |d| && Output(j, s0, y, x + 1) == d + [Put(0, v, bits, 0)])
      && (k != 0 ==> i + 1 == |d| && Output(j, s0, y, x + 1) == OrLast(d, v, bits, k))
  {
    PackedStepIndex(j, s0, y, x);
    PackedStepBytes(j, s0, y, x);
  }

  /** `PackedIndex` is the end of `d_out` for a pixel in slot 0, its last byte otherwise. */
  lemma PackedStepIndex(j: Job, s0: Channels, y: nat, x: nat)
    requires WellFormed(j.p) && FitsAll(j, s0) && IsPacked(j.cf) && y < j.p.h && x < j.p.w
    ensures PackedIndex(j.cf, j.p.w, x, y) + (if Slot(PackedBits(j.cf), x) == 0 then 0 else 1)
         == |Output(j, s0, y, x)|
  {
    var bits := PackedBits(j.cf);
    RowsDoneLength(j, s0, y);
    PackRowLength(PackedRow(j.p, j.cf, y), x, bits);
    CountStep(bits, x);
    assert Stride(j.cf, j.p.w) * y == y * RowLength(j);
  }

  /** Packing pixel `x` appends a byte or updates the last one, as `PackRow` does. */
  lemma PackedStepBytes(j: Job, s0: Channels, y: nat, x: nat)
    requires WellFormed(j.p) && FitsAll(j, s0) && IsPacked(j.cf) && y < j.p.h && x < j.p.w
    ensures var d, bits := Output(j, s0, y, x), PackedBits(j.cf);
      var k := Slot(bits, x);
      var v := PackedValue(j.cf, PixelAt(j.p, j.cf, x, y).a, PixelAt(j.p, j.cf, x, y).cx);
      && (k == 0 ==> Output(j, s0, y, x + 1) == d + [Put(0, v, bits, 0)])
      && (k != 0 ==> |d| >= 1 && Output(j, s0, y, x + 1) == OrLast(d, v, bits, k))
  {
    if Slot(PackedBits(j.cf), x) == 0 {
      PackedStepNew(j, s0, y, x);
    } else {
      PackedStepJoin(j, s0, y, x);
    }
  }

  lemma PackedStepNew(j: Job, s0: Channels, y: nat, x: nat)
    requires WellFormed(j.p) && FitsAll(j, s0) && IsPacked(j.cf) && y < j.p.h && x < j.p.w
    requires Slot(PackedBits(j.cf), x) == 0
    ensures Output(j, s0, y, x + 1) == Output(j, s0, y, x) + [Put(0, PackedRow(j.p, j.cf, y)[x], PackedBits(j.cf), 0)]
  {
    OutputPacked(j, s0, y, x);
    OutputPacked(j, s0, y, x + 1);
    PackAfterNew(RowsDone(j, s0, y), PackedRow(j.p, j.cf, y), x, PackedBits(j.cf));
  }

  lemma PackedStepJoin(j: Job, s0: Channels, y: nat, x: nat)
    requires WellFormed(j.p) && FitsAll(j, s0) && IsPacked(j.cf) && y < j.p.h && x < j.p.w
    requires Slot(PackedBits(j.cf), x) != 0
    ensures var d := Output(j, s0, y, x);
      |d| >= 1 && Output(j, s0, y, x + 1)
      == OrLast(d, PackedRow(j.p, j.cf, y)[x], PackedBits(j.cf), Slot(PackedBits(j.cf), x))
  {
    OutputPacked(j, s0, y, x);
    OutputPacked(j, s0, y, x + 1);
    PackAfterJoinAt(RowsDone(j, s0, y), PackedRow(j.p, j.cf, y), x, PackedBits(j.cf),
                  Output(j, s0, y, x), Output(j, s0, y, x + 1));
  }

  lemma OutputPacked(j: Job, s0: Channels, y: nat, x: nat)
    requires WellFormed(j.p) && FitsAll(j, s0) && IsPacked(j.cf) && y < j.p.h && x <= j.p.w
    ensures Output(j, s0, y, x) == RowsDone(j, s0, y) + PackRow(PackedRow(j.p, j.cf, y), x, PackedBits(j.cf))
  {
  }

  lemma PackedRowValue(p: Picture, cf: ColorFormat, y: nat, x: nat)
    requires WellFormed(p) && IsPacked(cf) && y < p.h && x < p.w
    ensures PackedRow(p, cf, y)[x] == PackedValue(cf, PixelAt(p, cf, x, y).a, PixelAt(p, cf, x, y).cx)
  {
  }

  /**
   * The output of an indexed or alpha format is the palette (4 bytes an
   * entry) followed by `h` rows of `Stride` bytes; that of a true-colour
   * format is `w * h` pixels of `BytesPerPixel` bytes.
   */
  lemma ConvertedLength(j: Job, s0: Channels)
    requires WellFormed(j.p) && FitsAll(j, s0) && !IsRaw(j.cf)
    ensures IsPacked(j.cf) ==> |Converted(j, s0)| == 4 * PaletteSize(j.cf) + j.p.h * Stride(j.cf, j.p.w)
    ensures IsTrueColor(j.cf) ==> |Converted(j, s0)| == j.p.h * (j.p.w * BytesPerPixel(j.cf, j.alpha))
  {
    RowListUniform(j, s0);
    FlattenLength(RowList(j, s0), RowLength(j));
    PalettePrefixLength(j.p, PaletteSize(j.cf));
  }

  /** The palette prefix holds entry `i` at bytes `4 i` to `4 i + 3`. */
  lemma ConvertedPalette(j: Job, s0: Channels, i: nat)
    requires WellFormed(j.p) && FitsAll(j, s0) && !IsRaw(j.cf) && i < PaletteSize(j.cf)
    ensures 4 * i + 4 <= |Converted(j, s0)|
    ensures Converted(j, s0)[4 * i .. 4 * i + 4] == PaletteEntry(j.p, i)
  {
    var prefix := PalettePrefix(j.p, PaletteSize(j.cf));
    PalettePrefixEntry(j.p, PaletteSize(j.cf), i);
    ConvertedShape(j, s0);
    AppendSliceLeft(prefix, Flatten(RowList(j, s0)), 4 * i, 4 * i + 4);
  }

  /** The byte where row `y` starts: past the palette and `y` whole rows. */
  function RowStart(j: Job, y: nat): nat
    requires !IsRaw(j.cf)
  {
    4 * PaletteSize(j.cf) + y * RowLength(j)
  }

  lemma ConvertedShape(j: Job, s0: Channels)
    requires WellFormed(j.p) && FitsAll(j, s0) && !IsRaw(j.cf)
    ensures Converted(j, s0) == PalettePrefix(j.p, PaletteSize(j.cf)) + Flatten(RowList(j, s0))
  {
  }

  lemma TrueRowEntry(j: Job, s0: Channels, y: nat)
    requires WellFormed(j.p) && FitsAll(j, s0) && IsTrueColor(j.cf) && y < j.p.h
    ensures RowList(j, s0)[y] == Flatten(PixelRow(j, s0, y))
  {
    assert PixelRow(j, s0, y)[..j.p.w] == PixelRow(j, s0, y);
  }

  /** Byte `k` of row `y` sits at `RowStart(j, y) + k`. */
  lemma ConvertedRow(j: Job, s0: Channels, y: nat, k: nat)
    requires WellFormed(j.p) && FitsAll(j, s0) && !IsRaw(j.cf) && y < j.p.h && k < RowLength(j)
    ensures k < |RowBytes(j, s0, y, j.p.w)|
    ensures RowStart(j, y) + k < |Converted(j, s0)|
    ensures Converted(j, s0)[RowStart(j, y) + k] == RowBytes(j, s0, y, j.p.w)[k]
  {
    var prefix, rows := PalettePrefix(j.p, PaletteSize(j.cf)), RowList(j, s0);
    PalettePrefixLength(j.p, PaletteSize(j.cf));
    RowListUniform(j, s0);
    ConvertedShape(j, s0);
    FlattenAfter(prefix, rows, RowLength(j), y, k);
    var o := |prefix| + y * RowLength(j) + k;
    assert RowStart(j, y) + k == o;
    assert Converted(j, s0)[o] == rows[y][k];
    assert rows[y] == RowBytes(j, s0, y, j.p.w);
  }

  /**
   * In an indexed or alpha format the slot of pixel (x, y) in the byte at
   * `PackedIndex` holds the pixel's palette index or alpha level.
   */
  lemma ConvertedPackedField(j: Job, s0: Channels, x: nat, y: nat)
    requires WellFormed(j.p) && FitsAll(j, s0) && IsPacked(j.cf) && x < j.p.w && y < j.p.h
    ensures PackedIndex(j.cf, j.p.w, x, y) < |Converted(j, s0)|
    ensures Field(Converted(j, s0)[PackedIndex(j.cf, j.p.w, x, y)], PackedBits(j.cf), Slot(PackedBits(j.cf), x))
         == PackedValue(j.cf, PixelAt(j.p, j.cf, x, y).a, PixelAt(j.p, j.cf, x, y).cx)
  {
    var bits := PackedBits(j.cf);
    var vals := PackedRow(j.p, j.cf, y);
    ByteOfInRow(bits, x, j.p.w);
    PackRowLength(vals, j.p.w, bits);
    ConvertedRow(j, s0, y, ByteOf(bits, x));
    assert PackedIndex(j.cf, j.p.w, x, y) == RowStart(j, y) + ByteOf(bits, x);
    assert RowBytes(j, s0, y, j.p.w) == PackRow(vals, j.p.w, bits);
    PackRowFields(vals, j.p.w, bits, x);
    assert vals[x] == PackedValue(j.cf, PixelAt(j.p, j.cf, x, y).a, PixelAt(j.p, j.cf, x, y).cx);
  }

  /** The byte where pixel (x, y) of a true-colour format starts. */
  function PixelStart(j: Job, x: nat, y: nat): (o: nat)
    requires IsTrueColor(j.cf)
    ensures o == (y * j.p.w + x) * BytesPerPixel(j.cf, j.alpha)
  {
    RowStart(j, y) + x * BytesPerPixel(j.cf, j.alpha)
  }

  lemma ConvertedCell(j: Job, s0: Channels, x: nat, y: nat)
    requires WellFormed(j.p) && FitsAll(j, s0) && IsTrueColor(j.cf) && x < j.p.w && y < j.p.h
    ensures PixelStart(j, x, y) + BytesPerPixel(j.cf, j.alpha) <= |Converted(j, s0)|
    ensures Converted(j, s0)[PixelStart(j, x, y) .. PixelStart(j, x, y) + BytesPerPixel(j.cf, j.alpha)]
         == PixelRow(j, s0, y)[x]
  {
    var prefix, rows, px := PalettePrefix(j.p, PaletteSize(j.cf)), RowList(j, s0), PixelRow(j, s0, y);
    PalettePrefixLength(j.p, PaletteSize(j.cf));
    RowListUniform(j, s0);
    PixelRowUniform(j, s0, y);
    TrueRowEntry(j, s0, y);
    ConvertedShape(j, s0);
    FlattenCell(Converted(j, s0), prefix, rows, RowLength(j), px, BytesPerPixel(j.cf, j.alpha), y, x, PixelStart(j, x, y));
  }

  /** Pixel (x, y) of a true-colour format takes the `BytesPerPixel` bytes from `PixelStart` on. */
  lemma ConvertedPixelBytes(j: Job, s0: Channels, x: nat, y: nat)
    requires WellFormed(j.p) && FitsAll(j, s0) && IsTrueColor(j.cf) && x < j.p.w && y < j.p.h
    ensures PixelStart(j, x, y) + BytesPerPixel(j.cf, j.alpha) <= |Converted(j, s0)|
    ensures Converted(j, s0)[PixelStart(j, x, y) .. PixelStart(j, x, y) + BytesPerPixel(j.cf, j.alpha)]
         == PixelOut(j, s0, x, y)
  {
    ConvertedCell(j, s0, x, y);
  }

  /**
   * The bytes of pixel (x, y) of a true-colour format decode to the colour
   * kept for it and, when the format stores one, its alpha.
   */
  lemma ConvertedTruePixel(j: Job, s0: Channels, x: nat, y: nat)
    requires WellFormed(j.p) && FitsAll(j, s0) && IsTrueColor(j.cf) && x < j.p.w && y < j.p.h
    ensures PixelStart(j, x, y) + BytesPerPixel(j.cf, j.alpha) <= |Converted(j, s0)|
    ensures DecodePixel(j.cf, j.alpha, Converted(j, s0)[PixelStart(j, x, y) .. PixelStart(j, x, y) + BytesPerPixel(j.cf, j.alpha)])
         == Some((KeptColor(j, s0, x, y), if j.alpha || j.cf == TrueColor888 then Some(PixelAt(j.p, j.cf, x, y).a) else None))
  {
    ConvertedPixelBytes(j, s0, x, y);
    PixelBytesRoundTrip(j.cf, j.alpha, KeptColor(j, s0, x, y), PixelAt(j.p, j.cf, x, y).a);
  }
}

=== FILE: lvimg_packing.dfy ===
/**
 * How the packed formats lay pixels into bytes: each row starts on a fresh
 * byte, the first pixel of a byte takes its most significant bits, and a byte
 * is created (as 0) when its first pixel arrives and afterwards only OR-ed.
 */
module LvImgPacking {
  import opened LvImgFormat
  import opened Seqs

  lemma SmallBvInjective(a: nat, b: nat)
    requires a < 8 && b < 8
    ensures (SmallBv(a) == SmallBv(b)) == (a == b)
  {
  }

  /** Left shift of slot `k`: `7 - k`, `6 - 2k`, `4 - 4k` or 0, so slot 0 holds the high bits. */
  function Shift(bits: FieldWidth, k: nat): (s: bv8)
    requires k < PixelsPerByte(bits)
  {
    match bits
    case 1 => 7 - SmallBv(k)
    case 2 => 6 - 2 * SmallBv(k)
    case 4 => 4 - 4 * SmallBv(k)
    case 8 => 0
  }

  /** The value stored in slot `k` of byte `b`. */
  function Field(b: bv8, bits: FieldWidth, k: nat): (v: bv8)
    requires k < PixelsPerByte(bits)
  {
    (b >> Shift(bits, k)) & Mask(bits)
  }

  /** OR-ing a value into one slot adds it to that slot and leaves every other slot as it was. */
  lemma OrIntoSlot(b: bv8, v: bv8, bits: FieldWidth, k: nat, k2: nat)
    requires k < PixelsPerByte(bits) && k2 < PixelsPerByte(bits) && v <= Mask(bits)
    ensures Field(Put(b, v, bits, k), bits, k2) == if k2 == k then Field(b, bits, k) | v else Field(b, bits, k2)
  {
    match bits
    case 1 => SmallBvInjective(k, k2); OrIntoSlot1(b, v, SmallBv(k), SmallBv(k2));
    case 2 => SmallBvInjective(k, k2); OrIntoSlot2(b, v, SmallBv(k), SmallBv(k2));
    case 4 => SmallBvInjective(k, k2); OrIntoSlot4(b, v, SmallBv(k), SmallBv(k2));
    case 8 =>
  }

  lemma OrIntoSlot1(b: bv8, v: bv8, k: bv8, k2: bv8)
    requires k < 8 && k2 < 8 && v <= 1
    ensures ((b | (v << (7 - k))) >> (7 - k2)) & 1
         == if k2 == k then ((b >> (7 - k)) & 1) | v else (b >> (7 - k2)) & 1
  {
  }

  lemma OrIntoSlot2(b: bv8, v: bv8, k: bv8, k2: bv8)
    requires k < 4 && k2 < 4 && v <= 3
    ensures ((b | (v << (6 - 2 * k))) >> (6 - 2 * k2)) & 3
         == if k2 == k then ((b >> (6 - 2 * k)) & 3) | v else (b >> (6 - 2 * k2)) & 3
  {
  }

  lemma OrIntoSlot4(b: bv8, v: bv8, k: bv8, k2: bv8)
    requires k < 2 && k2 < 2 && v <= 0xF
    ensures ((b | (v << (4 - 4 * k))) >> (4 - 4 * k2)) & 0xF
         == if k2 == k then ((b >> (4 - 4 * k)) & 0xF) | v else (b >> (4 - 4 * k2)) & 0xF
  {
  }

  /** Byte `b` with value `v` OR-ed into slot `k`. */
  function Put(b: bv8, v: bv8, bits: FieldWidth, k: nat): bv8
    requires k < PixelsPerByte(bits)
  {
    b | (v << Shift(bits, k))
  }

  /** A whole-byte value OR-ed into 0 is the value itself. */
  lemma PutWhole(v: bv8)
    ensures Put(0, v, 8, 0) == v
  {
  }

  /** The bytes `s` with value `v` OR-ed into slot `k` of the last one. */
  function OrLast(s: seq<bv8>, v: bv8, bits: FieldWidth, k: nat): (r: seq<bv8>)
    requires |s| >= 1 && k < PixelsPerByte(bits)
    ensures |r| == |s|
  {
    s[|s| - 1 := Put(s[|s| - 1], v, bits, k)]
  }

  /** OR-ing into the last byte of `done + s` OR-s into the last byte of `s`. */
  lemma OrLastAfter(done: seq<bv8>, s: seq<bv8>, v: bv8, bits: FieldWidth, k: nat)
    requires |s| >= 1 && k < PixelsPerByte(bits)
    ensures done + OrLast(s, v, bits, k) == OrLast(done + s, v, bits, k)
  {
    AppendUpdateLast(done, s, Put(s[|s| - 1], v, bits, k));
  }

  predicate FitsField(vals: seq<bv8>, bits: FieldWidth)
  {
    forall i :: 0 <= i < |vals| ==> vals[i] <= Mask(bits)
  }

  /**
   * The bytes of one row after its first `n` values have been packed, built
   * the way the converter builds them: a value in slot 0 starts a new byte,
   * any other value is OR-ed into the last byte.
   */
  function PackRow(vals: seq<bv8>, n: nat, bits: FieldWidth): (r: seq<bv8>)
    requires n <= |vals|
  {
    if n == 0 then []
    else
      var prev := PackRow(vals, n - 1, bits);
      var k := Slot(bits, n - 1);
      // `prev` is never empty when k != 0 (PackRowLength); the test keeps the index in range
      if k == 0 || |prev| == 0 then prev + [Put(0, vals[n - 1], bits, k)]
      else OrLast(prev, vals[n - 1], bits, k)
  }

  /** Value `n` in slot 0 opens a new byte. */
  lemma PackRowNew(vals: seq<bv8>, n: nat, bits: FieldWidth)
    requires n < |vals| && Slot(bits, n) == 0
    ensures PackRow(vals, n + 1, bits) == PackRow(vals, n, bits) + [Put(0, vals[n], bits, 0)]
  {
  }

  /** Value `n` in any other slot is OR-ed into the last byte, which exists. */
  lemma PackRowJoin(vals: seq<bv8>, n: nat, bits: FieldWidth)
    requires n < |vals| && Slot(bits, n) != 0
    ensures |PackRow(vals, n, bits)| >= 1
    ensures PackRow(vals, n + 1, bits) == OrLast(PackRow(vals, n, bits), vals[n], bits, Slot(bits, n))
  {
    PackRowLength(vals, n, bits);
    CountStep(bits, n);
  }

  /** `PackRowNew` behind the bytes `done` that come before the row. */
  lemma PackAfterNew(done: seq<bv8>, vals: seq<bv8>, n: nat, bits: FieldWidth)
    requires n < |vals| && Slot(bits, n) == 0
    ensures done + PackRow(vals, n + 1, bits) == (done + PackRow(vals, n, bits)) + [Put(0, vals[n], bits, 0)]
  {
    PackRowNew(vals, n, bits);
    AppendAssoc(done, PackRow(vals, n, bits), [Put(0, vals[n], bits, 0)]);
  }

  /** `PackRowJoin` behind the bytes `done` that come before the row. */
  lemma PackAfterJoin(done: seq<bv8>, vals: seq<bv8>, n: nat, bits: FieldWidth)
    requires n < |vals| && Slot(bits, n) != 0
    ensures var d := done + PackRow(vals, n, bits);
      |d| >= 1 && done + PackRow(vals, n + 1, bits) == OrLast(d, vals[n], bits, Slot(bits, n))
  {
    PackRowJoin(vals, n, bits);
    OrLastAfter(done, PackRow(vals, n, bits), vals[n], bits, Slot(bits, n));
  }

  /** `PackAfterJoin` with the bytes before and after the value named `d0` and `d1`. */
  lemma PackAfterJoinAt(done: seq<bv8>, vals: seq<bv8>, n: nat, bits: FieldWidth, d0: seq<bv8>, d1: seq<bv8>)
    requires n < |vals| && Slot(bits, n) != 0
    requires d0 == done + PackRow(vals, n, bits) && d1 == done + PackRow(vals, n + 1, bits)
    ensures |d0| >= 1 && d1 == OrLast(d0, vals[n], bits, Slot(bits, n))
  {
    PackAfterJoin(done, vals, n, bits);
  }

  /** A row of `n` values takes `ByteCount` bytes, that is ceil(n / pixels-per-byte). */
  lemma {:induction false} PackRowLength(vals: seq<bv8>, n: nat, bits: FieldWidth)
    requires n <= |vals|
    ensures |PackRow(vals, n, bits)| == ByteCount(bits, n)
  {
    if n > 0 {
      var m := n - 1;
      var prev := PackRow(vals, m, bits);
      PackRowLength(vals, m, bits);
      CountStep(bits, m);
      if Slot(bits, m) == 0 {
        assert PackRow(vals, n, bits) == prev + [Put(0, vals[m], bits, 0)];
      } else {
        assert |prev| >= 1;
        assert PackRow(vals, n, bits) == OrLast(prev, vals[m], bits, Slot(bits, m));
      }
    }
  }

  /**
   * Pixel `m` in slot 0 opens byte number `ByteCount(m)`; in any other slot it
   * lands in the last byte already open.
   */
  lemma CountStep(bits: FieldWidth, m: nat)
    ensures ByteCount(bits, m + 1) == ByteCount(bits, m) + (if Slot(bits, m) == 0 then 1 else 0)
    ensures ByteOf(bits, m) == if Slot(bits, m) == 0 then ByteCount(bits, m) else ByteCount(bits, m) - 1
  {
  }

  /** Within one byte, slots are in the order of the columns. */
  lemma SameByteOrder(bits: FieldWidth, x: nat, m: nat)
    requires ByteOf(bits, x) == ByteOf(bits, m)
    ensures (x == m) == (Slot(bits, x) == Slot(bits, m))
    ensures (x < m) == (Slot(bits, x) < Slot(bits, m))
  {
  }

  /** A column in an earlier byte is an earlier column. */
  lemma EarlierByte(bits: FieldWidth, x: nat, m: nat)
    requires ByteOf(bits, x) < ByteOf(bits, m)
    ensures x < m
  {
  }

  /**
   * Every slot of a packed row holds the value of its pixel, and the slots
   * past the last pixel (padding at the end of a row) hold 0.
   */
  lemma {:induction false} PackRowFields(vals: seq<bv8>, n: nat, bits: FieldWidth, x: nat)
    requires n <= |vals| && FitsField(vals, bits)
    requires ByteOf(bits, x) < |PackRow(vals, n, bits)|
    ensures Field(PackRow(vals, n, bits)[ByteOf(bits, x)], bits, Slot(bits, x))
         == if x < n then vals[x] else 0
    decreases n, 1
  {
    if n > 0 {
      if ByteOf(bits, x) < ByteOf(bits, n - 1) {
        EarlierByteField(vals, n, bits, x);
      } else if Slot(bits, n - 1) == 0 {
        NewByteField(vals, n, bits, x);
      } else {
        LastByteField(vals, n, bits, x);
      }
    }
  }

  /** Packing value `n - 1` leaves the bytes before its own as they were. */
  lemma {:induction false} EarlierByteField(vals: seq<bv8>, n: nat, bits: FieldWidth, x: nat)
    requires 1 <= n <= |vals| && FitsField(vals, bits)
    requires ByteOf(bits, x) < ByteOf(bits, n - 1)
    ensures ByteOf(bits, x) < |PackRow(vals, n, bits)|
    ensures Field(PackRow(vals, n, bits)[ByteOf(bits, x)], bits, Slot(bits, x))
         == if x < n then vals[x] else 0
    decreases n, 0
  {
    EarlierByteIndex(vals, n, bits, x);
    PackRowFields(vals, n - 1, bits, x);
  }

  /** A byte before the one value `n - 1` goes to already exists and is left alone. */
  lemma EarlierByteIndex(vals: seq<bv8>, n: nat, bits: FieldWidth, x: nat)
    requires 1 <= n <= |vals|
    requires ByteOf(bits, x) < ByteOf(bits, n - 1)
    ensures x < n - 1 && ByteOf(bits, x) < |PackRow(vals, n - 1, bits)|
    ensures ByteOf(bits, x) < |PackRow(vals, n, bits)|
    ensures PackRow(vals, n, bits)[ByteOf(bits, x)] == PackRow(vals, n - 1, bits)[ByteOf(bits, x)]
  {
    var m := n - 1;
    PackRowLength(vals, m, bits);
    CountStep(bits, m);
    EarlierByte(bits, x, m);
    if Slot(bits, m) == 0 {
      PackRowNew(vals, m, bits);
    } else {
      PackRowJoin(vals, m, bits);
    }
  }

  /** The byte that value `n - 1` starts holds that value in slot 0 and zeros after it. */
  lemma NewByteField(vals: seq<bv8>, n: nat, bits: FieldWidth, x: nat)
    requires 1 <= n <= |vals| && FitsField(vals, bits)
    requires Slot(bits, n - 1) == 0 && ByteOf(bits, x) >= ByteOf(bits, n - 1)
    requires ByteOf(bits, x) < |PackRow(vals, n, bits)|
    ensures Field(PackRow(vals, n, bits)[ByteOf(bits, x)], bits, Slot(bits, x))
         == if x < n then vals[x] else 0
  {
    var m := n - 1;
    var prev := PackRow(vals, m, bits);
    PackRowLength(vals, m, bits);
    CountStep(bits, m);
    assert PackRow(vals, n, bits) == prev + [Put(0, vals[m], bits, 0)];
    assert vals[m] <= Mask(bits);
    OrIntoSlot(0, vals[m], bits, 0, Slot(bits, x));
    assert Field(0, bits, Slot(bits, x)) == 0;
    SameByteOrder(bits, x, m);
  }

  /** Value `n - 1` outside slot 0 is OR-ed into the last byte, which holds `x` too. */
  lemma {:induction false} LastByteField(vals: seq<bv8>, n: nat, bits: FieldWidth, x: nat)
    requires 1 <= n <= |vals| && FitsField(vals, bits)
    requires Slot(bits, n - 1) != 0 && ByteOf(bits, x) >= ByteOf(bits, n - 1)
    requires ByteOf(bits, x) < |PackRow(vals, n, bits)|
    ensures Field(PackRow(vals, n, bits)[ByteOf(bits, x)], bits, Slot(bits, x))
         == if x < n then vals[x] else 0
    decreases n, 0
  {
    var m := n - 1;
    var prev := PackRow(vals, m, bits);
    LastByteIndex(vals, n, bits, x);
    PackRowFields(vals, m, bits, x);
    assert vals[m] <= Mask(bits);
    JoinedField(prev[ByteOf(bits, x)], vals, bits, x, m);
  }

  /** The byte of `x` is the last byte of the row, and value `n - 1` is OR-ed into it. */
  lemma LastByteIndex(vals: seq<bv8>, n: nat, bits: FieldWidth, x: nat)
    requires 1 <= n <= |vals|
    requires Slot(bits, n - 1) != 0 && ByteOf(bits, x) >= ByteOf(bits, n - 1)
    requires ByteOf(bits, x) < |PackRow(vals, n, bits)|
    ensures var prev := PackRow(vals, n - 1, bits);
      ByteOf(bits, x) == ByteOf(bits, n - 1) && ByteOf(bits, x) < |prev| &&
      PackRow(vals, n, bits)[ByteOf(bits, x)] == Put(prev[ByteOf(bits, x)], vals[n - 1], bits, Slot(bits, n - 1))
  {
    PackRowLength(vals, n - 1, bits);
    JoinLastByte(vals, n, bits);
  }

  /**
   * Value `m` OR-ed into a byte of its own row: its slot gets the value, the
   * earlier slots keep theirs, and the later ones stay 0.
   */
  lemma JoinedField(b: bv8, vals: seq<bv8>, bits: FieldWidth, x: nat, m: nat)
    requires m < |vals| && vals[m] <= Mask(bits)
    requires ByteOf(bits, x) == ByteOf(bits, m)
    requires Field(b, bits, Slot(bits, x)) == if x < m then vals[x] else 0
    ensures Field(Put(b, vals[m], bits, Slot(bits, m)), bits, Slot(bits, x)) == if x <= m then vals[x] else 0
  {
    OrIntoSlot(b, vals[m], bits, Slot(bits, m), Slot(bits, x));
    SameByteOrder(bits, x, m);
  }

  /** A value outside slot 0 is OR-ed into the last byte, which already exists. */
  lemma JoinLastByte(vals: seq<bv8>, n: nat, bits: FieldWidth)
    requires 1 <= n <= |vals|
    requires Slot(bits, n - 1) != 0 && |PackRow(vals, n - 1, bits)| == ByteCount(bits, n - 1)
    ensures var prev := PackRow(vals, n - 1, bits);
      |prev| >= 1 && ByteOf(bits, n - 1) == |prev| - 1 &&
      PackRow(vals, n, bits)
      == OrLast(prev, vals[n - 1], bits, Slot(bits, n - 1))
  {
    CountStep(bits, n - 1);
  }
}

=== FILE: lvimg_text.dfy ===
/**
 * The converter's two serialisers: the C source text (`format_to_c_array`
 * and `_get_c_footer`) and the binary file (`get_bin_file`), both built from
 * the output list `d_out`.
 */
module LvImgText {
  import opened Wrappers
  import opened LvImgFormat
  import opened LvImgPacking
  import opened LvImgImage
  import opened PyList
  import opened Text
  import opened Seqs

  // ---------------------------------------------------------------------
  // Tokens: `f"0x{d_out[i]:02X}"`
  // ---------------------------------------------------------------------

  /** The token of entry `i`: past the end an `IndexError`, on a `None` entry a `TypeError`. */
  function Token(d: seq<Cell>, i: nat): Result<string>
  {
    if i >= |d| then Err(IndexError)
    else if d[i].Hole? then Err(TypeError)
    else Ok(HexByteToken(d[i].b))
  }

  /** The tokens of the `n` entries from `i` on, in order; the first bad entry decides the error. */
  function HexTokens(d: seq<Cell>, i: nat, n: nat): (r: Result<seq<string>>)
    ensures r.Ok? ==> |r.value| == n
  {
    if n == 0 then Ok([])
    else
      var front := HexTokens(d, i, n - 1);
      if front.Err? then front
      else
        var t := Token(d, i + n - 1);
        if t.Err? then Err(t.error) else Ok(front.value + [t.value])
  }

  /** Entries `i` to `i + n - 1` exist and none of them is `None`. */
  predicate AllBytes(d: seq<Cell>, i: nat, n: nat)
  {
    (n == 0 || i + n <= |d|) && forall k :: i <= k < i + n ==> d[k].Byte?
  }

  /**
   * The tokens come out exactly when the `n` entries exist and none is
   * `None`, and then token `k` is the one of entry `i + k`.
   */
  lemma {:induction false} HexTokensOk(d: seq<Cell>, i: nat, n: nat)
    ensures HexTokens(d, i, n).Ok? <==> AllBytes(d, i, n)
    ensures HexTokens(d, i, n).Ok? ==>
      forall k :: 0 <= k < n ==> HexTokens(d, i, n).value[k] == HexByteToken(d[i + k].b)
  {
    if n > 0 {
      HexTokensOk(d, i, n - 1);
      assert AllBytes(d, i, n) <==> AllBytes(d, i, n - 1) && i + n - 1 < |d| && d[i + n - 1].Byte?;
    }
  }

  /** Over bytes that are all there, token `k` is the one of byte `i + k`. */
  lemma {:induction false} HexTokensCells(d: seq<bv8>, i: nat, n: nat)
    requires i + n <= |d|
    ensures HexTokens(Cells(d), i, n).Ok?
    ensures forall k :: 0 <= k < n ==> HexTokens(Cells(d), i, n).value[k] == HexByteToken(d[i + k])
  {
    if n > 0 {
      HexTokensCells(d, i, n - 1);
      assert Cells(d)[i + n - 1] == Byte(d[i + n - 1]);
    }
  }

  /** Once an entry fails, every longer run fails with the same error. */
  lemma {:induction false} HexTokensSticky(d: seq<Cell>, i: nat, m: nat, n: nat)
    requires m <= n && HexTokens(d, i, m).Err?
    ensures HexTokens(d, i, n) == HexTokens(d, i, m)
    decreases n
  {
    if n > m {
      HexTokensSticky(d, i, m, n - 1);
    }
  }

  // ---------------------------------------------------------------------
  // The palette lines of the indexed formats
  // ---------------------------------------------------------------------

  /** Line `q` of the palette: the four bytes of entry `q`, then its index in a comment. */
  function PaletteLine(d: seq<Cell>, q: nat): Result<string>
  {
    var toks := HexTokens(d, 4 * q, 4);
    if toks.Err? then Err(toks.error)
    else Ok(Join(", ", toks.value) + ", \t/*Color of index " + NatToString(q) + "*/\n  ")
  }

  /** The first `n` palette lines. */
  function PaletteText(d: seq<Cell>, n: nat): Result<string>
  {
    if n == 0 then Ok("") else AppendLine(PaletteText(d, n - 1), PaletteLine(d, n - 1))
  }

  /** The text so far followed by one more line; the first failure stops the text. */
  function AppendLine(front: Result<string>, line: Result<string>): Result<string>
  {
    if front.Err? then front else if line.Err? then line else Ok(front.value + line.value)
  }

  lemma {:induction false} PaletteTextSticky(d: seq<Cell>, m: nat, n: nat)
    requires m <= n && PaletteText(d, m).Err?
    ensures PaletteText(d, n) == PaletteText(d, m)
    decreases n
  {
    if n > m {
      PaletteTextSticky(d, m, n - 1);
    }
  }

  /** Line `q` is written when the four bytes of entry `q` are there. */
  lemma PaletteLineBytes(d: seq<bv8>, q: nat)
    requires 4 * q + 4 <= |d|
    ensures PaletteLine(Cells(d), q).Ok?
  {
    HexTokensCells(d, 4 * q, 4);
  }

  /** With the bytes of `n` palette entries present, every palette line is written. */
  lemma {:induction false} PaletteTextOk(d: seq<bv8>, n: nat)
    requires 4 * n <= |d|
    ensures PaletteText(Cells(d), n).Ok?
  {
    if n > 0 {
      PaletteTextOk(d, n - 1);
      PaletteLineBytes(d, n - 1);
    }
  }

  // ---------------------------------------------------------------------
  // The pixel tokens
  // ---------------------------------------------------------------------

  /** Tokens `append_and_increase` adds for column `x`: the bytes of a pixel, or one per packed byte. */
  function TokensAt(cf: ColorFormat, alpha: bool, x: nat): nat
  {
    if IsTrueColor(cf) then BytesPerPixel(cf, alpha)
    else if IsPacked(cf) then (if Slot(PackedBits(cf), x) == 0 then 1 else 0)
    else 1
  }

  /** Tokens for the first `n` columns of a row. */
  function RowTokens(cf: ColorFormat, alpha: bool, n: nat): nat
  {
    if IsTrueColor(cf) then n * BytesPerPixel(cf, alpha)
    else if IsPacked(cf) then ByteCount(PackedBits(cf), n)
    else n
  }

  /** `RowTokens` is the running total of `TokensAt`. */
  lemma RowTokensStep(cf: ColorFormat, alpha: bool, n: nat)
    ensures RowTokens(cf, alpha, n + 1) == RowTokens(cf, alpha, n) + TokensAt(cf, alpha, n)
  {
    if IsPacked(cf) {
      CountStep(PackedBits(cf), n);
    }
  }

  lemma RowTokensMonotone(cf: ColorFormat, alpha: bool, m: nat, n: nat)
    requires m <= n
    ensures RowTokens(cf, alpha, m) <= RowTokens(cf, alpha, n)
  {
    if IsTrueColor(cf) {
      MulMonotone(BytesPerPixel(cf, alpha), m, n);
    } else if IsPacked(cf) {
      ByteCountMonotone(PackedBits(cf), m, n);
    }
  }

  lemma ByteCountMonotone(bits: FieldWidth, m: nat, n: nat)
    requires m <= n
    ensures ByteCount(bits, m) <= ByteCount(bits, n)
  {
  }

  /** A row has as many tokens as the converter wrote bytes for it. */
  lemma RowTokensLength(cf: ColorFormat, alpha: bool, w: nat)
    requires !IsRaw(cf)
    ensures IsPacked(cf) ==> RowTokens(cf, alpha, w) == Stride(cf, w)
    ensures IsTrueColor(cf) ==> RowTokens(cf, alpha, w) == w * BytesPerPixel(cf, alpha)
  {
  }

  // ---------------------------------------------------------------------
  // Laying the tokens out in lines
  // ---------------------------------------------------------------------

  function Min(a: nat, b: nat): nat {
    if a <= b then a else b
  }

  /** Python's `s[lo:hi]` for non-negative bounds: clipped to the list, empty when `hi <= lo`. */
  function PySlice<T>(s: seq<T>, lo: nat, hi: nat): seq<T>
  {
    if lo >= |s| || hi <= lo then [] else s[lo .. Min(hi, |s|)]
  }

  /** `[s[step * k : step * k + len] for k in range(n)]`. */
  function Chunks<T>(s: seq<T>, n: nat, step: nat, len: nat): (rows: seq<seq<T>>)
    ensures |rows| == n
  {
    if n == 0 then [] else Chunks(s, n - 1, step, len) + [PySlice(s, step * (n - 1), step * (n - 1) + len)]
  }

  /** Back-to-back chunks of one length give back the list, cut after `n` chunks. */
  lemma {:induction false} ChunksFlatten<T>(s: seq<T>, n: nat, len: nat)
    ensures Flatten(Chunks(s, n, len, len)) == s[..Min(n * len, |s|)]
  {
    if n > 0 {
      var rows := Chunks(s, n, len, len);
      var front := Chunks(s, n - 1, len, len);
      var a := (n - 1) * len;
      var last := PySlice(s, a, a + len);
      assert rows == front + [last];
      assert rows[..n - 1] == front;
      assert Flatten(rows) == Flatten(front) + last;
      ChunksFlatten(s, n - 1, len);
      assert n * len == a + len;
      SliceJoin(s, a, a + len);
    }
  }

  /** The first `a` elements and the Python slice `[a:b]` make the first `min(b, |s|)` elements. */
  lemma SliceJoin<T>(s: seq<T>, a: nat, b: nat)
    requires a <= b
    ensures s[..Min(a, |s|)] + PySlice(s, a, b) == s[..Min(b, |s|)]
  {
    if a < |s| && a < b {
      assert s[..a] + s[a .. Min(b, |s|)] == s[..Min(b, |s|)];
    }
  }

  /** `", ".join` of every line. */
  function JoinLines(rows: seq<seq<string>>): (lines: seq<string>)
    ensures |lines| == |rows|
  {
    if |rows| == 0 then [] else JoinLines(rows[..|rows| - 1]) + [Join(", ", rows[|rows| - 1])]
  }

  /** `'\n  ' + ', \n  '.join(...)`: one line per chunk. */
  function Render(rows: seq<seq<string>>): string
  {
    "\n  " + Join(", \n  ", JoinLines(rows))
  }

  /** Columns per printed line are divided by the pixels a byte holds (`x_end // ...`). */
  function TextPixelsPerByte(cf: ColorFormat): (n: nat)
    ensures n >= 1
    ensures IsPacked(cf) ==> n == PixelsPerByte(PackedBits(cf))
    ensures !IsPacked(cf) ==> n == 1
  {
    match cf
    case Alpha1 | Indexed1 => 8
    case Alpha2 | Indexed2 => 4
    case Alpha4 | Indexed4 => 2
    case _ => 1
  }

  /** `x_end // ppb`: the tokens a printed line takes, for `x_end == w`. */
  function PrintedCols(cf: ColorFormat, w: nat): nat
  {
    match cf
    case Alpha1 | Indexed1 => w / 8
    case Alpha2 | Indexed2 => w / 4
    case Alpha4 | Indexed4 => w / 2
    case _ => w
  }

  // ---------------------------------------------------------------------
  // `format_to_c_array`
  // ---------------------------------------------------------------------

  /** The `#if` line and pixel-format comment of a true-colour format, and the palette's lead-in. */
  function Header(cf: ColorFormat, alpha: bool): string
  {
    match cf
    case TrueColor332 =>
      "\n#if LV_COLOR_DEPTH == 1 || LV_COLOR_DEPTH == 8" +
      (if alpha then "\n  /*Pixel format: Blue: 2 bit, Green: 3 bit, Red: 3 bit, Alpha 8 bit */"
       else "\n  /*Pixel format: Blue: 2 bit, Green: 3 bit, Red: 3 bit*/")
    case TrueColor565 =>
      "\n#if LV_COLOR_DEPTH == 16 && LV_COLOR_16_SWAP == 0" +
      (if alpha then "\n  /*Pixel format: Blue: 5 bit, Green: 6 bit, Red: 5 bit, Alpha 8 bit*/"
       else "\n  /*Pixel format: Blue: 5 bit, Green: 6 bit, Red: 5 bit*/")
    case TrueColor565Swap =>
      "\n#if LV_COLOR_DEPTH == 16 && LV_COLOR_16_SWAP != 0" +
      (if alpha then "\n  /*Pixel format:  Blue: 5 bit Green: 6 bit, Red: 5 bit, Alpha 8 bit  BUT the 2  color bytes are swapped*/"
       else "\n  /*Pixel format: Blue: 5 bit, Green: 6 bit, Red: 5 bit BUT the 2 bytes are swapped*/")
    case TrueColor888 =>
      "\n#if LV_COLOR_DEPTH == 32" +
      (if alpha then "\n  /*Pixel format: Blue: 8 bit, Green: 8 bit, Red: 8 bit, Fix 0xFF: 8 bit, */"
       else "\n  /*Pixel format:  Blue: 8 bit, Green: 8 bit, Red: 8 bit, Alpha: 8 bit*/")
    case Indexed1 | Indexed2 | Indexed4 | Indexed8 => "\n  "
    case _ => ""
  }

  /** Where the pixel tokens start, and the loop bounds `y_end` and `x_end`. */
  datatype Walk = Walk(start: nat, rows: nat, cols: nat)

  /** As written: raw formats start at entry 1 and walk `len(d_out)` entries. */
  function WalkOf(cf: ColorFormat, w: nat, h: nat, d: seq<Cell>): Walk
  {
    if IsRaw(cf) then Walk(1, 1, |d|) else Walk(4 * PaletteSize(cf), h, w)
  }

  /** Entries the token loop reads: `y_end` rows of `RowTokens(x_end)`. */
  function WalkCount(cf: ColorFormat, alpha: bool, k: Walk): nat
  {
    k.rows * RowTokens(cf, alpha, k.cols)
  }

  /**
   * The lines as written: `x_end // ppb` tokens a line, `y_end` lines;
   * for raw formats `x_end // 16` lines of 16 tokens taken every `x_end // 16`.
   */
  function PrintedRows(cf: ColorFormat, k: Walk, toks: seq<string>): seq<seq<string>>
  {
    var cols := PrintedCols(cf, k.cols);
    if IsRaw(cf) then Chunks(toks, cols / 16, cols / 16, 16) else Chunks(toks, k.rows, cols, cols)
  }

  /** `format_to_c_array` as written. */
  function CArray(cf: ColorFormat, alpha: bool, w: nat, h: nat, d: seq<Cell>): Result<string>
  {
    var pal := PaletteText(d, PaletteSize(cf));
    if pal.Err? then Err(pal.error)
    else
      var k := WalkOf(cf, w, h, d);
      var toks := HexTokens(d, k.start, WalkCount(cf, alpha, k));
      if toks.Err? then Err(toks.error)
      else
        Ok(Assemble(cf, alpha, pal.value, PrintedRows(cf, k, toks.value)))
  }

  /** The header, the palette lines, the pixel lines and, for true colour, the closing `#endif`. */
  function Assemble(cf: ColorFormat, alpha: bool, pal: string, rows: seq<seq<string>>): string
  {
    Header(cf, alpha) + pal + Render(rows) + (if IsTrueColor(cf) then "\n#endif" else "")
  }

  /**
   * As written, the lines hold only the first `h * (w // ppb)` tokens; all of
   * them are printed exactly when a row has `w // ppb` tokens.
   */
  lemma PrintedRowsTruncate(cf: ColorFormat, alpha: bool, w: nat, h: nat, toks: seq<string>)
    requires !IsRaw(cf) && |toks| == h * RowTokens(cf, alpha, w)
    ensures h * PrintedCols(cf, w) <= |toks|
    ensures Flatten(PrintedRows(cf, Walk(4 * PaletteSize(cf), h, w), toks)) == toks[..h * PrintedCols(cf, w)]
    ensures Flatten(PrintedRows(cf, Walk(4 * PaletteSize(cf), h, w), toks)) == toks
        <==> h == 0 || RowTokens(cf, alpha, w) == PrintedCols(cf, w)
  {
    var cols := PrintedCols(cf, w);
    PrintedColsBound(cf, alpha, w);
    assert h * cols <= h * RowTokens(cf, alpha, w) by {
      MulMonotone(h, cols, RowTokens(cf, alpha, w));
    }
    ChunksFlatten(toks, h, cols);
    if h > 0 && cols != RowTokens(cf, alpha, w) {
      assert h * cols < h * RowTokens(cf, alpha, w) by {
        MulStrict(h, cols, RowTokens(cf, alpha, w));
      }
      assert |toks[..h * cols]| != |toks|;
    }
  }

  lemma PrintedColsBound(cf: ColorFormat, alpha: bool, w: nat)
    requires !IsRaw(cf)
    ensures PrintedCols(cf, w) <= RowTokens(cf, alpha, w)
  {
  }

  lemma MulMonotone(h: nat, a: nat, b: nat)
    requires a <= b
    ensures h * a <= h * b
  {
  }

  lemma MulStrict(h: nat, a: nat, b: nat)
    requires h > 0 && a < b
    ensures h * a < h * b
  {
  }

  /**
   * A non-empty row prints all of its tokens only for one-byte pixels or when
   * the width is a multiple of the pixels per byte.
   */
  lemma FullRowsPrinted(cf: ColorFormat, alpha: bool, w: nat)
    requires !IsRaw(cf) && w > 0
    ensures RowTokens(cf, alpha, w) == PrintedCols(cf, w)
        <==> (IsTrueColor(cf) && BytesPerPixel(cf, alpha) == 1) || (IsPacked(cf) && w % TextPixelsPerByte(cf) == 0)
  {
  }

  /** An RGB565 picture of one pixel: the array lists one of its two bytes. */
  lemma Rgb565ArrayDropsByte()
    ensures var toks := ["0x00", "0xF8"];
      RowTokens(TrueColor565, false, 1) == |toks| &&
      Flatten(PrintedRows(TrueColor565, Walk(0, 1, 1), toks)) == ["0x00"]
  {
    PrintedRowsTruncate(TrueColor565, false, 1, 1, ["0x00", "0xF8"]);
  }

  /** As written, a raw file of at least one byte makes the token loop read past the end. */
  lemma RawArrayOverruns(cf: ColorFormat, alpha: bool, w: nat, h: nat, file: seq<bv8>)
    requires IsRaw(cf) && |file| >= 1
    ensures CArray(cf, alpha, w, h, Cells(file)) == Err(IndexError)
  {
    var d := Cells(file);
    assert WalkOf(cf, w, h, d) == Walk(1, 1, |d|);
    assert WalkCount(cf, alpha, Walk(1, 1, |d|)) == |d|;
    RawTokensOverrun(file);
  }

  /** The run of `|file|` entries from entry 1 on needs entry `|file|`, which is not there. */
  lemma RawTokensOverrun(file: seq<bv8>)
    requires |file| >= 1
    ensures HexTokens(Cells(file), 1, |file|) == Err(IndexError)
  {
    var d := Cells(file);
    HexTokensCells(file, 1, |file| - 1);
    assert Token(d, |d|) == Err(IndexError);
  }

  /** Ceiling of `n / 16`: the number of 16-token lines `n` tokens fill. */
  function Lines16(n: nat): nat {
    (n + 15) / 16
  }

  /**
   * The evidently intended lines: every token, `RowTokens(w)` to a line for
   * pictures, and raw files from entry 0 in lines of 16.
   */
  function FixedRows(cf: ColorFormat, alpha: bool, w: nat, h: nat, toks: seq<string>): seq<seq<string>>
  {
    if IsRaw(cf) then Chunks(toks, Lines16(|toks|), 16, 16)
    else Chunks(toks, h, RowTokens(cf, alpha, w), RowTokens(cf, alpha, w))
  }

  /** The evidently intended walk: raw formats start at entry 0. */
  function FixedWalk(cf: ColorFormat, w: nat, h: nat, d: seq<Cell>): Walk
  {
    if IsRaw(cf) then Walk(0, 1, |d|) else Walk(4 * PaletteSize(cf), h, w)
  }

  /** `format_to_c_array` with every collected token printed. */
  function CArrayFixed(cf: ColorFormat, alpha: bool, w: nat, h: nat, d: seq<Cell>): Result<string>
  {
    var pal := PaletteText(d, PaletteSize(cf));
    if pal.Err? then Err(pal.error)
    else
      var k := FixedWalk(cf, w, h, d);
      var toks := HexTokens(d, k.start, WalkCount(cf, alpha, k));
      if toks.Err? then Err(toks.error)
      else
        Ok(Assemble(cf, alpha, pal.value, FixedRows(cf, alpha, w, h, toks.value)))
  }

  /** The intended lines hold every token, in order. */
  lemma FixedRowsComplete(cf: ColorFormat, alpha: bool, w: nat, h: nat, toks: seq<string>)
    requires !IsRaw(cf) ==> |toks| == h * RowTokens(cf, alpha, w)
    ensures Flatten(FixedRows(cf, alpha, w, h, toks)) == toks
  {
    if IsRaw(cf) {
      ChunksFlatten(toks, Lines16(|toks|), 16);
    } else {
      ChunksFlatten(toks, h, RowTokens(cf, alpha, w));
    }
  }

  /** The tokens are those of the bytes from `start` to the end of `d`: each reads back as its byte. */
  predicate ReadsBack(toks: seq<string>, d: seq<bv8>, start: nat)
  {
    start + |toks| == |d| && forall i :: 0 <= i < |toks| ==> ParseHexToken(toks[i]) == Some(d[start + i] as nat)
  }

  /**
   * Any output list the intended walk fits: the text is written, its lines
   * hold every token in order, and the tokens read back as the bytes after
   * the palette.
   */
  lemma FixedArrayRoundTrip(cf: ColorFormat, alpha: bool, w: nat, h: nat, d: seq<bv8>)
    requires !IsRaw(cf) ==> |d| == 4 * PaletteSize(cf) + h * RowTokens(cf, alpha, w)
    ensures var k := FixedWalk(cf, w, h, Cells(d));
      var toks := HexTokens(Cells(d), k.start, WalkCount(cf, alpha, k));
      CArrayFixed(cf, alpha, w, h, Cells(d)).Ok? && toks.Ok? &&
      Flatten(FixedRows(cf, alpha, w, h, toks.value)) == toks.value && ReadsBack(toks.value, d, k.start)
  {
    FixedTokens(cf, alpha, w, h, d);
    var k := FixedWalk(cf, w, h, Cells(d));
    var toks := HexTokens(Cells(d), k.start, WalkCount(cf, alpha, k)).value;
    PaletteTextOk(d, PaletteSize(cf));
    FixedRowsComplete(cf, alpha, w, h, toks);
  }

  /** The intended walk covers exactly the entries after the palette, and they all read back. */
  lemma FixedTokens(cf: ColorFormat, alpha: bool, w: nat, h: nat, d: seq<bv8>)
    requires !IsRaw(cf) ==> |d| == 4 * PaletteSize(cf) + h * RowTokens(cf, alpha, w)
    ensures 4 * PaletteSize(cf) <= |d|
    ensures var k := FixedWalk(cf, w, h, Cells(d));
      var toks := HexTokens(Cells(d), k.start, WalkCount(cf, alpha, k));
      toks.Ok? && ReadsBack(toks.value, d, k.start) && (!IsRaw(cf) ==> |toks.value| == h * RowTokens(cf, alpha, w))
  {
    var k := FixedWalk(cf, w, h, Cells(d));
    var n := WalkCount(cf, alpha, k);
    if IsRaw(cf) {
      assert PaletteSize(cf) == 0 && n == |d|;
    }
    HexTokensBytes(d, k.start, n);
  }

  /**
   * A converted picture is the palette and `h` rows of `RowTokens(w)` bytes,
   * so `FixedArrayRoundTrip` applies to it.
   */
  lemma ConvertedTokenCount(j: Job, s0: Channels)
    requires WellFormed(j.p) && FitsAll(j, s0) && !IsRaw(j.cf)
    ensures 4 * PaletteSize(j.cf) + j.p.h * RowTokens(j.cf, j.alpha, j.p.w) == |Converted(j, s0)|
  {
    ConvertedLength(j, s0);
    RowTokensLength(j.cf, j.alpha, j.p.w);
  }

  /** The tokens of the bytes from `i` to the end read back as those bytes. */
  lemma HexTokensBytes(d: seq<bv8>, i: nat, n: nat)
    requires i + n == |d|
    ensures HexTokens(Cells(d), i, n).Ok? && ReadsBack(HexTokens(Cells(d), i, n).value, d, i)
  {
    HexTokensCells(d, i, n);
    var toks := HexTokens(Cells(d), i, n).value;
    forall k | 0 <= k < n
      ensures ParseHexToken(toks[k]) == Some(d[i + k] as nat)
    {
      HexByteTokenRoundTrip(d[i + k]);
    }
  }

  // ---------------------------------------------------------------------
  // `_get_c_footer`
  // ---------------------------------------------------------------------

  /** The `LV_IMG_CF_...` name the footer declares for a converter code; empty when it has none. */
  function CfName(code: int): string
  {
    if code == CF_TRUE_COLOR then "LV_IMG_CF_TRUE_COLOR"
    else if code == CF_TRUE_COLOR_ALPHA then "LV_IMG_CF_TRUE_COLOR_ALPHA"
    else if code == CF_TRUE_COLOR_CHROMA then "LV_IMG_CF_TRUE_COLOR_CHROMA_KEYED"
    else if code == 4 then "LV_IMG_CF_ALPHA_1BIT"
    else if code == 5 then "LV_IMG_CF_ALPHA_2BIT"
    else if code == 6 then "LV_IMG_CF_ALPHA_4BIT"
    else if code == 7 then "LV_IMG_CF_ALPHA_8BIT"
    else if code == 8 then "LV_IMG_CF_INDEXED_1BIT"
    else if code == 9 then "LV_IMG_CF_INDEXED_2BIT"
    else if code == 10 then "LV_IMG_CF_INDEXED_4BIT"
    else if code == 11 then "LV_IMG_CF_INDEXED_8BIT"
    // CF_RAW and CF_RAW_CHROMA are both 12; the later dictionary key wins
    else if code == 12 then "LV_IMG_CF_RAW_CHROMA_KEYED"
    else if code == 13 then "LV_IMG_CF_RAW_ALPHA"
    else ""
  }

  /** Codes the footer's table lists: the three true-colour helpers and 4 to 13. */
  predicate FooterKnows(code: int) {
    code == CF_TRUE_COLOR || code == CF_TRUE_COLOR_ALPHA || code == CF_TRUE_COLOR_CHROMA || 4 <= code <= 13
  }

  /** The value of `.data_size`: `w * h` times a per-pixel size for true colour, else `len(d_out)`. */
  function DataSize(code: int, w: nat, h: nat, n: nat): string
  {
    if code == CF_TRUE_COLOR || code == CF_TRUE_COLOR_CHROMA then NatToString(w * h) + " * LV_COLOR_SIZE / 8"
    else if code == CF_TRUE_COLOR_ALPHA then NatToString(w * h) + " * LV_IMG_PX_SIZE_ALPHA_BYTE"
    else NatToString(n)
  }

  /** The table entry: data size and colour format, or nothing for a code it does not list. */
  function FooterEntry(code: int, w: nat, h: nat, n: nat): string
  {
    if FooterKnows(code) then DataSize(code, w, h, n) + ",\n  .header.cf = " + CfName(code) + "," else ""
  }

  /** `_get_c_footer(cf)` for an image named `name`, `w` by `h`, with `n` output bytes. */
  function CFooter(name: string, w: nat, h: nat, n: nat, code: int): string
  {
    "\n};\n\nconst lv_img_dsc_t " + name + " = {\n  .header.always_zero = 0,\n  .header.w = " + NatToString(w)
    + ",\n  .header.h = " + NatToString(h) + ",\n  .data_size = " + FooterEntry(code, w, h, n)
    + "\n  .data = " + name + "_map,\n}\n"
  }

  /** Distinct codes of the table get distinct names, and every listed code has one. */
  lemma CfNameInjective(a: int, b: int)
    requires FooterKnows(a) && FooterKnows(b)
    ensures |CfName(a)| > 0
    ensures CfName(a) == CfName(b) ==> a == b
  {
  }

  /** `CF_RAW` is declared as the chroma-keyed raw format, since both codes are 12. */
  lemma RawFooterIsChromaKeyed()
    ensures CfName(Code(Raw)) == "LV_IMG_CF_RAW_CHROMA_KEYED"
  {
  }

  /** A code of its own for the chroma-keyed raw format, as the footer table evidently intends. */
  const CF_RAW_CHROMA_OWN := 14

  /** The footer's names with `CF_RAW_CHROMA` on code 14: `CF_RAW` keeps `LV_IMG_CF_RAW`. */
  function CfNameFixed(code: int): string
  {
    if code == 12 then "LV_IMG_CF_RAW"
    else if code == CF_RAW_CHROMA_OWN then "LV_IMG_CF_RAW_CHROMA_KEYED"
    else CfName(code)
  }

  /** Codes the corrected table lists: those of the table as written and the chroma-keyed raw code. */
  predicate FooterKnowsFixed(code: int) {
    FooterKnows(code) || code == CF_RAW_CHROMA_OWN
  }

  /** With its own code the chroma-keyed raw format no longer hides `CF_RAW`: every listed code has its own name. */
  lemma CfNameFixedInjective(a: int, b: int)
    requires FooterKnowsFixed(a) && FooterKnowsFixed(b)
    ensures |CfNameFixed(a)| > 0
    ensures CfNameFixed(a) == CfNameFixed(b) ==> a == b
    ensures CfNameFixed(Code(Raw)) == "LV_IMG_CF_RAW"
    ensures CfNameFixed(CF_RAW_CHROMA_OWN) == CfName(Code(Raw))
  {
  }

  /**
   * For a converted alpha or indexed picture the footer declares as data size
   * the palette plus `h` rows of `Stride` bytes, in decimal that reads back.
   */
  lemma FooterDeclaresSize(j: Job, s0: Channels, name: string)
    requires WellFormed(j.p) && FitsAll(j, s0) && IsPacked(j.cf)
    ensures var n := |Converted(j, s0)|;
      FooterEntry(Code(j.cf), j.p.w, j.p.h, n) == NatToString(n) + ",\n  .header.cf = " + CfName(Code(j.cf)) + "," &&
      ParseNat(NatToString(n)) == Some(4 * PaletteSize(j.cf) + j.p.h * Stride(j.cf, j.p.w))
  {
    ConvertedLength(j, s0);
    FooterEntryPacked(j.cf, j.p.w, j.p.h, |Converted(j, s0)|);
    ParseNatToString(|Converted(j, s0)|);
  }

  lemma FooterEntryPacked(cf: ColorFormat, w: nat, h: nat, n: nat)
    requires IsPacked(cf)
    ensures FooterEntry(Code(cf), w, h, n) == NatToString(n) + ",\n  .header.cf = " + CfName(Code(cf)) + ","
  {
  }

  // ---------------------------------------------------------------------
  // `get_bin_file`
  // ---------------------------------------------------------------------

  /** LVGL's colour-format number (`lv_cf`) for a converter code; 4 for a code the table lacks. */
  function LvCf(code: int): (n: nat)
    ensures 4 <= n <= 14
  {
    if code == CF_TRUE_COLOR then 4
    else if code == CF_TRUE_COLOR_ALPHA then 5
    else if code == CF_TRUE_COLOR_CHROMA then 6
    else if code == 8 then 7
    else if code == 9 then 8
    else if code == 10 then 9
    else if code == 11 then 10
    else if code == 4 then 11
    else if code == 5 then 12
    else if code == 6 then 13
    else if code == 7 then 14
    else 4
  }

  const TwoTo32: nat := 0x1_0000_0000

  /** The header word: `lv_cf + (w << 10) + (h << 21)`. */
  function HeaderWord(code: int, w: nat, h: nat): nat
  {
    LvCf(code) + w * 1024 + h * 0x20_0000
  }

  /** `n` as `k` bytes, least significant first, as `struct.pack` lays out `<L` for `k == 4`. */
  function LeBytes(n: nat, k: nat): (b: seq<bv8>)
    ensures |b| == k
  {
    if k == 0 then [] else [(n % 256) as bv8] + LeBytes(n / 256, k - 1)
  }

  /** Reads little-endian bytes back as a number. */
  function LeValue(b: seq<bv8>): nat
  {
    if |b| == 0 then 0 else b[0] as nat + 256 * LeValue(b[1..])
  }

  function Pow256(k: nat): (r: nat)
    ensures r >= 1
  {
    if k == 0 then 1 else 256 * Pow256(k - 1)
  }

  /** Any number below `256^k` survives the trip through `k` little-endian bytes. */
  lemma {:induction false} LeRoundTrip(n: nat, k: nat)
    requires n < Pow256(k)
    ensures LeValue(LeBytes(n, k)) == n
  {
    if k > 0 {
      var b := LeBytes(n, k);
      ByteDigit(n, Pow256(k - 1));
      LeRoundTrip(n / 256, k - 1);
      assert b[1..] == LeBytes(n / 256, k - 1);
    }
  }

  /** The low byte of `n` and the rest: `n == n % 256 + 256 * (n / 256)`. */
  lemma ByteDigit(n: nat, bound: nat)
    requires n < 256 * bound
    ensures ((n % 256) as bv8) as nat == n % 256
    ensures n == n % 256 + 256 * (n / 256) && n / 256 < bound
  {
    SmallToBv8(n % 256);
  }

  /** `struct.pack("<L", n)`. */
  function Le32(n: nat): (b: seq<bv8>)
    requires n < TwoTo32
    ensures |b| == 4
  {
    LeBytes(n, 4)
  }

  lemma Le32RoundTrip(n: nat)
    requires n < TwoTo32
    ensures LeValue(Le32(n)) == n
  {
    assert Pow256(4) == TwoTo32;
    LeRoundTrip(n, 4);
  }

  /**
   * `get_bin_file`: the header, then `d_out` (or `content` when it is given
   * and not empty) one byte each. A header of 2^32 or more, or a `None`
   * entry, is a `struct.error`.
   */
  function BinFile(code: int, w: nat, h: nat, content: seq<Cell>): (r: Result<seq<bv8>>)
  {
    var header := HeaderWord(code, w, h);
    if header >= TwoTo32 then Err(StructError)
    else if !NoHoles(content) then Err(StructError)
    else Ok(Le32(header) + Bytes(content))
  }

  /** The arguments as `get_bin_file` resolves them: a negative code and an empty content mean "not given". */
  function GetBinFile(cfArg: int, content: seq<Cell>, cf: ColorFormat, w: nat, h: nat, dOut: seq<Cell>): Result<seq<bv8>>
  {
    BinFile(if cfArg < 0 then Code(cf) else cfArg, w, h, if |content| == 0 then dOut else content)
  }

  /** The colour format, width and height packed into a header word. */
  function HeaderFields(n: nat): (nat, nat, nat) {
    (n % 1024, n / 1024 % 2048, n / 0x20_0000)
  }

  /**
   * A picture under 2048 pixels each way gives a file whose first four bytes
   * read back as (`lv_cf`, w, h) and whose remaining bytes are `d_out`.
   */
  lemma BinFileRoundTrip(code: int, w: nat, h: nat, d: seq<bv8>)
    requires w < 2048 && h < 2048
    ensures BinFile(code, w, h, Cells(d)).Ok?
    ensures var f := BinFile(code, w, h, Cells(d)).value;
      |f| == 4 + |d| && HeaderFields(LeValue(f[..4])) == (LvCf(code), w, h) && f[4..] == d
  {
    var n := HeaderWord(code, w, h);
    assert n < TwoTo32;
    HeaderFieldsOf(LvCf(code), w, h);
    var f := BinFile(code, w, h, Cells(d)).value;
    assert f[..4] == Le32(n);
    Le32RoundTrip(n);
    assert Bytes(Cells(d)) == d by {
      CellsInjective(Bytes(Cells(d)), d);
    }
  }

  /** Each field comes back from its bits: `lv_cf` from 0-9, `w` from 10-20 and `h` from 21 up. */
  lemma HeaderFieldsOf(c: nat, w: nat, h: nat)
    requires c < 1024 && w < 2048
    ensures HeaderFields(c + w * 1024 + h * 0x20_0000) == (c, w, h)
  {
    var n := c + w * 1024 + h * 0x20_0000;
    DivMod1024(c, w + 2048 * h);
    DivMod2048(w, h);
    DivMod2M(c + w * 1024, h);
  }

  lemma DivMod1024(a: nat, q: nat)
    requires a < 1024
    ensures (a + 1024 * q) % 1024 == a && (a + 1024 * q) / 1024 == q
  {
  }

  lemma DivMod2048(a: nat, q: nat)
    requires a < 2048
    ensures (a + 2048 * q) % 2048 == a
  {
  }

  lemma DivMod2M(a: nat, q: nat)
    requires a < 0x20_0000
    ensures (a + 0x20_0000 * q) / 0x20_0000 == q
  {
  }

  lemma CellsInjective(a: seq<bv8>, b: seq<bv8>)
    requires Cells(a) == Cells(b)
    ensures a == b
  {
    assert forall i :: 0 <= i < |a| ==> Cells(a)[i] == Byte(a[i]);
  }

  /** The file is written exactly when the header fits 32 bits and no entry is `None`. */
  lemma BinFileFails(code: int, w: nat, h: nat, content: seq<Cell>)
    ensures BinFile(code, w, h, content).Ok? <==> HeaderWord(code, w, h) < TwoTo32 && NoHoles(content)
    ensures h >= 2048 ==> BinFile(code, w, h, content) == Err(StructError)
  {
  }
}

=== FILE: mousewheel.dfy ===
/**
 * The SDL mouse-wheel driver of the simulator, an LVGL encoder: the wheel
 * turns it, the middle button pushes it, and each read hands over the
 * turn collected since the previous read.
 */
module MouseWheel {
  import opened CInt
  import opened LvIndev

  /** `SDL_BUTTON_MIDDLE`. */
  const SDL_BUTTON_MIDDLE: nat := 2

  /** The SDL events the handler is given. */
  datatype Event = Wheel(y: Int32) | ButtonDown(button: nat) | ButtonUp(button: nat) | OtherEvent

  /** What `mousewheel_read` fills in. */
  datatype EncoderData = EncoderData(state: IndevState, encDiff: Int16)

  /**
   * The new `enc_diff` after a wheel event of `y` notches: the notches
   * negated (scrolling down turns the encoder forward), or, in an
   * Emscripten build, one step against the sign of `y`. Both are stored in
   * an `int16_t`.
   */
  function WheelDiff(emscripten: bool, diff: Int16, y: Int32): Int16
  {
    if emscripten then
      var up := if y < 0 then ToInt16(diff + 1) else diff;
      if y > 0 then ToInt16(up - 1) else up
    else ToInt16(-(y as int))
  }

  /** The native build reports the notches of the last wheel event only, negated. */
  lemma WheelOverwrites(diff: Int16, y: Int32)
    requires -0x7FFF <= y <= 0x8000
    ensures WheelDiff(false, diff, y) == -(y as int)
  {
  }

  /** The Emscripten build moves the encoder by one step against the wheel's sign. */
  lemma WheelStepsOnce(diff: Int16, y: Int32)
    requires -0x8000 < diff < 0x7FFF
    ensures y < 0 ==> WheelDiff(true, diff, y) == diff + 1
    ensures y > 0 ==> WheelDiff(true, diff, y) == diff - 1
    ensures y == 0 ==> WheelDiff(true, diff, y) == diff
  {
  }

  /** The driver's statics `enc_diff` and `state`; `emscripten` is the build it was compiled for. */
  class MouseWheelDriver {
    const emscripten: bool
    var encDiff: Int16
    var state: IndevState

    /** The statics start as 0 and released. */
    constructor(emscripten: bool)
      ensures this.emscripten == emscripten && encDiff == 0 && state == Rel
    {
      this.emscripten := emscripten;
      encDiff := 0;
      state := Rel;
    }

    /** `mousewheel_handler`: the wheel sets the turn, the middle button the push; other events do nothing. */
    method Handler(e: Event)
      modifies this
      ensures e.Wheel? ==> encDiff == WheelDiff(emscripten, old(encDiff), e.y) && state == old(state)
      ensures (e.ButtonDown? || e.ButtonUp?) && e.button == SDL_BUTTON_MIDDLE ==>
        encDiff == old(encDiff) && state == (if e.ButtonDown? then Pr else Rel)
      ensures (e.ButtonDown? || e.ButtonUp?) && e.button != SDL_BUTTON_MIDDLE ==>
        encDiff == old(encDiff) && state == old(state)
      ensures e.OtherEvent? ==> encDiff == old(encDiff) && state == old(state)
    {
      match e
      case Wheel(y) =>
        if emscripten {
          if y < 0 {
            encDiff := ToInt16(encDiff + 1);
          }
          if y > 0 {
            encDiff := ToInt16(encDiff - 1);
          }
        } else {
          encDiff := ToInt16(-(y as int));
        }
      case ButtonDown(button) =>
        if button == SDL_BUTTON_MIDDLE {
          state := Pr;
        }
      case ButtonUp(button) =>
        if button == SDL_BUTTON_MIDDLE {
          state := Rel;
        }
      case OtherEvent =>
    }

    /** `mousewheel_read`: the push state and the turn, after which the turn is cleared. */
    method Read() returns (data: EncoderData, more: bool)
      modifies this`encDiff
      ensures data == EncoderData(state, old(encDiff)) && encDiff == 0 && !more
    {
      data := EncoderData(state, encDiff);
      encDiff := 0;
      more := false;
    }
  }
}

=== FILE: pylist.dfy ===
/**
 * The converter's output list `d_out` is a Python list that `forceUpdate`
 * may grow with `None` entries; a cell is either such a hole or a byte.
 */
module PyList {
  datatype Cell = Hole | Byte(b: bv8)

  function Cells(s: seq<bv8>): (r: seq<Cell>)
    ensures |r| == |s| && forall i :: 0 <= i < |s| ==> r[i] == Byte(s[i])
  {
    if |s| == 0 then [] else Cells(s[..|s| - 1]) + [Byte(s[|s| - 1])]
  }

  lemma CellsAppend(s: seq<bv8>, t: seq<bv8>)
    ensures Cells(s + t) == Cells(s) + Cells(t)
  {
    assert |Cells(s + t)| == |Cells(s) + Cells(t)|;
  }

  lemma CellsSnoc(s: seq<bv8>, b: bv8)
    ensures Cells(s + [b]) == Cells(s) + [Byte(b)]
  {
    assert (s + [b])[..|s|] == s;
  }

  lemma CellsUpdate(s: seq<bv8>, i: nat, b: bv8)
    requires i < |s|
    ensures Cells(s[i := b]) == Cells(s)[i := Byte(b)]
  {
    assert |Cells(s[i := b])| == |Cells(s)[i := Byte(b)]|;
  }

  function Holes(n: nat): (r: seq<Cell>)
    ensures |r| == n && forall i :: 0 <= i < n ==> r[i] == Hole
  {
    seq(n, _ => Hole)
  }

  /** `checkExist`: 0 past the end, -1 for a `None` entry, 1 for a value. */
  function CheckExist(li: seq<Cell>, index: nat): (r: int)
    ensures r == 0 <==> index >= |li|
    ensures r == -1 <==> index < |li| && li[index] == Hole
    ensures r == 1 <==> index < |li| && li[index].Byte?
  {
    if index >= |li| then 0
    else if li[index] == Hole then -1
    else 1
  }

  /**
   * `forceUpdate`: overwrites an existing entry (hole or not); past the end
   * it pads with holes up to `index` and appends.
   */
  function ForceUpdated(li: seq<Cell>, index: nat, elem: Cell): (r: seq<Cell>)
    ensures |r| == if index < |li| then |li| else index + 1
    ensures r[index] == elem
    ensures forall i :: 0 <= i < |li| && i != index ==> r[i] == li[i]
    ensures forall i :: |li| <= i < index ==> r[i] == Hole
  {
    var check := CheckExist(li, index);
    if check != 0 then li[index := elem]
    else li + Holes(index - |li|) + [elem]
  }

  /** After `forceUpdate` the entry exists, and it is a value exactly when a value was stored. */
  lemma ForceUpdatedExists(li: seq<Cell>, index: nat, elem: Cell)
    ensures CheckExist(ForceUpdated(li, index, elem), index) == if elem.Hole? then -1 else 1
  {
  }

  /** Appending is the special case of `forceUpdate` one past the end. */
  lemma ForceUpdatedAtEnd(li: seq<Cell>, elem: Cell)
    ensures ForceUpdated(li, |li|, elem) == li + [elem]
  {
    assert Holes(0) == [];
  }

  /** Overwriting the entry just appended replaces it. */
  lemma SnocUpdate<T>(li: seq<T>, e: T, z: T)
    ensures (li + [e])[|li| := z] == li + [z]
  {
  }

  /** A list built from bytes has no holes. */
  predicate NoHoles(li: seq<Cell>) {
    forall i :: 0 <= i < |li| ==> li[i].Byte?
  }

  function Bytes(li: seq<Cell>): (s: seq<bv8>)
    requires NoHoles(li)
    ensures Cells(s) == li
  {
    seq(|li|, i requires 0 <= i < |li| => li[i].b)
  }
}

=== FILE: seqs.dfy ===
/** Concatenation of a sequence of rows, and where each row ends up in it. */
module Seqs {
  function Flatten<T>(rows: seq<seq<T>>): seq<T>
  {
    if |rows| == 0 then [] else Flatten(rows[..|rows| - 1]) + rows[|rows| - 1]
  }

  /** Taking one more row appends that row. */
  lemma FlattenTake<T>(rows: seq<seq<T>>, n: nat)
    requires n < |rows|
    ensures Flatten(rows[..n + 1]) == Flatten(rows[..n]) + rows[n]
  {
    assert rows[..n + 1][..n] == rows[..n];
  }

  predicate Uniform<T>(rows: seq<seq<T>>, len: nat) {
    forall i :: 0 <= i < |rows| ==> |rows[i]| == len
  }

  /** Rows of one length `len` flatten to `len` elements a row. */
  lemma {:induction false} FlattenLength<T>(rows: seq<seq<T>>, len: nat)
    requires Uniform(rows, len)
    ensures |Flatten(rows)| == |rows| * len
  {
    if |rows| > 0 {
      var front := rows[..|rows| - 1];
      FlattenLength(front, len);
      assert |front| * len + len == |rows| * len;
    }
  }

  /** Element `k` of row `i` sits at `i * len + k`. */
  lemma {:induction false} FlattenIndex<T>(rows: seq<seq<T>>, len: nat, i: nat, k: nat)
    requires Uniform(rows, len) && i < |rows| && k < len
    ensures 0 <= i * len && i * len + k < |Flatten(rows)|
    ensures Flatten(rows)[i * len + k] == rows[i][k]
  {
    var front := rows[..|rows| - 1];
    FlattenLength(front, len);
    FlattenLength(rows, len);
    if i < |rows| - 1 {
      FlattenIndex(front, len, i, k);
    }
  }

  /** A run of `|t|` elements from `o` on that agree with `t` one by one is `t`. */
  lemma SliceAgrees<T>(s: seq<T>, o: nat, t: seq<T>)
    requires o + |t| <= |s|
    requires forall k :: 0 <= k < |t| ==> s[o + k] == t[k]
    ensures s[o .. o + |t|] == t
  {
  }

  /** Behind a prefix, element `k` of row `i` sits at `|prefix| + i * len + k`. */
  lemma FlattenAfter<T>(prefix: seq<T>, rows: seq<seq<T>>, len: nat, i: nat, k: nat)
    requires Uniform(rows, len) && i < |rows| && k < len
    ensures 0 <= i * len && |prefix| + i * len + k < |prefix + Flatten(rows)|
    ensures (prefix + Flatten(rows))[|prefix| + i * len + k] == rows[i][k]
  {
    FlattenIndex(rows, len, i, k);
    AppendIndexRight(prefix, Flatten(rows), i * len + k);
  }

  lemma AppendIndexRight<T>(a: seq<T>, b: seq<T>, m: nat)
    requires m < |b|
    ensures |a| + m < |a + b| && (a + b)[|a| + m] == b[m]
  {
  }

  /**
   * When row `i` is itself made of cells of one length, cell `x` of it is the
   * run of `cellLen` elements from `o == |prefix| + i * len + x * cellLen` on.
   */
  lemma FlattenCell<T>(all: seq<T>, prefix: seq<T>, rows: seq<seq<T>>, len: nat,
                       cells: seq<seq<T>>, cellLen: nat, i: nat, x: nat, o: int)
    requires all == prefix + Flatten(rows)
    requires Uniform(rows, len) && i < |rows| && rows[i] == Flatten(cells)
    requires Uniform(cells, cellLen) && x < |cells|
    requires o == |prefix| + i * len + x * cellLen
    ensures 0 <= o && o + cellLen <= |all| && all[o .. o + cellLen] == cells[x]
  {
    FlattenLength(cells, cellLen);
    FlattenLength(rows, len);
    RowFits(i, |rows|, len);
    RowFits(x, |cells|, cellLen);
    forall k | 0 <= k < cellLen
      ensures all[o + k] == cells[x][k]
    {
      FlattenIndex(cells, cellLen, x, k);
      FlattenAfter(prefix, rows, len, i, x * cellLen + k);
    }
    SliceAgrees(all, o, cells[x]);
  }

  /** Row `i` of `n` rows of `len` elements ends within the `n * len` elements. */
  lemma RowFits(i: nat, n: nat, len: nat)
    requires i < n
    ensures 0 <= i * len && i * len + len <= n * len
  {
    var m := n - i - 1;
    assert n * len == i * len + len + m * len;
  }

  lemma AppendAssoc<T>(a: seq<T>, b: seq<T>, c: seq<T>)
    ensures a + (b + c) == (a + b) + c
  {
  }

  /** Updating the last element of `a + b` updates the last element of `b`, which it is. */
  lemma AppendUpdateLast<T>(a: seq<T>, b: seq<T>, z: T)
    requires |b| >= 1
    ensures |a + b| >= 1 && (a + b)[|a + b| - 1] == b[|b| - 1]
    ensures (a + b)[|a + b| - 1 := z] == a + b[|b| - 1 := z]
  {
    assert |a + b| - 1 == |a| + (|b| - 1);
  }

  lemma AppendUpdateRight<T>(a: seq<T>, b: seq<T>, m: nat, z: T)
    requires m < |b|
    ensures (a + b)[|a| + m := z] == a + b[m := z]
  {
  }

  lemma AppendSliceLeft<T>(a: seq<T>, b: seq<T>, lo: nat, hi: nat)
    requires lo <= hi <= |a|
    ensures (a + b)[lo .. hi] == a[lo .. hi]
  {
  }

  lemma AppendSliceAcross<T>(a: seq<T>, b: seq<T>, lo: nat, hi: nat)
    requires lo <= |a| <= hi <= |a| + |b|
    ensures (a + b)[lo .. hi] == a[lo ..] + b[.. hi - |a|]
  {
  }

  lemma AppendSliceRight<T>(a: seq<T>, b: seq<T>)
    ensures (a + b)[|a| .. |a| + |b|] == b
  {
  }

  /** Row `i` is the run of `len` elements from `i * len` on. */
  lemma FlattenSlice<T>(rows: seq<seq<T>>, len: nat, i: nat)
    requires Uniform(rows, len) && i < |rows|
    ensures 0 <= i * len && i * len + len <= |Flatten(rows)|
    ensures Flatten(rows)[i * len .. i * len + len] == rows[i]
  {
    RowFits(i, |rows|, len);
    FlattenLength(rows, len);
    forall k | 0 <= k < len
      ensures Flatten(rows)[i * len + k] == rows[i][k]
    {
      FlattenIndex(rows, len, i, k);
    }
    SliceAgrees(Flatten(rows), i * len, rows[i]);
  }
}

=== FILE: sprite.dfy ===
/**
 * TFT_eSPI's `TFT_eSprite`: an off-screen image in RAM of 1, 4, 8 or 16
 * bits a pixel, with a write window and cursor for streamed colours, a
 * 16-entry palette for 4-bit sprites, a scroll rectangle and a coordinate
 * rotation for 1-bit sprites. The image is one byte buffer, as `calloc`
 * returns it; 16-bit pixels are stored little-endian (the ESP32's order)
 * with their colour bytes swapped.
 */
module Sprite {
  import opened Wrappers
  import opened Arith
  import CInt

  // ---------------------------------------------------------------------
  // Colours
  // ---------------------------------------------------------------------

  /** `(color & 0xE000)>>8 | (color & 0x0700)>>6 | (color & 0x0018)>>3`: RGB565 to RGB332. */
  function To332(color: bv32): bv8
  {
    (((color & 0xE000) >> 8) | ((color & 0x0700) >> 6) | ((color & 0x0018) >> 3)) as bv8
  }

  /** `blue[]` of `readPixel`: the two blue bits spread over five. */
  function Blue(b: bv16): bv16
    requires b < 4
  {
    if b == 0 then 0 else if b == 1 then 11 else if b == 2 then 21 else 31
  }

  /** `readPixel`'s RGB332 to RGB565: each field's top bits repeated below it; 0 stays 0. */
  function From332(v: bv8): bv16
  {
    if v == 0 then 0
    else
      var c := v as bv16;
      ((c & 0xE0) << 8) | ((c & 0xC0) << 5) | ((c & 0x1C) << 6) | ((c & 0x1C) << 3) | Blue(c & 0x03)
  }

  /** Converting an expanded RGB332 colour back gives the byte it came from. */
  lemma To332From332(v: bv8)
    ensures To332(From332(v) as bv32) == v
  {
  }

  /** `(uint16_t)((color >> 8) | (color << 8))`: the colour bytes swapped as 16-bit pixels are stored. */
  function Swap16(color: bv32): bv16
  {
    (((color >> 8) | (color << 8)) & 0xFFFF) as bv16
  }

  /** `(color >> 8) | (color << 8)` on a stored `uint16_t`: the swap undone. */
  function Unswap(c: bv16): bv16
  {
    (c >> 8) | (c << 8)
  }

  /** A colour stored swapped reads back as its low 16 bits, and a stored word swapped back and forth is unchanged. */
  lemma UnswapSwap16(color: bv32, c: bv16)
    ensures color < 0x1_0000 ==> Unswap(Swap16(color)) == color as bv16
    ensures Swap16(Unswap(c) as bv32) == c
  {
  }

  /** Element `i` of the buffer seen as `uint16_t *`, least significant byte first. */
  function Get16(buf: seq<bv8>, i: int): bv16
    requires 0 <= 2 * i && 2 * i + 1 < |buf|
  {
    buf[2 * i] as bv16 | (buf[2 * i + 1] as bv16 << 8)
  }

  /** Storing `v` as element `i` of the buffer seen as `uint16_t *`. */
  function Put16(buf: seq<bv8>, i: int, v: bv16): (r: seq<bv8>)
    requires 0 <= 2 * i && 2 * i + 1 < |buf|
    ensures |r| == |buf| && Get16(r, i) == v
    ensures forall k :: 0 <= k < |buf| && k != 2 * i && k != 2 * i + 1 ==> r[k] == buf[k]
  {
    buf[2 * i := (v & 0xFF) as bv8][2 * i + 1 := (v >> 8) as bv8]
  }

  // ---------------------------------------------------------------------
  // Nibbles and bits
  // ---------------------------------------------------------------------

  /**
   * The 4-bit store: colour `c` into bits 7..4 of `b` for an even column,
   * bits 3..0 for an odd one; the other nibble is kept.
   */
  function SetNibble(b: bv8, odd: bool, c: bv8): (r: bv8)
    requires c < 16
    ensures Nibble(r, odd) == c && Nibble(r, !odd) == Nibble(b, !odd)
  {
    if !odd then (c << 4) | (b & 0x0F) else c | (b & 0xF0)
  }

  /** The 4-bit read: bits 7..4 for an even column (`>> 4`), bits 3..0 for an odd one (`& 0x0F`). */
  function Nibble(b: bv8, odd: bool): (r: bv8)
    ensures r < 16
  {
    if !odd then b >> 4 else b & 0x0F
  }

  /** `b >> n` for a shift `0 <= n < 8`, one literal shift a case. */
  function Shr(b: bv8, n: int): bv8
    requires 0 <= n < 8
  {
    if n == 0 then b else if n == 1 then b >> 1 else if n == 2 then b >> 2 else if n == 3 then b >> 3
    else if n == 4 then b >> 4 else if n == 5 then b >> 5 else if n == 6 then b >> 6 else b >> 7
  }

  /** `c << n` for a shift `0 <= n < 8`, one literal shift a case. */
  function Shl(c: bv16, n: int): bv16
    requires 0 <= n < 8
  {
    if n == 0 then c else if n == 1 then c << 1 else if n == 2 then c << 2 else if n == 3 then c << 3
    else if n == 4 then c << 4 else if n == 5 then c << 5 else if n == 6 then c << 6 else c << 7
  }

  /** `0x80 >> k`: pixel column `k` of a byte, the leftmost in the top bit. */
  function Mask(k: int): bv8
    requires 0 <= k < 8
  {
    Shr(0x80, k)
  }

  /** The 1-bit store: `|= mask` for a non-zero colour, `&= ~mask` for zero. */
  function SetBit(b: bv8, k: int, on: bool): bv8
    requires 0 <= k < 8
  {
    if on then b | Mask(k) else b & !Mask(k)
  }

  /** `readPixelValue`'s 1-bit read: `(b >> (7 - k)) & 0x01`. */
  function BitValue(b: bv8, k: int): bv16
    requires 0 <= k < 8
  {
    (Shr(b, 7 - k) & 0x01) as bv16
  }

  /** `readPixel`'s 1-bit test: `(b << k) & 0x80`, non-zero when the pixel is set. */
  function BitSet(b: bv8, k: int): bool
    requires 0 <= k < 8
  {
    Shl(b as bv16, k) & 0x80 != 0
  }

  /** The two reads test the byte against the column's mask. */
  lemma BitReadsMask(b: bv8, k: int)
    requires 0 <= k < 8
    ensures BitValue(b, k) == if b & Mask(k) != 0 then 1 else 0
    ensures BitSet(b, k) == (b & Mask(k) != 0)
  {
    if k == 0 {} else if k == 1 {} else if k == 2 {} else if k == 3 {}
    else if k == 4 {} else if k == 5 {} else if k == 6 {} else {}
  }

  /** Different columns have disjoint masks. */
  lemma MasksDisjoint(k: int, k': int)
    requires 0 <= k < 8 && 0 <= k' < 8 && k != k'
    ensures Mask(k) & Mask(k') == 0
  {
    if k == 0 {} else if k == 1 {} else if k == 2 {} else if k == 3 {}
    else if k == 4 {} else if k == 5 {} else if k == 6 {} else {}
  }

  /** Setting or clearing the bits of `m` fixes them and keeps the bits of a disjoint `m'`. */
  lemma MaskedStore(b: bv8, m: bv8, m': bv8)
    requires m & m' == 0
    ensures (b | m) & m == m && (b & !m) & m == 0
    ensures (b | m) & m' == b & m' && (b & !m) & m' == b & m'
  {
  }

  /** Both reads see the bit the store wrote. */
  lemma SetBitReads(b: bv8, k: int, on: bool)
    requires 0 <= k < 8
    ensures BitValue(SetBit(b, k, on), k) == if on then 1 else 0
    ensures BitSet(SetBit(b, k, on), k) == on
  {
    var m := Mask(k);
    assert m != 0 by {
      if k == 0 {} else if k == 1 {} else if k == 2 {} else if k == 3 {}
      else if k == 4 {} else if k == 5 {} else if k == 6 {} else {}
    }
    MaskedStore(b, m, 0);
    BitReadsMask(SetBit(b, k, on), k);
  }

  /** The 1-bit store keeps every other column of the byte. */
  lemma SetBitKeeps(b: bv8, k: int, on: bool, k': int)
    requires 0 <= k < 8 && 0 <= k' < 8 && k' != k
    ensures BitValue(SetBit(b, k, on), k') == BitValue(b, k')
    ensures BitSet(SetBit(b, k, on), k') == BitSet(b, k')
  {
    MasksDisjoint(k, k');
    MaskedStore(b, Mask(k), Mask(k'));
    BitReadsMask(SetBit(b, k, on), k');
    BitReadsMask(b, k');
  }

  // ---------------------------------------------------------------------
  // Geometry
  // ---------------------------------------------------------------------

  /** The colour depths a sprite can have, in bits a pixel. */
  predicate Depth(b: int)
  {
    b == 1 || b == 4 || b == 8 || b == 16
  }

  datatype Point = Point(x: int, y: int)

  /**
   * The shape fields of a sprite: `_bpp`; `_iwidth` x `_iheight`, the stored
   * image, whose rows `callocSprite` rounds up to whole bytes; `_bitwidth`,
   * the 1-bit row length in pixels; `_dwidth` x `_dheight`, the size asked
   * for; and `rotation`, used by 1-bit sprites only.
   */
  datatype Geometry = Geometry(
    bpp: int, iwidth: int, iheight: int, bitwidth: int, dwidth: int, dheight: int, rotation: int)

  /** The stored row length `callocSprite` gives a `w`-pixel-wide sprite: even at 4 bits, a multiple of 8 at 1 bit. */
  function RowPixels(bpp: int, w: int): int
  {
    if bpp == 4 then (w + 1) / 2 * 2 else if bpp == 1 then (w + 7) / 8 * 8 else w
  }

  /** Bytes of one frame: the pixels plus the extra off-screen pixel `setWindow` parks the cursor on. */
  function FrameBytes(g: Geometry): int
  {
    if g.bpp == 16 then 2 * (Times(g.iwidth, g.iheight) + 1)
    else if g.bpp == 8 then Times(g.iwidth, g.iheight) + 1
    else if g.bpp == 4 then Times(g.iwidth, g.iheight) / 2 + 1
    else Times(g.iwidth / 8, g.iheight) + 1
  }

  /** The geometry `createSprite` sets up for a sprite it creates. */
  predicate Shaped(g: Geometry)
  {
    && Depth(g.bpp)
    && g.dwidth >= 1 && g.dheight >= 1
    && g.iwidth == RowPixels(g.bpp, g.dwidth) && g.iheight == g.dheight
    && g.bitwidth == (if g.bpp == 1 then g.iwidth else g.dwidth)
    && 0 <= g.rotation
  }

  /** A created sprite's geometry, and a buffer of `n` bytes that holds one frame of it. */
  predicate Fits(g: Geometry, n: int)
  {
    Shaped(g) && n >= FrameBytes(g)
  }

  /** `width()` of a created sprite: a 1-bit sprite's sides swap at odd rotations. */
  function ViewWidth(g: Geometry): int
  {
    if g.bpp > 1 || g.rotation % 2 == 0 then g.dwidth else g.dheight
  }

  /** `height()` of a created sprite. */
  function ViewHeight(g: Geometry): int
  {
    if g.bpp > 1 || g.rotation % 2 == 0 then g.dheight else g.dwidth
  }

  /** The range check of `drawPixel` and the reads: the point lies in the sprite as the caller sees it. */
  predicate InView(g: Geometry, x: int, y: int)
  {
    0 <= x < ViewWidth(g) && 0 <= y < ViewHeight(g)
  }

  /** `x + y * _iwidth`: the pixel's place in the 16-, 8- and 4-bit images. */
  function Cell(g: Geometry, x: int, y: int): int
  {
    x + y * g.iwidth
  }

  /** `x + y * _bitwidth`: the pixel's place in the 1-bit image. */
  function BitPos(g: Geometry, p: Point): int
  {
    p.x + p.y * g.bitwidth
  }

  /** The point `drawPixel` stores a 1-bit pixel of the rotated sprite at, in the unrotated image. */
  function DrawMap(g: Geometry, x: int, y: int): Point
  {
    if g.rotation == 1 then Point(g.dwidth - y - 1, x)
    else if g.rotation == 2 then Point(g.dwidth - x - 1, g.dheight - y - 1)
    else if g.rotation == 3 then Point(y, g.dheight - x - 1)
    else Point(x, y)
  }

  /** Whether a store at cell `c` of a 16-, 8- or 4-bit image lies inside a buffer of `n` bytes. */
  predicate CellFits(bpp: int, n: int, c: int)
  {
    0 <= c && (if bpp == 16 then 2 * c + 1 < n else if bpp == 8 then c < n else c / 2 < n)
  }

  /** A point of the stored 1-bit image. */
  predicate OnImage(g: Geometry, p: Point)
  {
    0 <= p.x < g.bitwidth && 0 <= p.y < g.dheight
  }

  /** The rounded row holds the asked-for width, as a whole number of bytes and less than one byte more. */
  lemma RowPixelsRounds(bpp: int, w: int)
    requires Depth(bpp) && w >= 1
    ensures w <= RowPixels(bpp, w)
    ensures bpp == 4 ==> RowPixels(bpp, w) % 2 == 0 && RowPixels(bpp, w) < w + 2
    ensures bpp == 1 ==> RowPixels(bpp, w) % 8 == 0 && RowPixels(bpp, w) < w + 8
    ensures bpp >= 8 ==> RowPixels(bpp, w) == w
  {
    if bpp == 4 {
      RoundUp(w, 2);
    } else if bpp == 1 {
      RoundUp(w, 8);
    }
  }

  /** At rotations 0 to 3 every point in view is drawn inside the stored image, left of `_dwidth`. */
  lemma DrawMapOnImage(g: Geometry, x: int, y: int)
    requires Shaped(g) && g.bpp == 1 && g.rotation < 4 && InView(g, x, y)
    ensures OnImage(g, DrawMap(g, x, y)) && DrawMap(g, x, y).x < g.dwidth
  {
    RowPixelsRounds(g.bpp, g.dwidth);
  }

  /** At rotations 0 to 3 distinct points are drawn at distinct points of the image. */
  lemma DrawMapInjective(g: Geometry, x: int, y: int, x': int, y': int)
    requires g.rotation < 4 && (x, y) != (x', y')
    ensures DrawMap(g, x, y) != DrawMap(g, x', y')
  {
  }

  /** A pixel of a 16-, 8- or 4-bit image, or the off-screen pixel `(0, _dheight)`, is stored inside one frame. */
  lemma CellInFrame(g: Geometry, n: int, x: int, y: int)
    requires Fits(g, n) && g.bpp != 1
    requires (0 <= x < g.iwidth && 0 <= y < g.iheight) || (x == 0 && y == g.dheight)
    ensures CellFits(g.bpp, n, Cell(g, x, y))
  {
    var a := g.iwidth * g.iheight;
    TimesIsProduct(g.iwidth, g.iheight);
    if y < g.iheight {
      RowMajorBound(x, y, g.iwidth, g.iheight);
    } else {
      assert y * g.iwidth == a;
    }
    assert 0 <= Cell(g, x, y) <= a;
  }

  /** Distinct pixels have distinct cells, and at 4 bits two pixels share a byte only in opposite nibbles. */
  lemma CellsDistinct(g: Geometry, x: int, y: int, x': int, y': int)
    requires Shaped(g) && 0 <= x < g.iwidth && 0 <= x' < g.iwidth && 0 <= y && 0 <= y'
    requires (x, y) != (x', y')
    ensures Cell(g, x, y) != Cell(g, x', y')
    ensures g.bpp == 4 && Cell(g, x, y) / 2 == Cell(g, x', y') / 2 ==> x % 2 != x' % 2
  {
    RowMajorDistinct(x, y, x', y', g.iwidth);
    if g.bpp == 4 {
      RowPixelsRounds(g.bpp, g.dwidth);
      AlignedRow(x, y, g.iwidth, 2);
      AlignedRow(x', y', g.iwidth, 2);
    }
  }

  /** A point of the 1-bit image lies inside one frame, at bit `x % 8` of its byte. */
  lemma BitInFrame(g: Geometry, n: int, p: Point)
    requires Fits(g, n) && g.bpp == 1 && OnImage(g, p)
    ensures 0 <= BitPos(g, p) / 8 < n && BitPos(g, p) % 8 == p.x % 8
  {
    var m := g.bitwidth / 8;
    RowPixelsRounds(g.bpp, g.dwidth);
    AlignedRow(p.x, p.y, g.bitwidth, 8);
    MulLe(p.y + 1, g.iheight, m);
    TimesIsProduct(m, g.iheight);
    assert (p.y + 1) * m == p.y * m + m;
  }

  /** Two points of the 1-bit image share a byte only at different bits. */
  lemma BitsDistinct(g: Geometry, p: Point, q: Point)
    requires Shaped(g) && g.bpp == 1 && OnImage(g, p) && OnImage(g, q) && p != q
    ensures BitPos(g, p) / 8 == BitPos(g, q) / 8 ==> p.x % 8 != q.x % 8
  {
    RowMajorDistinct(p.x, p.y, q.x, q.y, g.bitwidth);
    RowPixelsRounds(g.bpp, g.dwidth);
    AlignedRow(p.x, p.y, g.bitwidth, 8);
    AlignedRow(q.x, q.y, g.bitwidth, 8);
  }

  // ---------------------------------------------------------------------
  // Storing and reading pixels
  // ---------------------------------------------------------------------

  /** The colour in the stored format, as `pushColor(color, len)` prepares it: swapped at 16 bits, RGB332 at 8, its low 16 bits otherwise. */
  function Formatted(bpp: int, color: bv32): bv16
  {
    if bpp == 16 then Swap16(color) else if bpp == 8 then To332(color) as bv16 else (color & 0xFFFF) as bv16
  }

  /**
   * `writeColor`'s store into a 16-, 8- or 4-bit image of a colour already
   * in the stored format: the word, its low byte, or its low nibble into
   * the half of the byte the column's parity selects. `writeColor` has no
   * range check; a store that would fall outside the buffer is dropped.
   */
  function Written(g: Geometry, buf: seq<bv8>, x: int, y: int, c: bv16): (r: seq<bv8>)
    ensures |r| == |buf|
  {
    var i := Cell(g, x, y);
    if !CellFits(g.bpp, |buf|, i) then buf
    else if g.bpp == 16 then Put16(buf, i, c)
    else if g.bpp == 8 then buf[i := (c & 0xFF) as bv8]
    else buf[i / 2 := SetNibble(buf[i / 2], x % 2 == 1, (c & 0x0F) as bv8)]
  }

  /**
   * `drawPixel`: a point in view gets `color` in the sprite's format (at 1
   * bit: set when `color` is non-zero, at the rotated position); a point
   * out of view is ignored. A rotated position outside the image (only
   * rotations 4 and up give one) is dropped.
   */
  function Drawn(g: Geometry, buf: seq<bv8>, x: int, y: int, color: bv32): (r: seq<bv8>)
    requires Fits(g, |buf|)
    ensures |r| == |buf|
  {
    if !InView(g, x, y) then buf
    else if g.bpp != 1 then Written(g, buf, x, y, Formatted(g.bpp, color))
    else
      var p := DrawMap(g, x, y);
      if !OnImage(g, p) then buf
      else
        BitInFrame(g, |buf|, p);
        var i := BitPos(g, p) / 8;
        buf[i := SetBit(buf[i], p.x % 8, color != 0)]
  }

  /**
   * `readPixelValue`, reading 1-bit pixels where `drawPixel` stores them:
   * 0xFF out of view; the colour at 16 bits, the RGB332 byte at 8, the
   * palette index at 4 and the bit at 1. A rotated position outside the
   * image reads as 0.
   */
  function PixelValue(g: Geometry, buf: seq<bv8>, x: int, y: int): bv16
    requires Fits(g, |buf|)
  {
    if !InView(g, x, y) then 0xFF
    else if g.bpp == 1 then
      var p := DrawMap(g, x, y);
      if !OnImage(g, p) then 0
      else
        BitInFrame(g, |buf|, p);
        BitValue(buf[BitPos(g, p) / 8], p.x % 8)
    else
      RowPixelsRounds(g.bpp, g.dwidth);
      CellInFrame(g, |buf|, x, y);
      var i := Cell(g, x, y);
      if g.bpp == 16 then Unswap(Get16(buf, i))
      else if g.bpp == 8 then buf[i] as bv16
      else if x >= g.dwidth then 0xFF
      else Nibble(buf[i / 2], x % 2 == 1) as bv16
  }

  /**
   * `readPixel`, reading 1-bit pixels where `drawPixel` stores them: 0xFFFF
   * out of view; the colour at 16 bits, the expanded RGB332 byte at 8, the
   * palette entry at 4, and `bitmap_fg` or `bitmap_bg` at 1. A rotated
   * position outside the image reads as `bitmap_bg`.
   */
  function PixelColor(g: Geometry, buf: seq<bv8>, palette: seq<bv16>, fg: bv16, bg: bv16, x: int, y: int): bv16
    requires Fits(g, |buf|) && (g.bpp == 4 ==> |palette| == 16)
  {
    if !InView(g, x, y) then 0xFFFF
    else if g.bpp == 1 then
      var p := DrawMap(g, x, y);
      if !OnImage(g, p) then bg
      else
        BitInFrame(g, |buf|, p);
        if BitSet(buf[BitPos(g, p) / 8], p.x % 8) then fg else bg
    else
      RowPixelsRounds(g.bpp, g.dwidth);
      CellInFrame(g, |buf|, x, y);
      var i := Cell(g, x, y);
      if g.bpp == 16 then Unswap(Get16(buf, i))
      else if g.bpp == 8 then From332(buf[i])
      else if x >= g.dwidth then 0xFFFF
      else palette[Nibble(buf[i / 2], x % 2 == 1)]
  }

  /** What `readPixelValue` returns for a pixel `writeColor(c)` stored: the word swapped back, the low byte, the low nibble. */
  function WrittenValue(bpp: int, c: bv16): bv16
  {
    if bpp == 16 then Unswap(c) else if bpp == 8 then c & 0xFF else c & 0x0F
  }

  /** A pixel in view that `writeColor` stored reads back as the stored colour. */
  lemma WrittenReadsBack(g: Geometry, buf: seq<bv8>, x: int, y: int, c: bv16)
    requires Fits(g, |buf|) && g.bpp != 1 && InView(g, x, y)
    ensures PixelValue(g, Written(g, buf, x, y, c), x, y) == WrittenValue(g.bpp, c)
  {
    RowPixelsRounds(g.bpp, g.dwidth);
    CellInFrame(g, |buf|, x, y);
  }

  /**
   * A `writeColor` store at a point in view, or at the off-screen pixel
   * `(0, _dheight)`, leaves every other pixel's value as it was.
   */
  lemma WrittenKeepsOthers(g: Geometry, buf: seq<bv8>, x: int, y: int, c: bv16, x': int, y': int)
    requires Fits(g, |buf|) && g.bpp != 1 && (InView(g, x, y) || (x == 0 && y == g.dheight))
    requires (x, y) != (x', y')
    ensures PixelValue(g, Written(g, buf, x, y, c), x', y') == PixelValue(g, buf, x', y')
  {
    if InView(g, x', y') {
      RowPixelsRounds(g.bpp, g.dwidth);
      CellInFrame(g, |buf|, x, y);
      CellInFrame(g, |buf|, x', y');
      CellsDistinct(g, x, y, x', y');
      if g.bpp == 4 {
        var i, j := Cell(g, x, y) / 2, Cell(g, x', y') / 2;
        if i == j {
          assert Nibble(Written(g, buf, x, y, c)[j], x' % 2 == 1) == Nibble(buf[j], x' % 2 == 1);
        }
      }
    }
  }

  /**
   * A drawn pixel reads back: the colour at 16 bits (for a 16-bit colour),
   * its RGB332 byte at 8, its low nibble at 4, and whether it is non-zero at
   * 1 (at rotations 0 to 3).
   */
  lemma DrawnReadsBack(g: Geometry, buf: seq<bv8>, x: int, y: int, color: bv32)
    requires Fits(g, |buf|) && InView(g, x, y) && (g.bpp == 1 ==> g.rotation < 4)
    ensures g.bpp == 16 && color < 0x1_0000 ==> PixelValue(g, Drawn(g, buf, x, y, color), x, y) == color as bv16
    ensures g.bpp == 8 ==> PixelValue(g, Drawn(g, buf, x, y, color), x, y) == To332(color) as bv16
    ensures g.bpp == 4 ==> PixelValue(g, Drawn(g, buf, x, y, color), x, y) == (color & 0x0F) as bv16
    ensures g.bpp == 1 ==> PixelValue(g, Drawn(g, buf, x, y, color), x, y) == if color != 0 then 1 else 0
  {
    if g.bpp == 1 {
      DrawMapOnImage(g, x, y);
      var p := DrawMap(g, x, y);
      BitInFrame(g, |buf|, p);
      SetBitReads(buf[BitPos(g, p) / 8], p.x % 8, color != 0);
    } else {
      WrittenReadsBack(g, buf, x, y, Formatted(g.bpp, color));
      UnswapSwap16(color, 0);
    }
  }

  /** Drawing a pixel leaves every other pixel's value as it was (at rotations 0 to 3). */
  lemma DrawnKeepsOthers(g: Geometry, buf: seq<bv8>, x: int, y: int, color: bv32, x': int, y': int)
    requires Fits(g, |buf|) && (x, y) != (x', y') && (g.bpp == 1 ==> g.rotation < 4)
    ensures PixelValue(g, Drawn(g, buf, x, y, color), x', y') == PixelValue(g, buf, x', y')
  {
    if InView(g, x, y) && InView(g, x', y') {
      if g.bpp == 1 {
        DrawnKeepsOtherBit(g, buf, x, y, color, x', y');
      } else {
        WrittenKeepsOthers(g, buf, x, y, Formatted(g.bpp, color), x', y');
      }
    }
  }

  lemma DrawnKeepsOtherBit(g: Geometry, buf: seq<bv8>, x: int, y: int, color: bv32, x': int, y': int)
    requires Fits(g, |buf|) && g.bpp == 1 && g.rotation < 4
    requires InView(g, x, y) && InView(g, x', y') && (x, y) != (x', y')
    ensures PixelValue(g, Drawn(g, buf, x, y, color), x', y') == PixelValue(g, buf, x', y')
  {
    var p, q := DrawMap(g, x, y), DrawMap(g, x', y');
    DrawMapOnImage(g, x, y);
    DrawMapOnImage(g, x', y');
    DrawMapInjective(g, x, y, x', y');
    BitInFrame(g, |buf|, p);
    BitInFrame(g, |buf|, q);
    BitsDistinct(g, p, q);
    var i, j := BitPos(g, p) / 8, BitPos(g, q) / 8;
    if i == j {
      SetBitKeeps(buf[i], p.x % 8, color != 0, q.x % 8);
    }
  }

  /** `readPixel` is `readPixelValue` seen through the depth's colour rule. */
  lemma PixelColorOfValue(g: Geometry, buf: seq<bv8>, palette: seq<bv16>, fg: bv16, bg: bv16, x: int, y: int)
    requires Fits(g, |buf|) && (g.bpp == 4 ==> |palette| == 16) && InView(g, x, y)
    ensures var v := PixelValue(g, buf, x, y);
      PixelColor(g, buf, palette, fg, bg, x, y) ==
        if g.bpp == 16 then v
        else if g.bpp == 8 then From332(v as bv8)
        else if g.bpp == 4 then palette[v]
        else if v == 1 then fg else bg
  {
    if g.bpp == 1 {
      var p := DrawMap(g, x, y);
      if OnImage(g, p) {
        BitInFrame(g, |buf|, p);
        BitReadsMask(buf[BitPos(g, p) / 8], p.x % 8);
      }
    } else {
      RowPixelsRounds(g.bpp, g.dwidth);
    }
  }

  /**
   * Drawing back what a read returned changes nothing: the colour
   * `readPixel` returns at 16 and 8 bits, the value `readPixelValue`
   * returns at 4 and 1 bit (at rotations 0 to 3).
   */
  lemma RedrawIsNoOp(g: Geometry, buf: seq<bv8>, x: int, y: int)
    requires Fits(g, |buf|) && InView(g, x, y) && (g.bpp == 1 ==> g.rotation < 4)
    ensures g.bpp >= 8 ==> Drawn(g, buf, x, y, PixelColor(g, buf, [], 0, 0, x, y) as bv32) == buf
    ensures g.bpp <= 4 ==> Drawn(g, buf, x, y, PixelValue(g, buf, x, y) as bv32) == buf
  {
    if g.bpp == 1 {
      RedrawBit(g, buf, x, y);
    } else {
      RowPixelsRounds(g.bpp, g.dwidth);
      CellInFrame(g, |buf|, x, y);
      var i := Cell(g, x, y);
      if g.bpp == 16 {
        UnswapSwap16(0, Get16(buf, i));
        Put16Same(buf, i);
      } else if g.bpp == 8 {
        To332From332(buf[i]);
      } else {
        var b := buf[i / 2];
        assert SetNibble(b, x % 2 == 1, Nibble(b, x % 2 == 1)) == b;
      }
    }
  }

  lemma RedrawBit(g: Geometry, buf: seq<bv8>, x: int, y: int)
    requires Fits(g, |buf|) && InView(g, x, y) && g.bpp == 1 && g.rotation < 4
    ensures Drawn(g, buf, x, y, PixelValue(g, buf, x, y) as bv32) == buf
  {
    DrawMapOnImage(g, x, y);
    var p := DrawMap(g, x, y);
    BitInFrame(g, |buf|, p);
    var b := buf[BitPos(g, p) / 8];
    assert PixelValue(g, buf, x, y) == BitValue(b, p.x % 8);
    SetBitSame(b, p.x % 8);
  }

  /** Storing a byte's own bit back leaves it as it was. */
  lemma SetBitSame(b: bv8, k: int)
    requires 0 <= k < 8
    ensures SetBit(b, k, BitValue(b, k) as bv32 != 0) == b
  {
    BitReadsMask(b, k);
    MaskSingleBit(k);
    SingleBitStore(b, Mask(k));
  }

  /** Each column's mask has exactly one bit set. */
  lemma MaskSingleBit(k: int)
    requires 0 <= k < 8
    ensures Mask(k) != 0 && Mask(k) & (Mask(k) - 1) == 0
  {
    if k == 0 {} else if k == 1 {} else if k == 2 {} else if k == 3 {}
    else if k == 4 {} else if k == 5 {} else if k == 6 {} else {}
  }

  /** Setting a single bit that is set, or clearing one that is clear, changes nothing. */
  lemma SingleBitStore(b: bv8, m: bv8)
    requires m != 0 && m & (m - 1) == 0
    ensures b & m != 0 ==> b | m == b
    ensures b & m == 0 ==> b & !m == b
  {
  }

  /** Storing the word already there leaves the buffer as it was. */
  lemma Put16Same(buf: seq<bv8>, i: int)
    requires 0 <= 2 * i && 2 * i + 1 < |buf|
    ensures Put16(buf, i, Get16(buf, i)) == buf
  {
    WordBytes(buf[2 * i], buf[2 * i + 1]);
  }

  /** A word made of two bytes splits back into them. */
  lemma WordBytes(lo: bv8, hi: bv8)
    ensures ((lo as bv16 | (hi as bv16 << 8)) & 0xFF) as bv8 == lo
    ensures ((lo as bv16 | (hi as bv16 << 8)) >> 8) as bv8 == hi
  {
  }

  // ---------------------------------------------------------------------
  // The 1-bit read with its rotation as written
  // ---------------------------------------------------------------------

  /**
   * The rotation of `readPixelValue` and `readPixel` as written: at
   * rotations 1 and 3 they use `_dheight` where `drawPixel` uses `_dwidth`
   * and the other way round.
   */
  function ReadMapAsWritten(g: Geometry, x: int, y: int): Point
  {
    if g.rotation == 1 then Point(g.dheight - y - 1, x)
    else if g.rotation == 2 then Point(g.dwidth - x - 1, g.dheight - y - 1)
    else if g.rotation == 3 then Point(y, g.dwidth - x - 1)
    else Point(x, y)
  }

  /** `readPixelValue` of a 1-bit sprite as written; `None` where it reads outside the image. */
  function BitValueAsWritten(g: Geometry, buf: seq<bv8>, x: int, y: int): Option<bv16>
    requires Fits(g, |buf|) && g.bpp == 1
  {
    if !InView(g, x, y) then Some(0xFF)
    else
      var p := ReadMapAsWritten(g, x, y);
      if !OnImage(g, p) then None
      else
        BitInFrame(g, |buf|, p);
        Some(BitValue(buf[BitPos(g, p) / 8], p.x % 8))
  }

  /** `readPixel` of a 1-bit sprite as written; `None` where it reads outside the image. */
  function BitColorAsWritten(g: Geometry, buf: seq<bv8>, fg: bv16, bg: bv16, x: int, y: int): (r: Option<bv16>)
    requires Fits(g, |buf|) && g.bpp == 1
    ensures r.None? <==> BitValueAsWritten(g, buf, x, y).None?
    ensures r.Some? && InView(g, x, y) ==> r.value == if BitValueAsWritten(g, buf, x, y).value == 1 then fg else bg
  {
    if !InView(g, x, y) then Some(0xFFFF)
    else
      var p := ReadMapAsWritten(g, x, y);
      if !OnImage(g, p) then None
      else
        BitInFrame(g, |buf|, p);
        BitReadsMask(buf[BitPos(g, p) / 8], p.x % 8);
        Some(if BitSet(buf[BitPos(g, p) / 8], p.x % 8) then fg else bg)
  }

  /** On a square sprite the reads as written agree with `drawPixel`. */
  lemma SquareReadsAgree(g: Geometry, buf: seq<bv8>, x: int, y: int)
    requires Fits(g, |buf|) && g.bpp == 1 && g.rotation < 4 && g.dwidth == g.dheight && InView(g, x, y)
    ensures BitValueAsWritten(g, buf, x, y) == Some(PixelValue(g, buf, x, y))
  {
    DrawMapOnImage(g, x, y);
  }

  /**
   * A 16 x 8 one-bit sprite at rotation 1: the pixel drawn at (0, 0) is
   * stored at column 15 of row 0, the read as written looks at column 7
   * and misses it, and the read at (0, 15) lands left of the image.
   */
  lemma RotatedReadMissesDraw()
    ensures var g := Geometry(1, 16, 8, 16, 16, 8, 1);
      var buf := Drawn(g, seq(17, _ => 0), 0, 0, 1);
      && PixelValue(g, buf, 0, 0) == 1
      && BitValueAsWritten(g, buf, 0, 0) == Some(0)
      && BitValueAsWritten(g, buf, 0, 15) == None
      && PixelColor(g, buf, [], 1, 0, 0, 0) == 1
      && BitColorAsWritten(g, buf, 1, 0, 0, 0) == Some(0)
  {
    var g := Geometry(1, 16, 8, 16, 16, 8, 1);
    var buf := Drawn(g, seq(17, _ => 0), 0, 0, 1);
    DrawnReadsBack(g, seq(17, _ => 0), 0, 0, 1);
    assert buf[0] == 0;
  }

  // ---------------------------------------------------------------------
  // The write window and its cursor
  // ---------------------------------------------------------------------

  /** The window `pushColor` and `writeColor` fill, both corners included. */
  datatype Window = Window(xs: int, ys: int, xe: int, ye: int)

  function Min(a: int, b: int): int { if a <= b then a else b }
  function Max(a: int, b: int): int { if a <= b then b else a }

  /** `(px, py)` lies in the window. */
  predicate InWindow(r: Window, px: int, py: int)
  {
    r.xs <= px <= r.xe && r.ys <= py <= r.ye
  }

  /** `(px, py)` lies in the rectangle with corners `(x0, y0)` and `(x1, y1)`, in either order. */
  predicate InRect(x0: int, y0: int, x1: int, y1: int, px: int, py: int)
  {
    Min(x0, x1) <= px <= Max(x0, x1) && Min(y0, y1) <= py <= Max(y0, y1)
  }

  /** The rectangle lies wholly left of, right of, above or below a `w` x `h` sprite. */
  predicate Misses(w: int, h: int, x0: int, y0: int, x1: int, y1: int)
  {
    Min(x0, x1) >= w || Max(x0, x1) < 0 || Min(y0, y1) >= h || Max(y0, y1) < 0
  }

  /**
   * `setWindow` on a sprite `width()` x `height()` = `w` x `h`: the corners
   * ordered and clipped to the sprite; a rectangle that misses the sprite
   * selects the extra off-screen pixel `(0, _dheight)`.
   */
  function ClipWindow(w: int, h: int, dheight: int, x0: int, y0: int, x1: int, y1: int): Window
  {
    if Misses(w, h, x0, y0, x1, y1) then Window(0, dheight, 0, dheight)
    else Window(Max(Min(x0, x1), 0), Max(Min(y0, y1), 0), Min(Max(x0, x1), w - 1), Min(Max(y0, y1), h - 1))
  }

  /**
   * A rectangle that misses the sprite shares no point with it and selects
   * the off-screen pixel; any other gives a non-empty window holding exactly
   * the sprite's points of the rectangle.
   */
  lemma ClipWindowPoints(w: int, h: int, dheight: int, x0: int, y0: int, x1: int, y1: int, px: int, py: int)
    ensures Misses(w, h, x0, y0, x1, y1) ==>
      && ClipWindow(w, h, dheight, x0, y0, x1, y1) == Window(0, dheight, 0, dheight)
      && !(0 <= px < w && 0 <= py < h && InRect(x0, y0, x1, y1, px, py))
    ensures !Misses(w, h, x0, y0, x1, y1) ==>
      (InWindow(ClipWindow(w, h, dheight, x0, y0, x1, y1), px, py) <==>
        0 <= px < w && 0 <= py < h && InRect(x0, y0, x1, y1, px, py))
    ensures !Misses(w, h, x0, y0, x1, y1) && w >= 1 && h >= 1 ==>
      var r := ClipWindow(w, h, dheight, x0, y0, x1, y1);
      0 <= r.xs <= r.xe < w && 0 <= r.ys <= r.ye < h
  {
  }

  /** The write cursor lies in the window; a window with its corners the wrong way round holds it at `(_xs, _ys)`. */
  predicate CursorIn(r: Window, p: Point)
  {
    r.xs <= p.x <= Max(r.xs, r.xe) && r.ys <= p.y <= Max(r.ys, r.ye)
  }

  /** The cursor step after each pixel: right, wrapping to the next row at `_xe` and to the top at `_ye`. It never leaves the window. */
  function Advance(r: Window, p: Point): (q: Point)
    ensures CursorIn(r, p) ==> CursorIn(r, q)
  {
    if p.x + 1 > r.xe then Point(r.xs, if p.y + 1 > r.ye then r.ys else p.y + 1)
    else Point(p.x + 1, p.y)
  }

  /** The cursor after `n` steps. */
  function AdvanceN(r: Window, p: Point, n: nat): (q: Point)
    ensures CursorIn(r, p) ==> CursorIn(r, q)
  {
    if n == 0 then p else Advance(r, AdvanceN(r, p, n - 1))
  }

  /** Along a row the cursor moves one column a step. */
  lemma {:induction false} AdvanceAlongRow(r: Window, y: int, k: nat)
    requires r.xs <= r.xe && r.xs + k <= r.xe + 1
    ensures k <= r.xe - r.xs ==> AdvanceN(r, Point(r.xs, y), k) == Point(r.xs + k, y)
    ensures k == r.xe - r.xs + 1 ==> AdvanceN(r, Point(r.xs, y), k) == Point(r.xs, if y + 1 > r.ye then r.ys else y + 1)
  {
    if k > 0 {
      AdvanceAlongRow(r, y, k - 1);
    }
  }

  /** Steps add up. */
  lemma {:induction false} AdvanceNAdd(r: Window, p: Point, a: nat, b: nat)
    ensures AdvanceN(r, AdvanceN(r, p, a), b) == AdvanceN(r, p, a + b)
  {
    if b > 0 {
      AdvanceNAdd(r, p, a, b - 1);
    }
  }

  /** `k` whole rows from the window's top left corner bring the cursor to the start of row `_ys + k`, and back to the corner after the last row. */
  lemma {:induction false} AdvanceRows(r: Window, k: nat)
    requires r.xs <= r.xe && r.ys + k <= r.ye + 1
    ensures var n := r.xe - r.xs + 1;
      AdvanceN(r, Point(r.xs, r.ys), k * n) == Point(r.xs, if r.ys + k > r.ye then r.ys else r.ys + k)
  {
    var n := r.xe - r.xs + 1;
    if k > 0 {
      var m := (k - 1) * n;
      AdvanceRows(r, k - 1);
      AdvanceNAdd(r, Point(r.xs, r.ys), m, n);
      MulPred(k, n);
      AdvanceAlongRow(r, r.ys + k - 1, n);
    }
  }

  // ---------------------------------------------------------------------
  // Runs of streamed pixels
  // ---------------------------------------------------------------------

  /** The image and the write cursor. */
  datatype Frame = Frame(buf: seq<bv8>, at: Point)

  /** One `writeColor` on a created sprite: the store at the cursor (through `drawPixel` at 1 bit), then the cursor step. */
  function WriteStep(g: Geometry, r: Window, f: Frame, c: bv16): (f': Frame)
    requires Fits(g, |f.buf|)
    ensures |f'.buf| == |f.buf|
  {
    var b := if g.bpp == 1 then Drawn(g, f.buf, f.at.x, f.at.y, c as bv32) else Written(g, f.buf, f.at.x, f.at.y, c);
    Frame(b, Advance(r, f.at))
  }

  /** `n` calls of `writeColor(c)`. */
  function WriteRun(g: Geometry, r: Window, f: Frame, c: bv16, n: nat): (f': Frame)
    requires Fits(g, |f.buf|)
    ensures |f'.buf| == |f.buf|
  {
    if n == 0 then f else WriteStep(g, r, WriteRun(g, r, f, c, n - 1), c)
  }

  /** After `n` calls of `writeColor` the cursor is `n` steps on. */
  lemma {:induction false} WriteRunCursor(g: Geometry, r: Window, f: Frame, c: bv16, n: nat)
    requires Fits(g, |f.buf|)
    ensures WriteRun(g, r, f, c, n).at == AdvanceN(r, f.at, n)
  {
    if n > 0 {
      WriteRunCursor(g, r, f, c, n - 1);
    }
  }

  /** The last call of a run at 16, 8 or 4 bits stores at the cursor the earlier calls left. */
  lemma WriteRunLast(g: Geometry, r: Window, f: Frame, c: bv16, n: nat)
    requires Fits(g, |f.buf|) && g.bpp != 1 && n > 0
    ensures var e := WriteRun(g, r, f, c, n - 1);
      WriteRun(g, r, f, c, n).buf == Written(g, e.buf, e.at.x, e.at.y, c)
  {
  }

  /** A store in view changes that pixel's value to the written one and no other. */
  lemma WrittenValues(g: Geometry, buf: seq<bv8>, x: int, y: int, c: bv16, px: int, py: int)
    requires Fits(g, |buf|) && g.bpp != 1 && InView(g, x, y)
    ensures PixelValue(g, Written(g, buf, x, y, c), px, py) ==
      if (px, py) == (x, y) then WrittenValue(g.bpp, c) else PixelValue(g, buf, px, py)
  {
    if (px, py) == (x, y) {
      WrittenReadsBack(g, buf, x, y, c);
    } else {
      WrittenKeepsOthers(g, buf, x, y, c, px, py);
    }
  }

  /** Runs add up. */
  lemma {:induction false} WriteRunAdd(g: Geometry, r: Window, f: Frame, c: bv16, a: nat, b: nat)
    requires Fits(g, |f.buf|)
    ensures WriteRun(g, r, WriteRun(g, r, f, c, a), c, b) == WriteRun(g, r, f, c, a + b)
  {
    if b > 0 {
      WriteRunAdd(g, r, f, c, a, b - 1);
      assert a + b - 1 == a + (b - 1);
    }
  }

  /** Along a window row, the `k`-th call of a run stores at column `xs + k - 1`. */
  lemma RowRunLast(g: Geometry, buf: seq<bv8>, r: Window, y: int, c: bv16, k: nat)
    requires Fits(g, |buf|) && g.bpp != 1
    requires r.xs <= r.xe && 0 < k <= r.xe - r.xs + 1
    ensures var f := WriteRun(g, r, Frame(buf, Point(r.xs, y)), c, k - 1);
      WriteRun(g, r, Frame(buf, Point(r.xs, y)), c, k).buf == Written(g, f.buf, r.xs + k - 1, y, c)
  {
    var start := Frame(buf, Point(r.xs, y));
    WriteRunCursor(g, r, start, c, k - 1);
    AdvanceAlongRow(r, y, k - 1);
    WriteRunLast(g, r, start, c, k);
  }

  /**
   * From the start of window row `y`, `k` pixels (at most the row's width)
   * give the first `k` columns of the row the colour; every other pixel
   * keeps its value. At 16, 8 and 4 bits, for a window inside the sprite.
   */
  lemma {:induction false} RowRun(g: Geometry, buf: seq<bv8>, r: Window, y: int, c: bv16, k: nat, px: int, py: int)
    requires Fits(g, |buf|) && g.bpp != 1
    requires 0 <= r.xs <= r.xe < ViewWidth(g) && r.ys <= y <= r.ye && 0 <= y < ViewHeight(g)
    requires k <= r.xe - r.xs + 1
    ensures PixelValue(g, WriteRun(g, r, Frame(buf, Point(r.xs, y)), c, k).buf, px, py) ==
      if py == y && r.xs <= px < r.xs + k then WrittenValue(g.bpp, c) else PixelValue(g, buf, px, py)
  {
    if k > 0 {
      var start := Frame(buf, Point(r.xs, y));
      var f := WriteRun(g, r, start, c, k - 1).buf;
      RowRun(g, buf, r, y, c, k - 1, px, py);
      RowRunLast(g, buf, r, y, c, k);
      WrittenValues(g, f, r.xs + k - 1, y, c, px, py);
    }
  }


  /**
   * From the window's top left corner, `k` whole rows of pixels give the
   * window's first `k` rows the colour; every other pixel keeps its value.
   * With `k` the window's height this is `pushColor(color, len)` with `len`
   * the window's area: the window filled, the rest of the sprite untouched,
   * the cursor back at the corner (`AdvanceRows`).
   */
  lemma {:induction false} WindowRun(g: Geometry, buf: seq<bv8>, r: Window, c: bv16, k: nat, px: int, py: int)
    requires Fits(g, |buf|) && g.bpp != 1
    requires 0 <= r.xs <= r.xe < ViewWidth(g) && 0 <= r.ys <= r.ye < ViewHeight(g)
    requires k <= r.ye - r.ys + 1
    ensures PixelValue(g, WriteRun(g, r, Frame(buf, Point(r.xs, r.ys)), c, k * (r.xe - r.xs + 1)).buf, px, py) ==
      if InWindow(r, px, py) && py < r.ys + k then WrittenValue(g.bpp, c) else PixelValue(g, buf, px, py)
  {
    var n := r.xe - r.xs + 1;
    if k > 0 {
      var start := Frame(buf, Point(r.xs, r.ys));
      var m := (k - 1) * n;
      var f := WriteRun(g, r, start, c, m);
      WriteRunCursor(g, r, start, c, m);
      AdvanceRows(r, k - 1);
      assert f == Frame(f.buf, Point(r.xs, r.ys + k - 1));
      WriteRunAdd(g, r, start, c, m, n);
      MulPred(k, n);
      RowRun(g, f.buf, r, r.ys + k - 1, c, n, px, py);
      WindowRun(g, buf, r, c, k - 1, px, py);
    }
  }

  /**
   * A window that missed the sprite parks the cursor on the off-screen
   * pixel: a run of any length there changes no pixel's value (16, 8 and 4
   * bits).
   */
  lemma {:induction false} OffscreenRun(g: Geometry, buf: seq<bv8>, c: bv16, n: nat, px: int, py: int)
    requires Fits(g, |buf|) && g.bpp != 1
    ensures var r := Window(0, g.dheight, 0, g.dheight);
      && WriteRun(g, r, Frame(buf, Point(0, g.dheight)), c, n).at == Point(0, g.dheight)
      && PixelValue(g, WriteRun(g, r, Frame(buf, Point(0, g.dheight)), c, n).buf, px, py) == PixelValue(g, buf, px, py)
  {
    if n > 0 {
      var r := Window(0, g.dheight, 0, g.dheight);
      var start := Frame(buf, Point(0, g.dheight));
      OffscreenRun(g, buf, c, n - 1, px, py);
      var f := WriteRun(g, r, start, c, n - 1);
      WriteRunLast(g, r, start, c, n);
      if (px, py) != (0, g.dheight) {
        WrittenKeepsOthers(g, f.buf, 0, g.dheight, c, px, py);
      }
    }
  }

  // ---------------------------------------------------------------------
  // Allocation, scroll rectangle, palette and colour depth
  // ---------------------------------------------------------------------

  /** `callocSprite`'s frame count, clamped to one or two buffers. */
  function Frames(frames: int): (r: int)
    ensures 1 <= r <= 2
    ensures 1 <= frames <= 2 ==> r == frames
    ensures frames > 2 ==> r == 2
  {
    if frames > 2 then 2 else if frames < 1 then 1 else frames
  }

  /**
   * The width `callocSprite` stores back into the `int16_t` parameter `w`:
   * `(w+1) & 0xFFFE` at 4 bits, `(w+7) & 0xFFF8` at 1 bit (for `0 < w`,
   * the width rounded up), and `w` itself otherwise.
   */
  function AllocWidth(bpp: int, w: CInt.Int16): CInt.Int16
  {
    if bpp == 4 || bpp == 1 then CInt.ToInt16(RowPixels(bpp, w)) else w
  }

  /**
   * The bytes `callocSprite` asks `calloc` for, with `w` the stored width:
   * `frames * w * h` pixels plus one off-screen pixel a frame. A negative count becomes
   * a huge `size_t`, which `calloc` refuses.
   */
  function AllocBytes(bpp: int, frames: int, w: int, h: int): int
  {
    if bpp == 16 then 2 * (Times(Times(w, h), frames) + frames)
    else if bpp == 8 then Times(Times(w, h), frames) + frames
    else if bpp == 4 then Times(Times(w, h), frames) / 2 + frames
    else Times(Times(w / 8, h), frames) + frames
  }

  /** `calloc` returns a zeroed buffer when the count is not negative and the heap has room for it. */
  predicate AllocOk(bytes: int, heap: nat)
  {
    0 <= bytes <= heap
  }

  /** The width rounding wraps in `int16_t` only at 4 bits for `w = 32767` and at 1 bit for `w > 32760`. */
  lemma AllocWidthWraps(bpp: int, w: CInt.Int16)
    requires Depth(bpp) && w >= 1
    ensures AllocWidth(bpp, w) != RowPixels(bpp, w) <==> (bpp == 4 && w == 0x7FFF) || (bpp == 1 && w > 0x7FF8)
    ensures AllocWidth(bpp, w) != RowPixels(bpp, w) ==> AllocWidth(bpp, w) == -0x8000
  {
    RowPixelsRounds(bpp, w);
  }

  /**
   * A wrapped width makes the byte count negative, so the allocation fails;
   * any other width gives a positive count that holds one frame of the
   * geometry `createSprite` sets up, off-screen pixel included.
   */
  lemma AllocCoversFrame(bpp: int, frames: int, w: CInt.Int16, h: CInt.Int16)
    requires Depth(bpp) && 1 <= frames <= 2 && w >= 1 && h >= 1
    ensures var aw := AllocWidth(bpp, w);
      aw != RowPixels(bpp, w) ==> AllocBytes(bpp, frames, aw, h) < 0
    ensures var aw := AllocWidth(bpp, w);
      var g := Geometry(bpp, aw, h, if bpp == 1 then aw else w, w, h, 0);
      aw == RowPixels(bpp, w) ==> Shaped(g) && AllocBytes(bpp, frames, aw, h) >= FrameBytes(g) > 0
  {
    var aw := AllocWidth(bpp, w);
    AllocWidthWraps(bpp, w);
    RowPixelsRounds(bpp, w);
    if aw != RowPixels(bpp, w) {
      WrappedBytes(bpp, frames, h);
    } else {
      FrameBytesGrow(bpp, frames, aw, h);
    }
  }

  /** The byte count of the wrapped width `-32768` is negative. */
  lemma WrappedBytes(bpp: int, frames: int, h: int)
    requires (bpp == 4 || bpp == 1) && 1 <= frames <= 2 && h >= 1
    ensures AllocBytes(bpp, frames, -0x8000, h) < 0
  {
    var a := if bpp == 4 then -0x8000 else -0x8000 / 8;
    TimesIsProduct(a, h);
    MulLe(1, h, -a);
    FramesTimes(Times(a, h), frames);
  }

  /** One frame or two: the count covers the first frame and is positive. */
  lemma FrameBytesGrow(bpp: int, frames: int, w: int, h: int)
    requires Depth(bpp) && 1 <= frames <= 2 && w >= 1 && h >= 1
    ensures AllocBytes(bpp, frames, w, h) >= FrameBytes(Geometry(bpp, w, h, w, w, h, 0)) > 0
  {
    TimesIsProduct(w, h);
    TimesIsProduct(w / 8, h);
    MulLe(1, w, h);
    MulLe(0, w / 8, h);
    FramesTimes(Times(w, h), frames);
    FramesTimes(Times(w / 8, h), frames);
  }

  /** One frame or two of `a` bytes. */
  lemma FramesTimes(a: int, frames: int)
    requires 1 <= frames <= 2
    ensures Times(a, frames) == if frames == 1 then a else 2 * a
  {
    assert Times(a, 1) == a;
  }

  /** A freshly allocated (zeroed) image reads 0 at every pixel in view. */
  lemma ZeroImageReadsZero(g: Geometry, buf: seq<bv8>, x: int, y: int)
    requires Fits(g, |buf|) && InView(g, x, y)
    requires forall i :: 0 <= i < |buf| ==> buf[i] == 0
    ensures PixelValue(g, buf, x, y) == 0
  {
    if g.bpp == 1 {
      ZeroBitReadsZero(g, buf, x, y);
    } else {
      ZeroCellReadsZero(g, buf, x, y);
    }
  }

  /** `ZeroImageReadsZero` at 1 bit. */
  lemma ZeroBitReadsZero(g: Geometry, buf: seq<bv8>, x: int, y: int)
    requires Fits(g, |buf|) && InView(g, x, y) && g.bpp == 1
    requires forall i :: 0 <= i < |buf| ==> buf[i] == 0
    ensures PixelValue(g, buf, x, y) == 0
  {
    var p := DrawMap(g, x, y);
    if OnImage(g, p) {
      BitInFrame(g, |buf|, p);
      var i := BitPos(g, p) / 8;
      assert buf[i] == 0;
      BitReadsMask(0, p.x % 8);
    }
  }

  /** `ZeroImageReadsZero` at 16, 8 and 4 bits. */
  lemma ZeroCellReadsZero(g: Geometry, buf: seq<bv8>, x: int, y: int)
    requires Fits(g, |buf|) && InView(g, x, y) && g.bpp != 1
    requires forall i :: 0 <= i < |buf| ==> buf[i] == 0
    ensures PixelValue(g, buf, x, y) == 0
  {
    RowPixelsRounds(g.bpp, g.dwidth);
    CellInFrame(g, |buf|, x, y);
    var i := Cell(g, x, y);
    if g.bpp == 16 {
      assert buf[2 * i] == 0 && buf[2 * i + 1] == 0;
      assert Get16(buf, i) == 0;
    } else if g.bpp == 8 {
      assert buf[i] == 0;
    } else {
      assert buf[i / 2] == 0;
    }
  }



  /** The scroll rectangle: top left corner and size. */
  datatype Rect = Rect(x: int, y: int, w: int, h: int)

  /** `(px, py)` lies in the rectangle. */
  predicate InRectWH(r: Rect, px: int, py: int)
  {
    r.x <= px < r.x + r.w && r.y <= py < r.y + r.h
  }

  /**
   * `setScrollRect` on a created `iwidth` x `iheight` image: a corner right
   * of or below the image is refused; otherwise the rectangle is cut at the
   * image's edges and kept when at least one pixel remains.
   */
  function ClipScroll(iwidth: int, iheight: int, x: int, y: int, w: int, h: int): Option<Rect>
  {
    if x >= iwidth || y >= iheight then None
    else
      var w1 := if x < 0 then w + x else w;
      var x1 := if x < 0 then 0 else x;
      var h1 := if y < 0 then h + y else h;
      var y1 := if y < 0 then 0 else y;
      var w2 := if x1 + w1 > iwidth then iwidth - x1 else w1;
      var h2 := if y1 + h1 > iheight then iheight - y1 else h1;
      if w2 < 1 || h2 < 1 then None else Some(Rect(x1, y1, w2, h2))
  }

  /**
   * The kept rectangle is the part of the asked-for one inside the image,
   * and a refused one has no pixel inside the image.
   */
  lemma ClipScrollPoints(iwidth: int, iheight: int, x: int, y: int, w: int, h: int, px: int, py: int)
    ensures ClipScroll(iwidth, iheight, x, y, w, h).Some? ==>
      var r := ClipScroll(iwidth, iheight, x, y, w, h).value;
      && r.w >= 1 && r.h >= 1 && 0 <= r.x && r.x + r.w <= iwidth && 0 <= r.y && r.y + r.h <= iheight
      && (InRectWH(r, px, py) <==> 0 <= px < iwidth && 0 <= py < iheight && InRectWH(Rect(x, y, w, h), px, py))
    ensures ClipScroll(iwidth, iheight, x, y, w, h).None? ==>
      !(0 <= px < iwidth && 0 <= py < iheight && InRectWH(Rect(x, y, w, h), px, py))
  {
  }

  /** `default_4bit_palette`: colours 0-9 follow the resistor colour code. */
  const DefaultPalette: seq<bv16> :=
    [0x0000, 0x9A60, 0xF800, 0xFDA0, 0xFFE0, 0x07E0, 0x001F, 0x780F,
     0x7BEF, 0xFFFF, 0x07FF, 0xF81F, 0x7800, 0x03E0, 0x000F, 0xFE19]

  /** The palette `createPalette` builds: 16 zeroed entries with the first `colors` (at most 16) copied from `src`. */
  function PaletteOf(src: seq<bv16>, colors: int): (r: seq<bv16>)
    requires |src| >= Min(Max(colors, 0), 16)
    ensures |r| == 16
    ensures forall i :: 0 <= i < 16 ==> r[i] == if i < colors then src[i] else 0
  {
    var n := Min(Max(colors, 0), 16);
    src[..n] + seq(16 - n, _ => 0)
  }

  /** `getPaletteColor`: the entry, or 0 without a palette (empty here) or for an index past 15. */
  function PaletteEntry(palette: seq<bv16>, index: int): bv16
  {
    if |palette| != 16 || !(0 <= index <= 15) then 0 else palette[index]
  }

  /** `setPaletteColor`: the entry replaced; nothing happens without a palette or for an index past 15. */
  function PaletteStored(palette: seq<bv16>, index: int, color: bv16): (r: seq<bv16>)
    ensures |r| == |palette|
  {
    if |palette| != 16 || !(0 <= index <= 15) then palette else palette[index := color]
  }

  /** A stored entry reads back and the other entries are kept; without a palette both calls do nothing. */
  lemma PaletteReadBack(palette: seq<bv16>, index: int, color: bv16, j: int)
    ensures PaletteEntry(PaletteStored(palette, index, color), j) ==
      if j == index && |palette| == 16 && 0 <= index <= 15 then color else PaletteEntry(palette, j)
    ensures |palette| != 16 ==> PaletteEntry(palette, j) == 0
  {
  }

  /** `setColorDepth`'s rounding of a requested depth `b`. */
  function DepthFor(b: int): int
  {
    if b > 8 then 16 else if b > 4 then 8 else if b > 1 then 4 else 1
  }

  /** The rounding gives a depth: the smallest one at least `b`, and 16 for `b` above 16; a depth maps to itself. */
  lemma DepthForSmallest(b: int, d: int)
    ensures Depth(DepthFor(b))
    ensures b <= 16 ==> b <= DepthFor(b)
    ensures Depth(d) && b <= d ==> DepthFor(b) <= d
    ensures b > 16 ==> DepthFor(b) == 16
    ensures Depth(b) ==> DepthFor(b) == b
  {
  }

  /** The default palette is what `createPalette` builds from it with all 16 colours. */
  lemma DefaultPaletteWhole()
    ensures PaletteOf(DefaultPalette, 16) == DefaultPalette
  {
    assert DefaultPalette[..16] == DefaultPalette;
  }

  /** The corner ordering and clipping `setWindow` does on its arguments, step by step. */
  method Clip(w: int, h: int, dheight: int, x0: int, y0: int, x1: int, y1: int) returns (r: Window)
    ensures r == ClipWindow(w, h, dheight, x0, y0, x1, y1)
  {
    var a0, b0, a1, b1 := x0, y0, x1, y1;
    if a0 > a1 {
      a0, a1 := a1, a0;
    }
    if b0 > b1 {
      b0, b1 := b1, b0;
    }
    if a0 >= w || a1 < 0 || b0 >= h || b1 < 0 {
      return Window(0, dheight, 0, dheight);
    }
    if a0 < 0 {
      a0 := 0;
    }
    if a1 >= w {
      a1 := w - 1;
    }
    if b0 < 0 {
      b0 := 0;
    }
    if b1 >= h {
      b1 := h - 1;
    }
    r := Window(a0, b0, a1, b1);
  }

  /** The refusals and the cutting `setScrollRect` does on its arguments, step by step. */
  method ScrollClip(iwidth: int, iheight: int, x: int, y: int, w: int, h: int) returns (r: Option<Rect>)
    ensures r == ClipScroll(iwidth, iheight, x, y, w, h)
  {
    if x >= iwidth || y >= iheight {
      return None;
    }
    var x', y', w', h' := x, y, w, h;
    if x' < 0 {
      w' := w' + x';
      x' := 0;
    }
    if y' < 0 {
      h' := h' + y';
      y' := 0;
    }
    if x' + w' > iwidth {
      w' := iwidth - x';
    }
    if y' + h' > iheight {
      h' := iheight - y';
    }
    if w' < 1 || h' < 1 {
      return None;
    }
    r := Some(Rect(x', y', w', h'));
  }

  /** The copy loop of `createPalette`: a fresh zeroed 16-entry palette with the first `colors` (at most 16) entries of `src`. */
  method NewPalette(src: seq<bv16>, colors: CInt.Uint8) returns (m: array<bv16>)
    requires |src| >= Min(colors, 16)
    ensures fresh(m) && m.Length == 16 && m[..] == PaletteOf(src, colors)
  {
    m := new bv16[16](_ => 0);
    var n := if colors > 16 then 16 else colors;
    for i := 0 to n
      invariant forall j :: 0 <= j < i ==> m[j] == src[j]
      invariant forall j :: i <= j < 16 ==> m[j] == 0
    {
      m[i] := src[i];
    }
  }

  /** The products `callocSprite` writes with `*` are the byte count `AllocBytes` gives. */
  lemma CallocCount(bpp: int, f: int, w: int, h: int)
    requires 1 <= f <= 2 && h >= 1
    ensures bpp == 16 ==> 2 * (f * w * h + f) == AllocBytes(bpp, f, w, h)
    ensures bpp == 8 ==> f * w * h + f == AllocBytes(bpp, f, w, h)
    ensures bpp == 4 ==> f * w * h / 2 + f == AllocBytes(bpp, f, w, h)
    ensures bpp != 16 && bpp != 8 && bpp != 4 ==> f * (w / 8) * h + f == AllocBytes(bpp, f, w, h)
  {
    TimesIsProduct(w, h);
    TimesIsProduct(w / 8, h);
    FramesTimes(w * h, f);
    FramesTimes((w / 8) * h, f);
    assert f * w * h == f * (w * h);
    assert f * (w / 8) * h == f * ((w / 8) * h);
  }

  // ---------------------------------------------------------------------
  // The sprite object
  // ---------------------------------------------------------------------

  /**
   * A `TFT_eSprite`: the shape fields, the write window and its cursor,
   * the scroll rectangle and gap colour, the palette `_colorMap` (null
   * until one is made) and the image `_img8_1`. The viewport is the whole
   * sprite as `width()` x `height()` sees it.
   */
  class TftSprite {
    var created: bool
    var bpp: int
    var iwidth: int
    var iheight: int
    var bitwidth: int
    var dwidth: int
    var dheight: int
    var rotation: int
    var xs: int
    var ys: int
    var xe: int
    var ye: int
    var xptr: int
    var yptr: int
    var sx: int
    var sy: int
    var sw: int
    var sh: int
    var scolor: bv16
    var colorMap: array?<bv16>
    var img: array<bv8>

    function Geom(): Geometry
      reads this`bpp, this`iwidth, this`iheight, this`bitwidth, this`dwidth, this`dheight, this`rotation
    {
      Geometry(bpp, iwidth, iheight, bitwidth, dwidth, dheight, rotation)
    }

    function Win(): Window
      reads this`xs, this`ys, this`xe, this`ye
    {
      Window(xs, ys, xe, ye)
    }

    function Cursor(): Point
      reads this`xptr, this`yptr
    {
      Point(xptr, yptr)
    }

    function Scroll(): Rect
      reads this`sx, this`sy, this`sw, this`sh
    {
      Rect(sx, sy, sw, sh)
    }

    /** The palette's entries; empty while there is none. */
    function Palette(): seq<bv16>
      reads this`colorMap, colorMap
    {
      if colorMap == null then [] else colorMap[..]
    }

    /** `width()`: 0 until the sprite is created. */
    function Width(): int
      reads this`created, this`bpp, this`iwidth, this`iheight, this`bitwidth, this`dwidth, this`dheight, this`rotation
    {
      if created then ViewWidth(Geom()) else 0
    }

    /** `height()`: 0 until the sprite is created. */
    function Height(): int
      reads this`created, this`bpp, this`iwidth, this`iheight, this`bitwidth, this`dwidth, this`dheight, this`rotation
    {
      if created then ViewHeight(Geom()) else 0
    }

    /**
     * `readPixelValue`, with 1-bit pixels read where `drawPixel` stores them:
     * 0xFF until the sprite is created and out of view, a bit at 1 bit and a
     * palette index at 4.
     */
    function ReadPixelValue(x: int, y: int): (v: bv16)
      reads this, img
      requires Valid()
      ensures !created || !InView(Geom(), x, y) ==> v == 0xFF
      ensures created && InView(Geom(), x, y) && bpp == 1 ==> v <= 1
      ensures created && InView(Geom(), x, y) && bpp == 4 ==> v < 16
    {
      if created then PixelValue(Geom(), img[..], x, y) else 0xFF
    }

    /**
     * `readPixel` with `bitmap_fg` and `bitmap_bg` given, with 1-bit pixels
     * read where `drawPixel` stores them: 0xFFFF until the sprite is created
     * and out of view, one of the two bitmap colours at 1 bit and a palette
     * entry at 4.
     */
    function ReadPixel(x: int, y: int, fg: bv16, bg: bv16): (c: bv16)
      reads this, img, colorMap
      requires Valid()
      ensures !created || !InView(Geom(), x, y) ==> c == 0xFFFF
      ensures created && InView(Geom(), x, y) && bpp == 1 ==> c == fg || c == bg
      ensures created && InView(Geom(), x, y) && bpp == 4 ==> c in Palette()
    {
      if created then PixelColor(Geom(), img[..], Palette(), fg, bg, x, y) else 0xFFFF
    }

    /**
     * A depth, a palette of 16 entries if any, and the write cursor in its
     * window; a created sprite has the shape `createSprite` gives it, a
     * buffer holding a frame of it and, at 4 bits, a palette.
     */
    ghost predicate Valid()
      reads this
    {
      Shape() && CursorIn(Win(), Cursor())
    }

    /** The part of `Valid` about the depth, the palette and the created sprite's shape and buffer. */
    ghost predicate Shape()
      reads this`created, this`img, this`colorMap, this`bpp, this`iwidth, this`iheight, this`bitwidth, this`dwidth, this`dheight, this`rotation
    {
      && Depth(bpp) && 0 <= rotation < 0x100
      && (colorMap != null ==> colorMap.Length == 16)
      && (created ==> Fits(Geom(), img.Length) && 1 <= dwidth < 0x8000 && 1 <= dheight < 0x8000 && (bpp == 4 ==> colorMap != null))
    }

    /**
     * The constructor: 16 bits a pixel, nothing allocated, window and
     * cursor at the origin. The sizes and the scroll rectangle stay
     * uninitialised, as in the C code; rotation starts at 0.
     */
    constructor ()
      ensures Valid() && !created && bpp == 16 && rotation == 0 && colorMap == null
      ensures iwidth == 0 && iheight == 0 && Win() == Window(0, 0, 0, 0) && Cursor() == Point(0, 0)
    {
      created := false;
      bpp := 16;
      iwidth, iheight := 0, 0;
      rotation := 0;
      xs, ys, xe, ye := 0, 0, 0, 0;
      xptr, yptr := 0, 0;
      colorMap := null;
      img := new bv8[0];
    }

    /**
     * `createPalette` from a FLASH array (`None` for the default palette):
     * a fresh zeroed 16-entry palette with the first `colors` entries (at
     * most 16) copied. The array copied from must hold that many.
     */
    method CreatePaletteFlash(src: Option<seq<bv16>>, colors: CInt.Uint8)
      requires Valid()
      requires src.Some? ==> |src.value| >= Min(colors, 16)
      modifies this`colorMap
      ensures Valid() && colorMap != null && fresh(colorMap)
      ensures colorMap[..] == PaletteOf(if src.None? then DefaultPalette else src.value, colors)
    {
      colorMap := NewPalette(if src.None? then DefaultPalette else src.value, colors);
    }

    /**
     * `createPalette` from a RAM array: as from FLASH, except that a null
     * array gives the whole default palette whatever `colors` says.
     */
    method CreatePalette(src: Option<seq<bv16>>, colors: CInt.Uint8)
      requires Valid()
      requires src.Some? ==> |src.value| >= Min(colors, 16)
      modifies this`colorMap
      ensures Valid() && colorMap != null && fresh(colorMap)
      ensures colorMap[..] == if src.None? then DefaultPalette else PaletteOf(src.value, colors)
    {
      if src.None? {
        CreatePaletteFlash(None, 16);
        DefaultPaletteWhole();
      } else {
        CreatePaletteFlash(src, colors);
      }
    }

    /** `setPaletteColor`. */
    method SetPaletteColor(index: CInt.Uint8, color: bv16)
      requires Valid()
      modifies colorMap
      ensures Palette() == PaletteStored(old(Palette()), index, color)
    {
      if colorMap == null || index > 15 {
        return;
      }
      colorMap[index] := color;
    }

    /** `getPaletteColor`. */
    method GetPaletteColor(index: CInt.Uint8) returns (c: bv16)
      requires Valid()
      ensures c == PaletteEntry(Palette(), index)
    {
      if colorMap == null || index > 15 {
        return 0;
      }
      return colorMap[index];
    }

    /**
     * `createSprite(w, h, frames)` with `heap` bytes free: an existing sprite
     * is kept and a size below 1 refused, both without a change; any other
     * size goes to `Build`. `ok` says whether a buffer is returned.
     */
    method CreateSprite(w: CInt.Int16, h: CInt.Int16, frames: CInt.Uint8, heap: nat) returns (ok: bool)
      requires Valid()
      modifies this
      ensures Valid()
      ensures old(created) || w < 1 || h < 1 ==> ok == old(created) && unchanged(this)
      ensures !old(created) && w >= 1 && h >= 1 ==> bpp == old(bpp) && Built(w, h, frames, heap, ok)
      ensures !old(created) && w >= 1 && h >= 1 && ok ==> forall i :: 0 <= i < img.Length ==> img[i] == 0
      ensures !old(created) && w >= 1 && h >= 1 && bpp == 4 && old(colorMap) == null ==> colorMap[..] == DefaultPalette
    {
      if created {
        return true;
      }
      if w < 1 || h < 1 {
        return false;
      }
      ok := Build(w, h, frames, heap);
    }

    /**
     * What `createSprite` leaves for a size of at least 1: the sizes and the
     * scroll rectangle set, the stored width rounded as `callocSprite` does
     * it, and the sprite created exactly when the allocation succeeds, with
     * a zeroed image and rotation 0, all at the depth `bpp` holds now.
     * Window and cursor are kept.
     */
    twostate predicate Built(w: int, h: int, frames: int, heap: nat, ok: bool)
      requires w >= 1 && h >= 1 && -0x8000 <= w < 0x8000
      reads this
    {
      && dwidth == w && dheight == h && iheight == h
      && iwidth == AllocWidth(bpp, w) && bitwidth == (if bpp == 1 then iwidth else w)
      && Scroll() == Rect(0, 0, w, h) && scolor == 0
      && Win() == old(Win()) && Cursor() == old(Cursor())
      && ok == created == AllocOk(AllocBytes(bpp, Frames(frames), iwidth, h), heap)
      && (ok ==> fresh(img) && img.Length == AllocBytes(bpp, Frames(frames), iwidth, h) && rotation == 0)
      && (!ok ==> img == old(img) && rotation == old(rotation))
      && (if bpp == 4 && old(colorMap) == null then fresh(colorMap) else colorMap == old(colorMap))
    }

    /** `createSprite` past its refusals. */
    method Build(w: CInt.Int16, h: CInt.Int16, frames: CInt.Uint8, heap: nat) returns (ok: bool)
      requires Valid() && !created && w >= 1 && h >= 1
      modifies this
      ensures Valid() && bpp == old(bpp) && Built(w, h, frames, heap, ok)
      ensures ok ==> forall i :: 0 <= i < img.Length ==> img[i] == 0
      ensures bpp == 4 && old(colorMap) == null ==> colorMap[..] == DefaultPalette
    {
      var n := Prepare(w, h, frames);
      ok := Commit(w, h, frames, n, heap);
    }

    /** The part of `createSprite` before `calloc`: the sizes, the scroll rectangle and the 4-bit palette. */
    method Prepare(w: CInt.Int16, h: CInt.Int16, frames: CInt.Uint8) returns (n: int)
      requires Shape() && w >= 1 && h >= 1
      modifies this`iwidth, this`dwidth, this`bitwidth, this`iheight, this`dheight
      modifies this`sx, this`sy, this`sw, this`sh, this`scolor, this`colorMap
      ensures dwidth == w && dheight == h && iheight == h
      ensures iwidth == AllocWidth(bpp, w) && bitwidth == (if bpp == 1 then iwidth else w)
      ensures Scroll() == Rect(0, 0, w, h) && scolor == 0
      ensures n == AllocBytes(bpp, Frames(frames), iwidth, h)
      ensures if bpp == 4 && old(colorMap) == null then fresh(colorMap) else colorMap == old(colorMap)
      ensures (colorMap != null ==> colorMap.Length == 16) && (bpp == 4 ==> colorMap != null)
      ensures bpp == 4 && old(colorMap) == null ==> colorMap[..] == DefaultPalette
    {
      Resize(w, h);
      n := Calloc(w, h, frames);
      if bpp == 4 && colorMap == null {
        colorMap := NewPalette(DefaultPalette, 16);
        DefaultPaletteWhole();
      }
    }

    /** The sizes and the default scroll rectangle `createSprite` sets before it allocates. */
    method Resize(w: int, h: int)
      modifies this`iwidth, this`dwidth, this`bitwidth, this`iheight, this`dheight
      modifies this`sx, this`sy, this`sw, this`sh, this`scolor
      ensures iwidth == dwidth == bitwidth == w && iheight == dheight == h
      ensures Scroll() == Rect(0, 0, w, h) && scolor == 0
    {
      iwidth, dwidth, bitwidth := w, w, w;
      iheight, dheight := h, h;
      sx, sy, sw, sh := 0, 0, w, h;
      scolor := 0;
    }

    /**
     * `callocSprite`'s size rules: the frame count clamped, the stored width
     * (`_iwidth`, and `_bitwidth` at 1 bit) rounded, and the byte count.
     */
    method Calloc(w: CInt.Int16, h: CInt.Int16, frames: CInt.Uint8) returns (n: int)
      requires Depth(bpp) && h >= 1
      modifies this`iwidth, this`bitwidth
      ensures n == AllocBytes(bpp, Frames(frames), AllocWidth(bpp, w), h)
      ensures iwidth == (if bpp == 4 || bpp == 1 then AllocWidth(bpp, w) else old(iwidth))
      ensures bitwidth == (if bpp == 1 then AllocWidth(bpp, w) else old(bitwidth))
    {
      var f := frames as int;
      if f > 2 {
        f := 2;
      }
      if f < 1 {
        f := 1;
      }
      var w' := w as int;
      if bpp == 4 {
        w' := AllocWidth(4, w);
        iwidth := w';
      } else if bpp == 1 {
        w' := AllocWidth(1, w);
        iwidth := w';
        bitwidth := w';
      }
      CallocCount(bpp, f, w', h);
      if bpp == 16 {
        n := 2 * (f * w' * h + f);
      } else if bpp == 8 {
        n := f * w' * h + f;
      } else if bpp == 4 {
        n := f * w' * h / 2 + f;
      } else {
        n := f * (w' / 8) * h + f;
      }
    }

    /** The end of `createSprite`: a zeroed buffer of `n` bytes when `calloc` gives one, and the sprite created. */
    method Commit(w: CInt.Int16, h: CInt.Int16, frames: CInt.Uint8, n: int, heap: nat) returns (ok: bool)
      requires Depth(bpp) && !created && 0 <= rotation < 0x100 && w >= 1 && h >= 1
      requires dwidth == w && dheight == h && iheight == h
      requires iwidth == AllocWidth(bpp, w) && bitwidth == (if bpp == 1 then iwidth else w)
      requires n == AllocBytes(bpp, Frames(frames), iwidth, h)
      requires (colorMap != null ==> colorMap.Length == 16) && (bpp == 4 ==> colorMap != null)
      requires CursorIn(Win(), Cursor())
      modifies this`img, this`created, this`rotation
      ensures Valid()
      ensures ok == created == AllocOk(n, heap)
      ensures ok ==> fresh(img) && img.Length == n && rotation == 0
      ensures ok ==> forall i :: 0 <= i < img.Length ==> img[i] == 0
      ensures !ok ==> img == old(img) && rotation == old(rotation)
    {
      if AllocOk(n, heap) {
        AllocCoversFrame(bpp, Frames(frames), w, h);
        img := new bv8[n](_ => 0);
        created := true;
        rotation := 0;
        ok := true;
      } else {
        ok := false;
      }
    }

    /**
     * `setColorDepth(b)`: nothing happens when `b` is the depth already;
     * otherwise the depth becomes `b` rounded up to 1, 4, 8 or 16. A sprite
     * not yet created keeps every other field. A created one is freed and
     * built again at its size with one frame and the new depth, as `Built`
     * states: stored width rounded, scroll rectangle reset, window and
     * cursor kept, a zeroed image (its pixels are lost), and at 4 bits the
     * default palette if it had none.
     */
    method SetColorDepth(b: CInt.Int8, heap: nat)
      requires Valid()
      modifies this
      ensures Valid()
      ensures old(bpp) == b ==> unchanged(this)
      ensures old(bpp) != b ==> bpp == DepthFor(b)
      ensures old(bpp) != b && !old(created) ==>
        unchanged(this`created, this`iwidth, this`iheight, this`bitwidth, this`dwidth, this`dheight, this`rotation)
      ensures old(bpp) != b && !old(created) ==>
        unchanged(this`xs, this`ys, this`xe, this`ye, this`xptr, this`yptr)
      ensures old(bpp) != b && !old(created) ==>
        unchanged(this`sx, this`sy, this`sw, this`sh, this`scolor, this`colorMap, this`img)
      ensures old(bpp) != b && old(created) ==> Built(old(dwidth), old(dheight), 1, heap, created)
      ensures old(bpp) != b && old(created) && created ==> forall i :: 0 <= i < img.Length ==> img[i] == 0
      ensures old(bpp) != b && old(created) && bpp == 4 && old(colorMap) == null ==> colorMap[..] == DefaultPalette
    {
      if bpp == b {
        return;
      }
      bpp := DepthFor(b);
      DepthForSmallest(b, 16);
      if created {
        created := false;
        var _ := CreateSprite(dwidth, dheight, 1, heap);
      }
    }

    /** `setRotation`: only 1-bit sprites rotate. */
    method SetRotation(r: CInt.Uint8)
      requires Valid()
      modifies this`rotation
      ensures Valid()
      ensures rotation == if bpp == 1 then r else old(rotation)
    {
      if bpp != 1 {
        return;
      }
      rotation := r;
    }

    /** `setWindow`: the window clipped to `width()` x `height()` (see `ClipWindowPoints`), the cursor at its start. */
    method SetWindow(x0: int, y0: int, x1: int, y1: int)
      requires Valid()
      modifies this`xs, this`ys, this`xe, this`ye, this`xptr, this`yptr
      ensures Valid()
      ensures Win() == ClipWindow(Width(), Height(), dheight, x0, y0, x1, y1)
      ensures Cursor() == Point(xs, ys)
    {
      var r := Clip(Width(), Height(), dheight, x0, y0, x1, y1);
      xs, ys, xe, ye := r.xs, r.ys, r.xe, r.ye;
      xptr := xs;
      yptr := ys;
    }

    /** The store into a 16-, 8- or 4-bit image at `(x, y)` of a colour in the stored format. */
    method Store(x: int, y: int, c: bv16)
      requires Valid() && created && bpp != 1
      modifies img
      ensures img[..] == Written(Geom(), old(img[..]), x, y, c)
    {
      var i := x + y * iwidth;
      if !CellFits(bpp, img.Length, i) {
        return;
      }
      if bpp == 16 {
        img[2 * i] := (c & 0xFF) as bv8;
        img[2 * i + 1] := (c >> 8) as bv8;
      } else if bpp == 8 {
        img[i] := (c & 0xFF) as bv8;
      } else {
        img[i / 2] := SetNibble(img[i / 2], x % 2 == 1, (c & 0x0F) as bv8);
      }
    }

    /** `drawPixel`: see `DrawnReadsBack` and `DrawnKeepsOthers` for what a read then sees. */
    method DrawPixel(x: int, y: int, color: bv32)
      requires Valid()
      modifies img
      ensures created ==> img[..] == Drawn(Geom(), old(img[..]), x, y, color)
      ensures !created ==> img[..] == old(img[..])
    {
      if !created || !InView(Geom(), x, y) {
        return;
      }
      if bpp != 1 {
        Store(x, y, Formatted(bpp, color));
        return;
      }
      var p := DrawMap(Geom(), x, y);
      if !OnImage(Geom(), p) {
        return;
      }
      BitInFrame(Geom(), img.Length, p);
      var i := (p.x + p.y * bitwidth) / 8;
      img[i] := SetBit(img[i], p.x % 8, color != 0);
    }

    /** The cursor step `pushColor` and `writeColor` end with. */
    method Step()
      requires Valid()
      modifies this`xptr, this`yptr
      ensures Valid()
      ensures Cursor() == Advance(Win(), old(Cursor()))
    {
      xptr := xptr + 1;
      if xptr > xe {
        xptr := xs;
        yptr := yptr + 1;
        if yptr > ye {
          yptr := ys;
        }
      }
    }

    /**
     * `pushColor(color)`: the colour converted to the sprite's format and
     * stored at the cursor without a range check (through `drawPixel` at 1
     * bit), then the cursor steps on.
     */
    method PushColor(color: bv32)
      requires Valid()
      modifies this`xptr, this`yptr, img
      ensures Valid()
      ensures created ==>
        && img[..] == (if bpp == 1 then Drawn(Geom(), old(img[..]), old(xptr), old(yptr), color)
                       else Written(Geom(), old(img[..]), old(xptr), old(yptr), Formatted(bpp, color)))
        && Cursor() == Advance(Win(), old(Cursor()))
      ensures !created ==> img[..] == old(img[..]) && Cursor() == old(Cursor())
    {
      if !created {
        return;
      }
      if bpp == 1 {
        DrawPixel(xptr, yptr, color);
      } else {
        Store(xptr, yptr, Formatted(bpp, color));
      }
      Step();
    }

    /** `writeColor(color)`: one step of a run (`WriteStep`), with the colour already in the stored format. */
    method WriteColor(color: bv16)
      requires Valid()
      modifies this`xptr, this`yptr, img
      ensures Valid()
      ensures created ==> Frame(img[..], Cursor()) == WriteStep(Geom(), Win(), Frame(old(img[..]), old(Cursor())), color)
      ensures !created ==> img[..] == old(img[..]) && Cursor() == old(Cursor())
    {
      if !created {
        return;
      }
      if bpp == 1 {
        DrawPixel(xptr, yptr, color as bv32);
      } else {
        Store(xptr, yptr, color);
      }
      Step();
    }

    /**
     * `pushColor(color, len)`: the colour converted once (to 16 bits at 1
     * and 4 bits), then `len` calls of `writeColor`; `WindowRun` says what a
     * run the size of the window does.
     */
    method PushColorRun(color: bv32, len: CInt.Uint16)
      requires Valid()
      modifies this`xptr, this`yptr, img
      ensures Valid()
      ensures created ==>
        Frame(img[..], Cursor()) == WriteRun(Geom(), Win(), Frame(old(img[..]), old(Cursor())), Formatted(bpp, color), len)
      ensures !created ==> img[..] == old(img[..]) && Cursor() == old(Cursor())
    {
      if !created {
        return;
      }
      var c := Formatted(bpp, color);
      var n := len;
      while n > 0
        invariant 0 <= n <= len
        invariant Valid() && created && img.Length == old(img.Length)
        invariant Frame(img[..], Cursor()) == WriteRun(Geom(), Win(), Frame(old(img[..]), old(Cursor())), c, len - n)
      {
        WriteColor(c);
        n := n - 1;
      }
    }

    /** `setScrollRect`: the rectangle `ClipScroll` keeps and the gap colour, or no change. */
    method SetScrollRect(x: int, y: int, w: int, h: int, color: bv16)
      requires Valid()
      modifies this`sx, this`sy, this`sw, this`sh, this`scolor
      ensures var r := ClipScroll(iwidth, iheight, x, y, w, h);
        if created && r.Some? then Scroll() == r.value && scolor == color
        else Scroll() == old(Scroll()) && scolor == old(scolor)
    {
      if !created {
        return;
      }
      var r := ScrollClip(iwidth, iheight, x, y, w, h);
      if r.Some? {
        sx, sy, sw, sh := r.value.x, r.value.y, r.value.w, r.value.h;
        scolor := color;
      }
    }
  }
}

=== FILE: st7565.dfy ===
/**
 * The ST7565 monochrome LCD driver: a 128 by 64 frame buffer of one bit a
 * pixel, eight rows to a byte (the top row in the most significant bit),
 * which LVGL's fill and map calls update and which `st7565_sync` then
 * sends to the panel page by page.
 */
module St7565 {
  import opened Wrappers
  import Seqs
  import Arith

  const HorRes := 128
  const VerRes := 64
  /** Bytes in `lcd_fb`: `FbSize`, one bit a pixel. */
  const FbSize := 1024

  /** `pagemap`: frame-buffer page `p` is shown on hardware page `7 - p`. */
  const PageMap: seq<bv8> := [7, 6, 5, 4, 3, 2, 1, 0]

  /** Nibble `v` as a byte. */
  const Nibble: seq<bv8> := [0x0, 0x1, 0x2, 0x3, 0x4, 0x5, 0x6, 0x7, 0x8, 0x9, 0xA, 0xB, 0xC, 0xD, 0xE, 0xF]

  const CmdSetPage: bv8 := 0xB0
  const CmdSetColumnUpper: bv8 := 0x10
  const CmdSetColumnLower: bv8 := 0x00
  const CmdRmw: bv8 := 0xE0

  /** One byte on the SPI bus, sent in command or in data mode. */
  datatype Transfer = Cmd(b: bv8) | Data(d: bv8)

  predicate OnScreen(x: int, y: int)
  {
    0 <= x < HorRes && 0 <= y < VerRes
  }

  /** The byte of `lcd_fb` that holds pixel `(x, y)`: `x + (y / 8) * 128`. */
  function ByteOf(x: int, y: int): nat
    requires OnScreen(x, y)
  {
    x + (y / 8) * HorRes
  }

  function Bit(k: nat): bv8
    requires k < 8
  {
    (1 as bv8) << k
  }

  /** `1 << (7 - y % 8)`: the bit of pixel row `y` in its byte. */
  function BitOf(y: int): bv8
  {
    Bit(7 - y % 8)
  }

  /** Whether pixel `(x, y)` of a frame buffer is set. */
  function Pixel(fb: seq<bv8>, x: int, y: int): bool
    requires |fb| == FbSize && OnScreen(x, y)
  {
    fb[ByteOf(x, y)] & BitOf(y) != 0
  }

  /** The byte after `|= BitOf(y)` (set) or `&= ~BitOf(y)` (clear). */
  function WriteBit(b: bv8, y: int, on: bool): bv8
  {
    if on then b | BitOf(y) else b & !BitOf(y)
  }

  /**
   * Writing one pixel's bit sets that pixel and leaves every other pixel of
   * the frame buffer as it was: no two pixels share a bit.
   */
  lemma WritePixel(fb: seq<bv8>, x: int, y: int, on: bool)
    requires |fb| == FbSize && OnScreen(x, y)
    ensures var fb' := fb[ByteOf(x, y) := WriteBit(fb[ByteOf(x, y)], y, on)];
      && Pixel(fb', x, y) == on
      && forall x', y' | OnScreen(x', y') && (x', y') != (x, y) :: Pixel(fb', x', y') == Pixel(fb, x', y')
  {
    var fb' := fb[ByteOf(x, y) := WriteBit(fb[ByteOf(x, y)], y, on)];
    forall x', y' | OnScreen(x', y') && (x', y') != (x, y)
      ensures Pixel(fb', x', y') == Pixel(fb, x', y')
    {
      if ByteOf(x', y') == ByteOf(x, y) {
        assert x' == x && y' / 8 == y / 8;
        assert y' % 8 != y % 8;
        OtherBitKept(fb[ByteOf(x, y)], y, y', on);
      }
    }
  }

  lemma OtherBitKept(b: bv8, y: int, y': int, on: bool)
    requires y % 8 != y' % 8
    ensures WriteBit(b, y, on) & BitOf(y') == b & BitOf(y')
  {
  }

  /** The eight pixels of a byte are all of it: frame buffers with the same pixels are equal. */
  lemma PixelsDetermineBuffer(a: seq<bv8>, b: seq<bv8>)
    requires |a| == |b| == FbSize
    requires forall x, y | OnScreen(x, y) :: Pixel(a, x, y) == Pixel(b, x, y)
    ensures a == b
  {
    forall i | 0 <= i < |a|
      ensures a[i] == b[i]
    {
      forall k | 0 <= k < 8
        ensures a[i] & Bit(k) == b[i] & Bit(k)
      {
        var x, y := PixelOfBit(i, k);
        assert Pixel(a, x, y) == Pixel(b, x, y);
        OneBit(a[i], b[i], k);
      }
      BitsDetermineByte(a[i], b[i]);
    }
  }

  /** Bit `k` of frame-buffer byte `i` is the pixel in column `i % 128`, row `8 * (i / 128) + 7 - k`. */
  lemma PixelOfBit(i: int, k: int) returns (x: int, y: int)
    requires 0 <= i < FbSize && 0 <= k < 8
    ensures OnScreen(x, y) && ByteOf(x, y) == i && BitOf(y) == Bit(k)
  {
    x, y := i % HorRes, 8 * (i / HorRes) + 7 - k;
    assert y / 8 == i / HorRes && y % 8 == 7 - k;
  }

  /** A single bit is set in both bytes or in neither when the two agree on whether it is set. */
  lemma OneBit(a: bv8, b: bv8, k: nat)
    requires k < 8 && (a & Bit(k) != 0) == (b & Bit(k) != 0)
    ensures a & Bit(k) == b & Bit(k)
  {
  }

  lemma BitsDetermineByte(a: bv8, b: bv8)
    requires forall k | 0 <= k < 8 :: a & Bit(k) == b & Bit(k)
    ensures a == b
  {
    assert a & Bit(0) == b & Bit(0) && a & Bit(1) == b & Bit(1);
    assert a & Bit(2) == b & Bit(2) && a & Bit(3) == b & Bit(3);
    assert a & Bit(4) == b & Bit(4) && a & Bit(5) == b & Bit(5);
    assert a & Bit(6) == b & Bit(6) && a & Bit(7) == b & Bit(7);
  }

  /** The clipped area, corners included; within the screen when it came from `Clip`. */
  datatype Rect = Rect(x1: int, y1: int, x2: int, y2: int)

  predicate InRect(r: Rect, x: int, y: int)
  {
    r.x1 <= x <= r.x2 && r.y1 <= y <= r.y2
  }

  /**
   * The common prologue of `fill`, `flush` and `map`: an area wholly off the
   * screen is dropped, any other is truncated to the screen.
   */
  function Clip(x1: int, y1: int, x2: int, y2: int): (r: Option<Rect>)
    ensures r.None? <==> x2 < 0 || y2 < 0 || x1 > HorRes - 1 || y1 > VerRes - 1
    ensures r.Some? ==> 0 <= r.value.x1 < HorRes && 0 <= r.value.x2 < HorRes
    ensures r.Some? ==> 0 <= r.value.y1 < VerRes && 0 <= r.value.y2 < VerRes
    ensures r.Some? ==> forall x, y :: InRect(r.value, x, y) <==> OnScreen(x, y) && x1 <= x <= x2 && y1 <= y <= y2
  {
    if x2 < 0 || y2 < 0 || x1 > HorRes - 1 || y1 > VerRes - 1 then None
    else
      Some(Rect(if x1 < 0 then 0 else x1, if y1 < 0 then 0 else y1,
                if x2 > HorRes - 1 then HorRes - 1 else x2, if y2 > VerRes - 1 then VerRes - 1 else y2))
  }

  /**
   * Where the map loop reads pixel `(x, y)` of the clipped area `r`: the
   * pointer starts at the first colour and, per row, passes the row's
   * clipped pixels and then `x2 - act_x2` more.
   */
  function ReadOffset(r: Rect, x2: int, x: int, y: int): int
  {
    Offset(r.x1, r.y1, x2 - r.x1 + 1, x, y)
  }

  /** Where pixel `(x, y)` of the area `x1..x2` by `y1..` sits in the colour array, row by row. */
  function AreaOffset(x1: int, y1: int, x2: int, x: int, y: int): int
  {
    Offset(x1, y1, x2 - x1 + 1, x, y)
  }

  /** The place of `(x, y)` in rows of `w` entries starting with `(x0, y0)`. */
  function Offset(x0: int, y0: int, w: int, x: int, y: int): int
  {
    (y - y0) * w + (x - x0)
  }

  /** The colour at `k`, as `lv_color_to1(color_p[k]) != 0`. */
  function Lit(src: seq<bool>, k: int): bool
  {
    0 <= k < |src| && src[k]
  }

  /** Bytes sent in data mode, one after another. */
  function DataOf(bytes: seq<bv8>): (t: seq<Transfer>)
    ensures |t| == |bytes|
  {
    if |bytes| == 0 then [] else DataOf(bytes[..|bytes| - 1]) + [Data(bytes[|bytes| - 1])]
  }

  /** Byte `k` goes out as the `k`-th data transfer. */
  lemma {:induction false} DataOfIndex(bytes: seq<bv8>, k: nat)
    requires k < |bytes|
    ensures DataOf(bytes)[k] == Data(bytes[k])
  {
    if k < |bytes| - 1 {
      DataOfIndex(bytes[..|bytes| - 1], k);
    }
  }

  /** The commands that address page `p` from column `x1` on, read-modify-write. */
  function PageAddress(p: nat, x1: nat): seq<Transfer>
    requires p < 8 && x1 < HorRes
  {
    // `x1 & 0xf` and `(x1 >> 4) & 0xf` of a column below 128 are `x1 % 16` and `x1 / 16`.
    [Cmd(CmdSetPage | PageMap[p]), Cmd(CmdSetColumnLower | Nibble[x1 % 16]),
     Cmd(CmdSetColumnUpper | Nibble[x1 / 16]), Cmd(CmdRmw)]
  }

  /** Columns `x1..x2` of frame-buffer page `p`. */
  function PageBytes(fb: seq<bv8>, p: nat, x1: nat, x2: int): seq<bv8>
    requires |fb| == FbSize && p < 8 && x1 < HorRes && x2 < HorRes
  {
    if x2 < x1 then [] else fb[HorRes * p + x1 .. HorRes * p + x2 + 1]
  }

  /** `sync` for one frame-buffer page: address it, then send columns `x1..x2`. */
  function PageBlock(fb: seq<bv8>, p: nat, x1: nat, x2: int): seq<Transfer>
    requires |fb| == FbSize && p < 8 && x1 < HorRes && x2 < HorRes
  {
    PageAddress(p, x1) + DataOf(PageBytes(fb, p, x1, x2))
  }

  /** What `st7565_sync` sends for pages `p0` up to (not including) `p1`. */
  function SyncStream(fb: seq<bv8>, x1: nat, x2: int, p0: nat, p1: nat): seq<Transfer>
    requires |fb| == FbSize && p1 <= 8 && x1 < HorRes && x2 < HorRes
    decreases p1
  {
    if p1 <= p0 then [] else SyncStream(fb, x1, x2, p0, p1 - 1) + PageBlock(fb, p1 - 1, x1, x2)
  }

  /** The column a controller assembles from a lower and an upper column-address command. */
  function ColumnOf(lower: bv8, upper: bv8): nat
  {
    (lower & 0xF) as nat + 16 * ((upper & 0xF) as nat)
  }

  /**
   * A page block selects hardware page `7 - p` (the page map mirrors the panel), sets the
   * column address to exactly `x1` and enters read-modify-write mode.
   */
  lemma PageBlockAddress(fb: seq<bv8>, p: nat, x1: nat, x2: int)
    requires |fb| == FbSize && p < 8 && x1 < HorRes && x2 < HorRes
    ensures |PageBlock(fb, p, x1, x2)| >= 4
    ensures PageBlock(fb, p, x1, x2)[0] == Cmd(0xB0 + (7 - p) as bv8)
    ensures PageBlock(fb, p, x1, x2)[1].Cmd? && PageBlock(fb, p, x1, x2)[1].b & 0xF0 == CmdSetColumnLower
    ensures PageBlock(fb, p, x1, x2)[2].Cmd? && PageBlock(fb, p, x1, x2)[2].b & 0xF0 == CmdSetColumnUpper
    ensures ColumnOf(PageBlock(fb, p, x1, x2)[1].b, PageBlock(fb, p, x1, x2)[2].b) == x1
    ensures PageBlock(fb, p, x1, x2)[3] == Cmd(CmdRmw)
  {
    NibbleRoundTrip(x1 % 16);
    NibbleRoundTrip(x1 / 16);
    assert PageBlock(fb, p, x1, x2)[..4] == PageAddress(p, x1);
    assert PageMap[p] == (7 - p) as bv8;
  }

  /** A nibble survives being or-ed into a column command and masked out again. */
  lemma NibbleRoundTrip(v: nat)
    requires v < 16
    ensures (CmdSetColumnLower | Nibble[v]) & 0xF0 == CmdSetColumnLower
    ensures (CmdSetColumnUpper | Nibble[v]) & 0xF0 == CmdSetColumnUpper
    ensures ((CmdSetColumnLower | Nibble[v]) & 0xF) as nat == v
    ensures ((CmdSetColumnUpper | Nibble[v]) & 0xF) as nat == v
  {
    var n: bv8 := Nibble[v];
    assert n <= 0xF && n as nat == v;
  }

  /** After the four address commands a page block carries the page's columns `x1..x2`. */
  lemma PageBlockData(fb: seq<bv8>, p: nat, x1: nat, x2: int, k: nat)
    requires |fb| == FbSize && p < 8 && x1 <= x2 < HorRes && k < x2 - x1 + 1
    ensures |PageBlock(fb, p, x1, x2)| == 4 + (x2 - x1 + 1)
    ensures PageBlock(fb, p, x1, x2)[4 + k] == Data(fb[HorRes * p + x1 + k])
  {
    var bytes := PageBytes(fb, p, x1, x2);
    DataOfIndex(bytes, k);
    assert bytes[k] == fb[HorRes * p + x1 + k];
  }

  lemma PageBlockLength(fb: seq<bv8>, p: nat, x1: nat, x2: int)
    requires |fb| == FbSize && p < 8 && x1 <= x2 < HorRes
    ensures |PageBlock(fb, p, x1, x2)| == Stride(x1, x2)
  {
    assert |PageBytes(fb, p, x1, x2)| == x2 - x1 + 1;
  }

  /** Transfers `sync` sends per page for columns `x1..x2`: four commands, then the columns. */
  function Stride(x1: nat, x2: int): nat
    requires x1 <= x2
  {
    4 + (x2 - x1 + 1)
  }

  /** `sync` sends one block of `Stride` transfers for every page. */
  lemma {:induction false} SyncStreamLength(fb: seq<bv8>, x1: nat, x2: int, p0: nat, p1: nat)
    requires |fb| == FbSize && p0 <= p1 <= 8 && x1 <= x2 < HorRes
    ensures |SyncStream(fb, x1, x2, p0, p1)| == (p1 - p0) * Stride(x1, x2)
    decreases p1, 1
  {
    if p0 < p1 {
      OnePageMore(fb, x1, x2, p0, p1);
    }
  }

  /** Going from `p1 - 1` to `p1` pages adds one block of `Stride` transfers. */
  lemma {:induction false} OnePageMore(fb: seq<bv8>, x1: nat, x2: int, p0: nat, p1: nat)
    requires |fb| == FbSize && p0 < p1 <= 8 && x1 <= x2 < HorRes
    ensures |SyncStream(fb, x1, x2, p0, p1)| == (p1 - p0) * Stride(x1, x2)
    decreases p1, 0
  {
    SyncStreamLength(fb, x1, x2, p0, p1 - 1);
    PageBlockLength(fb, p1 - 1, x1, x2);
    MulSucc(p1 - 1 - p0, p1 - p0, Stride(x1, x2));
  }

  lemma MulSucc(a: nat, b: nat, n: nat)
    requires a + 1 == b
    ensures a * n + n == b * n
  {
  }

  /**
   * Page `p`'s block sits between the blocks of the pages before it and the
   * blocks of the pages after it.
   */
  lemma {:induction false} SyncStreamSplit(fb: seq<bv8>, x1: nat, x2: int, p0: nat, p: nat, p1: nat)
    requires |fb| == FbSize && p0 <= p < p1 <= 8 && x1 < HorRes && x2 < HorRes
    ensures SyncStream(fb, x1, x2, p0, p1)
         == SyncStream(fb, x1, x2, p0, p) + PageBlock(fb, p, x1, x2) + SyncStream(fb, x1, x2, p + 1, p1)
    decreases p1
  {
    var front, block := SyncStream(fb, x1, x2, p0, p), PageBlock(fb, p, x1, x2);
    if p + 1 == p1 {
      assert SyncStream(fb, x1, x2, p + 1, p1) == [];
      assert front + block + [] == front + block;
    } else {
      SyncStreamSplit(fb, x1, x2, p0, p, p1 - 1);
      var middle, last := SyncStream(fb, x1, x2, p + 1, p1 - 1), PageBlock(fb, p1 - 1, x1, x2);
      assert SyncStream(fb, x1, x2, p + 1, p1) == middle + last;
      assert SyncStream(fb, x1, x2, p0, p1) == front + block + middle + last;
      Seqs.AppendAssoc(front + block, middle, last);
    }
  }

  /**
   * As written, whenever an area is clipped on the left or at the top, the
   * first pixel drawn takes the first colour of the array, which belongs to
   * a pixel off the screen, while its own colour lies further on (for the
   * area from `(-1, 0)` to `(0, 0)`, pixel `(0, 0)` is drawn with the colour
   * of `(-1, 0)`).
   */
  lemma MapMisreadsClippedArea(x1: int, y1: int, x2: int, y2: int)
    requires Clip(x1, y1, x2, y2).Some? && x1 <= x2 && y1 <= y2 && (x1 < 0 || y1 < 0)
    ensures var r := Clip(x1, y1, x2, y2).value;
      && InRect(r, r.x1, r.y1)
      && ReadOffset(r, x2, r.x1, r.y1) == 0 < AreaOffset(x1, y1, x2, r.x1, r.y1)
  {
    var r := Clip(x1, y1, x2, y2).value;
    var a, w := r.y1 - y1, x2 - x1 + 1;
    assert 0 <= a && 1 <= w;
    Arith.MulLe(0, a, w);
    if y1 < 0 {
      Arith.MulLe(1, a, w);
    }
  }

  /** When nothing is clipped on the left or top the pointer arithmetic as written is right. */
  lemma MapRightOnScreen(x1: int, y1: int, x2: int, y2: int, x: int, y: int)
    requires 0 <= x1 && 0 <= y1 && Clip(x1, y1, x2, y2).Some?
    ensures ReadOffset(Clip(x1, y1, x2, y2).value, x2, x, y) == AreaOffset(x1, y1, x2, x, y)
  {
  }

  /** `lcd_fb` with the driver's operations on it. */
  class Display {
    const fb: array<bv8>

    predicate Valid()
    {
      fb.Length == FbSize
    }

    /** The static initialiser `{0xAA, 0xAA}`, the rest zero. */
    constructor()
      ensures Valid() && fresh(fb)
      ensures fb[..] == [0xAA, 0xAA] + seq(FbSize - 2, _ => 0)
    {
      fb := new bv8[FbSize](i => if i < 2 then 0xAA else 0);
    }

    /** `st7565_init` after the panel commands: `memset(lcd_fb, 0x00, sizeof(lcd_fb))`. */
    method Init()
      requires Valid()
      modifies fb
      ensures forall x, y | OnScreen(x, y) :: !Pixel(fb[..], x, y)
      ensures fb[..] == seq(FbSize, _ => 0)
    {
      forall i | 0 <= i < fb.Length {
        fb[i] := 0;
      }
    }

    /** `st7565_fill`: every pixel of the clipped area becomes `white`; no other changes. */
    method Fill(x1: int, y1: int, x2: int, y2: int, white: bool) returns (out: seq<Transfer>)
      requires Valid()
      modifies fb
      ensures Clip(x1, y1, x2, y2).None? ==> fb[..] == old(fb[..]) && out == []
      ensures Clip(x1, y1, x2, y2).Some? ==>
        var r := Clip(x1, y1, x2, y2).value;
        && (forall x, y | OnScreen(x, y) ::
              Pixel(fb[..], x, y) == if InRect(r, x, y) then white else Pixel(old(fb[..]), x, y))
        && out == SyncStream(fb[..], r.x1, r.x2, r.y1 / 8, r.y2 / 8 + 1)
    {
      var clip := Clip(x1, y1, x2, y2);
      if clip.None? {
        return [];
      }
      var r := clip.value;
      var y := r.y1;
      while y <= r.y2
        invariant r.y1 <= y <= (if r.y1 <= r.y2 then r.y2 + 1 else r.y1)
        invariant forall x, y' | OnScreen(x, y') ::
          Pixel(fb[..], x, y') == if InRect(r, x, y') && y' < y then white else Pixel(old(fb[..]), x, y')
      {
        FillRow(y, r.x1, r.x2, white);
        y := y + 1;
      }
      out := Sync(r);
    }

    /** The inner loop of `st7565_fill` for row `y`. */
    method FillRow(y: int, xa: int, xb: int, white: bool)
      requires Valid() && 0 <= y < VerRes && 0 <= xa && xb < HorRes
      modifies fb
      ensures forall x, y' | OnScreen(x, y') ::
        Pixel(fb[..], x, y') == if y' == y && xa <= x <= xb then white else Pixel(old(fb[..]), x, y')
    {
      var x := xa;
      while x <= xb
        invariant xa <= x <= (if xa <= xb then xb + 1 else xa)
        invariant forall x', y' | OnScreen(x', y') ::
          Pixel(fb[..], x', y') == if y' == y && xa <= x' < x then white else Pixel(old(fb[..]), x', y')
      {
        WritePixel(fb[..], x, y, white);
        fb[ByteOf(x, y)] := WriteBit(fb[ByteOf(x, y)], y, white);
        x := x + 1;
      }
    }

    /**
     * `st7565_map` (and `st7565_flush`, which also signals LVGL that the
     * flush is done) as written: pixel `(x, y)` of the clipped area is set
     * exactly when its colour is dark (inverted polarity), the colour taken
     * at `ReadOffset`; no other changes. `color_p` holds the area's colours.
     */
    method Map(x1: int, y1: int, x2: int, y2: int, src: seq<bool>) returns (out: seq<Transfer>)
      requires Valid() && (x1 <= x2 && y1 <= y2 ==> |src| >= (x2 - x1 + 1) * (y2 - y1 + 1))
      modifies fb
      ensures Clip(x1, y1, x2, y2).None? ==> fb[..] == old(fb[..]) && out == []
      ensures Clip(x1, y1, x2, y2).Some? ==>
        var r := Clip(x1, y1, x2, y2).value;
        && (forall x, y | OnScreen(x, y) ::
              Pixel(fb[..], x, y) == if InRect(r, x, y) then !Lit(src, ReadOffset(r, x2, x, y)) else Pixel(old(fb[..]), x, y))
        && out == SyncStream(fb[..], r.x1, r.x2, r.y1 / 8, r.y2 / 8 + 1)
    {
      var clip := Clip(x1, y1, x2, y2);
      if clip.None? {
        return [];
      }
      var r := clip.value;
      var p: int := 0;
      var y := r.y1;
      while y <= r.y2
        invariant r.y1 <= y <= (if r.y1 <= r.y2 then r.y2 + 1 else r.y1)
        invariant p == if r.x1 <= r.x2 then ReadOffset(r, x2, r.x1, y) else 0
        invariant forall x, y' | OnScreen(x, y') ::
          Pixel(fb[..], x, y') == if InRect(r, x, y') && y' < y then !Lit(src, ReadOffset(r, x2, x, y')) else Pixel(old(fb[..]), x, y')
      {
        MapRowInBounds(r, x1, y1, x2, y2, y, |src|);
        ghost var row, before := p, fb[..];
        p := MapRow(y, r.x1, r.x2, src, p);
        MapRowStep(old(fb[..]), before, fb[..], r, r.x1, r.y1, x2 - r.x1 + 1, y, src, row);
        p := p + (x2 - r.x2);
        NextRow(r.x1, r.y1, x2 - r.x1 + 1, r.x1, y);
        y := y + 1;
      }
      out := Sync(r);
    }

    /**
     * `st7565_map` with the pointer kept on the area's own layout: before
     * the first row it skips the clipped rows above and columns to the left,
     * and after each row the clipped columns on both sides. Every drawn pixel
     * then shows its own colour.
     */
    method MapCorrected(x1: int, y1: int, x2: int, y2: int, src: seq<bool>) returns (out: seq<Transfer>)
      requires Valid() && (x1 <= x2 && y1 <= y2 ==> |src| >= (x2 - x1 + 1) * (y2 - y1 + 1))
      modifies fb
      ensures Clip(x1, y1, x2, y2).None? ==> fb[..] == old(fb[..]) && out == []
      ensures Clip(x1, y1, x2, y2).Some? ==>
        var r := Clip(x1, y1, x2, y2).value;
        && (forall x, y | OnScreen(x, y) ::
              Pixel(fb[..], x, y) == if InRect(r, x, y) then !Lit(src, AreaOffset(x1, y1, x2, x, y)) else Pixel(old(fb[..]), x, y))
        && out == SyncStream(fb[..], r.x1, r.x2, r.y1 / 8, r.y2 / 8 + 1)
    {
      var clip := Clip(x1, y1, x2, y2);
      if clip.None? {
        return [];
      }
      var r := clip.value;
      var w := x2 - x1 + 1;
      var p: int := if r.x1 <= r.x2 then (r.y1 - y1) * w + (r.x1 - x1) else 0;
      var y := r.y1;
      while y <= r.y2
        invariant r.y1 <= y <= (if r.y1 <= r.y2 then r.y2 + 1 else r.y1)
        invariant p == if r.x1 <= r.x2 then AreaOffset(x1, y1, x2, r.x1, y) else 0
        invariant forall x, y' | OnScreen(x, y') ::
          Pixel(fb[..], x, y') == if InRect(r, x, y') && y' < y then !Lit(src, AreaOffset(x1, y1, x2, x, y')) else Pixel(old(fb[..]), x, y')
      {
        AreaRowInBounds(r, x1, y1, x2, y2, y, |src|);
        ghost var row, before := p, fb[..];
        p := MapRow(y, r.x1, r.x2, src, p);
        MapRowStep(old(fb[..]), before, fb[..], r, x1, y1, w, y, src, row);
        if r.x1 <= r.x2 {
          p := p + (x2 - r.x2) + (r.x1 - x1);
        }
        NextRow(x1, y1, w, r.x1, y);
        y := y + 1;
      }
      out := Sync(r);
    }

    /** The inner loop of `st7565_map` for row `y`, reading from `color_p == src[p0..]`. */
    method MapRow(y: int, xa: int, xb: int, src: seq<bool>, p0: int) returns (p: int)
      requires Valid() && 0 <= y < VerRes && 0 <= xa && xb < HorRes && 0 <= p0
      requires xa <= xb ==> p0 + (xb - xa) < |src|
      modifies fb
      ensures p == p0 + (if xa <= xb then xb - xa + 1 else 0)
      ensures forall x, y' | OnScreen(x, y') ::
        Pixel(fb[..], x, y') == if y' == y && xa <= x <= xb then !Lit(src, p0 + x - xa) else Pixel(old(fb[..]), x, y')
    {
      p := p0;
      var x := xa;
      while x <= xb
        invariant xa <= x <= (if xa <= xb then xb + 1 else xa) && p == p0 + (x - xa)
        invariant forall x', y' | OnScreen(x', y') ::
          Pixel(fb[..], x', y') == if y' == y && xa <= x' < x then !Lit(src, p0 + x' - xa) else Pixel(old(fb[..]), x', y')
      {
        WritePixel(fb[..], x, y, !src[p]);
        fb[ByteOf(x, y)] := WriteBit(fb[ByteOf(x, y)], y, !src[p]);
        p := p + 1;
        x := x + 1;
      }
    }

    /** `st7565_sync`: pages `r.y1 / 8` to `r.y2 / 8`, columns `r.x1` to `r.x2` of each. */
    method Sync(r: Rect) returns (out: seq<Transfer>)
      requires Valid() && 0 <= r.x1 < HorRes && r.x2 < HorRes && 0 <= r.y1 < VerRes && 0 <= r.y2 < VerRes
      ensures out == SyncStream(fb[..], r.x1, r.x2, r.y1 / 8, r.y2 / 8 + 1)
    {
      ghost var s := fb[..];
      var lo, hi := r.y1 / 8, r.y2 / 8;
      out := [];
      var p := lo;
      while p <= hi
        invariant lo <= p <= (if lo <= hi then hi + 1 else lo)
        invariant out == SyncStream(s, r.x1, r.x2, lo, p)
      {
        var block := SendPage(p, r.x1, r.x2);
        out := out + block;
        assert SyncStream(s, r.x1, r.x2, lo, p + 1) == SyncStream(s, r.x1, r.x2, lo, p) + PageBlock(s, p, r.x1, r.x2);
        p := p + 1;
      }
      if hi < lo {
        assert SyncStream(s, r.x1, r.x2, lo, hi + 1) == [];
      } else {
        assert p == hi + 1;
      }
    }

    /** One round of the page loop of `st7565_sync`. */
    method SendPage(p: nat, x1: nat, x2: int) returns (block: seq<Transfer>)
      requires Valid() && p < 8 && x1 < HorRes && x2 < HorRes
      ensures block == PageBlock(fb[..], p, x1, x2)
    {
      block := PageAddress(p, x1);
      var data := SendColumns(p, x1, x2);
      block := block + data;
    }

    /** The column loop of `st7565_sync` for page `p`. */
    method SendColumns(p: nat, x1: nat, x2: int) returns (data: seq<Transfer>)
      requires Valid() && p < 8 && x1 < HorRes && x2 < HorRes
      ensures data == DataOf(PageBytes(fb[..], p, x1, x2))
    {
      data := [];
      var c := x1;
      while c <= x2
        invariant x1 <= c <= (if x1 <= x2 then x2 + 1 else x1)
        invariant data == DataOf(fb[HorRes * p + x1 .. HorRes * p + c])
      {
        assert fb[HorRes * p + x1 .. HorRes * p + c + 1][.. c - x1] == fb[HorRes * p + x1 .. HorRes * p + c];
        data := data + [Data(fb[HorRes * p + c])];
        c := c + 1;
      }
    }
  }

  /** One more row of the map loop keeps its invariant, for colours laid out as `Offset(x0, y0, w, ..)`. */
  lemma MapRowStep(fb0: seq<bv8>, before: seq<bv8>, after: seq<bv8>, r: Rect, x0: int, y0: int, w: int,
                   y: int, src: seq<bool>, row: int)
    requires |fb0| == |before| == |after| == FbSize
    requires r.y1 <= y <= r.y2 && (r.x1 <= r.x2 ==> row == Offset(x0, y0, w, r.x1, y))
    requires forall x, y' | OnScreen(x, y') ::
      Pixel(before, x, y') == if InRect(r, x, y') && y' < y then !Lit(src, Offset(x0, y0, w, x, y')) else Pixel(fb0, x, y')
    requires forall x, y' | OnScreen(x, y') ::
      Pixel(after, x, y') == if y' == y && r.x1 <= x <= r.x2 then !Lit(src, row + x - r.x1) else Pixel(before, x, y')
    ensures forall x, y' | OnScreen(x, y') ::
      Pixel(after, x, y') == if InRect(r, x, y') && y' < y + 1 then !Lit(src, Offset(x0, y0, w, x, y')) else Pixel(fb0, x, y')
  {
    forall x, y' | OnScreen(x, y')
      ensures Pixel(after, x, y') ==
        if InRect(r, x, y') && y' < y + 1 then !Lit(src, Offset(x0, y0, w, x, y')) else Pixel(fb0, x, y')
    {
      if y' == y && r.x1 <= x <= r.x2 {
        assert row + x - r.x1 == Offset(x0, y0, w, x, y);
      } else {
        assert Pixel(after, x, y') == Pixel(before, x, y');
      }
    }
  }

  /** Row `y` of the clipped area reads inside the colour array, wherever the area was clipped. */
  lemma MapRowInBounds(r: Rect, x1: int, y1: int, x2: int, y2: int, y: int, n: nat)
    requires Clip(x1, y1, x2, y2) == Some(r) && r.y1 <= y <= r.y2
    requires x1 <= x2 && y1 <= y2 ==> n >= (x2 - x1 + 1) * (y2 - y1 + 1)
    ensures r.x1 <= r.x2 ==> 0 <= ReadOffset(r, x2, r.x1, y) && ReadOffset(r, x2, r.x1, y) + (r.x2 - r.x1) < n
  {
    if r.x1 <= r.x2 {
      assert x1 <= x2 && y1 <= y2;
      AreaBound(y - r.y1, y2 - y1, x2 - r.x1 + 1, x2 - x1 + 1, r.x2 - r.x1, n);
    }
  }

  /** The corrected map's row `y` reads inside the colour array. */
  lemma AreaRowInBounds(r: Rect, x1: int, y1: int, x2: int, y2: int, y: int, n: nat)
    requires Clip(x1, y1, x2, y2) == Some(r) && r.y1 <= y <= r.y2
    requires x1 <= x2 && y1 <= y2 ==> n >= (x2 - x1 + 1) * (y2 - y1 + 1)
    ensures r.x1 <= r.x2 ==> 0 <= AreaOffset(x1, y1, x2, r.x1, y) && AreaOffset(x1, y1, x2, r.x1, y) + (r.x2 - r.x1) < n
  {
    if r.x1 <= r.x2 {
      assert x1 <= x2 && y1 <= y2;
      AreaBound(y - y1, y2 - y1, x2 - x1 + 1, x2 - x1 + 1, r.x2 - x1, n);
    }
  }

  /** The next row starts `w` entries further on. */
  lemma NextRow(x0: int, y0: int, w: int, x: int, y: int)
    ensures Offset(x0, y0, w, x, y + 1) == Offset(x0, y0, w, x, y) + w
  {
    assert (y + 1 - y0) * w == (y - y0) * w + w;
  }

  /** Row `a <= b` of rows `w <= W` wide, column `dx < w`, lies within `W * (b + 1)` entries. */
  lemma AreaBound(a: int, b: int, w: int, W: int, dx: int, n: int)
    requires 0 <= a <= b && 1 <= w <= W && 0 <= dx < w && n >= (W * (b + 1))
    ensures 0 <= a * w && a * w + dx < n
  {
    Arith.MulLe(w, W, a);
    Arith.MulLe(a, b, W);
    assert w * a == a * w && W * a == a * W;
    assert W * (b + 1) == W * b + W;
    assert W * b == b * W;
  }
}

=== FILE: text.dfy ===
/**
 * Decimal and hexadecimal rendering of numbers as Python's `str(n)`,
 * `f"{n:02X}"` and `f"{n:04x}"` produce them, with the parsers that invert
 * them, and `str.join`.
 */
module Text {
  import opened Wrappers

  function Digit(d: nat, base: nat, upper: bool): (c: char)
    requires d < base <= 16
  {
    if d < 10 then ('0' as int + d) as char
    else if upper then ('A' as int + d - 10) as char
    else ('a' as int + d - 10) as char
  }

  /** The value of one digit character in `base`, accepting both cases. */
  function DigitValue(c: char, base: nat): (r: Option<nat>)
    requires 2 <= base <= 16
    ensures r.Some? ==> r.value < base
  {
    var v :=
      if '0' <= c <= '9' then c as int - '0' as int
      else if 'A' <= c <= 'F' then c as int - 'A' as int + 10
      else if 'a' <= c <= 'f' then c as int - 'a' as int + 10
      else 16;
    if v < base then Some(v) else None
  }

  lemma DigitValueOfDigit(d: nat, base: nat, upper: bool)
    requires 2 <= base <= 16 && d < base
    ensures DigitValue(Digit(d, base, upper), base) == Some(d)
  {
  }

  /** `n` written with exactly `width` hexadecimal digits (leading zeros), most significant first. */
  function FixedHex(n: nat, width: nat, upper: bool): (s: string)
    ensures |s| == width
  {
    if width == 0 then "" else FixedHex(n / 16, width - 1, upper) + [Digit(n % 16, 16, upper)]
  }

  function Pow16(k: nat): (r: nat)
    ensures r >= 1
  {
    if k == 0 then 1 else 16 * Pow16(k - 1)
  }

  /** Parses a non-empty string of digits in `base`. */
  function ParseDigits(s: string, base: nat): (r: Option<nat>)
    requires 2 <= base <= 16
  {
    if |s| == 0 then None
    else
      var last := DigitValue(s[|s| - 1], base);
      if last.None? then None
      else if |s| == 1 then last
      else
        var front := ParseDigits(s[..|s| - 1], base);
        if front.None? then None else Some(front.value * base + last.value)
  }

  lemma {:induction false} ParseFixedHex(n: nat, width: nat, upper: bool)
    requires width >= 1 && n < Pow16(width)
    ensures ParseDigits(FixedHex(n, width, upper), 16) == Some(n)
  {
    DigitValueOfDigit(n % 16, 16, upper);
    if width == 1 {
      assert n % 16 == n;
    } else {
      assert FixedHex(n, width, upper) == FixedHex(n / 16, width - 1, upper) + [Digit(n % 16, 16, upper)];
      assert n / 16 < Pow16(width - 1);
      ParseFixedHex(n / 16, width - 1, upper);
      ParseDigitsSnoc(FixedHex(n / 16, width - 1, upper), Digit(n % 16, 16, upper), 16);
    }
  }

  /** Appending a digit multiplies the parsed value by the base and adds the digit. */
  lemma ParseDigitsSnoc(front: string, c: char, base: nat)
    requires 2 <= base <= 16 && ParseDigits(front, base).Some? && DigitValue(c, base).Some?
    ensures ParseDigits(front + [c], base)
         == Some(ParseDigits(front, base).value * base + DigitValue(c, base).value)
  {
    var s := front + [c];
    assert s[..|s| - 1] == front;
  }

  /** Python's `str(n)` for a natural number. */
  function NatToString(n: nat): (s: string)
    ensures |s| >= 1
  {
    if n < 10 then [Digit(n, 10, true)] else NatToString(n / 10) + [Digit(n % 10, 10, true)]
  }

  /** Python's `str(i)` for any integer: a minus sign before a negative one. */
  function IntToString(i: int): (s: string)
    ensures |s| >= 1 && (i < 0 ==> s[0] == '-')
  {
    if i < 0 then "-" + NatToString(-i) else NatToString(i)
  }

  /** Python's `int(s)` restricted to plain decimal digits. */
  function ParseNat(s: string): (r: Option<nat>)
  {
    ParseDigits(s, 10)
  }

  lemma {:induction false} ParseNatToString(n: nat)
    ensures ParseNat(NatToString(n)) == Some(n)
  {
    var s := NatToString(n);
    DigitValueOfDigit(n % 10, 10, true);
    if n >= 10 {
      ParseNatToString(n / 10);
      ParseDigitsSnoc(NatToString(n / 10), Digit(n % 10, 10, true), 10);
    }
  }

  /** `f"0x{b:02X}"`: the token the C-array writer emits for one byte. */
  function HexByteToken(b: bv8): (s: string)
    ensures |s| == 4 && s[..2] == "0x"
  {
    "0x" + FixedHex(b as nat, 2, true)
  }

  /** Reads a `0x..` token back. */
  function ParseHexToken(s: string): (r: Option<nat>)
  {
    if |s| < 3 || s[..2] != "0x" then None else ParseDigits(s[2..], 16)
  }

  lemma HexByteTokenRoundTrip(b: bv8)
    ensures ParseHexToken(HexByteToken(b)) == Some(b as nat)
  {
    var s := HexByteToken(b);
    assert s[2..] == FixedHex(b as nat, 2, true);
    ParseFixedHex(b as nat, 2, true);
  }

  /** `f"0x{v:04x}"`, as the BMP converter writes palette colours. */
  function HexWordToken(v: nat): (s: string)
    requires v < 0x1_0000
    ensures |s| == 6 && s[..2] == "0x"
  {
    "0x" + FixedHex(v, 4, false)
  }

  lemma HexWordTokenRoundTrip(v: nat)
    requires v < 0x1_0000
    ensures ParseHexToken(HexWordToken(v)) == Some(v)
  {
    var s := HexWordToken(v);
    assert s[2..] == FixedHex(v, 4, false);
    assert Pow16(4) == 0x1_0000;
    ParseFixedHex(v, 4, false);
  }

  /** `f"0x{b:02x}"`, lower-case, as the BMP converter writes pixel bytes. */
  function HexByteTokenLower(b: nat): (s: string)
    requires b < 0x100
    ensures |s| == 4 && s[..2] == "0x"
  {
    "0x" + FixedHex(b, 2, false)
  }

  lemma HexByteTokenLowerRoundTrip(b: nat)
    requires b < 0x100
    ensures ParseHexToken(HexByteTokenLower(b)) == Some(b)
  {
    var s := HexByteTokenLower(b);
    assert s[2..] == FixedHex(b, 2, false);
    assert Pow16(2) == 0x100;
    ParseFixedHex(b, 2, false);
  }

  /** Python's `sep.join(parts)`. */
  function Join(sep: string, parts: seq<string>): (s: string)
    ensures |parts| == 0 ==> s == ""
    ensures |parts| == 1 ==> s == parts[0]
  {
    if |parts| == 0 then ""
    else if |parts| == 1 then parts[0]
    else Join(sep, parts[..|parts| - 1]) + sep + parts[|parts| - 1]
  }
}

=== FILE: uc1610.dfy ===
/**
 * The UC1610 monochrome LCD driver for LVGL: the display RAM holds four
 * 2-bit pixels a byte, stacked vertically, so LVGL's drawing buffer is laid
 * out in pages of four rows; areas are rounded to whole pages before they
 * are flushed, and the flush sends the clipped page window.
 */
module Uc1610 {
  import opened CInt
  import opened Wrappers
  import Arith

  /** The `LV_COLOR_DEPTH` values LVGL can be built with. */
  datatype ColorDepth = Depth1 | Depth8 | Depth16 | Depth32

  /** One more than the largest `lv_color_t.full` at a depth. */
  function ColorLimit(d: ColorDepth): nat
  {
    match d
    case Depth1 => 2
    case Depth8 => 0x100
    case Depth16 => 0x1_0000
    case Depth32 => 0x1_0000_0000
  }

  /** The weight of one step of the 2-bit colour at a depth: `1 << (LV_COLOR_DEPTH - 2)`. */
  function Step2(d: ColorDepth): nat
  {
    match d
    case Depth1 => 1
    case Depth8 => 0x40
    case Depth16 => 0x4000
    case Depth32 => 0x4000_0000
  }

  /**
   * The colour reduced to the panel's two bits: `full * 3` for a 1-bit
   * colour, otherwise `full >> (LV_COLOR_DEPTH - 2)`.
   */
  function Color2(d: ColorDepth, full: nat): (c: nat)
    requires full < ColorLimit(d)
  {
    if d == Depth1 then full * 3 else full / Step2(d)
  }

  /**
   * The reduction keeps the two most significant bits: a 1-bit colour
   * becomes one of the extremes 0 and 3, a wider one the 2-bit level whose
   * band holds it.
   */
  lemma Color2Level(d: ColorDepth, full: nat)
    requires full < ColorLimit(d)
    ensures Color2(d, full) < 4
    ensures d == Depth1 ==> Color2(d, full) == (if full == 0 then 0 else 3)
    ensures d != Depth1 ==> Color2(d, full) * Step2(d) <= full < (Color2(d, full) + 1) * Step2(d)
  {
  }

  /** The 2-bit field `slot` (0 for the top row of a page) of a display byte. */
  function Field(b: bv8, slot: nat): bv8
    requires slot < 4
  {
    if slot == 0 then b & 3
    else if slot == 1 then (b >> 2) & 3
    else if slot == 2 then (b >> 4) & 3
    else b >> 6
  }

  /** `PIXIDX(y, c)`: the colour shifted into the field of row `y` of its page. */
  function PixIdx(y: int, c: bv8): bv8
  {
    var slot := y % 4;
    if slot == 0 then c
    else if slot == 1 then c << 2
    else if slot == 2 then c << 4
    else c << 6
  }

  /** `buf[idx] &= ~PIXIDX(y, 3); buf[idx] |= PIXIDX(y, color2);` on one byte. */
  function SetField(b: bv8, y: int, c: bv8): (r: bv8)
    requires c < 4
    ensures Field(r, y % 4) == c
    ensures forall s | 0 <= s < 4 && s != y % 4 :: Field(r, s) == Field(b, s)
  {
    (b & !PixIdx(y, 3)) | PixIdx(y, c)
  }

  /** A byte is its four fields: two bytes with the same fields are equal. */
  lemma FieldsDetermineByte(a: bv8, b: bv8)
    requires forall s | 0 <= s < 4 :: Field(a, s) == Field(b, s)
    ensures a == b
  {
    assert Field(a, 0) == Field(b, 0) && Field(a, 1) == Field(b, 1);
    assert Field(a, 2) == Field(b, 2) && Field(a, 3) == Field(b, 3);
  }

  /** `idx = x + buf_w * (y >> 2)` as the `uint16_t` the C code stores it in. */
  function ByteIndex(bufW: Int16, x: Int16, y: Int16): Uint16
  {
    ToUint16(x + bufW * (y / 4))
  }

  /** The 2-bit pixel at `(x, y)` of a drawing buffer `buf_w` pixels wide. */
  function Pixel(buf: seq<bv8>, bufW: Int16, x: Int16, y: Int16): bv8
    requires ByteIndex(bufW, x, y) < |buf|
  {
    Field(buf[ByteIndex(bufW, x, y)], y % 4)
  }

  /**
   * `uc1610_set_px_cb`: writes the reduced colour into the pixel's field;
   * the caller (LVGL) only passes pixels inside its buffer.
   */
  method SetPx(buf: array<bv8>, bufW: Int16, x: Int16, y: Int16, d: ColorDepth, full: nat)
    requires full < ColorLimit(d) && ByteIndex(bufW, x, y) < buf.Length
    modifies buf
    ensures Pixel(buf[..], bufW, x, y) == Color2(d, full) as bv8
    ensures forall k | 0 <= k < buf.Length && k != ByteIndex(bufW, x, y) :: buf[k] == old(buf[k])
    ensures forall s | 0 <= s < 4 && s != y % 4 ::
      Field(buf[ByteIndex(bufW, x, y)], s) == Field(old(buf[ByteIndex(bufW, x, y)]), s)
  {
    var idx := ByteIndex(bufW, x, y);
    Color2Level(d, full);
    var color2 := Color2(d, full) as bv8;
    buf[idx] := buf[idx] & !PixIdx(y, 3);
    buf[idx] := buf[idx] | PixIdx(y, color2);
    assert buf[idx] == SetField(old(buf[idx]), y, color2);
  }

  /**
   * Within a buffer row of `buf_w` pixels, different pixels have different
   * places (byte, field): setting one never disturbs another.
   */
  lemma PlacesDistinct(bufW: nat, x: nat, y: nat, x': nat, y': nat)
    requires x < bufW && x' < bufW
    requires x + bufW * (y / 4) == x' + bufW * (y' / 4) && y % 4 == y' % 4
    ensures x == x' && y == y'
  {
    var a, a' := y / 4, y' / 4;
    if a < a' {
      MulStep(bufW, a, a');
    } else if a' < a {
      MulStep(bufW, a', a);
    }
    assert y == 4 * a + y % 4 && y' == 4 * a' + y' % 4;
  }

  /**
   * What `SetPx` leaves behind, read pixel by pixel: when neither index
   * wraps around `uint16_t`, every other pixel of the buffer keeps its
   * colour.
   */
  lemma OtherPixelsKept(buf: seq<bv8>, bufW: Int16, x: Int16, y: Int16, x': Int16, y': Int16, c: bv8)
    requires 0 <= x < bufW && 0 <= x' < bufW && 0 <= y && 0 <= y' && (x, y) != (x', y') && c < 4
    requires x + bufW * (y / 4) < 0x1_0000 && x' + bufW * (y' / 4) < 0x1_0000
    requires ByteIndex(bufW, x, y) < |buf| && ByteIndex(bufW, x', y') < |buf|
    ensures var i := ByteIndex(bufW, x, y);
      Pixel(buf[i := SetField(buf[i], y, c)], bufW, x', y') == Pixel(buf, bufW, x', y')
  {
    ByteIndexExact(bufW, x, y);
    ByteIndexExact(bufW, x', y');
    if ByteIndex(bufW, x, y) == ByteIndex(bufW, x', y') && y % 4 == y' % 4 {
      PlacesDistinct(bufW, x, y, x', y');
    }
  }

  lemma ByteIndexExact(bufW: Int16, x: Int16, y: Int16)
    requires 0 <= x && 0 <= bufW && 0 <= y && x + bufW * (y / 4) < 0x1_0000
    ensures ByteIndex(bufW, x, y) == x + bufW * (y / 4)
  {
    assert 0 <= bufW * (y / 4);
  }

  lemma MulStep(w: nat, a: nat, b: nat)
    requires a < b
    ensures w * a + w <= w * b
  {
    Arith.MulLe(a + 1, b, w);
    assert (a + 1) * w == w * a + w;
    assert b * w == w * b;
  }

  /** An area of the screen, corners included, as `lv_area_t` holds it. */
  datatype Area = Area(x1: Int16, y1: Int16, x2: Int16, y2: Int16)

  /** `uc1610_rounder_cb`: the rows widen to whole pages, `y1 & ~3` and `(y2 & ~3) + 3`. */
  function Rounder(a: Area): (r: Area)
    ensures r.x1 == a.x1 && r.x2 == a.x2
    ensures r.y1 % 4 == 0 && r.y1 <= a.y1 < r.y1 + 4
    ensures r.y2 % 4 == 3 && r.y2 - 4 < a.y2 <= r.y2
  {
    a.(y1 := a.y1 - a.y1 % 4, y2 := a.y2 - a.y2 % 4 + 3)
  }

  /** Rounding twice is rounding once. */
  lemma RounderIdempotent(a: Area)
    ensures Rounder(Rounder(a)) == Rounder(a)
  {
    var r := Rounder(a);
    assert r.y1 - r.y1 % 4 == r.y1;
    assert r.y2 - r.y2 % 4 + 3 == r.y2;
  }

  /** The page window a flush programs and the number of bytes it then sends. */
  datatype Window = Window(colStart: Uint8, colEnd: Uint8, pageStart: Uint8, pageEnd: Uint8, size: Uint16)

  /** An area that misses a `hor` by `ver` screen entirely. */
  predicate OffScreen(hor: nat, ver: nat, a: Area)
  {
    a.x2 < 0 || a.y2 < 0 || a.x1 > hor - 1 || a.y1 > ver - 1
  }

  /**
   * `uc1610_flush_cb` up to the SPI transfers: nothing for an area off the
   * screen, otherwise the area clipped to the screen in `uint8_t`
   * coordinates, its page window and `buf_size` in `uint16_t`.
   */
  function Flush(hor: nat, ver: nat, a: Area): (r: Option<Window>)
    ensures r.None? <==> OffScreen(hor, ver, a)
  {
    if OffScreen(hor, ver, a) then None
    else
      var x1 := ToUint8(if a.x1 < 0 then 0 else a.x1);
      var y1 := ToUint8(if a.y1 < 0 then 0 else a.y1);
      var x2 := ToUint8(if a.x2 > hor - 1 then hor - 1 else a.x2);
      var y2 := ToUint8(if a.y2 > ver - 1 then ver - 1 else a.y2);
      Some(Window(x1, x2, y1 / 4, y2 / 4, ToUint16((x2 - x1 + 1) * ((y2 - y1) / 4 + 1))))
  }

  /**
   * On a screen of at most 256 by 256 pixels, the window of an area that
   * reaches the screen is the area clipped to it, in columns and pages.
   */
  lemma FlushClips(hor: nat, ver: nat, a: Area)
    requires 1 <= hor <= 0x100 && 1 <= ver <= 0x100 && a.x1 <= a.x2 && !OffScreen(hor, ver, a)
    ensures var w := Flush(hor, ver, a).value;
      && w.colStart == Max0(a.x1) <= w.colEnd == Min(a.x2, hor - 1)
      && w.pageStart == Max0(a.y1) / 4 && w.pageEnd == Min(a.y2, ver - 1) / 4
  {
    assert ToUint8(Max0(a.x1)) == Max0(a.x1) && ToUint8(Max0(a.y1)) == Max0(a.y1);
    assert ToUint8(Min(a.x2, hor - 1)) == Min(a.x2, hor - 1);
    assert ToUint8(Min(a.y2, ver - 1)) == Min(a.y2, ver - 1);
  }

  /**
   * When LVGL has passed the area through the rounder (its top row starts
   * a page), `buf_size` is exactly the bytes of the page window: one per
   * column and page.
   */
  lemma FlushSendsPageWindow(hor: nat, ver: nat, a: Area)
    requires 1 <= hor <= 0x100 && 1 <= ver <= 0x100
    requires a.x1 <= a.x2 && a.y1 <= a.y2 && a.y1 % 4 == 0 && !OffScreen(hor, ver, a)
    ensures var w := Flush(hor, ver, a).value;
      w.size == (w.colEnd - w.colStart + 1) * (w.pageEnd - w.pageStart + 1)
  {
    FlushClips(hor, ver, a);
    var w := Flush(hor, ver, a).value;
    var y1, y2 := Max0(a.y1), Min(a.y2, ver - 1);
    assert y1 % 4 == 0 && y1 <= y2;
    assert (y2 - y1) / 4 == y2 / 4 - y1 / 4;
    PageProduct(w.colEnd - w.colStart + 1, y2 / 4 - y1 / 4 + 1);
  }

  lemma PageProduct(cols: nat, pages: nat)
    requires cols <= 0x100 && pages <= 0x40
    ensures cols * pages < 0x1_0000 && ToUint16(cols * pages) == cols * pages
  {
    var n := cols * pages;
    Arith.MulLe(cols, 0x100, pages);
    assert 0 <= n < 0x1_0000;
    assert ToUint16(n) == n;
  }

  function Max0(v: int): nat { if v < 0 then 0 else v }

  function Min(a: int, b: int): int { if a < b then a else b }

  /**
   * Without the rounder the size can fall short of the page window: rows 3
   * and 4 lie on two pages but `((4 - 3) >> 2) + 1` counts one.
   */
  lemma UnroundedAreaUndercounts()
    ensures var w := Flush(160, 104, Area(0, 3, 0, 4)).value;
      w.pageEnd - w.pageStart + 1 == 2 && w.size == 1
  {
  }
}

=== FILE: wrappers.dfy ===
/** Option and Result values for the error paths of the modelled code. */
module Wrappers {
  datatype Option<T> = None | Some(value: T)

  /** The kinds of failure the modelled code can run into. */
  datatype Error =
    | IndexError      // a Python list index past the end
    | TypeError       // a Python operation on `None`
    | StructError     // `struct.pack` given a value that does not fit its field
    | BadBitDepth     // a BMP that is not 4 bits per pixel

  datatype Result<T> = Ok(value: T) | Err(error: Error)
}

=== FILE: xpt2046.dfy ===
/**
 * The XPT2046 resistive touch driver of the simulator: a 12-bit reading
 * from each axis is calibrated to screen pixels and smoothed by a moving
 * average over the last `XPT2046_AVG` touches; releasing the panel reports
 * the last point and restarts the average.
 */
module Xpt2046 {
  import opened CInt
  import opened LvIndev

  /**
   * The calibration macros of the driver's configuration: swap the axes,
   * the raw range of each axis, the screen size and whether each axis is
   * inverted.
   */
  datatype Calibration = Calibration(swap: bool, xMin: nat, xMax: nat, yMin: nat, yMax: nat,
                                     horRes: nat, verRes: nat, xInv: bool, yInv: bool)

  /**
   * Ranges in which the driver's arithmetic neither divides by zero nor
   * leaves its integer types: the raw ranges are non-empty, and a scaled
   * reading stays in `uint32_t`.
   */
  predicate Sane(c: Calibration)
  {
    c.xMin < c.xMax < 0x8000 && c.yMin < c.yMax < 0x8000 && c.horRes < 0x1_0000 && c.verRes < 0x1_0000
  }

  /** The two bytes of an axis read as `int16_t x = msb << 8; x += lsb;`, then `x >> 3`. */
  function RawAxis(msb: Uint8, lsb: Uint8): Int16
  {
    ToInt16(ToInt16(msb * 256) + lsb) / 8
  }

  /** A reading whose top bit is clear is the 12-bit conversion result in bits 14..3. */
  lemma RawAxisValue(msb: Uint8, lsb: Uint8)
    requires msb < 0x80
    ensures RawAxis(msb, lsb) == (msb * 256 + lsb) / 8
    ensures 0 <= RawAxis(msb, lsb) < 0x1000
  {
  }

  /** One axis of `xpt2046_corr`: drop the offset (flooring at 0), scale to `res` pixels, maybe invert. */
  function CorrAxis(v: Int16, lo: nat, hi: nat, res: nat, inv: bool): Int16
    requires lo < hi < 0x8000 && res < 0x1_0000
  {
    var shifted: Int16 := if v > lo then v - lo else 0;
    var scaled := ToInt16(ToUint32(shifted * res) / (hi - lo));
    if inv then ToInt16(res - scaled) else scaled
  }

  /** `xpt2046_corr`: the axes, swapped first when configured. */
  function Corr(c: Calibration, x: Int16, y: Int16): (Int16, Int16)
    requires Sane(c)
  {
    var (x0, y0) := if c.swap then (y, x) else (x, y);
    (CorrAxis(x0, c.xMin, c.xMax, c.horRes, c.xInv), CorrAxis(y0, c.yMin, c.yMax, c.verRes, c.yInv))
  }

  /** Within the raw range no step of the correction wraps: the result is the scaled offset. */
  lemma CorrAxisExact(v: Int16, lo: nat, hi: nat, res: nat, inv: bool)
    requires lo < hi < 0x8000 && res < 0x8000 && v <= hi
    ensures var s: int := if v > lo then v - lo else 0;
      && 0 <= s * res / (hi - lo) <= res
      && CorrAxis(v, lo, hi, res, inv) == if inv then res - s * res / (hi - lo) else s * res / (hi - lo)
  {
    var s: int := if v > lo then v - lo else 0;
    ScaleBound(s, hi - lo, res);
    var p := s * res;
    var q := p / (hi - lo);
    assert 0 <= q <= res < 0x8000;
    assert ToUint32(p) == p;
    assert ToInt16(q) == q;
    assert ToInt16(res - q) == res - q;
  }

  /** A reading within the raw range maps into the screen, `0..res`. */
  lemma CorrAxisInRange(v: Int16, lo: nat, hi: nat, res: nat, inv: bool)
    requires lo < hi < 0x8000 && res < 0x8000 && v <= hi
    ensures 0 <= CorrAxis(v, lo, hi, res, inv) <= res
  {
    CorrAxisExact(v, lo, hi, res, inv);
  }

  lemma ScaleBound(s: nat, span: nat, res: nat)
    requires 0 < span && s <= span && res < 0x8000 && span < 0x8000
    ensures 0 <= s * res < 0x1_0000_0000 && 0 <= s * res / span <= res
  {
    MulMonotone(res, s, span);
    assert span * res < 0x1_0000_0000;
    FloorBetween(s * res, span, 0, res);
  }

  /** Without inversion a harder press further along the axis never maps to a smaller coordinate. */
  lemma CorrAxisMonotone(v: Int16, w: Int16, lo: nat, hi: nat, res: nat)
    requires lo < hi < 0x8000 && res < 0x8000 && v <= w <= hi
    ensures CorrAxis(v, lo, hi, res, false) <= CorrAxis(w, lo, hi, res, false)
  {
    var sv: int := if v > lo then v - lo else 0;
    var sw: int := if w > lo then w - lo else 0;
    CorrAxisExact(v, lo, hi, res, false);
    CorrAxisExact(w, lo, hi, res, false);
    var pv, pw := sv * res, sw * res;
    assert pv <= pw by {
      MulMonotone(res, sv, sw);
    }
    DivMonotone(pv, pw, hi - lo);
    assert CorrAxis(v, lo, hi, res, false) == pv / (hi - lo);
    assert CorrAxis(w, lo, hi, res, false) == pw / (hi - lo);
  }

  lemma DivMonotone(a: nat, b: nat, d: nat)
    requires a <= b && d > 0
    ensures a / d <= b / d
  {
    var qa, qb := a / d, b / d;
    assert d * qa <= a && b < d * qb + d;
    assert d * (qb + 1) == d * qb + d;
    if qa > qb {
      MulMonotone(d, qb + 1, qa);
    }
  }

  lemma MulMonotone(d: nat, x: int, y: int)
    requires x <= y
    ensures d * x <= d * y
  {
    assert d * y == d * x + d * (y - x);
  }

  /** C's `/` on `int`: the quotient truncated toward zero. */
  function CDiv(a: int, b: nat): int
    requires b > 0
  {
    if a >= 0 then a / b else -((-a) / b)
  }

  function Sum(s: seq<int>): int
  {
    if |s| == 0 then 0 else Sum(s[..|s| - 1]) + s[|s| - 1]
  }

  /** Values between `lo` and `hi` add up to between `n lo` and `n hi`. */
  lemma {:induction false} SumBounds(s: seq<int>, lo: int, hi: int)
    requires forall k :: 0 <= k < |s| ==> lo <= s[k] <= hi
    ensures |s| * lo <= Sum(s) <= |s| * hi
  {
    if |s| > 0 {
      SumBounds(s[..|s| - 1], lo, hi);
      assert (|s| - 1) * lo + lo == |s| * lo;
      assert (|s| - 1) * hi + hi == |s| * hi;
    }
  }

  /** The truncated mean of samples lies between their smallest and largest. */
  lemma MeanBetween(s: seq<int>, lo: int, hi: int)
    requires |s| > 0 && forall k :: 0 <= k < |s| ==> lo <= s[k] <= hi
    ensures lo <= CDiv(Sum(s), |s|) <= hi
  {
    SumBounds(s, lo, hi);
    TruncBetween(Sum(s), |s|, lo, hi);
  }

  lemma TruncBetween(a: int, n: nat, lo: int, hi: int)
    requires n > 0 && n * lo <= a <= n * hi
    ensures lo <= CDiv(a, n) <= hi
  {
    if a >= 0 {
      FloorBetween(a, n, lo, hi);
    } else {
      assert n * (-hi) == -(n * hi) && n * (-lo) == -(n * lo);
      FloorBetween(-a, n, -hi, -lo);
    }
  }

  /** For a non-negative dividend, truncation is Euclidean division, which keeps between the bounds. */
  lemma FloorBetween(a: nat, n: nat, lo: int, hi: int)
    requires n > 0 && n * lo <= a <= n * hi
    ensures lo <= a / n <= hi
  {
    var q := a / n;
    assert n * q <= a < n * q + n;
    assert n * (q + 1) == n * q + n && n * (hi + 1) == n * hi + n;
    if q < lo {
      MulMonotone(n, q + 1, lo);
    }
    if q > hi {
      MulMonotone(n, hi + 1, q);
    }
  }

  /** What `xpt2046_read` fills in. */
  datatype TouchData = TouchData(state: IndevState, x: Int16, y: Int16)

  /** The four bytes the SPI exchange returns: x then y, most significant first. */
  datatype Sample = Sample(xMsb: Uint8, xLsb: Uint8, yMsb: Uint8, yLsb: Uint8)

  /**
   * The driver's globals `avg_buf_x`, `avg_buf_y` and `avg_last`, and the
   * statics `last_x`, `last_y` of `xpt2046_read`; `avg` is `XPT2046_AVG`.
   */
  class Touch {
    const cal: Calibration
    const avg: nat
    const bufX: array<Int16>
    const bufY: array<Int16>
    var avgLast: nat
    var lastX: Int16
    var lastY: Int16

    predicate Valid()
      reads this`avgLast
    {
      Sane(cal) && 1 <= avg < 0x100 && bufX.Length == avg && bufY.Length == avg && bufX != bufY && avgLast <= avg
    }

    /** The globals start zeroed. */
    constructor(cal: Calibration, avg: nat)
      requires Sane(cal) && 1 <= avg < 0x100
      ensures Valid() && this.cal == cal && this.avg == avg && avgLast == 0 && lastX == 0 && lastY == 0
      ensures fresh(bufX) && fresh(bufY)
      ensures bufX[..] == seq(avg, _ => 0) && bufY[..] == seq(avg, _ => 0)
    {
      this.cal := cal;
      this.avg := avg;
      bufX := new Int16[avg](_ => 0);
      bufY := new Int16[avg](_ => 0);
      avgLast := 0;
      lastX := 0;
      lastY := 0;
    }

    /** The calibrated point of one sample. */
    function Calibrated(s: Sample): (Int16, Int16)
      requires Sane(cal)
    {
      Corr(cal, RawAxis(s.xMsb, s.xLsb), RawAxis(s.yMsb, s.yLsb))
    }

    /**
     * `xpt2046_read`: while the panel is touched (`irq == 0`) the sample is
     * normalised, calibrated and averaged, and remembered; otherwise the
     * remembered point is reported as released and the average restarts.
     */
    method Read(irq: Uint8, s: Sample) returns (data: TouchData, more: bool)
      requires Valid()
      modifies this, bufX, bufY
      ensures Valid() && !more
      ensures irq == 0 ==>
        && bufX[..] == [Calibrated(s).0] + old(bufX[..])[..avg - 1]
        && bufY[..] == [Calibrated(s).1] + old(bufY[..])[..avg - 1]
        && avgLast == (if old(avgLast) < avg then old(avgLast) + 1 else avg)
        && data.state == Pr && data.x == CDiv(Sum(bufX[..avgLast]), avgLast) && data.y == CDiv(Sum(bufY[..avgLast]), avgLast)
        && lastX == data.x && lastY == data.y
      ensures irq != 0 ==>
        && data == TouchData(Rel, old(lastX), old(lastY)) && avgLast == 0
        && lastX == old(lastX) && lastY == old(lastY) && bufX[..] == old(bufX[..]) && bufY[..] == old(bufY[..])
    {
      more := false;
      if irq == 0 {
        var c := Calibrated(s);
        var x, y := Avg(c.0, c.1);
        lastX, lastY := x, y;
        data := TouchData(Pr, x, y);
      } else {
        avgLast := 0;
        data := TouchData(Rel, lastX, lastY);
      }
    }

    /**
     * `xpt2046_avg`: the new point goes in front of both buffers, the
     * oldest drops out, `avg_last` counts up to `XPT2046_AVG`, and the
     * result is the truncated mean of the first `avg_last` points.
     */
    method Avg(x: Int16, y: Int16) returns (ax: Int16, ay: Int16)
      requires Valid()
      modifies bufX, bufY, this`avgLast
      ensures Valid()
      ensures bufX[..] == [x] + old(bufX[..])[..avg - 1] && bufY[..] == [y] + old(bufY[..])[..avg - 1]
      ensures avgLast == (if old(avgLast) < avg then old(avgLast) + 1 else avg)
      ensures ax == CDiv(Sum(bufX[..avgLast]), avgLast) && ay == CDiv(Sum(bufY[..avgLast]), avgLast)
      ensures old(avgLast) == 0 ==> ax == x && ay == y
    {
      ShiftIn(bufX, x);
      ShiftIn(bufY, y);
      if avgLast < avg {
        avgLast := avgLast + 1;
      }
      var xSum := SumPrefix(bufX, avgLast);
      var ySum := SumPrefix(bufY, avgLast);
      MeanOfInt16(bufX[..avgLast]);
      MeanOfInt16(bufY[..avgLast]);
      if avgLast == 1 {
        FirstTouchIsItself(bufX[..avgLast]);
        FirstTouchIsItself(bufY[..avgLast]);
      }
      ax := CDiv(xSum, avgLast);
      ay := CDiv(ySum, avgLast);
    }
  }

  /** The shift loop: every entry moves up one place, the last falls out, and `v` goes in front. */
  method ShiftIn(a: array<Int16>, v: Int16)
    requires a.Length >= 1
    modifies a
    ensures a[..] == [v] + old(a[..])[..a.Length - 1]
  {
    var i := a.Length - 1;
    while i > 0
      invariant 0 <= i < a.Length
      invariant forall k :: i < k < a.Length ==> a[k] == old(a[k - 1])
      invariant forall k :: 0 <= k <= i ==> a[k] == old(a[k])
    {
      a[i] := a[i - 1];
      i := i - 1;
    }
    a[0] := v;
  }

  /** The sum loop over the first `n` entries. */
  method SumPrefix(a: array<Int16>, n: nat) returns (sum: int)
    requires n <= a.Length
    ensures sum == Sum(a[..n])
  {
    sum := 0;
    var i := 0;
    while i < n
      invariant i <= n && sum == Sum(a[..i])
    {
      assert a[..i + 1][..i] == a[..i];
      sum := sum + a[i];
      i := i + 1;
    }
  }

  /** The mean of `int16_t` samples is itself an `int16_t`, so storing it back loses nothing. */
  lemma MeanOfInt16(s: seq<Int16>)
    requires |s| > 0
    ensures -0x8000 <= CDiv(Sum(s), |s|) < 0x8000
  {
    MeanBetween(s, -0x8000, 0x7FFF);
  }

  /** Right after a release, the first touch is reported as it was measured. */
  lemma FirstTouchIsItself(s: seq<int>)
    requires |s| == 1
    ensures CDiv(Sum(s), 1) == s[0]
  {
    assert s[..0] == [];
  }
}
